=== FILE: README.md ===
# COPADB school administration — a Dafny model of its record-keeping core

COPADB is a school-administration application. A Flask/PostgreSQL backend keeps students, families, professors, subjects (the `class` table), groups, grades (`notes`) and attendance. A React client lets staff enrol students, manage professors, record grades and take attendance. Most of the code translates HTTP requests into SQL. This project models the decisions that sit between those two layers, and proves what they promise:

- **Grade recording** (`grades_routes.dfy`, `grades_hooks.dfy`, `draft_grades.dfy`):
  - a save is an upsert keyed by (student, group, period), restricted to students active in the group;
  - the final grade is the fixed 15/15/25/35/10 weighting;
  - a read fills in zeros for students without a record;
  - the CSV report labels the period;
  - in the client, editing one component recomputes the final grade with rounding.
- **Attendance** (`attendance_routes.dfy`, `attendance_hook.dfy`):
  - a save replaces the group's rows for the day for the active students;
  - a read treats a missing row as absent;
  - the report has one cell per (student, date);
  - the client toggles marks and marks everybody present or absent.
- **User and professor administration** (`user_routes.dfy`, `profesores_hook.dfy`, `professor_forms.dfy`, `assign_modal.dfy`):
  - paging;
  - creation, partial update and deletion with their required-field and unique-email rules;
  - assigning groups to professors and taking them away again, through `"group".professor_id`;
  - the list of available subjects;
  - the client's list bookkeeping, forms and assignment dialog.
- **Students and families** (`student_model.dfy`, `student_repository.dfy`, `student_service.dfy`, `student_forms.dfy`):
  - dictionary round trips;
  - map-backed stores with their NotFound cases;
  - registration that reuses a family by e-mail or creates one;
  - field-wise update merge;
  - the enrolment and edit forms.
- **Authentication** (`auth_service.dfy`, `auth_routes.dfy`, `auth_context.dfy`, `profile_views.dfy`):
  - login, registration and password change;
  - the bearer-token profile lookup;
  - token expiry and cookie lookup in the client;
  - the role guard and the profile's initials.
- **Subjects and groups** (`subject_model.dfy`, `subject_repository.dfy`, `teacher_service.dfy`, `subjects_list.dfy`):
  - finders and creators;
  - a professor's own groups and the ownership check on a group's details;
  - the home page's grouping of subjects by group.
- **Validation and errors** (`validators.dfy`, `errors.dfy`): the request-body decorators, and the `APIError` family with its JSON rendering and handlers.

Shared vocabulary lives in `common.dfy`:
- optional values and JSON-like dynamic values;
- Python's `int()` and `strip()`, and `str()` of `None`, booleans, integers and text;
- JavaScript's `trim`, `split` and `Math.ceil`.

`tables.dfy` models a table with a SERIAL key as a map from id to row, plus the next id; ids are never reused. `schema.dfy` holds one row type per table and the database as one value. The `history` table enters only as the set of active (student, group) pairs.

Everything the program gets from outside is a parameter of the model:
- password hashing and checking;
- JWT issue and decoding;
- date parsing (`strptime`, and PostgreSQL's `::date` cast of a date text), `parseFloat` and `Number`;
- the clock;
- the server's answers to the client.

Scores are exact reals, where the program computes with IEEE doubles. The client's rounding of a weighted score can therefore differ on a half-way value; "## Left out" names the members and gives examples.

## Model

| member | source | states |
|---|---|---|
| Common.PyInt | backend/routes/grades_routes.py:248-249 | an integer converts to itself, and `None`, lists and objects fail to convert |
| Common.TruncToInt | backend/routes/grades_routes.py:248-249 | a float converts to the integer next to it toward zero |
| Common.IntStringRoundTrip | backend/routes/grades_routes.py:104-106 | rendering an integer as text and converting it back with `int()` gives the same integer |
| Common.ParseIntGrouping | backend/routes/grades_routes.py:104-108 | `int()` reads single underscores between digits (`1_0` is 10, `-2_5` is -25) and refuses doubled or trailing ones |
| Common.DropUnderscores | backend/routes/grades_routes.py:104-108 | a grouped run keeps its digits and drops only the underscores; a plain run of digits is unchanged |
| Common.PyIterItems | backend/routes/grades_routes.py:199-201 | `len` and `for` accept exactly lists, strings and dicts: a list gives its elements, a string its characters one by one, a dict as many keys as it has; the items are empty exactly when the value is falsy |
| Common.PyFloorDiv | backend/routes/user_routes.py:63 | floor division: the quotient times the divisor lies within one divisor below the dividend |
| Common.CeilDivision | backend/routes/user_routes.py:63 | `(a + b - 1) // b` is the least `q` with `q * b >= a` |
| Common.TrimStart | frontend/src/pages/Profesores/_add/AgregarProfesor.tsx:90 | the result is a suffix that starts with no white space, and everything removed is white space |
| Common.TrimEnd | frontend/src/pages/Profesores/_add/AgregarProfesor.tsx:90 | the result is a prefix that ends with no white space, and everything removed is white space |
| Common.TrimEmptyIffBlank | frontend/src/pages/Profesores/_add/AgregarProfesor.tsx:90 | `trim()` gives the empty string exactly when every character is white space |
| Common.TrimKeepsTight | frontend/src/pages/Profesores/_add/AgregarProfesor.tsx:90 | text with no white space at either end trims to itself |
| Common.IndexOf | frontend/src/context/AuthContext.tsx:92 | the first occurrence of the separator at or after the start, and none when it does not occur |
| Common.SplitJoin | frontend/src/context/AuthContext.tsx:92 | `split` loses nothing: joining the pieces with the separator gives the text back |
| Common.SplitPiecesFree | frontend/src/context/AuthContext.tsx:93 | no piece produced by `split` contains the separator |
| Common.JsLength | frontend/src/pages/Profile/ChangePasswordModal.tsx:45 | `length` counts UTF-16 code units: at least one and at most two per character, and zero exactly for the empty text |
| Common.JsLengthOfBmp | frontend/src/pages/Profile/ChangePasswordModal.tsx:45 | on text inside the Basic Multilingual Plane, `length` is the number of characters |
| Schema.FullName | backend/routes/grades_routes.py:84 | the concatenated full name is NULL exactly when one of the three name columns is NULL |
| Schema.Roster | backend/routes/grades_routes.py:83-92 | the listed students are exactly the active members of the group that have a student row, and none when the group or its class is missing |
| Schema.IntColumnParam | backend/routes/user_routes.py:628 | an integer id matches its own row and `null` matches nothing; a float matches nothing exactly when it is not integral; text is read as an integer and makes the query fail exactly when it does not read as one; booleans, lists and objects make the query fail |
| Schema.TextColumnParam | backend/repositories/user_repository.py:64-66 | text compares as itself and `null` matches nothing; an empty list is sent as the text `{}`; numbers, booleans, objects and non-empty lists make the query raise |
| Schema.ColumnValue | backend/repositories/user_repository.py:99-106 | what a column stores for a value psycopg2 sends: nothing it cannot send (a dict, or a list holding one) is stored; a text column keeps text, writes an integer as its decimal text and a boolean as `true`/`false`; an integer column keeps an integer, rounds a float to the nearest integer (halves away from zero), reads numeric text as its integer and refuses other text, booleans and lists; `null` stays `null` |
| Schema.RoundHalfAway | backend/repositories/user_repository.py:99-106 | a float assigned to an integer column becomes the integer nearest to it, within one half on either side, halves going away from zero |
| Schema.ColumnValueIdempotent | backend/repositories/student_repository.py:89-124 | a stored value written back is stored unchanged |
| Schema.NumberTextRoundTrip | backend/repositories/user_repository.py:99-106 | an integer stored in a text column and that text stored in an integer column give the integer back |
| Schema.AcceptedStudentInt | backend/routes/grades_routes.py:242-249 | for a record that passes the membership test, `int(student_id)` is the id the test matched |
| Errors.MakeError | backend/utils/error_handler.py:4-10 | an `APIError` keeps the message, status and payload it was built with |
| Errors.BadRequest | backend/utils/error_handler.py:6 | a plain `APIError` defaults to status 400 and no payload |
| Errors.NotFoundError | backend/utils/error_handler.py:17-20 | the not-found error always carries status 404 |
| Errors.UnauthorizedError | backend/utils/error_handler.py:22-25 | the unauthorized error always carries status 401 |
| Errors.ForbiddenError | backend/utils/error_handler.py:27-30 | the forbidden error always carries status 403 |
| Errors.ToDict | backend/utils/error_handler.py:12-15 | the dictionary holds every payload entry, and `message` holds the error's message even when the payload had its own |
| Errors.HandleApiError | backend/utils/error_handler.py:35-39 | the response status is the error's status and the body carries its message; without a payload the body is only the message |
| Errors.Render | backend/utils/error_handler.py:35-53 | an API error answers with its own status and message; any other exception answers 500 with the generic message |
| Errors.StatusPage | backend/utils/error_handler.py:41-53 | only 400, 404 and 500 aborts have a handler, and each answers its own status with a message-only body |
| Validators.SchemaErrors | backend/utils/validators.py:28-33 | one message per missing or mistyped field, in schema order; none exactly when every field is present with the right type |
| Validators.BodyContains | backend/utils/validators.py:30-32 | `field in data` tests a dict's keys, a list's elements and a text's pieces, and raises on a number or boolean |
| Validators.BodyErrors | backend/utils/validators.py:28-33 | a dict body gets the schema's messages; another body raises exactly when it contains one of the fields, and otherwise gets a "required" message for every field |
| Validators.NonDictBodies | backend/utils/validators.py:24-36 | a body `[1]` gets a 400 calling the field required, and a body `5` raises |
| Validators.ValidateSchema | backend/utils/validators.py:24-38 | a falsy body is refused with 400; the request passes exactly when the body is truthy and every schema field is a key of it holding the right type, so only a dict body passes a non-empty schema; a dict body that fails gets a 400 listing its errors in schema order; a list or text body gets a 400 calling every field required unless it contains a field name, when the lookup raises (500); a number or boolean body raises (500) |
| Validators.MissingFields | backend/utils/validators.py:65 | a field is listed exactly when it is required and absent |
| Validators.MissingFromBody | backend/utils/validators.py:65 | a field is listed exactly when it is required and the body does not contain it; a number or boolean body raises when there is a field to test |
| Validators.ValidateRequiredFields | backend/utils/validators.py:61-73 | a falsy body is refused with 400; the request passes exactly when the body contains every required field, as a dict key, a list element or a piece of text; a dict body that fails gets a 400 listing the missing fields; a number or boolean body raises (500) when there is a field to test |
| Validators.Decorated | backend/utils/validators.py:21-40 | a decorated handler answers its own response when the check passes, the API error's status when the check raises one, and 500 when it raises anything else |
| StudentModel.StudentToDict | backend/models/student.py:30-42 | the dictionary has exactly the seven student keys |
| StudentModel.StudentFromDict | backend/models/student.py:15-28 | each of the seven keys is read back as given, absent ones as `None`, and other keys are ignored |
| StudentModel.StudentRoundTrip | backend/models/student.py:15-42 | a student survives `to_dict` then `from_dict` unchanged |
| StudentModel.FamilyToDict | backend/models/student.py:78-90 | the dictionary has exactly the seven family keys |
| StudentModel.FamilyFromDict | backend/models/student.py:63-76 | each of the seven keys is read back as given, absent ones as `None` |
| StudentModel.FamilyRoundTrip | backend/models/student.py:63-90 | a family survives `to_dict` then `from_dict` unchanged |
| SubjectModel.SubjectToDict | backend/models/subject.py:19-26 | the dictionary has exactly `id` and `name` |
| SubjectModel.SubjectFromDict | backend/models/subject.py:9-17 | `id` and `name` are read back as given, absent ones as `None` |
| SubjectModel.SubjectRoundTrip | backend/models/subject.py:9-26 | a subject survives the trip unchanged |
| SubjectModel.GroupFromDict | backend/models/subject.py:43-54 | the group id comes from `group_id` and the grade from `grado`; the professor is read from `professor_id` |
| SubjectModel.GroupToDict | backend/models/subject.py:56-69 | id, grade and class are always present, the class name only when truthy, and the professor never |
| SubjectModel.GroupRoundTrip | backend/models/subject.py:43-69 | a round trip loses the professor and turns a falsy class name into `None`, and keeps everything else |
| UserModel.UserFromDict | backend/models/user.py:13-25 | every field read shows again in the full dictionary form, and absent keys read as `None` |
| UserModel.UserToDict | backend/models/user.py:27-48 | id, name, email and rol always; the last name only when truthy; the password only when asked for |
| UserModel.UserRoundTrip | backend/models/user.py:13-48 | a round trip keeps the password only when it was included and turns a falsy last name into `None` |
| StudentRepository.StudentAt | backend/repositories/student_repository.py:25-36 | the object read from a row carries the row's id and writes back exactly that row |
| StudentRepository.FindStudentById | backend/repositories/student_repository.py:10-36 | a stored id reads back its row; any other id raises NotFound (404) |
| StudentRepository.FindStudentsByFamilyId | backend/repositories/student_repository.py:38-57 | exactly the students whose `family_id` equals the given one, each matching its stored row, in ascending id order |
| StudentRepository.StudentsAt | backend/repositories/student_repository.py:50-57 | one student object per selected id, in the same order |
| StudentRepository.StudentsAtBelong | backend/repositories/student_repository.py:49-57 | every student read for a family belongs to it and matches its row |
| StudentRepository.StudentsAtComplete | backend/repositories/student_repository.py:49-57 | every student of the family is read |
| StudentRepository.StudentsAtOrdered | backend/repositories/student_repository.py:49-57 | the students come in ascending id order |
| StudentRepository.CreateStudent | backend/repositories/student_repository.py:59-87 | the insert succeeds exactly when every field can be stored (psycopg2 can send it and the integer `family_id` column accepts it), and otherwise raises; on success exactly one new row, under a fresh id, holding what the columns make of the fields, and the returned student is the given one with that id |
| StudentRepository.UpdateStudent | backend/repositories/student_repository.py:89-124 | a field that cannot be stored, or an id the integer column refuses, raises before any row is looked at; otherwise an existing id has all its columns overwritten with what the columns make of the fields and nothing else changes, and a missing id raises NotFound |
| StudentRepository.StoredStudentStable | backend/repositories/student_repository.py:89-124 | a stored student row can be written back, and writing it back stores it unchanged |
| StudentRepository.FamilyAt | backend/repositories/student_repository.py:143-158 | the family read from a row carries the row's id and writes back exactly that row |
| StudentRepository.FindFamilyById | backend/repositories/student_repository.py:131-158 | only an integer id of a stored family reads it back; anything else raises NotFound (404) |
| StudentRepository.FindFamilyByEmail | backend/repositories/student_repository.py:160-185 | the query raises exactly when the email cannot be compared with the text column; otherwise `None` exactly when no family has that email, and a stored family with it when found |
| StudentRepository.CreateFamily | backend/repositories/student_repository.py:187-218 | the insert succeeds exactly when psycopg2 can send every field, and otherwise raises; on success exactly one new row, under a fresh id, holding what the text columns make of the family's fields |
| UserRepository.UserAt | backend/repositories/user_repository.py:27-43 | the object read from a row carries the row's id and columns and no last name |
| UserRepository.FindUserById | backend/repositories/user_repository.py:11-47 | a stored id reads back its row; any other id raises NotFound (404) |
| UserRepository.UserIdByEmail | backend/repositories/user_repository.py:64-70 | the query raises exactly when the email is a number, boolean, object or non-empty list; otherwise `None` exactly when no row holds the email text, and a row that does when found |
| UserRepository.FindUserByEmail | backend/repositories/user_repository.py:49-83 | the query raises exactly when the email cannot be compared with the text column; otherwise `None` exactly when no user has that email, and the stored user with it when found |
| UserRepository.CreateUser | backend/repositories/user_repository.py:85-114 | the insert succeeds exactly when name, email and password can be stored as text and rol as an integer, and otherwise raises; on success exactly one new row, under a fresh id, holding what the columns make of them; the user comes back as given, with that id |
| UserRepository.UpdateUser | backend/repositories/user_repository.py:116-149 | a name, email or rol the columns refuse, or an id the integer column refuses, raises; otherwise an existing id gets the stored forms of the new name, email and rol while its password and other columns stay, and a missing id raises NotFound |
| UserRepository.UpdatePassword | backend/repositories/user_repository.py:151-174 | only the password column of that one row changes; a missing id raises NotFound |
| UserRepository.DeleteUser | backend/repositories/user_repository.py:176-198 | exactly that row disappears; a missing id raises NotFound |
| UserRepository.CreateThenFind | backend/repositories/user_repository.py:85-114 | a created user is found again by id, with no last name and each field as its column stored it (a number or boolean name reads back as text, a numeric text rol as its integer); a user created with text fields and an integer or null rol reads back exactly as returned |
| UserRepository.UpdatePasswordThenFind | backend/repositories/user_repository.py:151-174 | after a password update the user reads back with the new hash and every other field as before |
| SubjectRepository.FindAllSubjects | backend/repositories/subject_repository.py:10-21 | exactly one subject per class row, with its name, in ascending id order |
| SubjectRepository.SubjectsAt | backend/repositories/subject_repository.py:17-21 | one subject per selected id, in the same order |
| SubjectRepository.FindSubjectById | backend/repositories/subject_repository.py:23-44 | a stored id reads back its name; any other id raises NotFound with the id in the message |
| SubjectRepository.FindByTeacherId | backend/repositories/subject_repository.py:46-71 | exactly the groups assigned to the teacher whose class exists, with the class name and no professor, in ascending id order |
| SubjectRepository.TeacherGroupsAt | backend/repositories/subject_repository.py:58-71 | one group per selected id, carrying its grade, class and class name |
| SubjectRepository.FindGroupById | backend/repositories/subject_repository.py:73-106 | the group with its professor and class name when it and its class exist; otherwise NotFound (404) |
| SubjectRepository.CreateSubject | backend/repositories/subject_repository.py:108-128 | the insert succeeds exactly when psycopg2 can send the name, and otherwise raises; on success exactly one new class row under a fresh id holding the name as the text column stores it, and the subject comes back with that id |
| SubjectRepository.CreateGroup | backend/repositories/subject_repository.py:130-154 | the insert succeeds exactly when the grade can be sent and the integer columns accept class and professor, and otherwise raises; on success exactly one new group row under a fresh id storing them, and the group comes back with that id |
| SubjectRepository.CreateGroupThenFind | backend/repositories/subject_repository.py:73-154 | a created group is found again by id exactly when its stored class exists, with its grade, the class and professor as the integer columns stored them, and the class name; with integer ids under an existing class it reads back exactly as created |
| AuthService.LoginUserData | backend/services/auth_service.py:44-54 | id, name and email always; the last name exactly when truthy; the role exactly when not `None`; nothing else |
| AuthService.Login | backend/services/auth_service.py:16-67 | an email the lookup cannot compare becomes APIError 500; otherwise success exactly when the email is found and the password check passes; an unknown email and a wrong password raise the same Unauthorized; a failing check becomes APIError 500; the token identity is the id as a string |
| AuthService.LoginNeverSendsLastname | backend/services/auth_service.py:51-52 | the users the repository reads carry no last name, so a login's user data never has one |
| AuthService.Register | backend/services/auth_service.py:69-111 | an email the lookup cannot compare with the text column makes the lookup raise; a taken email raises APIError 400 and stores nothing; a password bcrypt cannot hash, a name psycopg2 cannot send or a rol the integer column refuses makes the registration fail; otherwise exactly one user is created, holding the stored forms of the name, the email, the hashed password and rol (defaulting to 1) |
| AuthService.RegisterThenFindByEmail | backend/services/auth_service.py:83-100 | after a registration, looking the email up finds the new user |
| AuthService.GetUserProfile | backend/services/auth_service.py:113-133 | the user's public fields, the last name always `None`; a missing user raises NotFound |
| AuthService.ChangePassword | backend/services/auth_service.py:135-159 | a missing user raises NotFound; a wrong current password raises Unauthorized and changes nothing; otherwise only that user's password becomes the hash of the new one |
| AuthService.ChangePasswordThenLogin | backend/services/auth_service.py:135-159 | when the password check accepts each hash for its own password, the user can log in with the new password after a change |
| AuthRoutes.LoginRoute | backend/routes/auth_routes.py:16-60 | 400 without both keys; 500 when the email cannot be compared with the text column or the check raises; 401 with one message for an unknown email and a wrong password alike; 200 with a token issued to the id as text otherwise |
| AuthRoutes.LoginRouteAgreesWithService | backend/routes/auth_routes.py:26-57 | the route and `AuthService.login` accept the same credentials and issue the token to the same identity |
| AuthRoutes.BearerToken | backend/routes/auth_routes.py:120 | the token is the text after `Bearer ` up to the next space or the end, and holds no space |
| AuthRoutes.ProfileOf | backend/routes/auth_routes.py:130-146 | the profile holds the six selected columns and never the password |
| AuthRoutes.UserProfileRoute | backend/routes/auth_routes.py:106-151 | 401 without a `Bearer ` header; 500 when the subject cannot be decoded or read as an integer; 404 for an unknown user; otherwise the user's profile |
| AuthRoutes.LoginTokenOpensProfile | backend/routes/auth_routes.py:44-146 | a token issued at login for a user opens that user's profile, when decoding inverts issuing |
| AuthRoutes.ChangePasswordRoute | backend/routes/auth_routes.py:153-191 | 400 without both passwords; 401 for an unknown user or a wrong current password; on success only that user's password becomes the hash of the new one; the table changes only on success |
| AuthRoutes.ChangePasswordRouteAgreesWithService | backend/routes/auth_routes.py:160-188 | for an existing user the route and `AuthService.change_password` make the same change; for a missing one the route answers 401 where the service raises NotFound |
| TeacherService.TeacherGroups | backend/services/teacher_service.py:24-35 | the repository query fails exactly when the id cannot be compared with an integer column; an id no row can equal finds nothing |
| TeacherService.GetTeacherSubjects | backend/services/teacher_service.py:14-35 | one dictionary per group the repository returns, in its order, none carrying the professor; any failure yields an empty list |
| TeacherService.ListedGroupIsTheirs | backend/services/teacher_service.py:26-31 | every listed group exists and is assigned to the teacher |
| TeacherService.TheirGroupIsListed | backend/services/teacher_service.py:26-31 | every group assigned to the teacher whose class exists is listed |
| TeacherService.GetSubjectDetails | backend/services/teacher_service.py:37-60 | NotFound for a missing group; Forbidden exactly when the group's professor is not equal to the user id under Python's `!=` (numbers and booleans by value, `None` only to `None`, text only to the same text); otherwise the group's dictionary |
| TeacherService.NumericIdentityOpens | backend/services/teacher_service.py:56-57 | a group whose professor is an integer opens exactly for the user ids Python holds equal to it (`5`, `5.0`, and `True` for 1) |
| TeacherService.TextIdentityForbidden | backend/services/teacher_service.py:56-57 | a text user id, the form a JWT identity has (backend/services/auth_service.py:41), is refused for every group whose professor is an integer or `NULL` |
| TeacherService.UnassignedOpensForNone | backend/services/teacher_service.py:56-57 | a group without a professor opens only for a `None` user id |
| TeacherService.ListedGroupsOpen | backend/services/teacher_service.py:14-60 | every group in a professor's list opens for that professor's integer id |
| StudentService.RegisterStudent | backend/services/student_service.py:14-61 | the family lookup raises exactly when the email cannot be compared with the text column; a family with the same email is reused and none is created, or exactly one family is created from the family data, which raises when a field cannot be sent; then exactly one student is created under the chosen family, which raises when a student field cannot be sent; a family created before a failing student insert stays |
| StudentService.RegistrationBody | backend/services/student_service.py:57-61 | the response carries the message, the created student's dictionary and the chosen family id |
| StudentService.GetStudentById | backend/services/student_service.py:63-79 | the student and their family; NotFound for a missing student, and for a student whose family row is missing |
| StudentService.RegisterThenGet | backend/services/student_service.py:14-79 | a freshly registered student reads back with the family they were registered under and their names as the text columns stored them; with text or null names exactly as created |
| StudentService.GetStudentsByFamily | backend/services/student_service.py:81-97 | the family's students and the family; NotFound when the family does not exist |
| StudentService.Merge | backend/services/student_service.py:114-122 | each editable field comes from the request when its key is present and from the current record otherwise; the id and family never change |
| StudentService.UpdateStudentData | backend/services/student_service.py:99-130 | NotFound for a missing student; otherwise the update succeeds exactly when the merged student can be stored, and then only that row changes, to the stored form of the merged student |
| StudentService.UpdateIdempotent | backend/services/student_service.py:99-130 | when an update succeeds, applying it again succeeds and stores the same rows |
| StudentService.UpdateWithNothingChangesNothing | backend/services/student_service.py:114-122 | an update with none of the editable keys succeeds exactly when the current row can be written back, and leaves every row as it was when the row is in the form the columns store |
| GradesRoutes.WeightedMonotone | backend/routes/grades_routes.py:267-273 | raising any of the five components never lowers the final score |
| GradesRoutes.WeightedInRange | backend/routes/grades_routes.py:267-273 | components on the 0-10 scale give a final score on the 0-10 scale |
| GradesRoutes.ComponentOf | backend/routes/grades_routes.py:260-264 | a missing component counts as 0; numbers take part in the sum; a boolean is told apart from values that make the arithmetic raise |
| GradesRoutes.ParseScores | backend/routes/grades_routes.py:260-273 | the record is usable exactly when all five components are numbers, and unusable exactly when one of them makes the arithmetic raise |
| GradesRoutes.StudentOf | backend/routes/grades_routes.py:240-248 | an accepted record names an active student of the group |
| GradesRoutes.SaveRecord | backend/routes/grades_routes.py:239-315 | a record with a missing or inactive student is skipped; otherwise the row with its (student, group, period) key is updated in place, or a new row is inserted when there is none, holding the five components and their weighted final score |
| GradesRoutes.SaveRecordKeeps | backend/routes/grades_routes.py:252-307 | one record keeps every other row and keeps the (student, group, period) key unique |
| GradesRoutes.SaveTwiceSameRow | backend/routes/grades_routes.py:252-307 | saving the same student twice leaves one row, under the same id, holding the second save's values |
| GradesRoutes.SaveAll | backend/routes/grades_routes.py:237-316 | the corrected loop: rows of other students, groups and periods are kept, nothing is deleted, the key stays unique, and only a record that is not an object stops the loop |
| GradesRoutes.SaveAllStoresLast | backend/routes/grades_routes.py:237-316 | after the corrected loop, a student some record writes has a row keyed (student, group, period) holding the last such record's components and their weighted score, the only row with that key when keys were unique; the rows of a student no record writes are the same rows with the same values |
| GradesRoutes.SaveAllAsWritten | backend/routes/grades_routes.py:239-315 | the loop as written: once the database rejects a record, every later record is lost too |
| GradesRoutes.AbortedTransactionLosesLaterRecords | backend/routes/grades_routes.py:309-315 | a batch where the first record carries a boolean score loses the second student's grades as written, and saves them in the corrected loop |
| GradesRoutes.PeriodOf | backend/routes/grades_routes.py:205-213 | the period is `int(period)` when that converts, and 1 when it is absent or does not convert |
| GradesRoutes.SaveGrades | backend/routes/grades_routes.py:190-340 | a `grades` value `len` rejects, or a fallback group read from a record that is not an object, answers 500; a falsy group answers 400 and writes nothing; a group the database cannot compare answers 500; a group nobody is active in answers success unchanged; otherwise the notes table is what the save loop leaves, and the answer is success exactly when every record was an object; rows of other students, groups and periods are kept and the key stays unique |
| GradesRoutes.NoteFor | backend/routes/grades_routes.py:122-135 | the stored grades found for a student match its key; there are none exactly when no row has that key |
| GradesRoutes.EntryFor | backend/routes/grades_routes.py:144-168 | a student's entry carries the student's id, group and name, and their stored grades, or id 0 and zeros when there are none |
| GradesRoutes.QueryPeriod | backend/routes/grades_routes.py:104-108 | the query's period as an integer, 1 when it is absent or does not parse |
| GradesRoutes.GetGrades | backend/routes/grades_routes.py:44-188 | no active students gives the empty answer; active students but an empty roster join fails with 500, as the period is never assigned; otherwise the requested period and one entry per roster student, in roster order, with that period's grades or zeros |
| GradesRoutes.ZeroIdIffNoGrades | backend/routes/grades_routes.py:152-153 | an entry reads id 0 exactly when the student has no stored grades for the period |
| GradesRoutes.SingleSaveWrites | backend/routes/grades_routes.py:197-333 | a one-record save of an accepted record writes exactly what the single-record step writes |
| GradesRoutes.ReadShowsRow | backend/routes/grades_routes.py:122-168 | a stored row with a unique key is what the read shows for its student |
| GradesRoutes.ReadListsStudent | backend/routes/grades_routes.py:144-168 | every roster student has an entry in the read |
| GradesRoutes.SaveThenRead | backend/routes/grades_routes.py:190-333 | saving one record and reading the group back at that period shows the saved components and final score under a non-zero id |
| GradesRoutes.BatchSaveWrites | backend/routes/grades_routes.py:197-333 | a batch save for a group with active students leaves the notes table the save loop computes and nothing else changed |
| GradesRoutes.NoteForKept | backend/routes/grades_routes.py:112-135 | when a change keeps a student's rows, the read finds the same row with the same values |
| GradesRoutes.BatchSaveThenRead | backend/routes/grades_routes.py:44-333 | saving a batch and reading the group back at that period shows, for every roster student, the last record written for them with its weighted score under a stored id, or their earlier entry when no record wrote them |
| GradesRoutes.PeriodLabel | backend/routes/grades_routes.py:417 | 1, 2 and 3 name Primer, Segundo and Tercer; every other period is Cuarto |
| GradesRoutes.Header | backend/routes/grades_routes.py:418-423 | the header row has eight columns |
| GradesRoutes.ReportStudents | backend/routes/grades_routes.py:362-371 | exactly the active students of the group that have a student row |
| GradesRoutes.ReportRow | backend/routes/grades_routes.py:429-445 | eight cells: group name, student name, and the five components and final score, or zeros when none are stored |
| GradesRoutes.GradesReport | backend/routes/grades_routes.py:342-460 | 404 when the group has no active students or does not join its class; otherwise the period label, the group name `f"{grade} - {class_name}"` (the two texts joined by ` - ` when both are text) and one eight-cell row per listed student |
| GradesRoutes.ReportAgreesWithRead | backend/routes/grades_routes.py:44-460 | whenever the report is produced, the grades read of the same group and period succeeds with the same students in the same order, and each report row shows that student's name, stored components and final score, or zeros exactly when the read shows id 0 |
| AttendanceRoutes.InsertAll | backend/routes/attendance_routes.py:265-292 | the inserted rows get consecutive fresh ids in batch order, and every earlier row is kept |
| AttendanceRoutes.PresentOf | backend/routes/attendance_routes.py:267-277 | a missing `present` counts as absent; otherwise its truthiness decides |
| AttendanceRoutes.NewRows | backend/routes/attendance_routes.py:265-292 | one row per accepted record, in batch order: the accepted record at position i gives the row after those of the accepted records before it, for its student, the group and the day, with its `present` truthiness; every row is one a save of that group and day replaces |
| AttendanceRoutes.Reached | backend/routes/attendance_routes.py:265-266 | the loop gets through the records up to the first one that is not an object |
| AttendanceRoutes.Inserted | backend/routes/attendance_routes.py:265-292 | every row the loop inserts is one a later save of the same group and day replaces |
| AttendanceRoutes.Replace | backend/routes/attendance_routes.py:245-292 | after the delete and the inserts, the group's rows for active students on that day are exactly the inserted ones; every other row is kept as it was and no other row appears |
| AttendanceRoutes.SaveAttendance | backend/routes/attendance_routes.py:195-322 | an `attendance` value `len` rejects, or a fallback group read from a record that is not an object, answers 500; a falsy group or an unparseable date answers 400 and writes nothing; a group the database cannot compare answers 500; a group nobody is active in answers success unchanged; otherwise the group's day is replaced for its active students, and the answer is success exactly when the loop reached every record |
| AttendanceRoutes.NoActiveStudentsNoChange | backend/routes/attendance_routes.py:245-297 | with no active student in the group a save deletes and inserts nothing |
| AttendanceRoutes.SaveTwiceSameRows | backend/routes/attendance_routes.py:245-292 | saving the same batch twice leaves the same rows for the group and day as saving it once, at new ids |
| AttendanceRoutes.RowFor | backend/routes/attendance_routes.py:124-130 | the row shown for a student is one of theirs for the day; there is none exactly when no row matches |
| AttendanceRoutes.EntryFor | backend/routes/attendance_routes.py:140-172 | a student's entry carries their id, group and name, and their stored presence, or id 0 and absent when there is no row |
| AttendanceRoutes.GetAttendance | backend/routes/attendance_routes.py:44-193 | no active students gives the empty answer; otherwise one entry per roster student, in roster order, present or absent as stored for the day strptime parses, or for the day the database cast reads from the raw text when strptime fails |
| AttendanceRoutes.ZeroIdIffNoRow | backend/routes/attendance_routes.py:166 | an entry has id 0 exactly when the student has no row for the day |
| AttendanceRoutes.SingleSaveReplaces | backend/routes/attendance_routes.py:245-292 | a one-record save of an active student leaves that student's new row as the only one for the group and day |
| AttendanceRoutes.ReadListsStudent | backend/routes/attendance_routes.py:140-172 | every roster student has an entry in the read |
| AttendanceRoutes.UniqueRowRead | backend/routes/attendance_routes.py:126-130 | when a student has exactly one row for the day, the read shows that row's presence |
| AttendanceRoutes.ReadOnlyRow | backend/routes/attendance_routes.py:140-172 | when a student's row for the day is the only one, the read lists the student with that presence |
| AttendanceRoutes.SaveThenRead | backend/routes/attendance_routes.py:195-322 | after recording one student's presence for a day, the read for that day shows it |
| AttendanceRoutes.NewRowsLastMark | backend/routes/attendance_routes.py:265-292 | the rows a batch inserts end, for each student, with the presence of that student's last accepted record |
| AttendanceRoutes.LastPresenceIsLast | backend/routes/attendance_routes.py:124-130 | the presence found for a student is that of their last row, and none exactly when they have no row |
| AttendanceRoutes.ReplaceRowFor | backend/routes/attendance_routes.py:120-130 | after a replace, the row the read keeps for an active student is their last inserted row |
| AttendanceRoutes.ReplaceNoRowFor | backend/routes/attendance_routes.py:245-292 | after a replace that inserts nothing for an active student, the read finds no row for them |
| AttendanceRoutes.BatchSaveReplaces | backend/routes/attendance_routes.py:195-322 | a batch save with a truthy group that has active students and a parseable date replaces that day's rows and changes nothing else |
| AttendanceRoutes.ReplaceFindsMark | backend/routes/attendance_routes.py:120-172 | after a replace, the row the read looks up for an active student is a new, non-zero id carrying the presence of the last record accepted for them, and there is none when no record was accepted for them |
| AttendanceRoutes.ReplaceShowsMark | backend/routes/attendance_routes.py:120-172 | after a replace, an active student's entry shows the presence of the last record accepted for them under a stored id, or absent with id 0 when none was |
| AttendanceRoutes.BatchSaveThenRead | backend/routes/attendance_routes.py:44-322 | saving a batch for a day and reading the group back for that day shows, for every roster student, the presence of the last record the loop accepted for them, or absent with id 0 when it accepted none |
| AttendanceRoutes.ReportStudents | backend/routes/attendance_routes.py:341-350 | exactly the active students of the group that have a student row |
| AttendanceRoutes.ReportDates | backend/routes/attendance_routes.py:358-368 | every day with a counted row, once each, most recent first |
| AttendanceRoutes.CountedDays | backend/routes/attendance_routes.py:360-366 | a day is counted exactly when a listed student of the group has a row on it inside the window |
| AttendanceRoutes.Cell | backend/routes/attendance_routes.py:403-411 | `N/A` exactly when the student has no row for the day; otherwise `Presente` or `Ausente` from a stored row |
| AttendanceRoutes.GroupName | backend/routes/attendance_routes.py:370-379 | `f"{grade} - {class_name}"` when the group joins its class (the two texts joined by ` - ` when both are text), `Grupo <id>` when the group or its class is missing |
| AttendanceRoutes.ReportLine | backend/routes/attendance_routes.py:392-413 | the student's name followed by one cell per reported day |
| AttendanceRoutes.ReportLines | backend/routes/attendance_routes.py:392-413 | one report row per listed student, in the listed order |
| AttendanceRoutes.AttendanceReport | backend/routes/attendance_routes.py:324-437 | 404 exactly when no student is listed; otherwise the header of days and one row per student with a cell per day |
| UserRoutes.Listing | backend/routes/user_routes.py:45-56 | a listed user carries its id and every column except the password |
| UserRoutes.Window | backend/routes/user_routes.py:55-56 | `LIMIT`/`OFFSET` returns at most `limit` consecutive rows from `offset` on, and exactly `limit` when that many remain |
| UserRoutes.ListUsuarios | backend/routes/user_routes.py:13-84 | a page exists exactly for `per_page > 0` and `page >= 1`; it holds the window at `(page - 1) * per_page` of the matching ids, their count, and the fewest pages that hold them |
| UserRoutes.PageOffset | backend/routes/user_routes.py:24 | the offset of a page is the number of items on the pages before it |
| UserRoutes.TotalPages | backend/routes/user_routes.py:63 | `total_pages` pages of `per_page` hold every match, and one page fewer would not |
| UserRoutes.ListUsuariosResponse | backend/routes/user_routes.py:65-84 | a failed query answers 500; otherwise the answer lists each user of the page, password omitted, in page order |
| UserRoutes.EveryMatchIsOnItsPage | backend/routes/user_routes.py:24-63 | the match at rank `i` is item `i % per_page` of page `i / per_page + 1`, and that page is not past `total_pages` |
| UserRoutes.RankPageBound | backend/routes/user_routes.py:63 | every rank below the total falls on a page no later than `total_pages` |
| UserRoutes.WindowHoldsRank | backend/routes/user_routes.py:24-56 | the window of rank `i`'s page holds that rank at position `i % per_page` |
| UserRoutes.GetUsuario | backend/routes/user_routes.py:86-114 | a stored id answers 200 with the user minus the password; an unknown id answers 404 |
| UserRoutes.FirstMissing | backend/routes/user_routes.py:125-128 | nothing is reported exactly when every field is present and truthy; otherwise a reported field is one that is absent or falsy |
| UserRoutes.MissingForCreate | backend/routes/user_routes.py:124-128 | the first of name, lastname_f, email, password, rol that is absent or falsy, none exactly when all are given |
| UserRoutes.CreatedRow | backend/routes/user_routes.py:143-158 | the parameters of the insert: the given fields, the password hashed, lastname_m defaulting to `""` and profesor_type to `titular` |
| UserRoutes.CreateUsuario | backend/routes/user_routes.py:116-171 | a missing field answers 400 naming it; a non-text password or an email the database cannot compare answers 500; a taken email answers 400; a value a column refuses answers 500; otherwise exactly one row is added under a fresh id, holding what the columns make of the values, and answered 201 as stored, without its password; nothing changes unless the answer is 201 |
| UserRoutes.CreateUsuarioThenGet | backend/routes/user_routes.py:86-171 | after a 201 the new user reads back with 200 exactly as answered, each column showing what it made of the value sent (a number or boolean as text, a numeric text rol as its integer), and every other user reads as before |
| UserRoutes.UpdatedRow | backend/routes/user_routes.py:196-241 | each truthy field replaces its column with what the column makes of it (the password hashed), lastname_m and profesor_type replace theirs whenever present; the update fails exactly when a column refuses a value it is given; with no applicable field the row is unchanged |
| UserRoutes.UpdateUsuario | backend/routes/user_routes.py:173-260 | a truthy email the database cannot compare with the text column answers 500; unknown id answers 404, another user's email answers 400, no applicable field answers 400, a value a column refuses answers 500; otherwise only that row changes, and the answer is the updated user as stored; nothing changes unless the answer is 200 |
| UserRoutes.UpdateUsuarioThenGet | backend/routes/user_routes.py:86-260 | after a 200 the user reads back as answered: each column the request set shows what the column made of the value sent, every other column keeps its old value, and every other user reads as before |
| UserRoutes.DeleteUsuario | backend/routes/user_routes.py:262-293 | an unknown id answers 404 and changes nothing; otherwise exactly that row disappears |
| UserRoutes.DeleteTwice | backend/routes/user_routes.py:262-293 | deleting the same user again answers 404 and changes nothing more |
| UserRoutes.GrupoInfo | backend/routes/user_routes.py:589-595 | the answer's `grupo` holds the group's id, grade, class id and the class's name, `null` when the class is missing |
| UserRoutes.AsignarMateria | backend/routes/user_routes.py:500-602 | 400 without an id, 404 for an unknown professor, group or class; a given group gets this professor, a class alone gets a new group of grade `1` for this professor; only the group table changes, and only on 200 |
| UserRoutes.DesasignarMateria | backend/routes/user_routes.py:604-650 | succeeds exactly when the group is assigned to this professor, and then only that group's professor becomes NULL; any other answer changes nothing |
| UserRoutes.AssignThenUnassign | backend/routes/user_routes.py:527-639 | assigning an unassigned group and unassigning it again restores the database |
| UserRoutes.MateriaToDict | backend/routes/user_routes.py:471-486 | an entry has class_id, class_name, group_id and grado, with `null` group_id for a class without groups |
| UserRoutes.GroupEntry | backend/routes/user_routes.py:473-479 | the entry of an unassigned group names its class and group, with `N/A` for a falsy grade |
| UserRoutes.GroupEntries | backend/routes/user_routes.py:471-486 | one entry per group, in order |
| UserRoutes.UnassignedOf | backend/routes/user_routes.py:462-463 | the listed groups are exactly the class's groups without a professor |
| UserRoutes.EntriesFor | backend/routes/user_routes.py:455-486 | a class without groups yields one entry with no group and grade `N/A`; otherwise one entry per unassigned group |
| UserRoutes.EntriesForGroups | backend/routes/user_routes.py:455-486 | a class's entries name a group exactly when it is one of the class's groups and has no professor |
| UserRoutes.AvailableGroupIff | backend/routes/user_routes.py:429-498 | a group is listed as available exactly when it exists, its class exists and it has no professor |
| UserRoutes.GrouplessClassIff | backend/routes/user_routes.py:429-498 | a class is listed without a group exactly when it exists and no group belongs to it |
| UserRoutes.ListedEntry | backend/routes/user_routes.py:429-498 | an entry is in the available list exactly when its class exists and the entry is one of that class's rows of the join |
| UserRoutes.AssignmentAndAvailability | backend/routes/user_routes.py:455-602 | an available group stops being listed once a professor is assigned to it |
| GradesHooks.RoundHundredths | frontend/src/hooks/useGetGrades.ts:120 | `Math.round(x * 100) / 100` on the exact value: the result lies on the hundredths grid, within half a hundredth of the value |
| GradesHooks.RoundHundredthsIdempotent | frontend/src/hooks/useGetGrades.ts:120 | rounding a rounded grade again changes nothing |
| GradesHooks.RoundHundredthsInRange | frontend/src/hooks/useGetGrades.ts:120 | rounding keeps a grade on the 0-10 scale |
| GradesHooks.WithScore | frontend/src/hooks/useGetGrades.ts:108 | the named component takes the new value and the other four are kept |
| GradesHooks.EditedRow | frontend/src/hooks/useGetGrades.ts:106-122 | an edited row keeps its identity fields and other components, and its final grade is the exact weighted score of the new components rounded to hundredths |
| GradesHooks.UpdateGrade | frontend/src/hooks/useGetGrades.ts:103-127 | every row of the student is edited and every other row is kept, in place |
| GradesHooks.UpdateGradeLastWins | frontend/src/hooks/useGetGrades.ts:103-127 | editing the same component twice is the same as making only the second edit |
| GradesHooks.ScoresByComponents | frontend/src/hooks/useGetGrades.ts:9-13 | two score records are the same exactly when all five components agree |
| GradesHooks.UpdateGradeSameValue | frontend/src/hooks/useGetGrades.ts:103-127 | setting a component to the value it already has leaves a consistent sheet unchanged |
| GradesHooks.EditedRowInRange | frontend/src/hooks/useGetGrades.ts:111-120 | with every component on the 0-10 scale, the recomputed final grade is on that scale |
| GradesHooks.FetchGrades | frontend/src/hooks/useGetGrades.ts:36-53 | a missing or zero group is refused with its message, a repeat of the group already loading is dropped, and anything else is requested |
| GradesHooks.ReceiveGrades | frontend/src/hooks/useGetGrades.ts:78-95 | a failed request empties the sheet with the load error; a reply fills it only with an array under `grades`, and clears the error |
| GradesHooks.SaveRecordOf | frontend/src/hooks/useGetGrades.ts:140-148 | a record carries the student, the batch's group and the five components, and nothing else |
| GradesHooks.SaveBody | frontend/src/hooks/useGetGrades.ts:131-166 | nothing is sent for an empty sheet or a first row without a group; otherwise one record per row, in order, all under the first row's group |
| GradesHooks.SaveBodyParsesBack | frontend/src/hooks/useGetGrades.ts:140-148 | each record sent reaches the server's score parser as exactly the row's five components |
| GradesHooks.ShownFinalNearStored | frontend/src/hooks/useGetGrades.ts:111-120 | the final grade the sheet shows is within half a hundredth of the weighted score the server stores |
| GradesHooks.SaveGrades | frontend/src/hooks/useGetGrades.ts:129-192 | without a group it fails with its message, a failed request fails with the save error, and a reply passes `success` through, reloads exactly when it is truthy and defaults a falsy message |
| DraftGrades.TenthsHalfUp | frontend/src/hooks/useGrades.ts:177-182 | half-up rounding of the exact value: the result lies on the tenths grid, within half a tenth of the value |
| DraftGrades.ToTenths | frontend/src/hooks/useGrades.ts:177-184 | `toFixed(1)` read back, applied to the exact value: the nearest tenth, on the same side of zero as the value |
| DraftGrades.ToTenthsOfGrid | frontend/src/hooks/useGrades.ts:177-184 | a value already on the tenths grid is kept |
| DraftGrades.ToTenthsIdempotent | frontend/src/hooks/useGrades.ts:177-184 | rounding to tenths twice is rounding once |
| DraftGrades.WithField | frontend/src/hooks/useGrades.ts:169 | the named score takes the new value; the other scores, the identity fields and the final grade are kept |
| DraftGrades.UpdateDraft | frontend/src/hooks/useGrades.ts:160-171 | only rows with the id change, and only in the named score |
| DraftGrades.DraftWeightedMonotone | frontend/src/hooks/useGrades.ts:177-181 | raising any of the four scores never lowers the weighted score |
| DraftGrades.CalculateFinalGrades | frontend/src/hooks/useGrades.ts:173-187 | every row gets its exact weighted score rounded to tenths as final grade, and nothing else in it changes |
| DraftGrades.CalculateFinalGradesIdempotent | frontend/src/hooks/useGrades.ts:173-187 | computing the final grades again changes nothing |
| DraftGrades.EditThenCalculate | frontend/src/hooks/useGrades.ts:160-187 | an edit leaves the other rows finalised, and computing again finalises every row |
| DraftGrades.GradeColor | frontend/src/pages/Calificaciones/components/GradesTable/GradesTable.tsx:25-30 | an absent or zero grade is uncoloured; otherwise 9 and up is high, 7 up to 9 medium, below 7 low |
| DraftGrades.CellValue | frontend/src/pages/Calificaciones/components/GradesTable/GradesTable.tsx:41-45 | an empty cell counts as 0; other text is accepted exactly when it parses to a number from 0 to 10 |
| DraftGrades.HandleGradeChange | frontend/src/pages/Calificaciones/components/GradesTable/GradesTable.tsx:33-48 | an accepted cell updates the row with its number; anything else leaves the working copy unchanged |
| DraftGrades.CellEditsStayOnScale | frontend/src/pages/Calificaciones/components/GradesTable/GradesTable.tsx:33-48 | cell edits keep every score, and so every computed final grade, on the 0-10 scale |
| AttendanceHook.Toggle | frontend/src/hooks/useGetAttendance.ts:67-73 | exactly the rows with the id flip their mark; every other field and row is kept |
| AttendanceHook.ToggleTwice | frontend/src/hooks/useGetAttendance.ts:67-73 | toggling the same id twice restores the list |
| AttendanceHook.TogglesCommute | frontend/src/hooks/useGetAttendance.ts:67-73 | toggles of two ids give the same list in either order |
| AttendanceHook.SetAll | frontend/src/hooks/useGetAttendance.ts:75-81 | every row gets the given mark and nothing else changes |
| AttendanceHook.SetAllIdempotent | frontend/src/hooks/useGetAttendance.ts:75-81 | marking everybody twice is marking once, and the last such call decides every mark |
| AttendanceHook.ToggleAfterSetAll | frontend/src/hooks/useGetAttendance.ts:67-81 | after marking everybody, a toggle gives exactly the rows with that id the opposite mark |
| ProfesoresHook.CeilDiv | frontend/src/hooks/useProfesores.ts:180 | `Math.ceil(a / b)`: the least whole number of divisor-sized pages covering `a`, and no number for a zero divisor |
| ProfesoresHook.SliceTo | frontend/src/hooks/useProfesores.ts:141 | `slice(0, end)` keeps the first `end` items, counting a negative end from the back |
| ProfesoresHook.FetchProfesores | frontend/src/hooks/useProfesores.ts:94-152 | a request goes out exactly when there is a token; a reply replaces list and figures, and any failure shows the first `perPage` example professors with total 5, page 1 and the load error |
| ProfesoresHook.FallbackFigures | frontend/src/hooks/useProfesores.ts:129-148 | with a positive page size the fallback shows `min(5, perPage)` professors on just enough pages for five |
| ProfesoresHook.DeleteProfesor | frontend/src/hooks/useProfesores.ts:154-196 | on success every entry with the id goes, the total drops by one, the page count is recomputed, and the page is reloaded exactly when it held only that entry; on failure only the error changes |
| ProfesoresHook.DeleteRemovesId | frontend/src/hooks/useProfesores.ts:176 | after a delete no entry has the id, the list shrinks by the number of such entries, and deleting again changes nothing |
| ProfesoresHook.SaveProfesor | frontend/src/hooks/useProfesores.ts:198-241 | on success the new professor is appended only while the page is not full and the total grows by one; on failure only the error changes |
| ProfesoresHook.SaveThenDeleteRestoresFigures | frontend/src/hooks/useProfesores.ts:176-232 | a create followed by a delete restores the total, and the page count too when it was consistent |
| ProfesoresHook.UpdateProfesor | frontend/src/hooks/useProfesores.ts:410-450 | on success entries with the id take the server's fields over their own and every other entry is kept; on failure only the error changes |
| ProfesoresHook.UpdateShowsServerCopy | frontend/src/hooks/useProfesores.ts:441 | a merged entry shows every field the server sent and keeps the fields it did not send |
| ProfesoresHook.AssignBody | frontend/src/hooks/useProfesores.ts:317-319 | the body names a class unless the flag is `false`, in which case it names a group |
| ProfesoresHook.AssignRequest | frontend/src/hooks/useProfesores.ts:308-343 | with a token the request goes to the professor's assign endpoint with that body; without one nothing is sent |
| ProfesoresHook.ClassBodyCreatesGroup | frontend/src/hooks/useProfesores.ts:317-324 | a class body for an existing class makes the server add one new group of grade `1` for the professor |
| ProfesoresHook.GroupBodyAssignsGroup | frontend/src/hooks/useProfesores.ts:317-324 | a group body for an existing group makes the server give that group to the professor and change nothing else |
| ProfesoresHook.UnassignRequest | frontend/src/hooks/useProfesores.ts:346-376 | with a token the request goes to the professor's release endpoint with a body naming only the group; without one nothing is sent |
| StudentForms.WithPersonal | frontend/src/hooks/useInscripciones.ts:45-50 | the named personal field takes the value and the others are kept |
| StudentForms.WithAcademic | frontend/src/hooks/useInscripciones.ts:52-57 | the named academic field takes the value and the others are kept |
| StudentForms.WithFamily | frontend/src/hooks/useInscripciones.ts:59-64 | the named family field takes the value and the others are kept |
| StudentForms.WithAdditional | frontend/src/hooks/useInscripciones.ts:66-71 | the named additional field takes the value and the other is kept |
| StudentForms.Apply | frontend/src/hooks/useInscripciones.ts:45-71 | an update changes only its own group, and in it only the named field |
| StudentForms.ApplyLastWins | frontend/src/hooks/useInscripciones.ts:45-50 | updating one field twice keeps the second value |
| StudentForms.PersonalFilled | frontend/src/hooks/useInscripciones.ts:83-86 | the enrolment form needs the names and blood type filled, the edit form also the e-mail |
| StudentForms.FamilyFilled | frontend/src/hooks/useInscripciones.ts:87-92 | all six family fields must hold more than white space |
| StudentForms.EnrollmentValid | frontend/src/hooks/useInscripciones.ts:81-95 | the form is valid exactly when the four personal, six family fields and the registration date hold more than white space |
| StudentForms.EnrollmentOptionalFields | frontend/src/hooks/useInscripciones.ts:81-95 | editing the e-mail, allergies, academic fields or permission never changes validity |
| StudentForms.ResetFormInvalid | frontend/src/hooks/useInscripciones.ts:74-95 | a freshly reset form is not valid |
| StudentForms.PersonalJson | frontend/src/hooks/useInscripciones.ts:105-110 | each personal field appears under its own key |
| StudentForms.AcademicJson | frontend/src/hooks/useInscripciones.ts:105-110 | the scholarship flag, chapel and campus appear under their keys |
| StudentForms.FamilyJson | frontend/src/hooks/useInscripciones.ts:105-110 | each family field appears under its own key |
| StudentForms.AdditionalJson | frontend/src/hooks/useInscripciones.ts:105-110 | the permission and registration date appear under their keys |
| StudentForms.EnrollmentBody | frontend/src/hooks/useInscripciones.ts:97-110 | a body is sent exactly for a valid form, and it holds the keys of all four groups |
| StudentForms.KeyGroupsDisjoint | frontend/src/hooks/useInscripciones.ts:105-110 | no key belongs to two groups, so no spread overwrites another group's field |
| StudentForms.EnrollmentBodyReadsBack | frontend/src/hooks/useInscripciones.ts:105-110 | every field of the form arrives in the body under its own key with its typed value |
| StudentForms.AfterEnrollment | frontend/src/hooks/useInscripciones.ts:121-127 | a successful answer clears the form, leaving it invalid; a failed one keeps it as typed |
| StudentForms.EditValid | frontend/src/hooks/useEditEstudiante.ts:183-191 | the edit form is valid exactly when names, e-mail and blood type hold more than white space |
| StudentForms.EditValidityIsPersonal | frontend/src/hooks/useEditEstudiante.ts:183-191 | no edit outside those five personal fields changes validity |
| StudentForms.OrEmpty | frontend/src/hooks/useEditEstudiante.ts:117 | a present text is kept and a missing one becomes `""` |
| StudentForms.OrFalse | frontend/src/hooks/useEditEstudiante.ts:130 | the flag is set exactly when the student's flag is `true` |
| StudentForms.MapEstudianteToForm | frontend/src/hooks/useEditEstudiante.ts:114-145 | the personal, academic and additional groups come from the student with blanks for missing fields, and the family group is kept |
| StudentForms.EditPayload | frontend/src/hooks/useEditEstudiante.ts:201-213 | the payload holds exactly the eleven student keys the server reads |
| StudentForms.LoadThenSaveRoundTrip | frontend/src/hooks/useEditEstudiante.ts:114-213 | loading a complete student and saving it unchanged sends the student back as it was |
| StudentForms.EditSubmit | frontend/src/hooks/useEditEstudiante.ts:193-225 | nothing is sent for an invalid form; otherwise a PUT to the student's address in edit mode and a POST to the collection otherwise |
| StudentForms.EditWithoutIdTargetsUndefined | frontend/src/hooks/useEditEstudiante.ts:219-223 | initial data without an id sends the PUT to the address ending in `undefined` |
| StudentForms.DigitsOnly | frontend/src/pages/Inscripciones/components/FamilyInfoSection.tsx:15 | the result holds only digits and is no longer than the input |
| StudentForms.DigitsOnlyAppend | frontend/src/pages/Inscripciones/components/FamilyInfoSection.tsx:15 | the filter keeps a character exactly when it is a digit, piece by piece, so it keeps the digits in order |
| StudentForms.DigitsOnlyIdempotent | frontend/src/pages/Inscripciones/components/FamilyInfoSection.tsx:15 | an all-digit input is unchanged, so filtering twice is filtering once |
| StudentForms.HandlePhoneChange | frontend/src/pages/Alumnos/_add/components/FamilyInfoSection.tsx:26-29 | the phone field is set to the digits of what was typed, and nothing else changes |
| StudentForms.DeleteEstudiante | frontend/src/hooks/useEstudiantes.ts:107-109 | the list keeps exactly the students without that id |
| StudentForms.DeleteEstudianteCounts | frontend/src/hooks/useEstudiantes.ts:107-109 | the list shrinks by the number of matching students; deleting an absent id, or deleting twice, changes nothing more |
| StudentForms.DeleteEstudianteKeepsOrder | frontend/src/hooks/useEstudiantes.ts:107-109 | deleting distributes over the halves of a list, so survivors keep their order |
| ProfessorForms.MatchesEmail | frontend/src/pages/Profesores/_add/AgregarProfesor.tsx:102 | the scan answers yes exactly when `/\S+@\S+\.\S+/` matches somewhere in the text |
| ProfessorForms.EmailExample | frontend/src/pages/Profesores/_add/AgregarProfesor.tsx:102 | an address with a dotted domain matches and one without a dot does not |
| ProfessorForms.WithText | frontend/src/pages/Profesores/_add/AgregarProfesor.tsx:56-63 | the named input takes the typed value; the other inputs, the role and the professor type are kept |
| ProfessorForms.ClearError | frontend/src/pages/Profesores/_add/AgregarProfesor.tsx:65-70 | a shown message for the field is blanked, and every other message is kept |
| ProfessorForms.HandleTextChange | frontend/src/pages/Profesores/_add/AgregarProfesor.tsx:56-72 | typing sets the field and blanks its message |
| ProfessorForms.EmailError | frontend/src/pages/Profesores/_add/AgregarProfesor.tsx:99-104 | a blank e-mail gets the required message, a non-matching one the malformed message, and a matching one none |
| ProfessorForms.AllFieldsComplete | frontend/src/pages/Profesores/_add/AgregarProfesor.tsx:56-72 | the five text inputs are all there are |
| ProfessorForms.Messages | frontend/src/pages/Profesores/_add/AgregarProfesor.tsx:86-114 | the errors object has an entry exactly for each field whose check fails, holding its message |
| ProfessorForms.ValidateNew | frontend/src/pages/Profesores/_add/AgregarProfesor.tsx:86-114 | names blank, e-mail blank or malformed, password blank or shorter than six each get their message; the maternal last name is never checked |
| ProfessorForms.ValidNewProfessor | frontend/src/pages/Profesores/_add/AgregarProfesor.tsx:86-114 | the form is submitted exactly when both names are filled, the e-mail matches and the password has six or more characters |
| ProfessorForms.CharRange | frontend/src/pages/Profesores/_add/AgregarProfesor.tsx:147 | `n` consecutive characters starting at the given one |
| ProfessorForms.PickIndex | frontend/src/pages/Profesores/_add/AgregarProfesor.tsx:152 | `Math.floor(r * chars.length)` always indexes the alphabet |
| ProfessorForms.PasswordFrom | frontend/src/pages/Profesores/_add/AgregarProfesor.tsx:146-156 | eight characters, each from the alphabet |
| ProfessorForms.GeneratePassword | frontend/src/pages/Profesores/_add/AgregarProfesor.tsx:146-156 | the loop builds the password the draws pick, character by character |
| ProfessorForms.PasswordCharsNotSpace | frontend/src/pages/Profesores/_add/AgregarProfesor.tsx:147 | no character of the alphabet is white space |
| ProfessorForms.GeneratedPasswordAccepted | frontend/src/pages/Profesores/_add/AgregarProfesor.tsx:107-156 | a generated password always passes the add form's password check |
| ProfessorForms.LoadProfesor | frontend/src/pages/Profesores/_list/components/EditProfesorModal.tsx:47-58 | the form takes the professor's fields and an empty password |
| ProfessorForms.EditEmailError | frontend/src/pages/Profesores/_list/components/EditProfesorModal.tsx:92-96 | the e-mail passes exactly when it is present, not blank and matches the pattern |
| ProfessorForms.ValidateEdit | frontend/src/pages/Profesores/_list/components/EditProfesorModal.tsx:77-105 | the three names and the e-mail are required, and a typed password needs six characters |
| ProfessorForms.EditSubmit | frontend/src/pages/Profesores/_list/components/EditProfesorModal.tsx:107-122 | data is sent exactly when every check passes; it holds the form's fields, and the password only when it is not blank |
| ProfessorForms.UntouchedPasswordNotSent | frontend/src/pages/Profesores/_list/components/EditProfesorModal.tsx:47-122 | saving a loaded professor untouched sends no password, so the stored one is kept |
| ProfessorForms.HandleClose | frontend/src/pages/Profesores/_list/components/EditProfesorModal.tsx:137-151 | closing is ignored while saving; otherwise the form and errors are emptied and the modal closes |
| ProfessorForms.PasswordCheck | frontend/src/pages/Profile/ChangePasswordModal.tsx:31-53 | the first failing check, in order: current password, new password, length six, confirmation; none exactly when all pass |
| ProfessorForms.SubmitPassword | frontend/src/pages/Profile/ChangePasswordModal.tsx:31-74 | a failing check only shows its message; otherwise the change is submitted, and success clears and closes the dialog while failure shows the error's message or a default |
| ProfessorForms.DialogPasswordPassesEditCheck | frontend/src/pages/Profile/ChangePasswordModal.tsx:45-51 | a password the dialog accepts also passes the edit modal's password check |
| AssignModal.UniqueId | frontend/src/pages/Profesores/_list/components/AsignarMateriasModal.tsx:161-164 | a subject is selected under its group number when that is set and non-zero, and otherwise under `class_` followed by its class id |
| AssignModal.ToggleSelection | frontend/src/pages/Profesores/_list/components/AsignarMateriasModal.tsx:173-183 | toggling removes a selected identifier and adds an unselected one, leaves every other identifier as it was, and keeps the selection free of duplicates |
| AssignModal.FilterDistinct | frontend/src/pages/Profesores/_list/components/AsignarMateriasModal.tsx:178 | filtering keeps a duplicate-free selection duplicate-free |
| AssignModal.ToggleTwice | frontend/src/pages/Profesores/_list/components/AsignarMateriasModal.tsx:173-183 | toggling an unselected subject twice restores the selection, and a selected one comes back as the same set |
| AssignModal.FindFrom | frontend/src/pages/Profesores/_list/components/AsignarMateriasModal.tsx:200 | the first position at or after the start whose row passes the test, and none exactly when no later row passes |
| AssignModal.Find | frontend/src/pages/Profesores/_list/components/AsignarMateriasModal.tsx:200 | `find` gives the first row that passes the test, and nothing exactly when no row passes |
| AssignModal.DigitPrefix | frontend/src/pages/Profesores/_list/components/AsignarMateriasModal.tsx:199 | the longest run of digits at the start of the text |
| AssignModal.JsParseInt | frontend/src/pages/Profesores/_list/components/AsignarMateriasModal.tsx:199 | `parseInt(text, 10)` skips leading white space, takes a sign, and reads a non-negative number from a leading digit |
| AssignModal.DigitPrefixOfDigits | frontend/src/pages/Profesores/_list/components/AsignarMateriasModal.tsx:199 | a run of digits is its own digit prefix |
| AssignModal.JsParseIntOfDecimal | frontend/src/pages/Profesores/_list/components/AsignarMateriasModal.tsx:199 | `parseInt` reads an optionally signed run of decimal digits as its value |
| AssignModal.JsParseIntOfIntToString | frontend/src/pages/Profesores/_list/components/AsignarMateriasModal.tsx:199 | `parseInt` reads back the number that `class_${id}` wrote |
| AssignModal.DispatchClass | frontend/src/pages/Profesores/_list/components/AsignarMateriasModal.tsx:198-206 | a class is sent exactly when some row has that class, and the body names the class |
| AssignModal.DispatchGroup | frontend/src/pages/Profesores/_list/components/AsignarMateriasModal.tsx:207-215 | a group is sent exactly when some row has that group, and the body names the group |
| AssignModal.Dispatch | frontend/src/pages/Profesores/_list/components/AsignarMateriasModal.tsx:193-219 | a `class_` identifier is read back and looked up by class, a number by group, and any other text finds nothing |
| AssignModal.ListedSubjectDispatched | frontend/src/pages/Profesores/_list/components/AsignarMateriasModal.tsx:161-219 | every listed subject that is selected is sent, a group as its group and a class as its class |
| AssignModal.AssignSelected | frontend/src/pages/Profesores/_list/components/AsignarMateriasModal.tsx:185-247 | nothing is sent without a professor or a selection; otherwise all succeed exactly when every identifier finds a row and its request succeeds |
| AssignModal.MoreSelectionNeverHelps | frontend/src/pages/Profesores/_list/components/AsignarMateriasModal.tsx:221-222 | selecting one more subject can turn success into failure but never failure into success |
| AuthContext.IsTokenExpired | frontend/src/context/AuthContext.tsx:43-64 | a token without a second segment, an undecodable payload or a `null` payload counts as expired; an object payload with an integer `exp` is expired exactly when `exp` is before the current second; a payload without `exp`, or that is not an object, never expires |
| AuthContext.ExpiryIsPermanent | frontend/src/context/AuthContext.tsx:56-59 | a token that has expired stays expired as the clock moves on |
| AuthContext.IntegerExpiry | frontend/src/context/AuthContext.tsx:56-59 | a token is live throughout the second its `exp` names and expired from the next second on |
| AuthContext.ArrayNumber | frontend/src/context/AuthContext.tsx:56-59 | an array compares as the number its joined text reads as: the empty array as 0, a one-element array as its element, two or more elements as NaN |
| AuthContext.ArrayExpiry | frontend/src/context/AuthContext.tsx:56-59 | an `exp` wrapped in a one-element array expires exactly when the bare number would; `[]` reads as 0; a two-element array never expires |
| AuthContext.IsUserDataComplete | frontend/src/context/AuthContext.tsx:67-87 | the data is complete exactly when there is a user and each of id, name, lastname_f, email and rol is neither missing nor null |
| AuthContext.AllPresent | frontend/src/context/AuthContext.tsx:79-84 | the loop passes exactly when every listed field is present and not null |
| AuthContext.MaternalLastNameIrrelevant | frontend/src/context/AuthContext.tsx:71-77 | the maternal last name, whatever it holds or whether it is there, never changes completeness |
| AuthContext.ServerProfileComplete | frontend/src/context/AuthContext.tsx:67-87 | the profile the server answers with is complete exactly when the stored row has no null among the required columns |
| AuthContext.GetCookie | frontend/src/context/AuthContext.tsx:90-95 | a value is found exactly when splitting on the marker gives two pieces, and it never contains `;` |
| AuthContext.SplitAtOccurrence | frontend/src/context/AuthContext.tsx:92 | any occurrence of the separator makes `split` give more than one piece |
| AuthContext.CookieAbsent | frontend/src/context/AuthContext.tsx:90-95 | without the marker there is no cookie |
| AuthContext.CookieFound | frontend/src/context/AuthContext.tsx:90-95 | when the marker occurs once, the value is the text after it up to the next `;` |
| AuthContext.SplitTwoOccurrences | frontend/src/context/AuthContext.tsx:92 | two separate occurrences of the separator give at least three pieces |
| AuthContext.CookieAmbiguous | frontend/src/context/AuthContext.tsx:90-95 | with two separate occurrences of the marker there is no cookie either |
| ProfileViews.Guard | frontend/src/components/RouteProtection/RoleProtectedRoute.tsx:17-47 | the spinner exactly while initialising; then the page exactly for a user whose role is allowed, and otherwise a redirect to the given target or `/Home` |
| ProfileViews.ServerProfilePassesGuard | frontend/src/components/RouteProtection/RoleProtectedRoute.tsx:37-46 | a user whose profile comes from the server passes the guard exactly when the stored role is listed |
| ProfileViews.MoreRolesKeepAccess | frontend/src/components/RouteProtection/RoleProtectedRoute.tsx:37 | allowing more roles never locks out a user who was let in |
| ProfileViews.UpperOf | frontend/src/pages/Profile/Profile.tsx:11-13 | upper-casing a letter gives one character, except `ß`, which gives two; ASCII small letters become capitals and capitals stay |
| ProfileViews.UpperIdempotent | frontend/src/pages/Profile/Profile.tsx:11-13 | upper-casing an upper-cased character again changes nothing |
| ProfileViews.InitialOf | frontend/src/pages/Profile/Profile.tsx:11-14 | a missing or empty name gives no initial, and otherwise its first character upper-cased |
| ProfileViews.UserInitials | frontend/src/pages/Profile/Profile.tsx:8-20 | `U` without a user or without either initial; otherwise the first name's initial followed by the last name's |
| ProfileViews.InitialsLength | frontend/src/pages/Profile/Profile.tsx:8-20 | the initials are never empty, and at most two characters unless a name starts with `ß` |
| ProfileViews.SharpSInitials | frontend/src/pages/Profile/Profile.tsx:8-20 | two names starting with `ß` give four letters of initials |
| ProfileViews.RoleLabel | frontend/src/pages/Profile/Profile.tsx:79-83 | role 1 is labelled Administrador, role 2 Administrativo, and anything else Profesor |
| SubjectsList.IncludesIffOccurs | frontend/src/pages/index/components/SubjectsList/SubjectsList.tsx:25 | `includes` finds a substring exactly when it occurs somewhere |
| SubjectsList.SubjectIcon | frontend/src/pages/index/components/SubjectsList/SubjectsList.tsx:24-31 | a name with Español gets the book; otherwise Matemáticas gets the calculator, then Ciencias the flask, and anything else the book |
| SubjectsList.SpanishWinsOverMathematics | frontend/src/pages/index/components/SubjectsList/SubjectsList.tsx:24-31 | a name that mentions both Spanish and mathematics gets the book, because Spanish is checked first |
| SubjectsList.PlainNameGetsBook | frontend/src/pages/index/components/SubjectsList/SubjectsList.tsx:24-31 | a name that mentions neither mathematics nor sciences gets the book |
| SubjectsList.GroupNames | frontend/src/pages/index/components/SubjectsList/SubjectsList.tsx:59-65 | the table has a key exactly for each loaded group id, holding the name of the last group with that id |
| SubjectsList.GroupHeading | frontend/src/pages/index/components/SubjectsList/SubjectsList.tsx:84 | the heading is never empty, and any heading but the fallback is the table's name for the id |
| SubjectsList.HeadingIsLastName | frontend/src/pages/index/components/SubjectsList/SubjectsList.tsx:59-84 | a bucket is headed by the name of the last loaded group with its id, or by the fallback when that name is missing or empty |
| SubjectsList.UnmatchedGroupIsUnknown | frontend/src/pages/index/components/SubjectsList/SubjectsList.tsx:59-84 | a bucket whose id matches no loaded group is headed "Grupo desconocido" |
| SubjectsList.BucketIndex | frontend/src/pages/index/components/SubjectsList/SubjectsList.tsx:69 | the position of the bucket for a group id, and none exactly when no bucket has it |
| SubjectsList.AddSubject | frontend/src/pages/index/components/SubjectsList/SubjectsList.tsx:67-76 | one step of the reduction opens at most one new bucket |
| SubjectsList.GroupSubjects | frontend/src/pages/index/components/SubjectsList/SubjectsList.tsx:67-76 | the reduction never makes more buckets than there are subjects |
| SubjectsList.AddSubjectShape | frontend/src/pages/index/components/SubjectsList/SubjectsList.tsx:67-76 | a step pushes the subject onto its group's bucket, or opens a bucket at the end for it, and leaves the other buckets alone |
| SubjectsList.AddSubjectKeys | frontend/src/pages/index/components/SubjectsList/SubjectsList.tsx:67-76 | a step keeps the bucket ids distinct and every subject's group covered |
| SubjectsList.AddSubjectFilters | frontend/src/pages/index/components/SubjectsList/SubjectsList.tsx:67-76 | a step keeps every bucket equal to its group's subjects in list order |
| SubjectsList.AddSubjectGroups | frontend/src/pages/index/components/SubjectsList/SubjectsList.tsx:67-76 | a step keeps the grouping faithful to the longer list |
| SubjectsList.GroupSubjectsGroups | frontend/src/pages/index/components/SubjectsList/SubjectsList.tsx:67-76 | each subject lands in exactly its group's bucket, in list order, with one bucket per id |
| SubjectsList.SubjectInItsBucketOnly | frontend/src/pages/index/components/SubjectsList/SubjectsList.tsx:67-76 | a subject is in a bucket exactly when the bucket is its group's |
| SubjectsList.AddSubjectPermutes | frontend/src/pages/index/components/SubjectsList/SubjectsList.tsx:67-76 | a step adds exactly the new subject to the buckets' contents |
| SubjectsList.GroupSubjectsPermutes | frontend/src/pages/index/components/SubjectsList/SubjectsList.tsx:67-76 | the buckets together hold every subject exactly as often as the list does |
| SubjectsList.OneBucketPerGroup | frontend/src/pages/index/components/SubjectsList/SubjectsList.tsx:67-76 | there is a bucket for a group id exactly when some subject has that id |
| SubjectsList.NonEmptyBuckets | frontend/src/pages/index/components/SubjectsList/SubjectsList.tsx:67-76 | no bucket is empty |

## Left out

- Input and output, the network, the database driver and connection handling are not modelled. Each route is a function from the database and the request to the new database and the response.
- Token signing (`create_access_token`, `decode_token`), bcrypt hashing and checking, `datetime.strptime`, PostgreSQL's `::date` cast, `parseFloat`/`Number`, base64 payload decoding and the clock are parameters, because their code is library code outside this repository.
- `@jwt_required()` (backend/routes/user_routes.py:14, 87, 117, 174, 263, 296, 430, 501, 605; backend/routes/auth_routes.py:154) answers 401 before the handler runs when the request carries no valid access token. The model assumes an authenticated request and starts each of these routes at the handler's first line.
- Schema.ColumnValue: the database schema is not in the repository, so column types are inferred from use. The `usuarios` names, email, password and profesor_type, the `student` names, the `family` columns and `class.name` are text; `usuarios.rol`, `student.family_id`, `"group".class_id` and `"group".professor_id` are integers; `student.birth_date`, `student.grade` and `"group".grade` keep the value as sent. In a text column a float and a non-empty list are kept as sent, although PostgreSQL stores their text. The 32-bit range of an integer column is not modelled, and numeric text is read with the rules of Python's `int()`.
- StudentRepository.CreateStudent, StudentRepository.UpdateStudent, StudentRepository.CreateFamily, UserRepository.CreateUser, UserRepository.UpdateUser, SubjectRepository.CreateSubject, SubjectRepository.CreateGroup, AuthService.Register, StudentService.RegisterStudent, StudentService.UpdateStudentData, UserRoutes.CreateUsuario, UserRoutes.UpdateUsuario: the stored values are those of `Schema.ColumnValue`, with the gaps listed for it.
- UserRoutes.CreateUsuario, UserRoutes.UpdateUsuario, UserRoutes.AsignarMateria, UserRoutes.DesasignarMateria, AuthRoutes.LoginRoute, AuthRoutes.ChangePasswordRoute, GradesRoutes.SaveGrades, AttendanceRoutes.SaveAttendance: the request body is a JSON object or none. A body that is a JSON list, text, number or boolean is not modelled for these routes. Python's `in`, `.get` and indexing then give a 400 for a field the list or text does not contain, or raise and answer 500 (`/login` with the list body `["email", "password"]` raises at `data["email"]`). The decorators in `Validators` do model such bodies.
- CORS decorators, `OPTIONS` answers, caches, logging and `print` statements have no effect on outcomes, so they are not modelled.
- Result order: `ORDER BY full_name` (grades and attendance reads and reports) and `ORDER BY c.name` (available subjects) are modelled as ascending id, like every unordered query. Collation order is not modelled.
- Schema.IntColumnParam: PostgreSQL's reading of a text `group_id` as an integer is modelled with the rules of Python's `int()` (surrounding white space, a sign, digits with single underscores between them). Other forms the database may accept, such as the hexadecimal and binary prefixes of recent PostgreSQL versions, are not modelled.
- Common.ParseInt: Python's `int()` also accepts decimal digits of other scripts (such as Arabic-Indic digits). Only ASCII digits are modelled.
- The JWT `/refresh`, `/logout` and `/profile` routes (backend/routes/auth_routes.py:62-104) are not modelled. They only echo the token identity or a fixed message.
- `get_materias_profesor` (backend/routes/user_routes.py:295-427) and `get_all_groups` (backend/routes/user_routes.py:652-702) are read-only joins that format rows. They are not modelled.
- `downloadGradesReport` in frontend/src/hooks/useGetGrades.ts only downloads a file. It is not modelled.
- Navigation, rendering, toasts and loading flags in the client are not modelled, except where a flag decides an outcome.
- `groupedSubjects` in frontend/src/pages/index/components/SubjectsList/SubjectsList.tsx builds a JavaScript object whose integer keys enumerate in ascending order. The model keeps the buckets in order of first appearance and proves their contents.
- Group membership: the grades and attendance routes read the `history` table, but no backend file of this model writes it. Active membership is therefore an input, the set `School.active` of (student, group) pairs, and no modelled operation changes it.
- AuthRoutes.ChangePasswordRouteAgreesWithService: stated only for bodies that hold exactly the two password keys.
- AuthContext.IsTokenExpired: its contract states the outcome for an integer `exp` only. Real, string, boolean, null and array `exp` are modelled in the body, through `numberOf` and `AuthContext.ArrayNumber`; arrays are stated separately by `AuthContext.ArrayExpiry`. An object `exp` reads as NaN and never expires.
- UserRoutes.AvailableGroupIff: `get_materias_disponibles` is stated through this lemma and `UserRoutes.GrouplessClassIff` rather than through a contract on `UserRoutes.MateriasDisponibles` itself.
- ProfileViews.InitialOf: `charAt(0)` (frontend/src/pages/Profile/Profile.tsx:11-14) takes the first UTF-16 code unit, so a name starting with a character above U+FFFF gives a lone surrogate. A Dafny `char` cannot hold a surrogate, so the model takes the whole first character there. `toUpperCase` is modelled for ASCII and Latin-1 letters only.
- ProfileViews.UserInitials: built on `ProfileViews.InitialOf`, so a name starting above U+FFFF gives its whole first character where the page shows a lone surrogate. `toUpperCase` is modelled for ASCII and Latin-1 letters only. A name starting with `ß` upper-cases to two letters, so initials can be longer than two characters (`ProfileViews.SharpSInitials`).
- Attendance with two records for the same student: the code inserts one row per record, so two records for one student give two rows for the same day. The model follows the code; the read then shows the later one (`AttendanceRoutes.BatchSaveThenRead`).
- GradesRoutes.SaveGrades: built on the corrected loop `GradesRoutes.SaveAll`, which skips a record the database rejects and goes on with the next one. As written, the program also loses every later record of the batch (see "## Findings" and `GradesRoutes.SaveAllAsWritten`).
- Common.PyStr: Python's `str()` is modelled for `None`, booleans, integers and text only; a float, list or dict renders as the empty string. A float or non-empty list kept as sent in a text column (see `Schema.ColumnValue`), or a float grade, therefore gives the group name `1 - ` in `AttendanceRoutes.GroupName` and `GradesRoutes.GradesReport`, where the program prints the text PostgreSQL returns (`1 - 1.5`). The not-found messages of `StudentRepository` and `UserRepository` render a float id the same way. Python prints a float with its shortest round-trip decimal form, which exact reals cannot reproduce.
- AttendanceRoutes.GroupName: built on `Common.PyStr`, so a float, list or dict grade or class name shows as the empty string (backend/routes/attendance_routes.py:379). Text and integer names are exact.
- GradesRoutes.GradesReport: the group name is built on `Common.PyStr` as in `AttendanceRoutes.GroupName`, so a float, list or dict grade or class name shows as the empty string (backend/routes/grades_routes.py:394). Text and integer names are exact.
- GradesHooks.RoundHundredths, GradesHooks.EditedRow, DraftGrades.TenthsHalfUp, DraftGrades.ToTenths, DraftGrades.CalculateFinalGrades: the client computes the weighted score as an IEEE double and rounds that double, while the model rounds the exact real. The two differ on half-way values. With `class_participation` 1.5 and the other components 0, frontend/src/hooks/useGetGrades.ts:111-120 computes 0.22499999999999998 and shows 0.22, where the model gives 0.23. With `exam1` 0.6 and the other scores 0, `toFixed(1)` at frontend/src/hooks/useGrades.ts:177-184 reads 0.15 as 0.1499999… and gives 0.1, where the model gives 0.2; `exam1` 1.4 gives 0.3 against the model's 0.4. `RoundHundredths(1.005)` is 1.01, but `Math.round(1.005 * 100) / 100` is 1. The server's weighted score is likewise an exact real here.
- Exception texts: several 400 and 500 answers append the exception's text to the message (`": {e}"`) or carry it under an `"error"` key (backend/routes/attendance_routes.py:189-193, 226-229, 300-303, 316-322; backend/routes/grades_routes.py:186-188, 319-322, 334-339; backend/routes/user_routes.py:84, 114, 171, 260, 293, 498, 602, 650; backend/routes/auth_routes.py:60, 151, 191; backend/services/auth_service.py:64-67). That text comes from Python, psycopg2 and PostgreSQL, so the model keeps the fixed message and leaves the exception text and the `"error"` key out.
- TeacherService.GetTeacherSubjects: returns the list that the service wraps as `{"materias": …}` (backend/services/teacher_service.py:31, 35); the one-key wrapper is not modelled.
- TeacherService.GetSubjectDetails: returns the group's dictionary that the service wraps as `{"group": …}` (backend/services/teacher_service.py:60); the one-key wrapper is not modelled.
- AuthService.ChangePassword: the service raises NotFound for a missing user, while the route answers 401 for the same case. Both are modelled as written.
- DraftGrades.HandleGradeChange: `GradesTable` passes `row.student_id` and field names such as `class_participation` to `useGrades`' `updateGrade`. That hook matches on `item.id` and knows only the fields `exam1`, `exam2`, `project` and `participation`. The model takes the id and the field as given and does not reconcile the two vocabularies.
- StudentForms.EditSubmit: the edit hook keeps `curp`, `genero`, `fechaNacimiento`, `sep_register` and `cpdb_register` in its state but never validates or sends them, so the model leaves them out.

## Findings

| source | as written | input that shows it | evidently intended | confidence | as-written member | corrected member |
|---|---|---|---|---|---|---|
| backend/routes/grades_routes.py:311-315 | a record whose statement fails is caught and skipped without a rollback, so the PostgreSQL transaction stays aborted and every later statement of the batch fails; only the records before the failure are kept | a batch whose first record has a boolean score (the arithmetic succeeds but the insert fails) followed by a valid record for another active student | a failed record is skipped and the remaining records are still saved | medium, not executed | GradesRoutes.SaveAllAsWritten, exhibited by GradesRoutes.AbortedTransactionLosesLaterRecords | GradesRoutes.SaveAll |

=== FILE: assign_modal.dfy ===
// The dialog that assigns subjects to a professor
// (frontend/src/pages/Profesores/_list/components/AsignarMateriasModal.tsx):
// the identifier each listed subject is selected under, toggling a
// selection, and turning the selection back into assignment requests.

module AssignModal {
  import opened Common
  import ProfesoresHook

  /** A row of the subject list: a group when `group_id` is set, otherwise a class not yet given a group. */
  datatype Materia = Materia(groupId: Option<int>, grado: string, classId: int, className: string)

  /** A selection identifier: a group's number, or the text `class_<id>`. */
  datatype SelectionId = Num(n: int) | Text(s: string)

  const ClassPrefix := "class_"

  /** `materia.group_id || \`class_${materia.class_id}\``: a missing or zero group id falls back to the class. */
  function UniqueId(m: Materia): (u: SelectionId)
    ensures u.Num? <==> m.groupId.Some? && m.groupId.value != 0
    ensures u.Num? ==> u.n == m.groupId.value
    ensures u.Text? ==> u.s == ClassPrefix + IntToString(m.classId)
  {
    if m.groupId.Some? && m.groupId.value != 0 then Num(m.groupId.value) else Text(ClassPrefix + IntToString(m.classId))
  }

  /** `isMateriaSelected(materia)`. */
  predicate IsSelected(selected: seq<SelectionId>, m: Materia)
  {
    UniqueId(m) in selected
  }

  /** No element occurs twice; for a selection, no identifier is selected twice. */
  predicate Distinct<T(==)>(xs: seq<T>)
  {
    forall i, j :: 0 <= i < j < |xs| ==> xs[i] != xs[j]
  }

  /** `handleToggleMateria`: a selected identifier is filtered out; another is appended. */
  function ToggleSelection(selected: seq<SelectionId>, id: SelectionId): (r: seq<SelectionId>)
    ensures id in r <==> id !in selected
    ensures forall x :: x != id ==> (x in r <==> x in selected)
    ensures Distinct(selected) ==> Distinct(r)
  {
    if id in selected then
      var keep := x => x != id;
      FilterDistinct(selected, keep);
      Filter(selected, keep)
    else selected + [id]
  }

  /** Filtering keeps a list free of duplicates. */
  lemma {:induction false} FilterDistinct<T>(xs: seq<T>, keep: T -> bool)
    ensures Distinct(xs) ==> Distinct(Filter(xs, keep))
  {
    if |xs| > 0 && Distinct(xs) {
      var tail := xs[1..];
      assert Distinct(tail) by {
        forall i, j | 0 <= i < j < |tail| ensures tail[i] != tail[j] {
          assert tail[i] == xs[i + 1] && tail[j] == xs[j + 1];
        }
      }
      FilterDistinct(tail, keep);
      var rest := Filter(tail, keep);
      assert xs[0] !in tail by {
        forall k | 0 <= k < |tail| ensures tail[k] != xs[0] {
          assert tail[k] == xs[k + 1];
        }
      }
      if keep(xs[0]) {
        var r := Filter(xs, keep);
        assert r == [xs[0]] + rest;
        forall i, j | 0 <= i < j < |r| ensures r[i] != r[j] {
          if i == 0 {
            assert r[j] == rest[j - 1] && rest[j - 1] in tail;
          } else {
            assert r[i] == rest[i - 1] && r[j] == rest[j - 1];
          }
        }
      }
    }
  }

  /** Toggling an unselected subject twice restores the selection; a selected one comes back as a set. */
  lemma ToggleTwice(selected: seq<SelectionId>, id: SelectionId)
    ensures id !in selected ==> ToggleSelection(ToggleSelection(selected, id), id) == selected
    ensures forall x :: x in ToggleSelection(ToggleSelection(selected, id), id) <==> x in selected
  {
    if id !in selected {
      var once := selected + [id];
      FilterAppend(selected, [id], x => x != id);
      FilterAllKept(selected, x => x != id);
      assert Filter([id], x => x != id) == [];
    }
  }

  /** The position of the first row at or after `from` that passes the test. */
  function FindFrom(materias: seq<Materia>, test: Materia -> bool, from: nat): (r: Option<nat>)
    requires from <= |materias|
    ensures r.Some? ==> from <= r.value < |materias| && test(materias[r.value])
    ensures r.Some? ==> forall j :: from <= j < r.value ==> !test(materias[j])
    ensures r.None? <==> forall j :: from <= j < |materias| ==> !test(materias[j])
    decreases |materias| - from
  {
    if from == |materias| then None
    else if test(materias[from]) then Some(from)
    else FindFrom(materias, test, from + 1)
  }

  /** `materias.find(test)`: the first row passing the test. */
  function Find(materias: seq<Materia>, test: Materia -> bool): (r: Option<Materia>)
    ensures r.None? <==> forall i :: 0 <= i < |materias| ==> !test(materias[i])
    ensures r.Some? ==> test(r.value)
    ensures r.Some? ==> exists i :: 0 <= i < |materias| && materias[i] == r.value && forall j :: 0 <= j < i ==> !test(materias[j])
  {
    match FindFrom(materias, test, 0)
    case Some(i) => Some(materias[i])
    case None => None
  }

  // ---------------------------------------------------------------------
  // `parseInt(text, 10)`

  /** The longest run of decimal digits at the start of `s`. */
  function DigitPrefix(s: string): (d: string)
    ensures |d| <= |s|
    ensures AllDigits(d) && d == s[..|d|]
    ensures |d| == |s| || !IsDigit(s[|d|])
  {
    if |s| > 0 && IsDigit(s[0]) then [s[0]] + DigitPrefix(s[1..]) else ""
  }

  /**
   * `parseInt(text, 10)`: leading white space is skipped, a sign is
   * accepted, and the longest run of digits after it is read; without a
   * digit the result is NaN (`None`).
   */
  function JsParseInt(text: string): (r: Option<int>)
    ensures var t := TrimStart(text);
      r.Some? ==> |t| > 0 && (IsDigit(t[0]) || ((t[0] == '-' || t[0] == '+') && |t| > 1 && IsDigit(t[1])))
    ensures var t := TrimStart(text); |t| > 0 && IsDigit(t[0]) ==> r.Some? && r.value >= 0
  {
    var t := TrimStart(text);
    var negative := |t| > 0 && t[0] == '-';
    var rest := if |t| > 0 && (t[0] == '-' || t[0] == '+') then t[1..] else t;
    var d := DigitPrefix(rest);
    if d == "" then None else Some(if negative then -(DigitsValue(d) as int) else DigitsValue(d))
  }

  /** A run of digits is its own digit prefix. */
  lemma {:induction false} DigitPrefixOfDigits(s: string)
    requires AllDigits(s)
    ensures DigitPrefix(s) == s
  {
    if |s| > 0 {
      DigitPrefixOfDigits(s[1..]);
    }
  }

  /** A non-empty run of digits reads as its value. */
  lemma JsParseIntOfDigits(d: string)
    requires AllDigits(d) && d != ""
    ensures JsParseInt(d) == Some(DigitsValue(d) as int)
  {
    assert !IsJsWs(d[0]);
    assert TrimStart(d) == d;
    assert d[0] != '-' && d[0] != '+';
    DigitPrefixOfDigits(d);
  }

  /** Leading white space is all `TrimStart` drops: a minus sign in front stops it at once. */
  lemma TrimStartKeepsSign(d: string)
    ensures TrimStart("-" + d) == "-" + d
  {
    var m := "-" + d;
    assert m[0] == '-' && !IsJsWs(m[0]);
  }

  /** A minus sign followed by a non-empty run of digits reads as the negated value. */
  lemma JsParseIntOfNegative(d: string)
    requires AllDigits(d) && d != ""
    ensures JsParseInt("-" + d) == Some(-(DigitsValue(d) as int))
  {
    TrimStartKeepsSign(d);
    DigitPrefixOfDigits(d);
    assert ("-" + d)[1..] == d;
  }

  /** `parseInt` reads back any decimal text, signed or not. */
  lemma JsParseIntOfDecimal(s: string, n: int)
    requires DecimalText(s, n)
    ensures JsParseInt(s) == Some(n)
  {
    if n < 0 {
      assert s == "-" + s[1..];
      JsParseIntOfNegative(s[1..]);
    } else {
      JsParseIntOfDigits(s);
    }
  }

  /** `parseInt` reads back what `String(n)` writes. */
  lemma JsParseIntOfIntToString(n: int)
    ensures JsParseInt(IntToString(n)) == Some(n)
  {
    IntToStringIsDecimal(n);
    JsParseIntOfDecimal(IntToString(n), n);
  }

  // ---------------------------------------------------------------------
  // Sending the selection

  /** What one selected identifier turns into: an assignment request's body, or nothing found. */
  datatype Action = Send(body: Dict) | NotFound

  /** A class identifier read back: the first row of that class is assigned as a class; NaN matches no row. */
  function DispatchClass(materias: seq<Materia>, classId: Option<int>): (a: Action)
    ensures a.Send? <==> classId.Some? && exists i :: 0 <= i < |materias| && materias[i].classId == classId.value
    ensures a.Send? ==> a.body == map["class_id" := Int(classId.value)]
  {
    match Find(materias, (m: Materia) => classId.Some? && m.classId == classId.value)
    case Some(m) => Send(ProfesoresHook.AssignBody(m.classId, Some(true)))
    case None => NotFound
  }

  /** A group number: the first row of that group is assigned as a group. */
  function DispatchGroup(materias: seq<Materia>, n: int): (a: Action)
    ensures a.Send? <==> exists i :: 0 <= i < |materias| && materias[i].groupId == Some(n)
    ensures a.Send? ==> a.body == map["group_id" := Int(n)]
  {
    match Find(materias, (m: Materia) => m.groupId == Some(n))
    case Some(m) => Send(ProfesoresHook.AssignBody(m.groupId.value, Some(false)))
    case None => NotFound
  }

  /**
   * The request for one selected identifier: `class_<id>` is read back with
   * `parseInt` and looked up by class, a number by group; any other text
   * finds nothing.
   */
  function Dispatch(materias: seq<Materia>, id: SelectionId): (a: Action)
    ensures id.Num? ==> a == DispatchGroup(materias, id.n)
    ensures id.Text? && StartsWith(id.s, ClassPrefix) ==> a == DispatchClass(materias, JsParseInt(id.s[|ClassPrefix|..]))
    ensures id.Text? && !StartsWith(id.s, ClassPrefix) ==> a == NotFound
  {
    match id
    case Text(s) => if StartsWith(s, ClassPrefix) then DispatchClass(materias, JsParseInt(s[|ClassPrefix|..])) else NotFound
    case Num(n) => DispatchGroup(materias, n)
  }

  /** Every listed subject that is selected is sent: a group as its group, a class as its class. */
  lemma ListedSubjectDispatched(materias: seq<Materia>, k: int)
    requires 0 <= k < |materias|
    ensures var m := materias[k];
      Dispatch(materias, UniqueId(m)) ==
        if UniqueId(m).Num? then Send(map["group_id" := Int(m.groupId.value)])
        else Send(map["class_id" := Int(m.classId)])
  {
    var m := materias[k];
    var u := UniqueId(m);
    if u.Text? {
      var text := IntToString(m.classId);
      assert u.s[..|ClassPrefix|] == ClassPrefix;
      assert u.s[|ClassPrefix|..] == text;
      JsParseIntOfIntToString(m.classId);
      assert materias[k].classId == m.classId;
    } else {
      assert materias[k].groupId == Some(u.n);
    }
  }

  /** How `handleAsignarMaterias` ends. */
  datatype AssignOutcome =
    | Skipped            // no professor or an empty selection: nothing is sent
    | AllAssigned        // every request succeeded: the parent is told and the dialog closes
    | NotAllAssigned     // "No se pudieron asignar todas las materias"

  /**
   * `handleAsignarMaterias()`: one request per selected identifier; `send`
   * stands for the answer of `asignarMateriaProfesor` to a body, and an
   * identifier with no matching row counts as a failure.
   */
  function AssignSelected(profesorId: Option<int>, selected: seq<SelectionId>, materias: seq<Materia>, send: Dict -> bool): (r: AssignOutcome)
    ensures r == Skipped <==> profesorId.None? || profesorId.value == 0 || |selected| == 0
    ensures r == AllAssigned <==>
      profesorId.Some? && profesorId.value != 0 && |selected| > 0
      && forall i :: 0 <= i < |selected| ==> Dispatch(materias, selected[i]).Send? && send(Dispatch(materias, selected[i]).body)
  {
    if profesorId.None? || profesorId.value == 0 || |selected| == 0 then Skipped
    else if forall i :: 0 <= i < |selected| ==> Dispatch(materias, selected[i]).Send? && send(Dispatch(materias, selected[i]).body) then AllAssigned
    else NotAllAssigned
  }

  /** Selecting one more listed subject can only turn success into failure, never the reverse. */
  lemma MoreSelectionNeverHelps(profesorId: Option<int>, selected: seq<SelectionId>, materias: seq<Materia>, send: Dict -> bool, id: SelectionId)
    requires |selected| > 0
    requires AssignSelected(profesorId, selected, materias, send) == NotAllAssigned
    ensures AssignSelected(profesorId, selected + [id], materias, send) == NotAllAssigned
  {
    var i :| 0 <= i < |selected| && !(Dispatch(materias, selected[i]).Send? && send(Dispatch(materias, selected[i]).body));
    assert (selected + [id])[i] == selected[i];
  }
}

=== FILE: attendance_hook.dfy ===
// The attendance page's working copy (frontend/src/hooks/useGetAttendance.ts):
// toggling one student's mark and marking everybody present or absent.

module AttendanceHook {

  datatype Mark = Mark(id: int, studentId: int, studentName: string, date: string, present: bool)

  /** The two rows agree on every field except possibly `present`. */
  predicate SameButPresence(a: Mark, b: Mark)
  {
    a.id == b.id && a.studentId == b.studentId && a.studentName == b.studentName && a.date == b.date
  }

  /** `toggleAttendance(id)`: the rows with that id flip their mark; every other row is kept. */
  function Toggle(marks: seq<Mark>, id: int): (r: seq<Mark>)
    ensures |r| == |marks|
    ensures forall i :: 0 <= i < |marks| ==> SameButPresence(r[i], marks[i])
    ensures forall i :: 0 <= i < |marks| ==> (r[i].present <==> (marks[i].id == id) != marks[i].present)
  {
    seq(|marks|, i requires 0 <= i < |marks| => if marks[i].id == id then marks[i].(present := !marks[i].present) else marks[i])
  }

  /** Toggling the same id twice restores the list. */
  lemma ToggleTwice(marks: seq<Mark>, id: int)
    ensures Toggle(Toggle(marks, id), id) == marks
  {
    var twice := Toggle(Toggle(marks, id), id);
    assert forall i :: 0 <= i < |marks| ==> twice[i] == marks[i];
  }

  /** Toggles of different ids commute. */
  lemma TogglesCommute(marks: seq<Mark>, a: int, b: int)
    ensures Toggle(Toggle(marks, a), b) == Toggle(Toggle(marks, b), a)
  {
    var ab := Toggle(Toggle(marks, a), b);
    var ba := Toggle(Toggle(marks, b), a);
    assert forall i :: 0 <= i < |marks| ==> ab[i] == ba[i];
  }

  /** `setAllPresent()` and `setAllAbsent()`: every row gets the given mark, nothing else changes. */
  function SetAll(marks: seq<Mark>, present: bool): (r: seq<Mark>)
    ensures |r| == |marks|
    ensures forall i :: 0 <= i < |marks| ==> SameButPresence(r[i], marks[i]) && r[i].present == present
  {
    seq(|marks|, i requires 0 <= i < |marks| => marks[i].(present := present))
  }

  /** Marking everybody twice is marking once, and the last such call decides every mark. */
  lemma SetAllIdempotent(marks: seq<Mark>, p: bool, q: bool)
    ensures SetAll(SetAll(marks, p), p) == SetAll(marks, p)
    ensures SetAll(SetAll(marks, p), q) == SetAll(marks, q)
  {
    assert forall i :: 0 <= i < |marks| ==> SetAll(SetAll(marks, p), q)[i] == SetAll(marks, q)[i];
  }

  /** After marking everybody, a toggle leaves exactly the rows with that id with the opposite mark. */
  lemma ToggleAfterSetAll(marks: seq<Mark>, p: bool, id: int)
    ensures forall i :: 0 <= i < |marks| ==> (Toggle(SetAll(marks, p), id)[i].present <==> (marks[i].id == id) != p)
  {
  }
}

=== FILE: attendance_routes.dfy ===
// The attendance endpoints (backend/routes/attendance_routes.py): saving a
// day's attendance by deleting the group's rows for that day and inserting
// one row per submitted record, reading a day with absent fill-in, and the
// report's cells. Dates are day numbers; `parseDate` stands for
// `datetime.strptime(date, '%Y-%m-%d')` and `castDate` for PostgreSQL's
// `%s::date` cast of a date text; both are parameters of the model.

module AttendanceRoutes {
  import opened Common
  import opened Tables
  import opened Errors
  import opened Schema

  // ---------------------------------------------------------------------
  // Inserting rows in order

  /** Inserting `rows` one after the other: they get consecutive fresh ids, in order. */
  function InsertAll(t: Table<AttendanceRow>, rows: seq<AttendanceRow>): (u: Table<AttendanceRow>)
    requires Valid(t)
    ensures Valid(u) && u.next == t.next + |rows|
    ensures forall k :: k in u.rows <==> k in t.rows || t.next <= k < t.next + |rows|
    ensures forall k :: k in t.rows ==> u.rows[k] == t.rows[k]
    ensures forall i :: 0 <= i < |rows| ==> u.rows[t.next + i] == rows[i]
    decreases |rows|
  {
    if |rows| == 0 then t
    else
      var (t1, k) := Insert(t, rows[0]);
      var u := InsertAll(t1, rows[1..]);
      assert forall i :: 1 <= i < |rows| ==> rows[i] == rows[1..][i - 1];
      u
  }

  // ---------------------------------------------------------------------
  // POST /api/asistencia/guardar

  /** A row of group `g` on day `day` for a student active in the group: what a save replaces. */
  predicate Replaced(row: AttendanceRow, active: set<int>, g: int, day: int)
  {
    row.studentId in active && row.groupId == g && row.day == day
  }

  /** `bool(record.get('present', False))`. */
  function PresentOf(rec: Dict): (p: bool)
    ensures "present" !in rec ==> !p
    ensures "present" in rec ==> (p <==> Truthy(rec["present"]))
  {
    Truthy(Get(rec, "present", Bool(false)))
  }

  /** A record the insert loop turns into a row: an object naming a student active in the group. */
  predicate Accepts(v: Value, active: set<int>)
  {
    v.Obj? && AcceptedStudent(Get(v.fields, "student_id", Null), active)
  }

  /** The student an accepted record names. */
  function StudentNo(v: Value, active: set<int>): (s: int)
    requires Accepts(v, active)
    ensures s in active
  {
    NumericKey(Get(v.fields, "student_id", Null)).value
  }

  /** The row an accepted record inserts. */
  function RowOf(v: Value, active: set<int>, g: int, day: int): (row: AttendanceRow)
    requires Accepts(v, active)
    ensures Replaced(row, active, g, day) && row.studentId == StudentNo(v, active) && row.present == PresentOf(v.fields)
  {
    AttendanceRow(StudentNo(v, active), g, day, PresentOf(v.fields))
  }

  /** How many records of `records` the insert loop accepts. */
  function CountAccepted(records: seq<Value>, active: set<int>): (n: nat)
    ensures n <= |records|
    decreases |records|
  {
    if |records| == 0 then 0
    else (if Accepts(records[0], active) then 1 else 0) + CountAccepted(records[1..], active)
  }

  /**
   * The rows a batch inserts: one per accepted record, in the batch's order,
   * so the accepted record at position `i` gives the row after the
   * `CountAccepted(records[..i])` rows of the records before it. Two records
   * for the same student give two rows.
   */
  function NewRows(records: seq<Value>, active: set<int>, g: int, day: int): (rows: seq<AttendanceRow>)
    ensures |rows| == CountAccepted(records, active)
    ensures forall i :: 0 <= i < |records| && Accepts(records[i], active) ==>
      CountAccepted(records[..i], active) < |rows| && rows[CountAccepted(records[..i], active)] == RowOf(records[i], active, g, day)
    ensures forall i :: 0 <= i < |rows| ==> Replaced(rows[i], active, g, day)
    decreases |records|
  {
    if |records| == 0 then []
    else
      var rest := NewRows(records[1..], active, g, day);
      var rows := if Accepts(records[0], active) then [RowOf(records[0], active, g, day)] + rest else rest;
      NewRowsStep(records, active, g, day, rest, rows);
      rows
  }

  /** The inductive step of `NewRows`: the head record's row, if any, goes in front of the rest. */
  lemma NewRowsStep(records: seq<Value>, active: set<int>, g: int, day: int, rest: seq<AttendanceRow>, rows: seq<AttendanceRow>)
    requires |records| > 0
    requires |rest| == CountAccepted(records[1..], active)
    requires forall i :: 0 <= i < |records[1..]| && Accepts(records[1..][i], active) ==>
      CountAccepted(records[1..][..i], active) < |rest| && rest[CountAccepted(records[1..][..i], active)] == RowOf(records[1..][i], active, g, day)
    requires rows == if Accepts(records[0], active) then [RowOf(records[0], active, g, day)] + rest else rest
    ensures |rows| == CountAccepted(records, active)
    ensures forall i :: 0 <= i < |records| && Accepts(records[i], active) ==>
      CountAccepted(records[..i], active) < |rows| && rows[CountAccepted(records[..i], active)] == RowOf(records[i], active, g, day)
  {
    var h := if Accepts(records[0], active) then 1 else 0;
    forall i | 0 <= i < |records| && Accepts(records[i], active)
      ensures CountAccepted(records[..i], active) < |rows| && rows[CountAccepted(records[..i], active)] == RowOf(records[i], active, g, day)
    {
      if i == 0 {
        assert CountAccepted(records[..0], active) == 0;
      } else {
        assert records[..i][1..] == records[1..][..i - 1];
        assert CountAccepted(records[..i], active) == h + CountAccepted(records[1..][..i - 1], active);
        assert records[1..][i - 1] == records[i];
      }
    }
  }

  /** The prefix of the batch the insert loop gets through: it stops at the first record that is not an object. */
  function Reached(records: seq<Value>): (n: nat)
    ensures n <= |records|
    ensures forall i :: 0 <= i < n ==> records[i].Obj?
    ensures n < |records| ==> !records[n].Obj?
  {
    if |records| == 0 || !records[0].Obj? then 0
    else
      var n := Reached(records[1..]);
      assert forall i :: 1 <= i < |records| ==> records[i] == records[1..][i - 1];
      1 + n
  }

  /** `data.get(field, default)` read as a date; anything that is not a parseable string fails. */
  function DateOf(v: Value, parseDate: string -> Option<int>): Option<int>
  {
    if v.Str? then parseDate(v.s) else None
  }

  const SavedOk := Response(200, map["message" := Str("Asistencia guardada correctamente"), "success" := Bool(true)])
  const NoGroupMessage := "Error: No se proporcionó un ID de grupo válido"

  /** The request's group: the body's `group_id`, or the first record's when that one is falsy. */
  function GroupValue(d: Dict, records: seq<Value>): Option<Value>
  {
    var gv := Get(d, "group_id", Null);
    if !Truthy(gv) && |records| > 0 then
      if records[0].Obj? then Some(Get(records[0].fields, "group_id", Null)) else None
    else Some(gv)
  }

  /** The rows the insert loop writes for a batch. */
  function Inserted(records: seq<Value>, active: set<int>, g: int, day: int): (rows: seq<AttendanceRow>)
    ensures forall i :: 0 <= i < |rows| ==> Replaced(rows[i], active, g, day)
  {
    NewRows(records[..Reached(records)], active, g, day)
  }

  /** The save of group `g` on day `day` once the request is understood: delete, then insert. */
  function Replace(t: Table<AttendanceRow>, records: seq<Value>, active: set<int>, g: int, day: int): (u: Table<AttendanceRow>)
    requires Valid(t)
    ensures Valid(u)
    ensures var rows := Inserted(records, active, g, day);
      (forall k :: k in u.rows && Replaced(u.rows[k], active, g, day) <==> t.next <= k < t.next + |rows|)
      && (forall i :: 0 <= i < |rows| ==> u.rows[t.next + i] == rows[i])
    ensures forall k :: k in t.rows && !Replaced(t.rows[k], active, g, day) ==> k in u.rows && u.rows[k] == t.rows[k]
    ensures forall k :: k in u.rows && !Replaced(u.rows[k], active, g, day) ==> k in t.rows
  {
    var cleared := RemoveWhere(t, (row: AttendanceRow) => Replaced(row, active, g, day));
    var rows := Inserted(records, active, g, day);
    var u := InsertAll(cleared, rows);
    forall k | k in u.rows
      ensures Replaced(u.rows[k], active, g, day) <==> t.next <= k < t.next + |rows|
    {
      if t.next <= k < t.next + |rows| {
        assert u.rows[t.next + (k - t.next)] == rows[k - t.next];
      } else {
        assert k in cleared.rows && u.rows[k] == cleared.rows[k];
      }
    }
    u
  }

  const SaveFailMessage := "Error al guardar asistencia"
  const ProcessFailMessage := "Error al procesar registros de asistencia"
  const DateFailMessage := "Error al formatear la fecha"

  /**
   * `data.get('attendance', [])` as the handler walks it: a list's elements, a
   * string's characters, a dict's keys; `None` when `len` raises on it.
   */
  function AttendanceItems(d: Dict): Option<seq<Value>>
  {
    PyIterItems(Get(d, "attendance", List([])))
  }

  /**
   * `save_attendance`: only the `attendance` table changes. A body without a
   * walkable `attendance` value, or whose fallback group comes from a record
   * that is not an object, answers 500; a falsy group answers 400, and so does
   * a date that does not parse; a group the database cannot compare fails
   * with 500; a group with no active students changes nothing. Otherwise the
   * group's rows of active students on that day are replaced by one row per
   * accepted record the loop reaches, and the answer is success exactly when
   * the loop reached every record.
   */
  function SaveAttendance(db: School, data: Option<Dict>, today: Value, parseDate: string -> Option<int>): (r: (School, Response))
    requires ValidSchool(db)
    ensures ValidSchool(r.0) && r.0 == db.(attendance := r.0.attendance)
    ensures data.None? ==> r == (db, Failed(500, SaveFailMessage))
    ensures data.Some? && AttendanceItems(data.value).None? ==> r == (db, Failed(500, SaveFailMessage))
    ensures data.Some? && AttendanceItems(data.value).Some? ==>
      var d := data.value;
      var items := AttendanceItems(d).value;
      match GroupValue(d, items)
      case None => r == (db, Failed(500, SaveFailMessage))
      case Some(gv) =>
        (!Truthy(gv) ==> r == (db, Failed(400, NoGroupMessage)))
        && (Truthy(gv) ==>
              match DateOf(Get(d, "date", today), parseDate)
              case None => r == (db, Failed(400, DateFailMessage))
              case Some(day) =>
                (IntColumnParam(gv).DbError? ==> r == (db, Failed(500, ProcessFailMessage)))
                && (IntColumnParam(gv).NoMatch? ==> r == (db, SavedOk))
                && (IntColumnParam(gv).IntKey? ==>
                      var g := IntColumnParam(gv).k;
                      (ActiveIn(db, g) == {} ==> r == (db, SavedOk))
                      && (ActiveIn(db, g) != {} ==>
                            r.0.attendance == Replace(db.attendance, items, ActiveIn(db, g), g, day)
                            && (r.1 == SavedOk <==> Reached(items) == |items|)
                            && (r.1 != SavedOk ==> r.1 == Failed(500, ProcessFailMessage)))))
    ensures r.1.status == 400 ==> r.0 == db
    ensures r.0 != db ==>
      data.Some? && AttendanceItems(data.value).Some?
      && var records := AttendanceItems(data.value).value;
         var gv := GroupValue(data.value, records);
         var day := DateOf(Get(data.value, "date", today), parseDate);
         gv.Some? && IntColumnParam(gv.value).IntKey? && day.Some?
         && r.0.attendance == Replace(db.attendance, records, ActiveIn(db, IntColumnParam(gv.value).k), IntColumnParam(gv.value).k, day.value)
  {
    if data.None? then (db, Failed(500, SaveFailMessage))
    else
      var d := data.value;
      match AttendanceItems(d)
      case None => (db, Failed(500, SaveFailMessage))
      case Some(items) =>
        match GroupValue(d, items)
        case None => (db, Failed(500, SaveFailMessage))
        case Some(gv) =>
          if !Truthy(gv) then (db, Failed(400, NoGroupMessage))
          else
            match DateOf(Get(d, "date", today), parseDate)
            case None => (db, Failed(400, DateFailMessage))
            case Some(day) =>
              match IntColumnParam(gv)
              case DbError => (db, Failed(500, ProcessFailMessage))
              case NoMatch => (db, SavedOk)
              case IntKey(g) =>
                var active := ActiveIn(db, g);
                if active == {} then (db, SavedOk)
                else
                  var t := Replace(db.attendance, items, active, g, day);
                  (db.(attendance := t), if Reached(items) == |items| then SavedOk else Failed(500, ProcessFailMessage))
  }

  /** With no active student in the group, a save deletes and inserts nothing. */
  lemma NoActiveStudentsNoChange(db: School, data: Dict, today: Value, parseDate: string -> Option<int>)
    requires ValidSchool(db) && AttendanceItems(data).Some?
    requires var gv := GroupValue(data, AttendanceItems(data).value);
      gv.Some? && IntColumnParam(gv.value).IntKey? && ActiveIn(db, IntColumnParam(gv.value).k) == {}
    ensures SaveAttendance(db, Some(data), today, parseDate).0 == db
  {
  }

  /**
   * Saving the same batch twice leaves the same rows for the group and day as
   * saving it once, at new ids: the second save removes the first save's rows.
   */
  lemma SaveTwiceSameRows(t: Table<AttendanceRow>, records: seq<Value>, active: set<int>, g: int, day: int)
    requires Valid(t)
    ensures var once := Replace(t, records, active, g, day);
      var twice := Replace(once, records, active, g, day);
      var rows := Inserted(records, active, g, day);
      (forall k :: k in twice.rows && Replaced(twice.rows[k], active, g, day) <==> once.next <= k < once.next + |rows|)
      && (forall i :: 0 <= i < |rows| ==> twice.rows[once.next + i] == rows[i] && once.rows[t.next + i] == rows[i])
      && (forall k :: k in once.rows && !Replaced(once.rows[k], active, g, day) ==> k in twice.rows && twice.rows[k] == once.rows[k])
  {
  }

  // ---------------------------------------------------------------------
  // GET /api/asistencia/grupo/<group_id>

  /** One entry of the attendance list. */
  datatype AttendanceEntry = AttendanceEntry(id: int, studentId: int, studentName: Value, present: bool, groupId: int)

  datatype AttendanceRead = AttendanceRead(message: string, entries: seq<AttendanceEntry>, date: string, groupId: int)

  predicate OnDay(row: AttendanceRow, s: int, g: int, day: int)
  {
    row.studentId == s && row.groupId == g && row.day == day
  }

  /** The row shown for student `s`: the last one, as the loop overwrites a dict keyed by student. */
  function RowFor(t: Table<AttendanceRow>, s: int, g: int, day: int): (r: Option<int>)
    ensures r.Some? ==> r.value in t.rows && OnDay(t.rows[r.value], s, g, day)
    ensures r.None? <==> forall k :: k in t.rows ==> !OnDay(t.rows[k], s, g, day)
  {
    LastWhere(t.rows, (row: AttendanceRow) => OnDay(row, s, g, day))
  }

  /** A student's entry: their stored row, or id 0 and absent when there is none. */
  function EntryFor(db: School, g: int, day: Option<int>, s: int): (e: AttendanceEntry)
    requires s in db.students.rows
    ensures e.studentId == s && e.groupId == g && e.studentName == FullName(db.students.rows[s])
    ensures day.None? || RowFor(db.attendance, s, g, day.value).None? ==> e.id == 0 && !e.present
    ensures day.Some? && RowFor(db.attendance, s, g, day.value).Some? ==>
      e.id in db.attendance.rows && OnDay(db.attendance.rows[e.id], s, g, day.value)
      && e.present == db.attendance.rows[e.id].present
  {
    var name := FullName(db.students.rows[s]);
    if day.None? then AttendanceEntry(0, s, name, false, g)
    else
      match RowFor(db.attendance, s, g, day.value)
      case None => AttendanceEntry(0, s, name, false, g)
      case Some(k) => AttendanceEntry(k, s, name, db.attendance.rows[k].present, g)
  }

  /**
   * The day the read asks about: the parsed date when `strptime` accepts the
   * text; otherwise the raw text goes to PostgreSQL's `%s::date` cast, which
   * `castDate` stands for (`None` when the cast raises; the handler swallows
   * that error and reads no rows).
   */
  function ReadDay(date: string, parseDate: string -> Option<int>, castDate: string -> Option<int>): (day: Option<int>)
    ensures parseDate(date).Some? ==> day == parseDate(date)
    ensures parseDate(date).None? ==> day == castDate(date)
  {
    if parseDate(date).Some? then parseDate(date) else castDate(date)
  }

  /**
   * `get_attendance_by_group`: one entry per active student of the group, each
   * present or absent as stored for the day; a student with no row, or a date
   * the database cannot read, reads as absent with id 0.
   */
  function GetAttendance(db: School, g: int, date: string, parseDate: string -> Option<int>, castDate: string -> Option<int>): (r: AttendanceRead)
    ensures r.groupId == g && r.date == date
    ensures ActiveIn(db, g) == {} ==> r == AttendanceRead("No se encontraron estudiantes en este grupo", [], date, g)
    ensures ActiveIn(db, g) != {} ==>
      r.message == "Asistencia obtenida correctamente"
      && |r.entries| == |Roster(db, g)|
      && forall i :: 0 <= i < |r.entries| ==> r.entries[i] == EntryFor(db, g, ReadDay(date, parseDate, castDate), Roster(db, g)[i])
  {
    if ActiveIn(db, g) == {} then AttendanceRead("No se encontraron estudiantes en este grupo", [], date, g)
    else
      var ids := Roster(db, g);
      var day := ReadDay(date, parseDate, castDate);
      AttendanceRead("Asistencia obtenida correctamente",
        seq(|ids|, i requires 0 <= i < |ids| => EntryFor(db, g, day, ids[i])), date, g)
  }

  /** With a valid table, an entry has id 0 exactly when the student has no row for the day. */
  lemma ZeroIdIffNoRow(db: School, g: int, day: int, s: int)
    requires ValidSchool(db) && s in db.students.rows
    ensures EntryFor(db, g, Some(day), s).id == 0 <==> forall k :: k in db.attendance.rows ==> !OnDay(db.attendance.rows[k], s, g, day)
  {
  }

  /** The body that records one student's presence for group `g` on the day `date` names. */
  function SingleSave(g: int, date: string, s: int, present: bool): Dict
  {
    map["group_id" := Int(g), "date" := Str(date),
        "attendance" := List([Obj(map["student_id" := Int(s), "present" := Bool(present)])])]
  }

  /** The newest row of the table is `row`, and no other row is for the same student, group and day. */
  predicate OnlyRowOfDay(t: Table<AttendanceRow>, row: AttendanceRow)
  {
    && t.next - 1 in t.rows
    && t.rows[t.next - 1] == row
    && forall k :: k in t.rows && OnDay(t.rows[k], row.studentId, row.groupId, row.day) ==> k == t.next - 1
  }

  /** A one-record save of an active student replaces the day's rows of the group with that single row. */
  lemma SingleSaveReplaces(db: School, g: int, date: string, s: int, present: bool, today: Value, parseDate: string -> Option<int>)
    requires ValidSchool(db) && g != 0 && (s, g) in db.active && s in db.students.rows && parseDate(date).Some?
    ensures OnlyRowOfDay(SaveAttendance(db, Some(SingleSave(g, date, s, present)), today, parseDate).0.attendance,
                         AttendanceRow(s, g, parseDate(date).value, present))
  {
    var body := SingleSave(g, date, s, present);
    var records := [Obj(map["student_id" := Int(s), "present" := Bool(present)])];
    var active := ActiveIn(db, g);
    var day := parseDate(date).value;
    assert GroupValue(body, records) == Some(Int(g));
    assert s in active;
    assert Reached(records) == 1;
    assert records[..1] == records;
    var rec := records[0].fields;
    assert s >= 1;
    assert AcceptedStudent(Get(rec, "student_id", Null), active);
    assert PresentOf(rec) == present;
    assert NewRows(records[1..], active, g, day) == [] by {
      assert records[1..] == [];
    }
    assert NewRows(records, active, g, day) == [AttendanceRow(s, g, day, present)];
  }

  /** The body that records a whole batch for group `g` on the day `date` names. */
  function BatchSave(g: int, date: string, records: seq<Value>): Dict
  {
    map["group_id" := Int(g), "date" := Str(date), "attendance" := List(records)]
  }

  /** The presence of the last record in `records` that the loop accepts for student `s`. */
  function LastMark(records: seq<Value>, active: set<int>, s: int): Option<bool>
    decreases |records|
  {
    if |records| == 0 then None
    else
      match LastMark(records[1..], active, s)
      case Some(p) => Some(p)
      case None =>
        if Accepts(records[0], active) && StudentNo(records[0], active) == s then Some(PresentOf(records[0].fields)) else None
  }

  /** The presence of the last row of `rows` for student `s`. */
  function LastPresence(rows: seq<AttendanceRow>, s: int): Option<bool>
    decreases |rows|
  {
    if |rows| == 0 then None
    else
      match LastPresence(rows[1..], s)
      case Some(p) => Some(p)
      case None => if rows[0].studentId == s then Some(rows[0].present) else None
  }

  /** Position `i` holds the last row of student `s`. */
  predicate IsLastOf(rows: seq<AttendanceRow>, s: int, i: int)
  {
    0 <= i < |rows| && rows[i].studentId == s && forall j :: i < j < |rows| ==> rows[j].studentId != s
  }

  /** The rows a batch inserts end, for each student, with that student's last accepted record. */
  lemma {:induction false} NewRowsLastMark(records: seq<Value>, active: set<int>, g: int, day: int, s: int)
    ensures LastPresence(NewRows(records, active, g, day), s) == LastMark(records, active, s)
    decreases |records|
  {
    if |records| > 0 {
      NewRowsLastMark(records[1..], active, g, day, s);
      var rest := NewRows(records[1..], active, g, day);
      if Accepts(records[0], active) {
        var rows := [RowOf(records[0], active, g, day)] + rest;
        assert rows[1..] == rest;
      }
    }
  }

  /** `LastPresence` finds the last row of the student, or tells that there is none. */
  lemma {:induction false} LastPresenceIsLast(rows: seq<AttendanceRow>, s: int)
    ensures LastPresence(rows, s).Some? ==> exists i :: IsLastOf(rows, s, i) && rows[i].present == LastPresence(rows, s).value
    ensures LastPresence(rows, s).None? ==> forall j :: 0 <= j < |rows| ==> rows[j].studentId != s
    decreases |rows|
  {
    if |rows| > 0 {
      LastPresenceIsLast(rows[1..], s);
      if LastPresence(rows[1..], s).Some? {
        var i :| IsLastOf(rows[1..], s, i) && rows[1..][i].present == LastPresence(rows[1..], s).value;
        assert IsLastOf(rows, s, i + 1);
      } else if rows[0].studentId == s {
        assert IsLastOf(rows, s, 0);
      } else {
        forall j | 0 <= j < |rows| ensures rows[j].studentId != s {
          if j > 0 { assert rows[j] == rows[1..][j - 1]; }
        }
      }
    }
  }

  /** After a replace, the row the read finds for an active student is the one of their last inserted row. */
  lemma ReplaceRowFor(t: Table<AttendanceRow>, records: seq<Value>, active: set<int>, g: int, day: int, s: int, i: int)
    requires Valid(t) && s in active && IsLastOf(Inserted(records, active, g, day), s, i)
    ensures RowFor(Replace(t, records, active, g, day), s, g, day) == Some(t.next + i)
  {
    var u := Replace(t, records, active, g, day);
    var rows := Inserted(records, active, g, day);
    assert u.rows[t.next + i] == rows[i];
    assert OnDay(u.rows[t.next + i], s, g, day);
    var r := RowFor(u, s, g, day);
    assert r.value <= t.next + i by {
      assert Replaced(u.rows[r.value], active, g, day);
      assert u.rows[t.next + (r.value - t.next)] == rows[r.value - t.next];
    }
  }

  /** After a replace with no inserted row for an active student, the read finds no row for them. */
  lemma ReplaceNoRowFor(t: Table<AttendanceRow>, records: seq<Value>, active: set<int>, g: int, day: int, s: int)
    requires Valid(t) && s in active
    requires forall j :: 0 <= j < |Inserted(records, active, g, day)| ==> Inserted(records, active, g, day)[j].studentId != s
    ensures RowFor(Replace(t, records, active, g, day), s, g, day).None?
  {
    var u := Replace(t, records, active, g, day);
    var rows := Inserted(records, active, g, day);
    forall k | k in u.rows && Replaced(u.rows[k], active, g, day) ensures u.rows[k].studentId != s {
      assert u.rows[t.next + (k - t.next)] == rows[k - t.next];
    }
  }

  /** A batch save of a group with active students and a parseable date replaces the day's rows. */
  lemma BatchSaveReplaces(db: School, g: int, date: string, records: seq<Value>, today: Value, parseDate: string -> Option<int>)
    requires ValidSchool(db) && g != 0 && ActiveIn(db, g) != {} && parseDate(date).Some?
    ensures SaveAttendance(db, Some(BatchSave(g, date, records)), today, parseDate).0
         == db.(attendance := Replace(db.attendance, records, ActiveIn(db, g), g, parseDate(date).value))
  {
    var body := BatchSave(g, date, records);
    assert AttendanceItems(body) == Some(records);
    assert GroupValue(body, records) == Some(Int(g));
  }

  /** What the read shows for a student after a batch whose last accepted record for them marked `last`. */
  predicate ShowsMark(e: AttendanceEntry, last: Option<bool>)
  {
    match last
    case Some(p) => e.present == p && e.id != 0
    case None => e.id == 0 && !e.present
  }

  /** After a replace, the row the read finds for an active student carries the last record accepted for them. */
  lemma ReplaceFindsMark(t: Table<AttendanceRow>, records: seq<Value>, active: set<int>, g: int, day: int, s: int)
    requires Valid(t) && s in active
    ensures var u := Replace(t, records, active, g, day);
      match LastMark(records[..Reached(records)], active, s)
      case Some(p) => RowFor(u, s, g, day).Some? && RowFor(u, s, g, day).value != 0
                      && u.rows[RowFor(u, s, g, day).value].present == p
      case None => RowFor(u, s, g, day).None?
  {
    var u := Replace(t, records, active, g, day);
    var rows := Inserted(records, active, g, day);
    NewRowsLastMark(records[..Reached(records)], active, g, day, s);
    assert LastMark(records[..Reached(records)], active, s) == LastPresence(rows, s);
    LastPresenceIsLast(rows, s);
    if LastPresence(rows, s).Some? {
      var j :| IsLastOf(rows, s, j) && rows[j].present == LastPresence(rows, s).value;
      ReplaceRowFor(t, records, active, g, day, s, j);
      assert u.rows[t.next + j] == rows[j];
    } else {
      ReplaceNoRowFor(t, records, active, g, day, s);
    }
  }

  /** After a replace, the read's entry for an active student shows the last record accepted for them. */
  lemma ReplaceShowsMark(db: School, records: seq<Value>, g: int, day: int, s: int)
    requires ValidSchool(db) && s in ActiveIn(db, g) && s in db.students.rows
    ensures var db' := db.(attendance := Replace(db.attendance, records, ActiveIn(db, g), g, day));
      ShowsMark(EntryFor(db', g, Some(day), s), LastMark(records[..Reached(records)], ActiveIn(db, g), s))
  {
    ReplaceFindsMark(db.attendance, records, ActiveIn(db, g), g, day, s);
  }

  /**
   * Saving a batch for a day and reading the group back for that day shows,
   * for every student of the roster, the presence of the last record the loop
   * accepted for them, and absent with id 0 when it accepted none.
   */
  lemma BatchSaveThenRead(db: School, g: int, date: string, records: seq<Value>, s: int, today: Value,
                          parseDate: string -> Option<int>, castDate: string -> Option<int>)
    requires ValidSchool(db) && g != 0 && GroupWithClass(db, g) && (s, g) in db.active && s in db.students.rows
    requires parseDate(date).Some?
    ensures var db' := SaveAttendance(db, Some(BatchSave(g, date, records)), today, parseDate).0;
      var read := GetAttendance(db', g, date, parseDate, castDate);
      exists i :: 0 <= i < |read.entries| && read.entries[i].studentId == s
        && ShowsMark(read.entries[i], LastMark(records[..Reached(records)], ActiveIn(db, g), s))
  {
    var day := parseDate(date).value;
    assert s in ActiveIn(db, g);
    BatchSaveReplaces(db, g, date, records, today, parseDate);
    var db' := db.(attendance := Replace(db.attendance, records, ActiveIn(db, g), g, day));
    ReplaceShowsMark(db, records, g, day, s);
    ReadListsStudent(db', g, date, parseDate, castDate, s);
  }

  /** Every student of the roster has their entry in the read. */
  lemma ReadListsStudent(db: School, g: int, date: string, parseDate: string -> Option<int>, castDate: string -> Option<int>, s: int)
    requires (s, g) in db.active && s in db.students.rows && GroupWithClass(db, g)
    ensures exists i ::
      0 <= i < |GetAttendance(db, g, date, parseDate, castDate).entries|
      && GetAttendance(db, g, date, parseDate, castDate).entries[i] == EntryFor(db, g, ReadDay(date, parseDate, castDate), s)
  {
    assert s in ActiveIn(db, g);
    var ids := Roster(db, g);
    assert s in ids;
    var i :| 0 <= i < |ids| && ids[i] == s;
    assert GetAttendance(db, g, date, parseDate, castDate).entries[i] == EntryFor(db, g, ReadDay(date, parseDate, castDate), s);
  }

  /** When a student has exactly one row for the day, the read shows that row's presence. */
  lemma UniqueRowRead(db: School, g: int, day: int, s: int, k: int)
    requires s in db.students.rows && k in db.attendance.rows && OnDay(db.attendance.rows[k], s, g, day)
    requires forall j :: j in db.attendance.rows && OnDay(db.attendance.rows[j], s, g, day) ==> j == k
    ensures EntryFor(db, g, Some(day), s).present == db.attendance.rows[k].present
  {
    assert RowFor(db.attendance, s, g, day) == Some(k);
  }

  /** After recording one student's presence for a day, the read for that day shows it. */
  lemma SaveThenRead(db: School, g: int, date: string, s: int, present: bool, today: Value, parseDate: string -> Option<int>, castDate: string -> Option<int>)
    requires ValidSchool(db) && GroupWithClass(db, g) && (s, g) in db.active && s in db.students.rows
    requires parseDate(date).Some?
    ensures var db' := SaveAttendance(db, Some(SingleSave(g, date, s, present)), today, parseDate).0;
      var read := GetAttendance(db', g, date, parseDate, castDate);
      exists i :: 0 <= i < |read.entries| && read.entries[i].studentId == s && read.entries[i].present == present
  {
    SingleSaveReplaces(db, g, date, s, present, today, parseDate);
    var db' := SaveAttendance(db, Some(SingleSave(g, date, s, present)), today, parseDate).0;
    ReadOnlyRow(db', g, date, parseDate, castDate, s, present);
  }

  /** When a student's row for the day is the only one, the read for that day shows its presence. */
  lemma ReadOnlyRow(db: School, g: int, date: string, parseDate: string -> Option<int>, castDate: string -> Option<int>, s: int, present: bool)
    requires GroupWithClass(db, g) && (s, g) in db.active && s in db.students.rows && parseDate(date).Some?
    requires OnlyRowOfDay(db.attendance, AttendanceRow(s, g, parseDate(date).value, present))
    ensures var read := GetAttendance(db, g, date, parseDate, castDate);
      exists i :: 0 <= i < |read.entries| && read.entries[i].studentId == s && read.entries[i].present == present
  {
    var day := parseDate(date).value;
    UniqueRowRead(db, g, day, s, db.attendance.next - 1);
    ReadListsStudent(db, g, date, parseDate, castDate, s);
    var read := GetAttendance(db, g, date, parseDate, castDate);
    var i :| 0 <= i < |read.entries| && read.entries[i] == EntryFor(db, g, Some(day), s);
    assert read.entries[i].studentId == s && read.entries[i].present == present;
  }

  // ---------------------------------------------------------------------
  // GET /api/asistencia/reporte/<group_id>

  predicate StrictlyDecreasing(r: seq<int>)
  {
    forall i, j :: 0 <= i < j < |r| ==> r[i] > r[j]
  }

  function Reverse(r: seq<int>): (v: seq<int>)
    ensures |v| == |r| && forall i :: 0 <= i < |r| ==> v[i] == r[|r| - 1 - i]
  {
    if |r| == 0 then [] else Reverse(r[1..]) + [r[0]]
  }

  /** The students the report lists: active members of the group that have a student row. */
  function ReportStudents(db: School, g: int): (ids: seq<int>)
    ensures forall i :: 0 <= i < |ids| ==> (ids[i], g) in db.active && ids[i] in db.students.rows
    ensures forall s :: (s, g) in db.active && s in db.students.rows ==> s in ids
  {
    Sorted(set s | s in ActiveIn(db, g) && s in db.students.rows)
  }

  /** A row counted by the report: one of the listed students, this group, a day inside the window. */
  predicate InReport(row: AttendanceRow, students: seq<int>, g: int, from: int, to: int)
  {
    row.studentId in students && row.groupId == g && from <= row.day <= to
  }

  /** The report's columns: every day with a counted row, once each, most recent first. */
  function ReportDates(t: Table<AttendanceRow>, students: seq<int>, g: int, from: int, to: int): (days: seq<int>)
    ensures StrictlyDecreasing(days)
    ensures forall d :: d in days <==> d in CountedDays(t, students, g, from, to)
  {
    var up := Sorted(CountedDays(t, students, g, from, to));
    ReverseMembers(up);
    Reverse(up)
  }

  /** The days with a counted row. */
  function CountedDays(t: Table<AttendanceRow>, students: seq<int>, g: int, from: int, to: int): (ds: set<int>)
    ensures forall d :: d in ds <==> exists k :: k in t.rows && InReport(t.rows[k], students, g, from, to) && t.rows[k].day == d
  {
    set k | k in t.rows && InReport(t.rows[k], students, g, from, to) :: t.rows[k].day
  }

  lemma ReverseMembers(up: seq<int>)
    requires StrictlyIncreasing(up)
    ensures StrictlyDecreasing(Reverse(up))
    ensures forall d :: d in Reverse(up) <==> d in up
  {
    var days := Reverse(up);
    forall d ensures d in days <==> d in up {
      if d in up {
        var i :| 0 <= i < |up| && up[i] == d;
        assert days[|up| - 1 - i] == d;
      }
    }
  }

  /** A cell: `Presente` or `Ausente` from the student's row for the day, `N/A` when there is none. */
  function Cell(t: Table<AttendanceRow>, s: int, g: int, day: int): (c: Value)
    ensures c == Str("N/A") <==> forall k :: k in t.rows ==> !OnDay(t.rows[k], s, g, day)
    ensures c == Str("Presente") ==> exists k :: k in t.rows && OnDay(t.rows[k], s, g, day) && t.rows[k].present
    ensures c == Str("Ausente") ==> exists k :: k in t.rows && OnDay(t.rows[k], s, g, day) && !t.rows[k].present
    ensures c in {Str("N/A"), Str("Presente"), Str("Ausente")}
  {
    match RowFor(t, s, g, day)
    case None => Str("N/A")
    case Some(k) => if t.rows[k].present then Str("Presente") else Str("Ausente")
  }

  /** The report: group name, the day columns and one row per student. */
  datatype AttendanceCsv = AttendanceCsv(groupName: string, days: seq<int>, rows: seq<seq<Value>>)

  /**
   * The group's display name: `f"{grade} - {class_name}"` when the group joins
   * its class, `Grupo <id>` when the group or its class is missing.
   */
  function GroupName(db: School, g: int): (name: string)
    ensures !GroupWithClass(db, g) ==> name == "Grupo " + IntToString(g)
    ensures GroupWithClass(db, g) ==>
      name == PyStr(db.groups.rows[g].grade) + " - " + PyStr(db.classes.rows[db.groups.rows[g].classId.i].name)
    ensures GroupWithClass(db, g) && db.groups.rows[g].grade.Str? && db.classes.rows[db.groups.rows[g].classId.i].name.Str? ==>
      name == db.groups.rows[g].grade.s + " - " + db.classes.rows[db.groups.rows[g].classId.i].name.s
  {
    if GroupWithClass(db, g) then
      PyStr(db.groups.rows[g].grade) + " - " + PyStr(db.classes.rows[db.groups.rows[g].classId.i].name)
    else "Grupo " + IntToString(g)
  }

  /** A student's report row: their name, then one cell per day. */
  function ReportLine(db: School, g: int, days: seq<int>, s: int): (line: seq<Value>)
    requires s in db.students.rows
    ensures |line| == 1 + |days| && line[0] == FullName(db.students.rows[s])
    ensures forall j :: 0 <= j < |days| ==> line[1 + j] == Cell(db.attendance, s, g, days[j])
  {
    [FullName(db.students.rows[s])] + seq(|days|, j requires 0 <= j < |days| => Cell(db.attendance, s, g, days[j]))
  }

  /**
   * `generate_attendance_report` over the window `[from, to]`: 404 when no
   * student is listed; otherwise one row per student with their name followed
   * by one cell per reported day.
   */
  function AttendanceReport(db: School, g: int, from: int, to: int): (r: Result<AttendanceCsv, Response>)
    ensures |ReportStudents(db, g)| == 0 <==> r == Err(Failed(404, "No se encontraron estudiantes en este grupo"))
    ensures r.Ok? ==>
      var ss := ReportStudents(db, g);
      var days := r.value.days;
      days == ReportDates(db.attendance, ss, g, from, to)
      && r.value.groupName == GroupName(db, g)
      && |r.value.rows| == |ss|
      && forall i :: 0 <= i < |ss| ==> r.value.rows[i] == ReportLine(db, g, days, ss[i])
  {
    var ss := ReportStudents(db, g);
    if |ss| == 0 then Err(Failed(404, "No se encontraron estudiantes en este grupo"))
    else
      var days := ReportDates(db.attendance, ss, g, from, to);
      Ok(AttendanceCsv(GroupName(db, g), days, ReportLines(db, g, days, ss)))
  }

  /** One report row per listed student, in the listed order. */
  function ReportLines(db: School, g: int, days: seq<int>, ss: seq<int>): (lines: seq<seq<Value>>)
    requires forall i :: 0 <= i < |ss| ==> ss[i] in db.students.rows
    ensures |lines| == |ss|
    ensures forall i :: 0 <= i < |ss| ==> lines[i] == ReportLine(db, g, days, ss[i])
  {
    seq(|ss|, i requires 0 <= i < |ss| => ReportLine(db, g, days, ss[i]))
  }
}

=== FILE: auth_context.dfy ===
// The web client's session helpers (frontend/src/context/AuthContext.tsx):
// whether a stored access token has expired, whether user data is complete,
// and reading one cookie out of `document.cookie`. Decoding the token's
// payload (base64url, URI decoding, `JSON.parse`) and the clock are
// parameters.

module AuthContext {
  import opened Common
  import opened Schema
  import AuthRoutes

  // ---------------------------------------------------------------------
  // Token expiry

  /**
   * The number JavaScript's relational comparison reads from an array: the
   * array is first turned into its `join(",")` text (`null` elements give the
   * empty text) and that text into a number. The empty array reads as 0; two
   * or more elements put a comma in the text, which reads as NaN (`None`); a
   * single element reads as that element's own text does.
   */
  function ArrayNumber(v: Value, numberOf: string -> Option<real>): (n: Option<real>)
    requires v.List?
    ensures v.items == [] ==> n == Some(0.0)
    ensures |v.items| >= 2 ==> n.None?
    ensures |v.items| == 1 && v.items[0].Int? ==> n == Some(v.items[0].i as real)
    ensures |v.items| == 1 && (v.items[0].Bool? || v.items[0].Obj?) ==> n.None?
    decreases v
  {
    if |v.items| == 0 then Some(0.0)
    else if |v.items| >= 2 then None
    else
      match v.items[0]
      case Null => Some(0.0)
      case Bool(_) => None
      case Int(i) => Some(i as real)
      case Real(r) => Some(r)
      case Str(s) => numberOf(s)
      case List(_) => ArrayNumber(v.items[0], numberOf)
      case Obj(_) => None
  }

  /**
   * `exp < currentTime` for the payload's `exp` (`None` when absent, which
   * JavaScript reads as `undefined`). `numberOf` converts a string as
   * JavaScript's `Number` does, `None` standing for NaN; NaN compares false.
   * An object reads as the text "[object Object]", which is NaN.
   */
  predicate ExpBefore(exp: Option<Value>, currentTime: int, numberOf: string -> Option<real>)
  {
    match exp
    case None => false
    case Some(v) =>
      match v
      case Null => 0 < currentTime
      case Bool(b) => (if b then 1 else 0) < currentTime
      case Int(i) => i < currentTime
      case Real(r) => r < currentTime as real
      case Str(s) => numberOf(s).Some? && numberOf(s).value < currentTime as real
      case List(_) => ArrayNumber(v, numberOf).Some? && ArrayNumber(v, numberOf).value < currentTime as real
      case Obj(_) => false
  }

  /**
   * `isTokenExpired(token)`: the second dot-separated segment is decoded
   * (`decode` answers `None` where decoding or parsing throws) and its
   * `exp` compared with the current time in whole seconds. Anything that
   * throws, including destructuring a `null` payload, counts as expired; a
   * payload that is not an object has no `exp` and does not expire. An array
   * `exp` is compared through its text: `[]` as 0, `[5]` as 5.
   */
  function IsTokenExpired(token: string, decode: string -> Option<Value>, nowMs: int, numberOf: string -> Option<real>): (expired: bool)
    ensures |Split(token, ".")| < 2 ==> expired
    ensures |Split(token, ".")| >= 2 ==>
      match decode(Split(token, ".")[1])
      case None => expired
      case Some(payload) =>
        (payload == Null ==> expired)
        && (!payload.Null? && !payload.Obj? ==> !expired)
        && (payload.Obj? && "exp" !in payload.fields ==> !expired)
        && (payload.Obj? && "exp" in payload.fields && payload.fields["exp"].Int? ==>
              (expired <==> payload.fields["exp"].i < nowMs / 1000))
  {
    var parts := Split(token, ".");
    if |parts| < 2 then true
    else
      match decode(parts[1])
      case None => true
      case Some(payload) =>
        match payload
        case Null => true
        case Obj(fields) => ExpBefore(if "exp" in fields then Some(fields["exp"]) else None, nowMs / 1000, numberOf)
        case _ => false
  }

  /** A token that has expired stays expired as the clock moves on. */
  lemma ExpiryIsPermanent(token: string, decode: string -> Option<Value>, nowMs: int, later: int, numberOf: string -> Option<real>)
    requires nowMs <= later
    requires IsTokenExpired(token, decode, nowMs, numberOf)
    ensures IsTokenExpired(token, decode, later, numberOf)
  {
    assert nowMs / 1000 <= later / 1000;
  }

  /** A token with an integer `exp` is live throughout the second it names and expired from the next second on. */
  lemma IntegerExpiry(token: string, decode: string -> Option<Value>, numberOf: string -> Option<real>, exp: int)
    requires |Split(token, ".")| >= 2
    requires decode(Split(token, ".")[1]) == Some(Obj(map["exp" := Int(exp)]))
    ensures !IsTokenExpired(token, decode, exp * 1000 + 999, numberOf)
    ensures IsTokenExpired(token, decode, (exp + 1) * 1000, numberOf)
  {
    assert (exp * 1000 + 999) / 1000 == exp;
    assert ((exp + 1) * 1000) / 1000 == exp + 1;
  }

  /**
   * An `exp` wrapped in a one-element array expires exactly when the bare
   * number would, and an empty array reads as 0 (expired once the clock is
   * past the first second).
   */
  lemma ArrayExpiry(token: string, decode: string -> Option<Value>, nowMs: int, numberOf: string -> Option<real>, exp: int)
    requires |Split(token, ".")| >= 2
    ensures decode(Split(token, ".")[1]) == Some(Obj(map["exp" := List([Int(exp)])])) ==>
      (IsTokenExpired(token, decode, nowMs, numberOf) <==> exp < nowMs / 1000)
    ensures decode(Split(token, ".")[1]) == Some(Obj(map["exp" := List([])])) ==>
      (IsTokenExpired(token, decode, nowMs, numberOf) <==> 0 < nowMs / 1000)
    ensures decode(Split(token, ".")[1]) == Some(Obj(map["exp" := List([Int(exp), Int(exp)])])) ==>
      !IsTokenExpired(token, decode, nowMs, numberOf)
  {
  }

  // ---------------------------------------------------------------------
  // User data

  /** The fields `isUserDataComplete` requires; the maternal last name is not among them. */
  const RequiredUserFields: seq<string> := ["id", "name", "lastname_f", "email", "rol"]

  /** The field is neither `undefined` (absent) nor `null`. */
  predicate Present(d: Dict, field: string)
  {
    field in d && d[field] != Null
  }

  /** `isUserDataComplete(userData)`: there is a user, and every required field is present. */
  function IsUserDataComplete(userData: Option<Dict>): (complete: bool)
    ensures userData.None? ==> !complete
    ensures complete <==> userData.Some? && forall i :: 0 <= i < |RequiredUserFields| ==> Present(userData.value, RequiredUserFields[i])
  {
    userData.Some? && AllPresent(userData.value, RequiredUserFields)
  }

  /** The loop over the required fields: it stops at the first one missing. */
  function AllPresent(d: Dict, fields: seq<string>): (ok: bool)
    ensures ok <==> forall i :: 0 <= i < |fields| ==> Present(d, fields[i])
  {
    if |fields| == 0 then true
    else if !Present(d, fields[0]) then false
    else AllPresent(d, fields[1..])
  }

  /** Whatever the maternal last name holds, or whether it is there at all, completeness does not change. */
  lemma MaternalLastNameIrrelevant(d: Dict, v: Value)
    ensures IsUserDataComplete(Some(d["lastname_m" := v])) == IsUserDataComplete(Some(d))
    ensures IsUserDataComplete(Some(d - {"lastname_m"})) == IsUserDataComplete(Some(d))
  {
    assert forall i :: 0 <= i < |RequiredUserFields| ==> RequiredUserFields[i] != "lastname_m";
  }

  /** The profile the server answers with is complete exactly when the stored row has no null among the required columns. */
  lemma ServerProfileComplete(id: int, row: UserRow)
    ensures IsUserDataComplete(Some(AuthRoutes.ProfileOf(id, row))) <==>
      row.name != Null && row.lastnameF != Null && row.email != Null && row.rol != Null
  {
    var d := AuthRoutes.ProfileOf(id, row);
    if row.name != Null && row.lastnameF != Null && row.email != Null && row.rol != Null {
      assert forall i :: 0 <= i < |RequiredUserFields| ==> Present(d, RequiredUserFields[i]);
    } else {
      assert !Present(d, "name") || !Present(d, "lastname_f") || !Present(d, "email") || !Present(d, "rol");
      assert RequiredUserFields[1] == "name" && RequiredUserFields[2] == "lastname_f";
      assert RequiredUserFields[3] == "email" && RequiredUserFields[4] == "rol";
    }
  }

  // ---------------------------------------------------------------------
  // Cookies

  /** The text `value.split("; " + name + "=")` splits on. */
  function CookieMarker(name: string): (m: string)
    ensures |m| == |name| + 3
  {
    "; " + name + "="
  }

  /**
   * `getCookie(name)`: `"; " + cookie` is split on the marker; with exactly
   * two pieces the cookie's value is the second piece up to its first `;`,
   * and otherwise there is none.
   */
  function GetCookie(cookie: string, name: string): (r: Option<string>)
    ensures r.Some? <==> |Split("; " + cookie, CookieMarker(name))| == 2
    ensures r.Some? ==> forall j :: !OccursAt(r.value, ";", j)
  {
    var parts := Split("; " + cookie, CookieMarker(name));
    if |parts| == 2 then
      var value := Split(parts[1], ";");
      SplitPiecesFree(parts[1], ";");
      Some(value[0])
    else None
  }

  /** Any occurrence of the separator makes `Split` produce more than one piece. */
  lemma SplitAtOccurrence(s: string, sep: string, k: int)
    requires |sep| > 0 && OccursAt(s, sep, k)
    ensures |Split(s, sep)| >= 2
    ensures IndexOf(s, sep, 0).Some? && IndexOf(s, sep, 0).value <= k
  {
  }

  /** Without the marker there is no cookie. */
  lemma CookieAbsent(cookie: string, name: string)
    requires forall j :: !OccursAt("; " + cookie, CookieMarker(name), j)
    ensures GetCookie(cookie, name).None?
  {
  }

  /** When the marker occurs exactly once, the value is the text after it up to the next `;`. */
  lemma CookieFound(cookie: string, name: string, i: int)
    requires OccursAt("; " + cookie, CookieMarker(name), i)
    requires forall j :: j != i ==> !OccursAt("; " + cookie, CookieMarker(name), j)
    ensures GetCookie(cookie, name) == Some(Split(("; " + cookie)[i + |CookieMarker(name)|..], ";")[0])
  {
    var v := "; " + cookie;
    var m := CookieMarker(name);
    var rest := v[i + |m|..];
    assert IndexOf(v, m, 0) == Some(i);
    forall j ensures !OccursAt(rest, m, j) {
      if OccursAt(rest, m, j) {
        assert rest[j..j + |m|] == v[i + |m| + j..i + |m| + j + |m|];
        assert OccursAt(v, m, i + |m| + j);
      }
    }
    assert Split(v, m) == [v[..i]] + Split(rest, m);
    assert Split(rest, m) == [rest];
  }

  /** Two occurrences of the separator that do not overlap make `Split` produce at least three pieces. */
  lemma SplitTwoOccurrences(s: string, sep: string, i: int, j: int)
    requires |sep| > 0 && OccursAt(s, sep, i) && OccursAt(s, sep, j) && i + |sep| <= j
    ensures |Split(s, sep)| >= 3
  {
    SplitAtOccurrence(s, sep, i);
    var first := IndexOf(s, sep, 0).value;
    var rest := s[first + |sep|..];
    var k := j - (first + |sep|);
    assert rest[k..k + |sep|] == s[j..j + |sep|];
    SplitAtOccurrence(rest, sep, k);
    assert Split(s, sep) == [s[..first]] + Split(rest, sep);
  }

  /** With two separate occurrences of the marker there is no cookie either. */
  lemma CookieAmbiguous(cookie: string, name: string, i: int, j: int)
    requires OccursAt("; " + cookie, CookieMarker(name), i)
    requires OccursAt("; " + cookie, CookieMarker(name), j)
    requires i + |CookieMarker(name)| <= j
    ensures GetCookie(cookie, name).None?
  {
    SplitTwoOccurrences("; " + cookie, CookieMarker(name), i, j);
  }
}

=== FILE: auth_routes.dfy ===
// The HTTP endpoints of backend/routes/auth_routes.py that decide outcomes:
// login, the bearer-token profile lookup and the password change. Token
// creation and decoding are parameters: `tokenOf(identity)` is the access
// token issued for an identity, and `decode(token)` is its `sub` claim, or
// `None` when decoding fails or the claim is missing.

module AuthRoutes {
  import opened Common
  import opened Tables
  import opened Errors
  import opened Schema
  import opened UserRepository
  import AuthService

  /** A JSON body that is present and non-empty and has every one of `keys`. */
  predicate HasKeys(data: Option<Dict>, keys: set<string>)
  {
    data.Some? && data.value != map[] && forall k :: k in keys ==> k in data.value
  }

  /**
   * `POST /api/login`: 400 without email and password, 401 for an unknown email
   * or a wrong password alike, 500 when the lookup or the password check raises,
   * and 200 with a token for the user's id as text.
   */
  function LoginRoute(users: Table<UserRow>, check: (Value, Value) -> Result<bool, string>, tokenOf: string -> string,
                      data: Option<Dict>): (r: Response)
    ensures !HasKeys(data, {"email", "password"}) ==> r == Answer(400, "Email y contraseña requeridos")
    ensures HasKeys(data, {"email", "password"}) ==>
      match UserIdByEmail(users, data.value["email"])
      case Err(_) => r == Answer(500, "Error en el servidor")
      case Ok(None) => r == Answer(401, AuthService.BadCredentials)
      case Ok(Some(k)) =>
        match check(users.rows[k].password, data.value["password"])
        case Err(_) => r == Answer(500, "Error en el servidor")
        case Ok(ok) =>
          (!ok ==> r == Answer(401, AuthService.BadCredentials))
          && (ok ==> r.status == 200 && "token" in r.body && "user" in r.body && r.body["token"] == Str(tokenOf(IntToString(k)))
                     && r.body["user"] == Obj(map["id" := Int(k), "name" := users.rows[k].name, "email" := users.rows[k].email]))
  {
    if !HasKeys(data, {"email", "password"}) then Answer(400, "Email y contraseña requeridos")
    else
      match UserIdByEmail(users, data.value["email"])
      case Err(_) => Answer(500, "Error en el servidor")
      case Ok(None) => Answer(401, AuthService.BadCredentials)
      case Ok(Some(k)) =>
        var row := users.rows[k];
        match check(row.password, data.value["password"])
        case Err(_) => Answer(500, "Error en el servidor")
        case Ok(ok) =>
          if !ok then Answer(401, AuthService.BadCredentials)
          else
            Response(200, map["message" := Str("Login exitoso"), "token" := Str(tokenOf(IntToString(k))),
                              "user" := Obj(map["id" := Int(k), "name" := row.name, "email" := row.email])])
  }

  /** The route and `AuthService.login` accept the same credentials and issue the token to the same identity. */
  lemma LoginRouteAgreesWithService(users: Table<UserRow>, check: (Value, Value) -> Result<bool, string>,
                                    tokenOf: string -> string, data: Option<Dict>)
    requires HasKeys(data, {"email", "password"})
    ensures var r := LoginRoute(users, check, tokenOf, data);
      var s := AuthService.Login(users, check, data.value["email"], data.value["password"]);
      (r.status == 200 <==> s.Ok?)
      && (r.status == 401 <==> s == Err(UnauthorizedError(AuthService.BadCredentials)))
      && (s.Ok? ==> r.body["token"] == Str(tokenOf(s.value.identity)))
  {
  }

  /**
   * The token of a `Bearer` header, `header.split(' ')[1]`: the text after
   * `"Bearer "` up to the next space or the end.
   */
  function BearerToken(header: string): (t: string)
    requires StartsWith(header, "Bearer ")
    ensures 7 + |t| <= |header| && t == header[7..7 + |t|]
    ensures forall k :: 0 <= k < |t| ==> t[k] != ' '
    ensures 7 + |t| < |header| ==> header[7 + |t|] == ' '
    ensures IndexOf(header[7..], " ", 0).None? ==> t == header[7..]
  {
    BearerFirstSpace(header);
    SplitAtFirst(header, " ", 6);
    var rest := header[7..];
    var parts := Split(header, " ");
    assert parts[1] == Split(rest, " ")[0];
    FirstPiece(rest);
    assert rest[..|parts[1]|] == header[7..7 + |parts[1]|];
    parts[1]
  }

  /** The first space of a `Bearer ` header is the one after the scheme. */
  lemma BearerFirstSpace(header: string)
    requires StartsWith(header, "Bearer ")
    ensures IndexOf(header, " ", 0) == Some(6)
  {
    assert OccursAt(header, " ", 6);
    forall j | 0 <= j < 6
      ensures !OccursAt(header, " ", j)
    {
      assert header[j] == "Bearer "[j];
    }
  }

  /** The first piece of splitting on a space: a space-free prefix that ends at the first space or at the end. */
  lemma FirstPiece(s: string)
    ensures var t := Split(s, " ")[0];
      |t| <= |s| && t == s[..|t|]
      && (forall k :: 0 <= k < |t| ==> t[k] != ' ')
      && (|t| < |s| ==> s[|t|] == ' ')
      && (IndexOf(s, " ", 0).None? ==> t == s)
  {
    match IndexOf(s, " ", 0) {
      case None => SplitWithout(s, " ");
      case Some(i) => SplitAtFirst(s, " ", i);
    }
    var t := Split(s, " ")[0];
    forall k | 0 <= k < |t|
      ensures t[k] != ' '
    {
      assert !OccursAt(s, " ", k);
    }
    match IndexOf(s, " ", 0)
    case None =>
    case Some(i) =>
      assert s[i..i + 1] == " ";
  }

  const NoTokenMessage := "Token no proporcionado o formato incorrecto"

  /** The columns the profile endpoint selects: everything but the password. */
  function ProfileOf(id: int, row: UserRow): (d: Dict)
    ensures d.Keys == {"id", "name", "lastname_m", "lastname_f", "email", "rol"}
    ensures "password" !in d && d["id"] == Int(id)
  {
    map["id" := Int(id), "name" := row.name, "lastname_m" := row.lastnameM, "lastname_f" := row.lastnameF,
        "email" := row.email, "rol" := row.rol]
  }

  /**
   * `GET /api/user/profile`: 401 without a `Bearer ` header, 500 when the token's
   * subject cannot be decoded or read as an integer, 404 for an unknown user, else
   * the user's profile.
   */
  function UserProfileRoute(users: Table<UserRow>, decode: string -> Option<Value>, header: Option<string>): (r: Response)
    ensures header.None? || !StartsWith(header.value, "Bearer ") ==> r == Answer(401, NoTokenMessage)
    ensures header.Some? && StartsWith(header.value, "Bearer ") ==>
      match decode(BearerToken(header.value))
      case None => r == Answer(500, "Error al obtener perfil")
      case Some(sub) =>
        match PyInt(sub)
        case None => r == Answer(500, "Error al obtener perfil")
        case Some(id) =>
          (id !in users.rows ==> r == Answer(404, "Usuario no encontrado"))
          && (id in users.rows ==> r == Response(200, map["user" := Obj(ProfileOf(id, users.rows[id]))]))
  {
    if header.None? || header.value == "" || !StartsWith(header.value, "Bearer ") then Answer(401, NoTokenMessage)
    else
      match decode(BearerToken(header.value))
      case None => Answer(500, "Error al obtener perfil")
      case Some(sub) =>
        match PyInt(sub)
        case None => Answer(500, "Error al obtener perfil")
        case Some(id) =>
          if id in users.rows then Response(200, map["user" := Obj(ProfileOf(id, users.rows[id]))])
          else Answer(404, "Usuario no encontrado")
  }

  /** Text without a space has no space to split at. */
  lemma {:induction false} NoSpaceNoSplit(s: string, from: nat)
    requires forall c :: c in s ==> c != ' '
    ensures IndexOf(s, " ", from).None?
    decreases |s| - from
  {
    if from + 1 <= |s| {
      assert s[from..from + 1][0] == s[from] && s[from] in s;
      NoSpaceNoSplit(s, from + 1);
    }
  }

  /** A token issued at login for user `k` opens that user's profile, when decoding inverts issuing. */
  lemma LoginTokenOpensProfile(users: Table<UserRow>, decode: string -> Option<Value>, tokenOf: string -> string, k: int)
    requires k in users.rows
    requires forall id: string :: decode(tokenOf(id)) == Some(Str(id))
    requires forall c :: c in tokenOf(IntToString(k)) ==> c != ' '
    ensures UserProfileRoute(users, decode, Some("Bearer " + tokenOf(IntToString(k))))
      == Response(200, map["user" := Obj(ProfileOf(k, users.rows[k]))])
  {
    var token := tokenOf(IntToString(k));
    var h := "Bearer " + token;
    assert h[..7] == "Bearer " && h[7..] == token;
    assert StartsWith(h, "Bearer ");
    NoSpaceNoSplit(token, 0);
    assert BearerToken(h) == token;
    IntStringRoundTrip(k);
    assert PyInt(Str(IntToString(k))) == Some(k);
  }

  const WrongPasswordMessage := "Contraseña actual incorrecta"

  /**
   * `POST /api/change-password` for the token identity `identity`: 400 without
   * both passwords, 401 for an unknown user or a wrong current password, and on
   * success the stored password becomes the hash of the new one. Every other
   * failure is a 500. The table changes only on success.
   */
  function ChangePasswordRoute(users: Table<UserRow>, check: (Value, Value) -> Result<bool, string>, hash: string -> string,
                               identity: string, data: Option<Dict>): (r: (Table<UserRow>, Response))
    ensures r.1.status != 200 ==> r.0 == users
    ensures !HasKeys(data, {"currentPassword", "newPassword"}) ==> r.1 == Answer(400, "Contraseña actual y nueva requeridas")
    ensures HasKeys(data, {"currentPassword", "newPassword"}) ==>
      match ParseInt(identity)
      case None => r.1 == Answer(500, "Error al cambiar contraseña")
      case Some(id) =>
        (id !in users.rows ==> r.1 == Answer(401, WrongPasswordMessage))
        && (id in users.rows ==>
            match check(users.rows[id].password, data.value["currentPassword"])
            case Err(_) => r.1 == Answer(500, "Error al cambiar contraseña")
            case Ok(ok) =>
              (!ok ==> r.1 == Answer(401, WrongPasswordMessage))
              && (ok && !AuthService.Hashable(data.value["newPassword"]) ==> r.1 == Answer(500, "Error al cambiar contraseña"))
              && (ok && AuthService.Hashable(data.value["newPassword"]) ==>
                  r.1 == Answer(200, "Contraseña cambiada exitosamente")
                  && r.0.rows == users.rows[id := users.rows[id].(password := Str(hash(data.value["newPassword"].s)))]
                  && r.0.next == users.next))
  {
    if !HasKeys(data, {"currentPassword", "newPassword"}) then (users, Answer(400, "Contraseña actual y nueva requeridas"))
    else
      var current := data.value["currentPassword"];
      var newPassword := data.value["newPassword"];
      match ParseInt(identity)
      case None => (users, Answer(500, "Error al cambiar contraseña"))
      case Some(id) =>
        if id !in users.rows then (users, Answer(401, WrongPasswordMessage))
        else
          match check(users.rows[id].password, current)
          case Err(_) => (users, Answer(500, "Error al cambiar contraseña"))
          case Ok(ok) =>
            if !ok then (users, Answer(401, WrongPasswordMessage))
            else if !AuthService.Hashable(newPassword) then (users, Answer(500, "Error al cambiar contraseña"))
            else (Put(users, id, users.rows[id].(password := Str(hash(newPassword.s)))), Answer(200, "Contraseña cambiada exitosamente"))
  }

  /**
   * The route and `AuthService.change_password` make the same change for an
   * existing user; they differ only in how they report a missing one.
   */
  lemma ChangePasswordRouteAgreesWithService(users: Table<UserRow>, check: (Value, Value) -> Result<bool, string>,
                                             hash: string -> string, id: int, current: Value, newPassword: Value)
    ensures var data := Some(map["currentPassword" := current, "newPassword" := newPassword]);
      var (t, r) := ChangePasswordRoute(users, check, hash, IntToString(id), data);
      var s := AuthService.ChangePassword(users, check, hash, id, current, newPassword);
      (r.status == 200 <==> s.Ok?) && (s.Ok? ==> t == s.value)
  {
    IntStringRoundTrip(id);
    var data := map["currentPassword" := current, "newPassword" := newPassword];
    assert "currentPassword" in data && "newPassword" in data;
    assert HasKeys(Some(data), {"currentPassword", "newPassword"});
  }
}

=== FILE: auth_service.dfy ===
// Authentication outcomes (backend/services/auth_service.py). Password hashing
// and checking are parameters: `hash` maps a plain password to its stored hash,
// and `check(stored, given)` answers whether they match, or fails with the
// text of the exception the hashing library raises.

module AuthService {
  import opened Common
  import opened Tables
  import opened Errors
  import opened UserModel
  import opened Schema
  import opened UserRepository

  const BadCredentials := "Credenciales incorrectas"
  const WrongCurrentPassword := "Contraseña actual incorrecta"
  const AuthErrorPrefix := "Error en la autenticación: "

  /** A successful login: the token's identity and the user data sent back with it. */
  datatype LoginOk = LoginOk(identity: string, user: Dict)

  /** The user data a login answers with: id, name and email, the last name when truthy, the role when not `None`. */
  function LoginUserData(u: User): (d: Dict)
    ensures "id" in d && "name" in d && "email" in d
    ensures d["id"] == u.id && d["name"] == u.name && d["email"] == u.email
    ensures "lastname" in d <==> Truthy(u.lastname)
    ensures "rol" in d <==> u.rol != Null
    ensures d.Keys <= {"id", "name", "email", "lastname", "rol"}
    ensures "lastname" in d ==> d["lastname"] == u.lastname
    ensures "rol" in d ==> d["rol"] == u.rol
  {
    var base := map["id" := u.id, "name" := u.name, "email" := u.email];
    var withName := if Truthy(u.lastname) then base["lastname" := u.lastname] else base;
    if u.rol != Null then withName["rol" := u.rol] else withName
  }

  /**
   * `AuthService.login`. An unknown email and a wrong password raise the same
   * Unauthorized error; a failing lookup or password check becomes an APIError
   * 500. The text of a database exception is not modelled: that message keeps
   * only its fixed prefix.
   */
  function Login(users: Table<UserRow>, check: (Value, Value) -> Result<bool, string>, email: Value, password: Value)
    : (r: Result<LoginOk, ApiError>)
    ensures TextQueryFails(email) ==> r == Err(MakeError(AuthErrorPrefix, 500, None))
    ensures r.Ok? <==>
      FindUserByEmail(users, email).Ok? && FindUserByEmail(users, email).value.Some?
      && check(FindUserByEmail(users, email).value.value.password, password) == Ok(true)
    ensures r.Ok? ==>
      var u := FindUserByEmail(users, email).value.value;
      r.value.identity == PyStr(u.id) && r.value.user == LoginUserData(u)
    ensures FindUserByEmail(users, email) == Ok(None) ==> r == Err(UnauthorizedError(BadCredentials))
    ensures FindUserByEmail(users, email).Ok? && FindUserByEmail(users, email).value.Some? ==>
      match check(FindUserByEmail(users, email).value.value.password, password)
      case Ok(ok) => ok || r == Err(UnauthorizedError(BadCredentials))
      case Err(e) => r == Err(MakeError(AuthErrorPrefix + e, 500, None))
  {
    match FindUserByEmail(users, email)
    case Err(_) => Err(MakeError(AuthErrorPrefix, 500, None))
    case Ok(None) => Err(UnauthorizedError(BadCredentials))
    case Ok(Some(u)) =>
      match check(u.password, password)
      case Err(e) => Err(MakeError(AuthErrorPrefix + e, 500, None))
      case Ok(ok) =>
        if !ok then Err(UnauthorizedError(BadCredentials))
        else Ok(LoginOk(PyStr(u.id), LoginUserData(u)))
  }

  /** The users the repository reads back never carry a last name, so a login's user data never has one. */
  lemma LoginNeverSendsLastname(users: Table<UserRow>, check: (Value, Value) -> Result<bool, string>, email: Value, password: Value)
    requires Login(users, check, email, password).Ok?
    ensures "lastname" !in Login(users, check, email, password).value.user
    ensures Login(users, check, email, password).value.identity == IntToString(FindUserByEmail(users, email).value.value.id.i)
  {
  }

  /** What `generate_password_hash` accepts: a non-empty string (anything else raises). */
  predicate Hashable(v: Value)
  {
    v.Str? && |v.s| > 0
  }

  /** The row a registration stores. */
  function RegisteredRow(hash: string -> string, data: Dict): UserRow
    requires Hashable(Get(data, "password", Null))
  {
    UserRow(Get(data, "name", Null), Null, Null, Get(data, "email", Null),
            Str(hash(Get(data, "password", Null).s)), Get(data, "rol", Int(1)), Null)
  }

  /** The user a registration answers with, under the new id `k`. */
  function RegisteredBody(k: int, data: Dict): Dict
  {
    map["id" := Int(k), "name" := Get(data, "name", Null), "lastname" := Get(data, "lastname", Null),
        "email" := Get(data, "email", Null), "rol" := Get(data, "rol", Int(1))]
  }

  /**
   * `AuthService.register`: a lookup the database rejects raises its exception,
   * a taken email raises APIError 400, and both store nothing. Otherwise a
   * password that cannot be hashed, a name psycopg2 cannot send or a rol the
   * integer column refuses raises; anything else creates one user with the
   * hashed password and rol defaulting to 1, stored as its columns make it,
   * and answers with the values as given.
   */
  function Register(users: Table<UserRow>, hash: string -> string, data: Dict): (r: Result<(Table<UserRow>, Dict), Failure>)
    requires Valid(users)
    ensures TextQueryFails(Get(data, "email", Null)) ==> r == Err(Crash)
    ensures (exists k :: k in users.rows && TextEq(users.rows[k].email, Get(data, "email", Null))) ==>
      r == Err(Raised(MakeError("El email ya está registrado", 400, None)))
    ensures r.Ok? <==>
      !TextQueryFails(Get(data, "email", Null))
      && (forall k :: k in users.rows ==> !TextEq(users.rows[k].email, Get(data, "email", Null)))
      && Hashable(Get(data, "password", Null))
      && Adaptable(Get(data, "name", Null)) && ColumnValue(IntColumn, Get(data, "rol", Int(1))).Some?
    ensures r.Err? && r != Err(Crash) ==> r == Err(Raised(MakeError("El email ya está registrado", 400, None)))
    ensures r.Ok? ==>
      var (t, body) := r.value;
      Valid(t) && UserWritable(RegisteredRow(hash, data))
      && (exists k :: k !in users.rows && t.rows == users.rows[k := StoredUser(RegisteredRow(hash, data))]
                      && body == RegisteredBody(k, data))
  {
    match FindUserByEmail(users, Get(data, "email", Null))
    case Err(e) => Err(e)
    case Ok(Some(_)) => Err(Raised(MakeError("El email ya está registrado", 400, None)))
    case Ok(None) =>
      if !Hashable(Get(data, "password", Null)) then
        Err(Crash)
      else
        var u := User(Null, Get(data, "name", Null), Get(data, "email", Null),
                      Str(hash(Get(data, "password", Null).s)), Get(data, "rol", Int(1)), Get(data, "lastname", Null));
        match CreateUser(users, u)
        case Err(e) => Err(e)
        case Ok((t, created)) =>
          Ok((t, map["id" := created.id, "name" := created.name, "lastname" := created.lastname,
                     "email" := created.email, "rol" := created.rol]))
  }

  lemma RegisterThenFindByEmail(users: Table<UserRow>, hash: string -> string, data: Dict)
    requires Valid(users)
    requires Register(users, hash, data).Ok?
    requires Get(data, "email", Null).Str?
    ensures var (t, body) := Register(users, hash, data).value;
      FindUserByEmail(t, Get(data, "email", Null)).Ok?
      && FindUserByEmail(t, Get(data, "email", Null)).value.Some?
      && FindUserByEmail(t, Get(data, "email", Null)).value.value.id == body["id"]
      && FindUserByEmail(t, Get(data, "email", Null)).value.value.password == Str(hash(Get(data, "password", Null).s))
  {
    var (t, body) := Register(users, hash, data).value;
    var email := Get(data, "email", Null);
    var k := body["id"].i;
    assert k in t.rows && TextEq(t.rows[k].email, email);
    assert forall j :: j in t.rows && TextEq(t.rows[j].email, email) ==> j == k;
  }

  /** `AuthService.get_user_profile`: the user's public fields, with a last name that is always `None` here. */
  function GetUserProfile(users: Table<UserRow>, id: int): (r: Result<Dict, ApiError>)
    ensures r.Ok? <==> id in users.rows
    ensures r.Ok? ==> r.value == map["id" := Int(id), "name" := users.rows[id].name, "lastname" := Null,
                                     "email" := users.rows[id].email, "rol" := users.rows[id].rol]
    ensures r.Err? ==> r.error.status == 404
  {
    match FindUserById(users, id)
    case Err(e) => Err(e)
    case Ok(u) => Ok(map["id" := u.id, "name" := u.name, "lastname" := u.lastname, "email" := u.email, "rol" := u.rol])
  }

  /**
   * `AuthService.change_password`: a wrong current password raises Unauthorized and
   * changes nothing; otherwise the stored password becomes the hash of the new one.
   */
  function ChangePassword(users: Table<UserRow>, check: (Value, Value) -> Result<bool, string>, hash: string -> string,
                          id: int, current: Value, newPassword: Value): (r: Result<Table<UserRow>, Failure>)
    ensures id !in users.rows ==> r == Err(Raised(UserNotFound(Int(id))))
    ensures id in users.rows && check(users.rows[id].password, current) == Ok(false) ==>
      r == Err(Raised(UnauthorizedError(WrongCurrentPassword)))
    ensures r.Ok? <==> id in users.rows && check(users.rows[id].password, current) == Ok(true) && Hashable(newPassword)
    ensures r.Ok? ==> r.value.rows == users.rows[id := users.rows[id].(password := Str(hash(newPassword.s)))]
                      && r.value.next == users.next
  {
    match FindUserById(users, id)
    case Err(e) => Err(Raised(e))
    case Ok(u) =>
      match check(u.password, current)
      case Err(_) => Err(Crash)
      case Ok(ok) =>
        if !ok then Err(Raised(UnauthorizedError(WrongCurrentPassword)))
        else if !Hashable(newPassword) then Err(Crash)
        else
          match UpdatePassword(users, id, Str(hash(newPassword.s)))
          case Err(e) => Err(Raised(e))
          case Ok(t) => Ok(t)
  }

  /**
   * When the password check accepts every password against its own hash, a successful
   * change lets the user log in with the new password, provided no earlier user
   * shares the email.
   */
  lemma ChangePasswordThenLogin(users: Table<UserRow>, check: (Value, Value) -> Result<bool, string>, hash: string -> string,
                                id: int, current: Value, newPassword: Value)
    requires ChangePassword(users, check, hash, id, current, newPassword).Ok?
    requires forall p: string :: check(Str(hash(p)), Str(p)) == Ok(true)
    requires UserIdByEmail(users, users.rows[id].email) == Ok(Some(id))
    ensures var t := ChangePassword(users, check, hash, id, current, newPassword).value;
      Login(t, check, users.rows[id].email, newPassword).Ok?
      && Login(t, check, users.rows[id].email, newPassword).value.identity == IntToString(id)
  {
    var t := ChangePassword(users, check, hash, id, current, newPassword).value;
    var email := users.rows[id].email;
    assert forall k :: k in t.rows ==> (TextEq(t.rows[k].email, email) <==> TextEq(users.rows[k].email, email));
    assert UserIdByEmail(t, email) == Ok(Some(id));
  }
}

=== FILE: common.dfy ===
// Shared vocabulary of the model: optional values, the dynamic JSON-like
// values that request bodies and dictionaries carry, Python and JavaScript
// string helpers, and the integer arithmetic the application relies on.

module Common {

  datatype Option<T> = None | Some(value: T)

  datatype Result<T, E> = Ok(value: T) | Err(error: E)

  /** A dynamic value as it travels through JSON bodies, Python dicts and JS objects. */
  datatype Value =
    | Null
    | Bool(b: bool)
    | Int(i: int)
    | Real(r: real)
    | Str(s: string)
    | List(items: seq<Value>)
    | Obj(fields: map<string, Value>)

  /** A Python dict with string keys (a JSON object). */
  type Dict = map<string, Value>

  /** Python truthiness: `None`, `False`, zero, and empty strings, lists and dicts are false. */
  predicate Truthy(v: Value)
  {
    match v
    case Null => false
    case Bool(b) => b
    case Int(i) => i != 0
    case Real(r) => r != 0.0
    case Str(s) => s != ""
    case List(items) => items != []
    case Obj(fields) => fields != map[]
  }

  /** Python's `d.get(k, default)`. */
  function Get(d: Dict, k: string, default: Value): (v: Value)
    ensures k in d ==> v == d[k]
    ensures k !in d ==> v == default
  {
    if k in d then d[k] else default
  }

  /** The number a Python `bool`, `int` or `float` stands for in a numeric comparison. */
  function NumericValue(v: Value): real
    requires v.Bool? || v.Int? || v.Real?
  {
    match v
    case Bool(b) => if b then 1.0 else 0.0
    case Int(i) => i as real
    case Real(x) => x
  }

  /**
   * Python's `==` on JSON-like values: numbers and booleans compare by value
   * across types (`True == 1`, `5.0 == 5`), `None` equals only `None`, text
   * equals only the same text, and lists and dicts compare element by element.
   */
  predicate PyEq(a: Value, b: Value)
    decreases a
  {
    match a
    case Null => b.Null?
    case Str(s) => b.Str? && b.s == s
    case List(xs) => b.List? && |xs| == |b.items| && forall i :: 0 <= i < |xs| ==> PyEq(xs[i], b.items[i])
    case Obj(m) => b.Obj? && m.Keys == b.fields.Keys && forall k :: k in m ==> PyEq(m[k], b.fields[k])
    case _ => (b.Bool? || b.Int? || b.Real?) && NumericValue(a) == NumericValue(b)
  }

  /**
   * The items `for item in v` visits, as far as a loop over request records can
   * tell them apart: a list's items; a text's characters, each a one-character
   * text; and one text per key of a dict (JSON keys are text, and their
   * spelling does not matter, since a text record fails the loop's first
   * `.get`). `None` when Python cannot iterate `v` (`len(v)` raises).
   */
  function PyIterItems(v: Value): (r: Option<seq<Value>>)
    ensures r.None? <==> !(v.List? || v.Str? || v.Obj?)
    ensures v.List? ==> r == Some(v.items)
    ensures v.Str? ==> r.Some? && |r.value| == |v.s| && forall i :: 0 <= i < |v.s| ==> r.value[i] == Str([v.s[i]])
    ensures v.Obj? ==> r.Some? && |r.value| == |v.fields.Keys| && forall i :: 0 <= i < |r.value| ==> r.value[i].Str?
    ensures r.Some? ==> (r.value == [] <==> !Truthy(v))
  {
    match v
    case List(items) => Some(items)
    case Str(s) => Some(seq(|s|, i requires 0 <= i < |s| => Str([s[i]])))
    case Obj(fields) => Some(seq(|fields.Keys|, _ => Str("")))
    case _ => None
  }

  // ---------------------------------------------------------------------
  // Decimal digits

  predicate IsDigit(c: char)
  {
    '0' <= c <= '9'
  }

  predicate AllDigits(s: string)
  {
    forall i :: 0 <= i < |s| ==> IsDigit(s[i])
  }

  function DigitValue(c: char): (d: nat)
    requires IsDigit(c)
    ensures d < 10
  {
    (c as int) - ('0' as int)
  }

  function DigitChar(d: nat): (c: char)
    requires d < 10
    ensures IsDigit(c) && DigitValue(c) == d
  {
    (('0' as int) + d) as char
  }

  /** The number a non-empty run of decimal digits denotes (most significant first). */
  function DigitsValue(s: string): nat
    requires AllDigits(s)
  {
    if |s| == 0 then 0 else 10 * DigitsValue(s[..|s| - 1]) + DigitValue(s[|s| - 1])
  }

  /** Decimal rendering of a natural number without leading zeros, as Python's `str` and JS's `String` produce it. */
  function NatToString(n: nat): (s: string)
    ensures |s| > 0 && AllDigits(s)
    ensures |s| > 1 ==> s[0] != '0'
  {
    if n < 10 then [DigitChar(n)] else NatToString(n / 10) + [DigitChar(n % 10)]
  }

  function IntToString(n: int): (s: string)
    ensures |s| > 0
    ensures n >= 0 <==> s[0] != '-'
  {
    if n < 0 then "-" + NatToString(-n) else NatToString(n)
  }

  lemma {:induction false} NatToStringValue(n: nat)
    ensures DigitsValue(NatToString(n)) == n
    decreases n
  {
    if n >= 10 {
      NatToStringValue(n / 10);
      var s := NatToString(n);
      assert s[..|s| - 1] == NatToString(n / 10);
    }
  }

  /** `s` is an optional minus sign followed by a non-empty run of digits whose value is `n`'s magnitude. */
  predicate DecimalText(s: string, n: int)
  {
    if n < 0 then |s| > 1 && s[0] == '-' && AllDigits(s[1..]) && DigitsValue(s[1..]) == -n
    else s != "" && AllDigits(s) && DigitsValue(s) == n
  }

  /** `IntToString` writes a decimal text of its argument. */
  lemma IntToStringIsDecimal(n: int)
    ensures DecimalText(IntToString(n), n)
  {
    if n < 0 {
      assert IntToString(n)[1..] == NatToString(-n);
      NatToStringValue(-n);
    } else {
      NatToStringValue(n);
    }
  }

  // ---------------------------------------------------------------------
  // Python int()

  /** Characters Python's `str.strip()` removes: JavaScript's white space without the byte-order mark, plus U+001C..U+001F and U+0085. */
  predicate IsPyWs(c: char)
  {
    (IsJsWs(c) && c != '\U{FEFF}') || ('\U{1C}' <= c <= '\U{1F}') || c == '\U{85}'
  }

  function PyStrip(s: string): (t: string)
    ensures |t| <= |s|
    decreases |s|
  {
    if |s| > 0 && IsPyWs(s[0]) then PyStrip(s[1..])
    else if |s| > 0 && IsPyWs(s[|s| - 1]) then PyStrip(s[..|s| - 1])
    else s
  }

  /** Digits with single underscores between them, as Python's `int` accepts them (`1_000`). */
  predicate GroupedDigits(b: string)
  {
    |b| > 0 && IsDigit(b[0]) && IsDigit(b[|b| - 1])
    && (forall i :: 0 <= i < |b| ==> IsDigit(b[i]) || b[i] == '_')
    && (forall i :: 0 <= i < |b| - 1 ==> b[i] == '_' ==> b[i + 1] != '_')
  }

  /** The digits of a grouped run, underscores removed. */
  function DropUnderscores(b: string): (d: string)
    requires forall i :: 0 <= i < |b| ==> IsDigit(b[i]) || b[i] == '_'
    ensures AllDigits(d) && |d| <= |b|
    ensures AllDigits(b) ==> d == b
    ensures |b| > 0 && IsDigit(b[0]) ==> |d| > 0
    decreases |b|
  {
    if |b| == 0 then ""
    else if b[0] == '_' then DropUnderscores(b[1..])
    else [b[0]] + DropUnderscores(b[1..])
  }

  /**
   * Python's `int(text)` on base-10 text: optional surrounding whitespace,
   * optional sign, ASCII digits with single underscores between them.
   */
  function ParseInt(text: string): (r: Option<int>)
    ensures r.Some? ==> |PyStrip(text)| > 0
  {
    var t := PyStrip(text);
    if |t| > 1 && (t[0] == '-' || t[0] == '+') && GroupedDigits(t[1..]) then
      var n := DigitsValue(DropUnderscores(t[1..]));
      Some(if t[0] == '-' then -(n as int) else n)
    else if GroupedDigits(t) then
      Some(DigitsValue(DropUnderscores(t)))
    else
      None
  }

  /** `int("1_0") == 10`, `int("-2_5") == -25`, and a doubled or trailing underscore is refused. */
  lemma ParseIntGrouping()
    ensures ParseInt("1_0") == Some(10)
    ensures ParseInt("-2_5") == Some(-25)
    ensures ParseInt("1__0").None? && ParseInt("10_").None?
  {
    PyStripNoWs("1_0");
    assert DropUnderscores("1_0") == "10" by {
      assert DropUnderscores("_0") == DropUnderscores("0");
    }
    assert DigitsValue("10") == 10 by { assert "10"[..1] == "1"; }
    PyStripNoWs("-2_5");
    assert "-2_5"[1..] == "2_5";
    assert DropUnderscores("2_5") == "25" by {
      assert DropUnderscores("_5") == DropUnderscores("5");
    }
    assert DigitsValue("25") == 25 by { assert "25"[..1] == "2"; }
    PyStripNoWs("1__0");
    assert !GroupedDigits("1__0") by { assert "1__0"[1] == '_' && "1__0"[2] == '_'; }
    PyStripNoWs("10_");
  }

  /** Python's `int(x)` truncates a float toward zero. */
  function TruncToInt(r: real): (n: int)
    ensures r >= 0.0 ==> n as real <= r < n as real + 1.0
    ensures r < 0.0 ==> n as real - 1.0 < r <= n as real
  {
    if r >= 0.0 then r.Floor else -((-r).Floor)
  }

  /** Python's `int(v)` on a JSON value; `None` stands for the ValueError or TypeError it raises. */
  function PyInt(v: Value): (r: Option<int>)
    ensures v.Int? ==> r == Some(v.i)
    ensures v.Null? || v.List? || v.Obj? ==> r.None?
  {
    match v
    case Int(i) => Some(i)
    case Bool(b) => Some(if b then 1 else 0)
    case Real(x) => Some(TruncToInt(x))
    case Str(s) => ParseInt(s)
    case _ => None
  }

  lemma PyStripNoWs(s: string)
    requires |s| > 0 && !IsPyWs(s[0]) && !IsPyWs(s[|s| - 1])
    ensures PyStrip(s) == s
  {
  }

  /** `int()` reads a plain run of digits as its value. */
  lemma ParseDigits(d: string)
    requires |d| > 0 && AllDigits(d)
    ensures ParseInt(d) == Some(DigitsValue(d))
  {
    assert IsDigit(d[0]) && IsDigit(d[|d| - 1]);
    PyStripNoWs(d);
    DigitsAreGrouped(d);
  }

  /** `int()` reads a minus sign followed by a plain run of digits as the negated value. */
  lemma ParseNegatedDigits(s: string)
    requires |s| > 1 && s[0] == '-' && AllDigits(s[1..])
    ensures ParseInt(s) == Some(-(DigitsValue(s[1..]) as int))
  {
    assert !IsPyWs(s[0]);
    assert s[|s| - 1] == s[1..][|s| - 2] && IsDigit(s[1..][|s| - 2]);
    PyStripNoWs(s);
    DigitsAreGrouped(s[1..]);
  }

  /** Rendering an integer and parsing it back gives the integer: `int(str(n)) == n`. */
  lemma IntStringRoundTrip(n: int)
    ensures ParseInt(IntToString(n)) == Some(n)
  {
    var m: nat := if n < 0 then -n else n;
    NatToStringValue(m);
    if n < 0 {
      assert IntToString(n)[1..] == NatToString(m);
      ParseNegatedDigits(IntToString(n));
    } else {
      ParseDigits(NatToString(m));
    }
  }

  /** A plain run of digits is a grouped run that drops nothing. */
  lemma DigitsAreGrouped(d: string)
    requires |d| > 0 && AllDigits(d)
    ensures GroupedDigits(d) && DropUnderscores(d) == d
  {
  }

  /**
   * Python's `str(v)` for the values that appear in messages: `None`, booleans,
   * integers and strings. Floats, lists and dicts render as the empty string here.
   */
  function PyStr(v: Value): (s: string)
    ensures v.Int? ==> s == IntToString(v.i)
    ensures v.Str? ==> s == v.s
  {
    match v
    case Null => "None"
    case Bool(b) => if b then "True" else "False"
    case Int(i) => IntToString(i)
    case Str(t) => t
    case _ => ""
  }

  // ---------------------------------------------------------------------
  // Integer arithmetic

  /** Python's `a // b` (floor division), for either sign of `b`. */
  function PyFloorDiv(a: int, b: int): (q: int)
    requires b != 0
    ensures b > 0 ==> q * b <= a < q * b + b
    ensures b < 0 ==> q * b >= a > q * b + b
  {
    if b > 0 then a / b else (-a) / (-b)
  }

  /** The smallest integer `q` with `q * b >= a`, for a positive divisor. */
  lemma CeilDivision(a: int, b: int)
    requires b > 0
    ensures PyFloorDiv(a + b - 1, b) * b >= a
    ensures (PyFloorDiv(a + b - 1, b) - 1) * b < a
  {
  }

  // ---------------------------------------------------------------------
  // JavaScript strings

  /** The characters JavaScript's `trim()` and the regular-expression class `\s` treat as white space. */
  predicate IsJsWs(c: char)
  {
    c == ' ' || c == '\t' || c == '\n' || c == '\r' || c == '\U{B}' || c == '\U{C}'
    || c == '\U{A0}' || c == '\U{1680}' || ('\U{2000}' <= c <= '\U{200A}')
    || c == '\U{2028}' || c == '\U{2029}' || c == '\U{202F}' || c == '\U{205F}'
    || c == '\U{3000}' || c == '\U{FEFF}'
  }

  /** A character outside the Basic Multilingual Plane takes two UTF-16 code units. */
  function CodeUnits(c: char): (n: nat)
    ensures n == 1 || n == 2
  {
    if c as int > 0xFFFF then 2 else 1
  }

  /** JavaScript's `s.length`: the number of UTF-16 code units. */
  function JsLength(s: string): (n: nat)
    ensures |s| <= n <= 2 * |s|
    ensures n == 0 <==> s == ""
    decreases |s|
  {
    if |s| == 0 then 0 else CodeUnits(s[0]) + JsLength(s[1..])
  }

  /** On text inside the Basic Multilingual Plane, `s.length` counts characters. */
  lemma {:induction false} JsLengthOfBmp(s: string)
    requires forall i :: 0 <= i < |s| ==> s[i] as int <= 0xFFFF
    ensures JsLength(s) == |s|
    decreases |s|
  {
    if |s| > 0 {
      JsLengthOfBmp(s[1..]);
    }
  }

  predicate Blank(s: string)
  {
    forall i :: 0 <= i < |s| ==> IsJsWs(s[i])
  }

  function TrimStart(s: string): (t: string)
    ensures |t| <= |s|
    ensures |t| > 0 ==> !IsJsWs(t[0])
    ensures t == s[|s| - |t|..]
    ensures Blank(s[..|s| - |t|])
    decreases |s|
  {
    if |s| > 0 && IsJsWs(s[0]) then
      var t := TrimStart(s[1..]);
      assert s[1..][..|s| - 1 - |t|] == s[1..|s| - |t|];
      t
    else s
  }

  function TrimEnd(s: string): (t: string)
    ensures |t| <= |s|
    ensures |t| > 0 ==> !IsJsWs(t[|t| - 1])
    ensures t == s[..|t|]
    ensures Blank(s[|t|..])
    decreases |s|
  {
    if |s| > 0 && IsJsWs(s[|s| - 1]) then
      var t := TrimEnd(s[..|s| - 1]);
      assert s[..|s| - 1][|t|..] == s[|t|..|s| - 1];
      assert s[..|s| - 1][..|t|] == s[..|t|];
      assert forall i :: |t| <= i < |s| - 1 ==> IsJsWs(s[i]);
      t
    else s
  }

  /** JavaScript's `s.trim()`. */
  function Trim(s: string): (t: string)
  {
    TrimEnd(TrimStart(s))
  }

  /** A string trims to the empty string exactly when every character is white space. */
  lemma TrimEmptyIffBlank(s: string)
    ensures Trim(s) == "" <==> Blank(s)
  {
    var a := TrimStart(s);
    if Trim(s) == "" {
      assert Blank(a);
      assert |a| == 0;
      assert s == s[..|s| - |a|];
    }
  }

  /** Trimming keeps a string with no white space at either end as it is. */
  lemma TrimKeepsTight(s: string)
    requires |s| > 0 && !IsJsWs(s[0]) && !IsJsWs(s[|s| - 1])
    ensures Trim(s) == s
  {
  }

  // ---------------------------------------------------------------------
  // Splitting on a separator, as JavaScript's `split` and Python's `split` do for a non-empty separator

  /** `s` begins with `prefix` (`startswith` in Python, `startsWith` in JavaScript). */
  predicate StartsWith(s: string, prefix: string)
  {
    |prefix| <= |s| && s[..|prefix|] == prefix
  }

  predicate OccursAt(s: string, sep: string, i: int)
  {
    0 <= i && i + |sep| <= |s| && s[i..i + |sep|] == sep
  }

  /** The first occurrence of `sep` in `s` at or after `from`. */
  function IndexOf(s: string, sep: string, from: nat): (r: Option<nat>)
    ensures r.Some? ==> from <= r.value && OccursAt(s, sep, r.value)
    ensures r.Some? ==> forall j :: from <= j < r.value ==> !OccursAt(s, sep, j)
    ensures r.None? ==> forall j :: from <= j ==> !OccursAt(s, sep, j)
    decreases |s| - from
  {
    if from + |sep| > |s| then None
    else if s[from..from + |sep|] == sep then Some(from)
    else IndexOf(s, sep, from + 1)
  }

  function Split(s: string, sep: string): (parts: seq<string>)
    requires |sep| > 0
    ensures |parts| >= 1
    decreases |s|
  {
    match IndexOf(s, sep, 0)
    case None => [s]
    case Some(i) => [s[..i]] + Split(s[i + |sep|..], sep)
  }

  /** Splitting stops at the first separator and goes on with what follows it. */
  lemma SplitAtFirst(s: string, sep: string, i: nat)
    requires |sep| > 0 && IndexOf(s, sep, 0) == Some(i)
    ensures Split(s, sep) == [s[..i]] + Split(s[i + |sep|..], sep)
  {
    match IndexOf(s, sep, 0)
    case Some(j) => assert j == i;
  }

  /** Without a separator the text is its own single piece. */
  lemma SplitWithout(s: string, sep: string)
    requires |sep| > 0 && IndexOf(s, sep, 0).None?
    ensures Split(s, sep) == [s]
  {
  }

  function Join(parts: seq<string>, sep: string): string
  {
    if |parts| == 0 then ""
    else if |parts| == 1 then parts[0]
    else parts[0] + sep + Join(parts[1..], sep)
  }

  /** Splitting and joining back with the same separator restores the text. */
  lemma {:induction false} SplitJoin(s: string, sep: string)
    requires |sep| > 0
    ensures Join(Split(s, sep), sep) == s
    decreases |s|
  {
    match IndexOf(s, sep, 0)
    case None =>
    case Some(i) =>
      var rest := s[i + |sep|..];
      var parts := Split(s, sep);
      var tail := Split(rest, sep);
      assert parts == [s[..i]] + tail;
      assert |parts| >= 2 && parts[0] == s[..i] && parts[1..] == tail;
      assert Join(parts, sep) == s[..i] + sep + Join(tail, sep);
      SplitJoin(rest, sep);
      assert s[i..i + |sep|] == sep;
      assert s == s[..i] + sep + rest;
  }

  /** No piece produced by `Split` contains the separator. */
  lemma {:induction false} SplitPiecesFree(s: string, sep: string)
    requires |sep| > 0
    ensures forall k, j :: 0 <= k < |Split(s, sep)| ==> !OccursAt(Split(s, sep)[k], sep, j)
    decreases |s|
  {
    match IndexOf(s, sep, 0)
    case None =>
    case Some(i) =>
      var rest := s[i + |sep|..];
      SplitPiecesFree(rest, sep);
      BeforeFirstFree(s, sep, i);
      var parts := Split(s, sep);
      var tail := Split(rest, sep);
      assert parts == [s[..i]] + tail;
      forall k, j | 0 <= k < |parts| ensures !OccursAt(parts[k], sep, j) {
        if k > 0 {
          assert parts[k] == tail[k - 1];
        }
      }
  }

  /** The text before the first occurrence of the separator does not contain it. */
  lemma BeforeFirstFree(s: string, sep: string, i: nat)
    requires |sep| > 0 && IndexOf(s, sep, 0) == Some(i)
    ensures forall j :: !OccursAt(s[..i], sep, j)
  {
    forall j | OccursAt(s[..i], sep, j)
      ensures false
    {
      assert s[..i][j..j + |sep|] == s[j..j + |sep|];
      assert OccursAt(s, sep, j);
    }
  }

  // ---------------------------------------------------------------------
  // JavaScript values and numbers

  /**
   * JavaScript truthiness of a JSON value (`undefined` is an absent key):
   * unlike Python, empty arrays and objects are truthy.
   */
  predicate JsTruthy(v: Value)
  {
    match v
    case Null => false
    case Bool(b) => b
    case Int(i) => i != 0
    case Real(r) => r != 0.0
    case Str(s) => s != ""
    case List(_) => true
    case Obj(_) => true
  }

  /** JavaScript's `Math.round`: the nearest integer, halves rounded toward positive infinity. */
  function MathRound(x: real): (n: int)
    ensures n as real - 0.5 <= x < n as real + 0.5
  {
    (x + 0.5).Floor
  }

  /** JavaScript's `v === n` for a JSON value and a number: integers and floats are the same numbers. */
  predicate JsNumberIs(v: Value, n: int)
  {
    (v.Int? && v.i == n) || (v.Real? && v.r == n as real)
  }

  /** The object's `id` is the number `id`: `x.id === id`. */
  predicate IdIs(d: Dict, id: int)
  {
    "id" in d && JsNumberIs(d["id"], id)
  }

  /** The backend's address, as the frontend hooks write it in front of every path they fetch. */
  const ApiHost := "http://localhost:5328"

  /** `{ ...a, ...b }`: the keys of both objects, with `b`'s values winning. */
  function Spread(a: Dict, b: Dict): (d: Dict)
    ensures d.Keys == a.Keys + b.Keys
    ensures forall k :: k in b ==> d[k] == b[k]
    ensures forall k :: k in a && k !in b ==> d[k] == a[k]
  {
    map k | k in a.Keys + b.Keys :: if k in b then b[k] else a[k]
  }

  // ---------------------------------------------------------------------
  // Filtering lists, as JavaScript's `filter` does

  function Filter<T>(xs: seq<T>, keep: T -> bool): (r: seq<T>)
    ensures |r| <= |xs|
    ensures forall i :: 0 <= i < |r| ==> keep(r[i]) && r[i] in xs
    ensures forall i :: 0 <= i < |xs| && keep(xs[i]) ==> xs[i] in r
  {
    if |xs| == 0 then []
    else if keep(xs[0]) then [xs[0]] + Filter(xs[1..], keep)
    else Filter(xs[1..], keep)
  }

  /** How many elements satisfy `p`. */
  function Count<T>(xs: seq<T>, p: T -> bool): (n: nat)
    ensures n <= |xs|
  {
    if |xs| == 0 then 0 else (if p(xs[0]) then 1 else 0) + Count(xs[1..], p)
  }

  /** Filtering drops exactly the rejected elements. */
  lemma {:induction false} FilterLength<T>(xs: seq<T>, keep: T -> bool, drop: T -> bool)
    requires forall i :: 0 <= i < |xs| ==> drop(xs[i]) == !keep(xs[i])
    ensures |Filter(xs, keep)| == |xs| - Count(xs, drop)
  {
    if |xs| > 0 {
      FilterLength(xs[1..], keep, drop);
    }
  }

  /** Filtering distributes over concatenation, so the kept elements keep their order. */
  lemma {:induction false} FilterAppend<T>(a: seq<T>, b: seq<T>, keep: T -> bool)
    ensures Filter(a + b, keep) == Filter(a, keep) + Filter(b, keep)
  {
    if |a| > 0 {
      FilterAppend(a[1..], b, keep);
      assert (a + b)[0] == a[0];
      assert (a + b)[1..] == a[1..] + b;
      var rest := Filter(a[1..] + b, keep);
      assert Filter(a + b, keep) == (if keep(a[0]) then [a[0]] + rest else rest);
      assert Filter(a, keep) == (if keep(a[0]) then [a[0]] + Filter(a[1..], keep) else Filter(a[1..], keep));
    } else {
      assert a + b == b;
      assert Filter(a, keep) == [];
    }
  }

  /** A list whose every element is kept is its own filter; in particular filtering twice is filtering once. */
  lemma {:induction false} FilterAllKept<T>(xs: seq<T>, keep: T -> bool)
    requires forall i :: 0 <= i < |xs| ==> keep(xs[i])
    ensures Filter(xs, keep) == xs
  {
    if |xs| > 0 {
      FilterAllKept(xs[1..], keep);
    }
  }
}

=== FILE: draft_grades.dfy ===
// The grade page's working copy (frontend/src/hooks/useGrades.ts) and the
// grade table's cell handling
// (frontend/src/pages/Calificaciones/components/GradesTable/GradesTable.tsx):
// editing one score, computing every final grade rounded to tenths, and the
// colour band a final grade is shown in.

module DraftGrades {
  import opened Common

  // ---------------------------------------------------------------------
  // Rounding to tenths

  /** The nearest tenth of a non-negative number, ties rounded up. */
  function TenthsHalfUp(y: real): (r: real)
    requires y >= 0.0
    ensures r >= 0.0 && r * 10.0 == ((r * 10.0).Floor) as real
    ensures r - 0.05 <= y < r + 0.05
  {
    var n := MathRound(y * 10.0);
    (n as real) / 10.0
  }

  /**
   * `parseFloat(x.toFixed(1))`: the nearest tenth, ties away from zero (the
   * digits of a negative number are those of its absolute value).
   */
  function ToTenths(x: real): (r: real)
    ensures r * 10.0 == ((r * 10.0).Floor) as real
    ensures x >= 0.0 ==> r >= 0.0 && r - 0.05 <= x < r + 0.05
    ensures x < 0.0 ==> r <= 0.0 && r - 0.05 < x <= r + 0.05
  {
    if x >= 0.0 then TenthsHalfUp(x)
    else
      var u := TenthsHalfUp(-x);
      var k := (u * 10.0).Floor;
      assert -u * 10.0 == (-k) as real;
      assert (-u * 10.0).Floor == -k;
      -u
  }

  /** A value already on the tenths grid is left as it is. */
  lemma ToTenthsOfGrid(r: real)
    requires r * 10.0 == ((r * 10.0).Floor) as real
    ensures ToTenths(r) == r
  {
    if r >= 0.0 {
      assert MathRound(r * 10.0) == (r * 10.0).Floor;
    } else {
      var k := (r * 10.0).Floor;
      assert -r * 10.0 == (-k) as real;
      assert MathRound(-r * 10.0) == -k;
    }
  }

  /** Rounding to tenths twice is rounding once. */
  lemma ToTenthsIdempotent(x: real)
    ensures ToTenths(ToTenths(x)) == ToTenths(x)
  {
    ToTenthsOfGrid(ToTenths(x));
  }

  // ---------------------------------------------------------------------
  // The working copy

  datatype DraftGrade = DraftGrade(
    id: int, studentId: int, studentName: string,
    exam1: real, exam2: real, project: real, participation: real,
    finalGrade: Option<real>)

  /** The editable scores, named by their keys in the row. */
  datatype DraftField = Exam1 | Exam2 | Project | Participation

  function FieldOf(g: DraftGrade, f: DraftField): real
  {
    match f
    case Exam1 => g.exam1
    case Exam2 => g.exam2
    case Project => g.project
    case Participation => g.participation
  }

  /** `{ ...item, [field]: value }`. */
  function WithField(g: DraftGrade, f: DraftField, v: real): (h: DraftGrade)
    ensures FieldOf(h, f) == v
    ensures forall e :: e != f ==> FieldOf(h, e) == FieldOf(g, e)
    ensures h.id == g.id && h.studentId == g.studentId && h.studentName == g.studentName && h.finalGrade == g.finalGrade
  {
    match f
    case Exam1 => g.(exam1 := v)
    case Exam2 => g.(exam2 := v)
    case Project => g.(project := v)
    case Participation => g.(participation := v)
  }

  /** `updateGrade(id, field, value)`: only rows with that id change, and only in that field. */
  function UpdateDraft(items: seq<DraftGrade>, id: int, field: DraftField, value: real): (r: seq<DraftGrade>)
    ensures |r| == |items|
    ensures forall i :: 0 <= i < |items| && items[i].id != id ==> r[i] == items[i]
    ensures forall i :: 0 <= i < |items| && items[i].id == id ==>
      FieldOf(r[i], field) == value
      && (forall e :: e != field ==> FieldOf(r[i], e) == FieldOf(items[i], e))
      && r[i].id == id && r[i].studentId == items[i].studentId && r[i].studentName == items[i].studentName
      && r[i].finalGrade == items[i].finalGrade
  {
    seq(|items|, i requires 0 <= i < |items| => if items[i].id == id then WithField(items[i], field, value) else items[i])
  }

  /** The page's weighting: 25% each exam, 35% project, 15% participation. */
  function DraftWeighted(g: DraftGrade): real
  {
    g.exam1 * 0.25 + g.exam2 * 0.25 + g.project * 0.35 + g.participation * 0.15
  }

  /** Raising any score of a row never lowers its weighted score. */
  lemma DraftWeightedMonotone(a: DraftGrade, b: DraftGrade)
    requires a.exam1 <= b.exam1 && a.exam2 <= b.exam2 && a.project <= b.project && a.participation <= b.participation
    ensures DraftWeighted(a) <= DraftWeighted(b)
  {
  }

  /** A row whose final grade is its weighted score rounded to tenths. */
  predicate Finalised(g: DraftGrade)
  {
    g.finalGrade == Some(ToTenths(DraftWeighted(g)))
  }

  /** `calculateFinalGrades()`: every row gets its final grade; nothing else changes. */
  function CalculateFinalGrades(items: seq<DraftGrade>): (r: seq<DraftGrade>)
    ensures |r| == |items|
    ensures forall i :: 0 <= i < |items| ==> r[i] == items[i].(finalGrade := r[i].finalGrade) && Finalised(r[i])
  {
    seq(|items|, i requires 0 <= i < |items| => items[i].(finalGrade := Some(ToTenths(DraftWeighted(items[i])))))
  }

  /** Computing the final grades a second time changes nothing. */
  lemma CalculateFinalGradesIdempotent(items: seq<DraftGrade>)
    ensures CalculateFinalGrades(CalculateFinalGrades(items)) == CalculateFinalGrades(items)
  {
    var once := CalculateFinalGrades(items);
    var twice := CalculateFinalGrades(once);
    forall i | 0 <= i < |items| ensures twice[i] == once[i] {
      assert DraftWeighted(once[i]) == DraftWeighted(items[i]);
    }
  }

  /** Editing a score leaves other rows finalised, and finalising again fixes the edited row. */
  lemma EditThenCalculate(items: seq<DraftGrade>, id: int, field: DraftField, value: real)
    requires forall i :: 0 <= i < |items| ==> Finalised(items[i])
    ensures forall i :: 0 <= i < |items| && items[i].id != id ==> Finalised(UpdateDraft(items, id, field, value)[i])
    ensures forall i :: 0 <= i < |items| ==> Finalised(CalculateFinalGrades(UpdateDraft(items, id, field, value))[i])
  {
  }

  // ---------------------------------------------------------------------
  // The grade table

  /** The colour band of a final grade: none, high, medium or low. */
  datatype Band = NoBand | High | Medium | Low

  /** `getGradeColor(grade)`: an absent or zero grade is not coloured. */
  function GradeColor(grade: Option<real>): (b: Band)
    ensures b == NoBand <==> grade.None? || grade.value == 0.0
    ensures b == High <==> grade.Some? && grade.value >= 9.0
    ensures b == Medium <==> grade.Some? && 7.0 <= grade.value < 9.0
    ensures b == Low <==> grade.Some? && grade.value < 7.0 && grade.value != 0.0
  {
    if grade.None? || grade.value == 0.0 then NoBand
    else if grade.value >= 9.0 then High
    else if grade.value >= 7.0 then Medium
    else Low
  }

  /**
   * `handleGradeChange(..., value)`: the number passed to `updateGrade`, or `None`
   * when no update is made. An empty cell counts as 0; `parseFloat` is a
   * parameter that answers `None` for NaN.
   */
  function CellValue(value: string, parseFloat: string -> Option<real>): (r: Option<real>)
    ensures value == "" ==> r == Some(0.0)
    ensures value != "" ==> (r.Some? <==> parseFloat(value).Some? && 0.0 <= parseFloat(value).value <= 10.0)
    ensures value != "" && r.Some? ==> r == parseFloat(value)
  {
    var n := if value == "" then Some(0.0) else parseFloat(value);
    if n.Some? && 0.0 <= n.value <= 10.0 then n else None
  }

  /** What a cell edit does to the working copy: the row updated, or the copy unchanged. */
  function HandleGradeChange(items: seq<DraftGrade>, id: int, field: DraftField, value: string, parseFloat: string -> Option<real>): (r: seq<DraftGrade>)
    ensures CellValue(value, parseFloat).None? ==> r == items
    ensures CellValue(value, parseFloat).Some? ==> r == UpdateDraft(items, id, field, CellValue(value, parseFloat).value)
  {
    match CellValue(value, parseFloat)
    case None => items
    case Some(v) => UpdateDraft(items, id, field, v)
  }

  predicate OnScale(g: DraftGrade)
  {
    0.0 <= g.exam1 <= 10.0 && 0.0 <= g.exam2 <= 10.0 && 0.0 <= g.project <= 10.0 && 0.0 <= g.participation <= 10.0
  }

  /** Cell edits keep every score on the 0-10 scale, and so every computed final grade too. */
  lemma CellEditsStayOnScale(items: seq<DraftGrade>, id: int, field: DraftField, value: string, parseFloat: string -> Option<real>)
    requires forall i :: 0 <= i < |items| ==> OnScale(items[i])
    ensures var r := HandleGradeChange(items, id, field, value, parseFloat);
      forall i :: 0 <= i < |r| ==> OnScale(r[i])
    ensures var r := CalculateFinalGrades(HandleGradeChange(items, id, field, value, parseFloat));
      forall i :: 0 <= i < |r| ==> 0.0 <= r[i].finalGrade.value <= 10.0
  {
    var edited := HandleGradeChange(items, id, field, value, parseFloat);
    forall i | 0 <= i < |edited| ensures OnScale(edited[i]) {
      if items[i].id == id && CellValue(value, parseFloat).Some? {
        assert FieldOf(edited[i], Exam1) == FieldOf(items[i], Exam1) || field == Exam1;
        assert FieldOf(edited[i], Exam2) == FieldOf(items[i], Exam2) || field == Exam2;
        assert FieldOf(edited[i], Project) == FieldOf(items[i], Project) || field == Project;
        assert FieldOf(edited[i], Participation) == FieldOf(items[i], Participation) || field == Participation;
      }
    }
    var r := CalculateFinalGrades(edited);
    forall i | 0 <= i < |r| ensures 0.0 <= r[i].finalGrade.value <= 10.0 {
      var w := DraftWeighted(edited[i]);
      assert 0.0 <= w <= 10.0;
      var n := MathRound(w * 10.0);
      assert 0 <= n <= 100;
    }
  }
}

=== FILE: errors.dfy ===
// The application's error vocabulary (backend/utils/error_handler.py): the
// API error family, its JSON rendering, and the HTTP responses the Flask
// error handlers produce.

module Errors {
  import opened Common

  datatype Kind = General | NotFound | Unauthorized | Forbidden

  /** An `APIError` (or one of its subclasses) as raised inside a request. */
  datatype ApiError = ApiError(kind: Kind, message: string, status: int, payload: Option<Dict>)

  /** Anything a request handler can raise: an API error, or any other exception. */
  datatype Failure = Raised(err: ApiError) | Crash

  /** An HTTP response: status code and JSON object body. */
  datatype Response = Response(status: int, body: Dict)

  function MessageBody(message: string): (d: Dict)
    ensures d.Keys == {"message"} && d["message"] == Str(message)
  {
    map["message" := Str(message)]
  }

  /** `jsonify({"message": message}), status`: the answer most endpoints give. */
  function Answer(status: int, message: string): (r: Response)
    ensures r.status == status && r.body == MessageBody(message)
  {
    Response(status, MessageBody(message))
  }

  /** `jsonify({"success": False, "message": message}), status`: the failure answer of the grade and attendance saves. */
  function Failed(status: int, message: string): (r: Response)
    ensures r.status == status && r.body.Keys == {"message", "success"}
    ensures r.body["message"] == Str(message) && r.body["success"] == Bool(false)
  {
    Response(status, map["message" := Str(message), "success" := Bool(false)])
  }

  /** `APIError(message, status_code, payload)`. */
  function MakeError(message: string, status: int, payload: Option<Dict>): (e: ApiError)
    ensures e.kind == General && e.message == message && e.status == status && e.payload == payload
  {
    ApiError(General, message, status, payload)
  }

  /** `APIError(message)` with the default status 400. */
  function BadRequest(message: string): (e: ApiError)
    ensures e.status == 400 && e.message == message && e.payload.None?
  {
    ApiError(General, message, 400, None)
  }

  const DefaultNotFoundMessage := "Recurso no encontrado"
  const DefaultUnauthorizedMessage := "No autorizado"
  const DefaultForbiddenMessage := "Acceso prohibido"

  function NotFoundError(message: string): (e: ApiError)
    ensures e.kind == NotFound && e.status == 404 && e.message == message && e.payload.None?
  {
    ApiError(NotFound, message, 404, None)
  }

  function UnauthorizedError(message: string): (e: ApiError)
    ensures e.kind == Unauthorized && e.status == 401 && e.message == message && e.payload.None?
  {
    ApiError(Unauthorized, message, 401, None)
  }

  function ForbiddenError(message: string): (e: ApiError)
    ensures e.kind == Forbidden && e.status == 403 && e.message == message && e.payload.None?
  {
    ApiError(Forbidden, message, 403, None)
  }

  /** `to_dict`: the payload's entries, with `message` set to the error's message. */
  function ToDict(e: ApiError): (d: Dict)
    ensures "message" in d && d["message"] == Str(e.message)
    ensures forall k :: k in d && k != "message" ==> e.payload.Some? && k in e.payload.value && d[k] == e.payload.value[k]
    ensures e.payload.Some? ==> forall k :: k in e.payload.value ==> k in d
  {
    var base := if e.payload.Some? then e.payload.value else map[];
    base["message" := Str(e.message)]
  }

  /** The handler registered for `APIError`: the error's dictionary under the error's status. */
  function HandleApiError(e: ApiError): (r: Response)
    ensures r.status == e.status
    ensures "message" in r.body && r.body["message"] == Str(e.message)
    ensures e.payload.None? ==> r.body == MessageBody(e.message)
  {
    Response(e.status, ToDict(e))
  }

  /** The handler for any other exception: a generic 500. */
  const ServerErrorMessage := "Error interno del servidor"

  /** How Flask answers a failed request: API errors through their handler, anything else as a 500. */
  function Render(f: Failure): (r: Response)
    ensures f.Raised? ==> r.status == f.err.status && "message" in r.body && r.body["message"] == Str(f.err.message)
    ensures f.Crash? ==> r == Response(500, MessageBody(ServerErrorMessage))
  {
    match f
    case Raised(e) => HandleApiError(e)
    case Crash => Response(500, MessageBody(ServerErrorMessage))
  }

  /** The bodies of the handlers registered for plain 404, 400 and 500 aborts. */
  function StatusPage(code: int): (r: Option<Response>)
    ensures r.Some? <==> code in {400, 404, 500}
    ensures r.Some? ==> r.value.status == code && r.value.body.Keys == {"message"}
  {
    if code == 404 then Some(Response(404, MessageBody(DefaultNotFoundMessage)))
    else if code == 400 then Some(Response(400, MessageBody("Solicitud incorrecta")))
    else if code == 500 then Some(Response(500, MessageBody(ServerErrorMessage)))
    else None
  }
}

=== FILE: grades_hooks.dfy ===
// The web client's grade sheet (frontend/src/hooks/useGetGrades.ts): loading a
// group's grades, editing one component with the final grade recomputed and
// rounded to hundredths, and building the batch the save endpoint receives.

module GradesHooks {
  import opened Common
  import opened Schema
  import opened GradesRoutes

  // ---------------------------------------------------------------------
  // Rounding to hundredths

  /** `Math.round(x * 100) / 100`, on exact reals. */
  function RoundHundredths(x: real): (r: real)
    ensures r * 100.0 == ((r * 100.0).Floor) as real
    ensures r - 0.005 <= x < r + 0.005
  {
    (MathRound(x * 100.0) as real) / 100.0
  }

  /** A value already on the hundredths grid is left as it is, so rounding twice is rounding once. */
  lemma RoundHundredthsIdempotent(x: real)
    ensures RoundHundredths(RoundHundredths(x)) == RoundHundredths(x)
  {
    var r := RoundHundredths(x);
    var n := MathRound(x * 100.0);
    assert r * 100.0 == n as real;
    assert MathRound(r * 100.0) == n;
  }

  /** Rounding keeps a value on the 0-10 scale on that scale. */
  lemma RoundHundredthsInRange(x: real)
    requires InRange(x)
    ensures InRange(RoundHundredths(x))
  {
    var n := MathRound(x * 100.0);
    assert 0 <= n <= 1000;
  }

  // ---------------------------------------------------------------------
  // The sheet

  /** One row of the sheet as the read endpoint delivers it. */
  datatype Grade = Grade(id: int, studentId: int, studentName: string, groupId: int, scores: Scores, finall: real)

  /** The editable components, named by their keys in the row. */
  datatype ScoreField = ClassParticipation | Exercises | Homework | Exams | ChurchClass

  function ScoreOf(s: Scores, f: ScoreField): real
  {
    match f
    case ClassParticipation => s.participation
    case Exercises => s.exercises
    case Homework => s.homework
    case Exams => s.exams
    case ChurchClass => s.church
  }

  /** `{ ...scores, [field]: value }`. */
  function WithScore(s: Scores, f: ScoreField, v: real): (t: Scores)
    ensures ScoreOf(t, f) == v
    ensures forall g :: g != f ==> ScoreOf(t, g) == ScoreOf(s, g)
  {
    match f
    case ClassParticipation => s.(participation := v)
    case Exercises => s.(exercises := v)
    case Homework => s.(homework := v)
    case Exams => s.(exams := v)
    case ChurchClass => s.(church := v)
  }

  /** The row's final grade is its weighted score rounded to hundredths. */
  predicate Consistent(g: Grade)
  {
    g.finall == RoundHundredths(Weighted(g.scores))
  }

  /** The row after setting one component: identity fields kept, the final grade recomputed. */
  function EditedRow(g: Grade, field: ScoreField, value: real): (h: Grade)
    ensures h.id == g.id && h.studentId == g.studentId && h.studentName == g.studentName && h.groupId == g.groupId
    ensures ScoreOf(h.scores, field) == value
    ensures forall f :: f != field ==> ScoreOf(h.scores, f) == ScoreOf(g.scores, f)
    ensures Consistent(h)
  {
    var scores := WithScore(g.scores, field, value);
    g.(scores := scores, finall := RoundHundredths(Weighted(scores)))
  }

  /** `updateGrade(studentId, field, value)`: every row of that student is edited, every other row is kept. */
  function UpdateGrade(grades: seq<Grade>, studentId: int, field: ScoreField, value: real): (r: seq<Grade>)
    ensures |r| == |grades|
    ensures forall i :: 0 <= i < |grades| && grades[i].studentId != studentId ==> r[i] == grades[i]
    ensures forall i :: 0 <= i < |grades| && grades[i].studentId == studentId ==> r[i] == EditedRow(grades[i], field, value)
  {
    seq(|grades|, i requires 0 <= i < |grades| =>
      if grades[i].studentId == studentId then EditedRow(grades[i], field, value) else grades[i])
  }

  /** Two edits of the same component of the same student: the second one wins. */
  lemma UpdateGradeLastWins(grades: seq<Grade>, studentId: int, field: ScoreField, v1: real, v2: real)
    ensures UpdateGrade(UpdateGrade(grades, studentId, field, v1), studentId, field, v2) == UpdateGrade(grades, studentId, field, v2)
  {
    var once := UpdateGrade(grades, studentId, field, v1);
    var twice := UpdateGrade(once, studentId, field, v2);
    var direct := UpdateGrade(grades, studentId, field, v2);
    forall i | 0 <= i < |grades| ensures twice[i] == direct[i] {
      if grades[i].studentId == studentId {
        assert twice[i].scores == direct[i].scores by {
          forall f ensures ScoreOf(twice[i].scores, f) == ScoreOf(direct[i].scores, f) {}
          ScoresByComponents(twice[i].scores, direct[i].scores);
        }
      }
    }
  }

  /** Two score records that agree on every component are equal. */
  lemma ScoresByComponents(a: Scores, b: Scores)
    requires forall f :: ScoreOf(a, f) == ScoreOf(b, f)
    ensures a == b
  {
    assert ScoreOf(a, ClassParticipation) == ScoreOf(b, ClassParticipation);
    assert ScoreOf(a, Exercises) == ScoreOf(b, Exercises);
    assert ScoreOf(a, Homework) == ScoreOf(b, Homework);
    assert ScoreOf(a, Exams) == ScoreOf(b, Exams);
    assert ScoreOf(a, ChurchClass) == ScoreOf(b, ChurchClass);
  }

  /** Setting a component to the value it already has changes nothing in a consistent row. */
  lemma UpdateGradeSameValue(grades: seq<Grade>, studentId: int, field: ScoreField)
    requires forall i :: 0 <= i < |grades| ==> Consistent(grades[i])
    requires forall i, j :: 0 <= i < |grades| && 0 <= j < |grades| && grades[i].studentId == studentId && grades[j].studentId == studentId ==>
      ScoreOf(grades[i].scores, field) == ScoreOf(grades[j].scores, field)
    requires exists i :: 0 <= i < |grades| && grades[i].studentId == studentId
    ensures forall i :: 0 <= i < |grades| && grades[i].studentId == studentId ==>
      UpdateGrade(grades, studentId, field, ScoreOf(grades[i].scores, field)) == grades
  {
    forall k | 0 <= k < |grades| && grades[k].studentId == studentId
      ensures UpdateGrade(grades, studentId, field, ScoreOf(grades[k].scores, field)) == grades
    {
      var v := ScoreOf(grades[k].scores, field);
      var r := UpdateGrade(grades, studentId, field, v);
      forall i | 0 <= i < |grades| ensures r[i] == grades[i] {
        if grades[i].studentId == studentId {
          forall f ensures ScoreOf(r[i].scores, f) == ScoreOf(grades[i].scores, f) {}
          ScoresByComponents(r[i].scores, grades[i].scores);
        }
      }
    }
  }

  /** An edited row whose components are on the 0-10 scale shows a final grade on that scale. */
  lemma EditedRowInRange(g: Grade, field: ScoreField, value: real)
    requires forall f :: InRange(ScoreOf(g.scores, f))
    requires InRange(value)
    ensures InRange(EditedRow(g, field, value).finall)
  {
    var s := WithScore(g.scores, field, value);
    assert InRange(ScoreOf(s, ClassParticipation)) && InRange(ScoreOf(s, Exercises)) && InRange(ScoreOf(s, Homework));
    assert InRange(ScoreOf(s, Exams)) && InRange(ScoreOf(s, ChurchClass));
    WeightedInRange(s);
    RoundHundredthsInRange(Weighted(s));
  }

  // ---------------------------------------------------------------------
  // Loading

  const MissingGroupMessage := "Se requiere un ID de grupo para obtener las calificaciones."
  const LoadFailedMessage := "Error al cargar las calificaciones. Por favor, intenta de nuevo más tarde."

  /** What a call to `fetchGrades` does before any network traffic. */
  datatype FetchStep = Refused(error: string) | AlreadyLoading | Requested(groupId: int)

  /**
   * `fetchGrades(groupId)`: no group (absent or 0) is refused with an error and an emptied
   * sheet; a repeat request for the group already loading is dropped; anything else is sent.
   */
  function FetchGrades(groupId: Option<int>, loading: bool, lastGroup: Option<int>): (s: FetchStep)
    ensures s.Refused? <==> groupId.None? || groupId.value == 0
    ensures s.Refused? ==> s.error == MissingGroupMessage
    ensures s.AlreadyLoading? <==> groupId.Some? && groupId.value != 0 && loading && lastGroup == groupId
    ensures s.Requested? ==> groupId == Some(s.groupId) && s.groupId != 0
  {
    if groupId.None? || groupId.value == 0 then Refused(MissingGroupMessage)
    else if loading && lastGroup == groupId then AlreadyLoading
    else Requested(groupId.value)
  }

  /**
   * The sheet and error after the response: `reply` is the parsed body of a
   * successful response, `None` for a failed request, an error status or a body
   * that is not JSON. Only an array under `grades` fills the sheet.
   */
  function ReceiveGrades(reply: Option<Dict>): (r: (seq<Value>, Option<string>))
    ensures reply.None? ==> r == ([], Some(LoadFailedMessage))
    ensures reply.Some? ==> r.1.None?
    ensures reply.Some? && "grades" in reply.value && reply.value["grades"].List? ==> r.0 == reply.value["grades"].items
    ensures reply.Some? && !("grades" in reply.value && reply.value["grades"].List?) ==> r.0 == []
  {
    match reply
    case None => ([], Some(LoadFailedMessage))
    case Some(data) =>
      if "grades" in data && data["grades"].List? then (data["grades"].items, None) else ([], None)
  }

  // ---------------------------------------------------------------------
  // Saving

  /** One record of the save batch: the student, the batch's group and the five components. */
  function SaveRecordOf(g: Grade, groupId: int): (d: Dict)
    ensures d.Keys == {"student_id", "group_id", "class_participation", "exercises", "homework", "exams", "church_class"}
    ensures d["student_id"] == Int(g.studentId) && d["group_id"] == Int(groupId)
    ensures forall i :: 0 <= i < 5 ==> ScoreFields[i] in d && d[ScoreFields[i]].Real?
  {
    map[
      "student_id" := Int(g.studentId),
      "group_id" := Int(groupId),
      "class_participation" := Real(g.scores.participation),
      "exercises" := Real(g.scores.exercises),
      "homework" := Real(g.scores.homework),
      "exams" := Real(g.scores.exams),
      "church_class" := Real(g.scores.church)
    ]
  }

  /**
   * The body `saveGrades` posts, or `None` when it refuses to send: an empty sheet,
   * or a first row whose group is 0. Every record carries the first row's group.
   */
  function SaveBody(grades: seq<Grade>): (body: Option<Dict>)
    ensures body.None? <==> |grades| == 0 || grades[0].groupId == 0
    ensures body.Some? ==>
      body.value.Keys == {"grades", "group_id"} && body.value["group_id"] == Int(grades[0].groupId)
      && body.value["grades"].List? && |body.value["grades"].items| == |grades|
      && forall i :: 0 <= i < |grades| ==> body.value["grades"].items[i] == Obj(SaveRecordOf(grades[i], grades[0].groupId))
  {
    if |grades| == 0 || grades[0].groupId == 0 then None
    else
      var g := grades[0].groupId;
      var records := seq(|grades|, i requires 0 <= i < |grades| => Obj(SaveRecordOf(grades[i], g)));
      Some(map["grades" := List(records), "group_id" := Int(g)])
  }

  /** Each record of the batch reaches the server's score parser as exactly the row's five components. */
  lemma SaveBodyParsesBack(grades: seq<Grade>, i: int)
    requires |grades| > 0 && grades[0].groupId != 0 && 0 <= i < |grades|
    ensures ParseScores(SaveRecordOf(grades[i], grades[0].groupId)) == Usable(grades[i].scores)
  {
    var d := SaveRecordOf(grades[i], grades[0].groupId);
    var s := grades[i].scores;
    assert ComponentOf(d, "class_participation") == Number(s.participation);
    assert ComponentOf(d, "exercises") == Number(s.exercises);
    assert ComponentOf(d, "homework") == Number(s.homework);
    assert ComponentOf(d, "exams") == Number(s.exams);
    assert ComponentOf(d, "church_class") == Number(s.church);
    assert forall k :: 0 <= k < 5 ==> ComponentOf(d, ScoreFields[k]).Number?;
  }

  /** The final grade the sheet shows is within half a hundredth of the one the server stores. */
  lemma ShownFinalNearStored(g: Grade)
    requires Consistent(g)
    ensures g.finall - 0.005 <= Weighted(g.scores) < g.finall + 0.005
  {
  }

  const NoGroupMessage := "No se pudo determinar el ID del grupo"
  const SavedDefaultMessage := "¡Calificaciones guardadas correctamente!"
  const SaveFailedMessage := "Error al guardar las calificaciones"

  /** The value `saveGrades` resolves to, and whether it reloads the sheet afterwards. */
  datatype SaveOutcome = SaveOutcome(success: Value, message: Value, reload: bool)

  /**
   * `saveGrades(grades)`: `reply` is the parsed body of a successful response, `None`
   * when the request fails or the status is an error. The server's `success` and
   * `message` are passed through, with a default message when it sends a falsy one;
   * a truthy `success` reloads the sheet.
   */
  function SaveGrades(grades: seq<Grade>, reply: Option<Dict>): (r: SaveOutcome)
    ensures SaveBody(grades).None? ==> r == SaveOutcome(Bool(false), Str(NoGroupMessage), false)
    ensures SaveBody(grades).Some? && reply.None? ==> r == SaveOutcome(Bool(false), Str(SaveFailedMessage), false)
    ensures SaveBody(grades).Some? && reply.Some? ==>
      r.success == Get(reply.value, "success", Null)
      && r.reload == JsTruthy(Get(reply.value, "success", Null))
      && (JsTruthy(Get(reply.value, "message", Null)) ==> r.message == reply.value["message"])
      && (!JsTruthy(Get(reply.value, "message", Null)) ==> r.message == Str(SavedDefaultMessage))
  {
    match SaveBody(grades)
    case None => SaveOutcome(Bool(false), Str(NoGroupMessage), false)
    case Some(_) =>
      match reply
      case None => SaveOutcome(Bool(false), Str(SaveFailedMessage), false)
      case Some(data) =>
        var success := Get(data, "success", Null);
        var message := Get(data, "message", Null);
        SaveOutcome(success, if JsTruthy(message) then message else Str(SavedDefaultMessage), JsTruthy(success))
  }
}

=== FILE: grades_routes.dfy ===
// The grade-recording endpoints (backend/routes/grades_routes.py): saving a
// batch of grades as an upsert into `notes` keyed by (student, group, period),
// reading a group's grades with zero fill-in, and the CSV report's rows.

module GradesRoutes {
  import opened Common
  import opened Tables
  import opened Errors
  import opened Schema

  // ---------------------------------------------------------------------
  // The final score

  /** The weighted final score: 15% participation, 15% exercises, 25% homework, 35% exams, 10% church class. */
  function Weighted(s: Scores): real
  {
    s.participation * 0.15 + s.exercises * 0.15 + s.homework * 0.25 + s.exams * 0.35 + s.church * 0.10
  }

  /** Raising any component never lowers the final score. */
  lemma WeightedMonotone(a: Scores, b: Scores)
    requires a.participation <= b.participation && a.exercises <= b.exercises && a.homework <= b.homework
    requires a.exams <= b.exams && a.church <= b.church
    ensures Weighted(a) <= Weighted(b)
  {
  }

  predicate InRange(x: real)
  {
    0.0 <= x <= 10.0
  }

  /** Components on the 0-10 scale give a final score on the 0-10 scale. */
  lemma WeightedInRange(s: Scores)
    requires InRange(s.participation) && InRange(s.exercises) && InRange(s.homework)
    requires InRange(s.exams) && InRange(s.church)
    ensures InRange(Weighted(s))
  {
  }

  const ZeroScores := Scores(0.0, 0.0, 0.0, 0.0, 0.0)

  // ---------------------------------------------------------------------
  // Saving one record

  /**
   * How a component behaves in the save: numbers take part in the weighted sum;
   * a boolean takes part in Python's arithmetic but the database rejects it in a
   * numeric column; any other value makes the arithmetic raise.
   */
  datatype Component = Number(x: real) | Boolean | NotANumber

  /** `record.get(field, 0)` as a component. */
  function ComponentOf(rec: Dict, field: string): (c: Component)
    ensures field !in rec ==> c == Number(0.0)
    ensures c.Number? <==> field !in rec || rec[field].Int? || rec[field].Real?
    ensures c.Boolean? <==> field in rec && rec[field].Bool?
  {
    match Get(rec, field, Int(0))
    case Int(i) => Number(i as real)
    case Real(x) => Number(x)
    case Bool(_) => Boolean
    case _ => NotANumber
  }

  /** The number a component stands for; only read for numbers. */
  function NumberOf(c: Component): real
  {
    if c.Number? then c.x else 0.0
  }

  /** The five components of a record: all numbers, at least one boolean and no other value, or unusable. */
  datatype Parsed = Usable(scores: Scores) | HasBoolean | Unusable

  const ScoreFields: seq<string> := ["class_participation", "exercises", "homework", "exams", "church_class"]

  function ParseScores(rec: Dict): (p: Parsed)
    ensures p.Usable? <==> forall i :: 0 <= i < 5 ==> ComponentOf(rec, ScoreFields[i]).Number?
    ensures p.Unusable? <==> exists i :: 0 <= i < 5 && ComponentOf(rec, ScoreFields[i]).NotANumber?
    ensures p.Usable? ==> p.scores == Scores(
      NumberOf(ComponentOf(rec, "class_participation")), NumberOf(ComponentOf(rec, "exercises")),
      NumberOf(ComponentOf(rec, "homework")), NumberOf(ComponentOf(rec, "exams")), NumberOf(ComponentOf(rec, "church_class")))
  {
    if exists i :: 0 <= i < 5 && ComponentOf(rec, ScoreFields[i]).NotANumber? then Unusable
    else if exists i :: 0 <= i < 5 && ComponentOf(rec, ScoreFields[i]).Boolean? then HasBoolean
    else
      Usable(Scores(
        NumberOf(ComponentOf(rec, "class_participation")), NumberOf(ComponentOf(rec, "exercises")),
        NumberOf(ComponentOf(rec, "homework")), NumberOf(ComponentOf(rec, "exams")), NumberOf(ComponentOf(rec, "church_class"))))
  }

  /** The upsert key of `notes`. */
  predicate KeyIs(row: NoteRow, s: int, g: int, period: int)
  {
    row.studentId == s && row.groupId == g && row.period == period
  }

  predicate SameKey(a: NoteRow, b: NoteRow)
  {
    a.studentId == b.studentId && a.groupId == b.groupId && a.period == b.period
  }

  /** At most one row per (student, group, period). */
  predicate UniqueKeys(notes: Table<NoteRow>)
  {
    forall a, b :: a in notes.rows && b in notes.rows && SameKey(notes.rows[a], notes.rows[b]) ==> a == b
  }

  /** The outcome of one record: written at row `id`, skipped, or rejected by the database. */
  datatype Step = Wrote(notes: Table<NoteRow>, id: int) | Skip | DbFail

  /** The student a record names, once it is accepted. */
  function StudentOf(rec: Dict, active: set<int>): (s: int)
    requires AcceptedStudent(Get(rec, "student_id", Null), active)
    ensures s in active
  {
    NumericKey(Get(rec, "student_id", Null)).value
  }

  /**
   * One pass of the save loop: a record whose student is missing or not active
   * in the group is skipped; otherwise the row with its key is updated in
   * place, or a new row is inserted when there is none, holding the five
   * components and their weighted final score.
   */
  function SaveRecord(notes: Table<NoteRow>, active: set<int>, g: int, period: int, rec: Dict): (st: Step)
    requires Valid(notes)
    ensures !AcceptedStudent(Get(rec, "student_id", Null), active) ==> st == Skip
    ensures AcceptedStudent(Get(rec, "student_id", Null), active) ==>
      (st.Skip? <==> ParseScores(rec).Unusable?) && (st.DbFail? <==> ParseScores(rec).HasBoolean?)
    ensures st.Wrote? ==>
      AcceptedStudent(Get(rec, "student_id", Null), active) && ParseScores(rec).Usable?
      && var sc := ParseScores(rec).scores;
         var s := StudentOf(rec, active);
         Valid(st.notes)
         && st.notes.rows == notes.rows[st.id := NoteRow(s, g, period, sc, Weighted(sc))]
         && (st.id in notes.rows ==> KeyIs(notes.rows[st.id], s, g, period))
         && (st.id !in notes.rows ==> forall k :: k in notes.rows ==> !KeyIs(notes.rows[k], s, g, period))
  {
    var sid := Get(rec, "student_id", Null);
    if !AcceptedStudent(sid, active) then Skip
    else
      var s := StudentOf(rec, active);
      match ParseScores(rec)
      case Unusable => Skip
      case HasBoolean => DbFail
      case Usable(sc) =>
        var row := NoteRow(s, g, period, sc, Weighted(sc));
        match FirstWhere(notes.rows, (r: NoteRow) => KeyIs(r, s, g, period))
        case Some(k) => Wrote(Put(notes, k, row), k)
        case None =>
          var (t, k) := Insert(notes, row);
          Wrote(t, k)
  }

  /** Rows with another key are kept as they are, and nothing is deleted. */
  predicate KeepsOthers(before: Table<NoteRow>, after: Table<NoteRow>, active: set<int>, g: int, period: int)
  {
    (forall k :: k in before.rows ==> k in after.rows)
    && (forall k :: k in before.rows && !(before.rows[k].studentId in active && before.rows[k].groupId == g && before.rows[k].period == period)
          ==> after.rows[k] == before.rows[k])
    && (forall k :: k in after.rows && k !in before.rows ==>
          after.rows[k].studentId in active && after.rows[k].groupId == g && after.rows[k].period == period)
    && (forall k :: k in after.rows && k in before.rows && after.rows[k] != before.rows[k] ==>
          after.rows[k].studentId in active && after.rows[k].groupId == g && after.rows[k].period == period)
  }

  /** One record keeps the other rows and keeps the key unique. */
  lemma SaveRecordKeeps(notes: Table<NoteRow>, active: set<int>, g: int, period: int, rec: Dict)
    requires Valid(notes)
    ensures var st := SaveRecord(notes, active, g, period, rec);
      st.Wrote? ==> KeepsOthers(notes, st.notes, active, g, period)
                    && (UniqueKeys(notes) ==> UniqueKeys(st.notes))
  {
    var st := SaveRecord(notes, active, g, period, rec);
    if st.Wrote? {
      var s := StudentOf(rec, active);
      var row := st.notes.rows[st.id];
      assert KeyIs(row, s, g, period);
      if UniqueKeys(notes) {
        forall a, b | a in st.notes.rows && b in st.notes.rows && SameKey(st.notes.rows[a], st.notes.rows[b])
          ensures a == b
        {
          if a != st.id && b != st.id {
            assert notes.rows[a] == st.notes.rows[a] && notes.rows[b] == st.notes.rows[b];
          } else if a == st.id && b != st.id {
            assert KeyIs(notes.rows[b], s, g, period);
          } else if a != st.id && b == st.id {
            assert KeyIs(notes.rows[a], s, g, period);
          }
        }
      }
    }
  }

  /** Saving two records for the same student in a row writes the same row twice: one row, same id, the second's values. */
  lemma SaveTwiceSameRow(notes: Table<NoteRow>, active: set<int>, g: int, period: int, rec1: Dict, rec2: Dict)
    requires Valid(notes) && UniqueKeys(notes)
    requires AcceptedStudent(Get(rec1, "student_id", Null), active) && ParseScores(rec1).Usable?
    requires AcceptedStudent(Get(rec2, "student_id", Null), active) && ParseScores(rec2).Usable?
    requires StudentOf(rec1, active) == StudentOf(rec2, active)
    ensures var st1 := SaveRecord(notes, active, g, period, rec1);
      st1.Wrote?
      && var st2 := SaveRecord(st1.notes, active, g, period, rec2);
         var s := StudentOf(rec2, active);
         var sc := ParseScores(rec2).scores;
         st2.Wrote? && st2.id == st1.id
         && st2.notes.rows[st2.id] == NoteRow(s, g, period, sc, Weighted(sc))
         && forall k :: k in st2.notes.rows && KeyIs(st2.notes.rows[k], s, g, period) ==> k == st2.id
  {
    var st1 := SaveRecord(notes, active, g, period, rec1);
    SaveRecordKeeps(notes, active, g, period, rec1);
    var s := StudentOf(rec1, active);
    assert KeyIs(st1.notes.rows[st1.id], s, g, period);
    var st2 := SaveRecord(st1.notes, active, g, period, rec2);
    SaveRecordKeeps(st1.notes, active, g, period, rec2);
    assert st2.id in st1.notes.rows;
    assert SameKey(st1.notes.rows[st2.id], st1.notes.rows[st1.id]);
    forall k | k in st2.notes.rows && KeyIs(st2.notes.rows[k], s, g, period) ensures k == st2.id {
      assert SameKey(st2.notes.rows[k], st2.notes.rows[st2.id]);
    }
  }

  // ---------------------------------------------------------------------
  // The save loop

  /**
   * The save loop, with a failing record skipped and the loop going on with the
   * next one. A record that is not an object stops the loop (the request then
   * fails with the rows written so far kept, as each record is committed on its own).
   */
  function SaveAll(notes: Table<NoteRow>, active: set<int>, g: int, period: int, records: seq<Value>): (r: (Table<NoteRow>, bool))
    requires Valid(notes)
    ensures Valid(r.0)
    ensures r.1 <==> forall i :: 0 <= i < |records| ==> records[i].Obj?
    ensures KeepsOthers(notes, r.0, active, g, period)
    ensures UniqueKeys(notes) ==> UniqueKeys(r.0)
    ensures r.0.next >= notes.next
    decreases |records|
  {
    if |records| == 0 then (notes, true)
    else if !records[0].Obj? then (notes, false)
    else
      var st := SaveRecord(notes, active, g, period, records[0].fields);
      SaveRecordKeeps(notes, active, g, period, records[0].fields);
      var after := if st.Wrote? then st.notes else notes;
      var r := SaveAll(after, active, g, period, records[1..]);
      assert forall i :: 1 <= i < |records| ==> records[i] == records[1..][i - 1];
      r
  }

  /** Record `v` is one the loop writes for student `s`: an object naming `s`, active in the group, with five usable components. */
  predicate WritesFor(v: Value, active: set<int>, s: int)
  {
    v.Obj? && AcceptedStudent(Get(v.fields, "student_id", Null), active)
    && StudentOf(v.fields, active) == s && ParseScores(v.fields).Usable?
  }

  /** The components of the last record the loop writes for student `s`, looking no further than the first non-object record. */
  function LastWrite(records: seq<Value>, active: set<int>, s: int): Option<Scores>
    decreases |records|
  {
    if |records| == 0 || !records[0].Obj? then None
    else
      match LastWrite(records[1..], active, s)
      case Some(sc) => Some(sc)
      case None => if WritesFor(records[0], active, s) then Some(ParseScores(records[0].fields).scores) else None
  }

  /** The rows keyed (s, g, period) are the same rows, with the same values, before and after. */
  predicate KeepsStudent(before: Table<NoteRow>, after: Table<NoteRow>, s: int, g: int, period: int)
  {
    (forall k :: k in before.rows && KeyIs(before.rows[k], s, g, period) ==> k in after.rows && after.rows[k] == before.rows[k])
    && (forall k :: k in after.rows && KeyIs(after.rows[k], s, g, period) ==> k in before.rows && after.rows[k] == before.rows[k])
  }

  /** Row `k` holds `row`, and when `unique` holds no other row has the key (s, g, period). */
  predicate StoredAt(t: Table<NoteRow>, k: int, row: NoteRow, s: int, g: int, period: int, unique: bool)
  {
    k in t.rows && t.rows[k] == row
    && (unique ==> forall j :: j in t.rows && KeyIs(t.rows[j], s, g, period) ==> j == k)
  }

  /** The table after one pass of the corrected loop. */
  function AfterStep(notes: Table<NoteRow>, active: set<int>, g: int, period: int, rec: Dict): (t: Table<NoteRow>)
    requires Valid(notes)
    ensures Valid(t)
  {
    var st := SaveRecord(notes, active, g, period, rec);
    if st.Wrote? then st.notes else notes
  }

  /** A record that does not write student `s` leaves the rows of `s` alone. */
  lemma StepKeepsOtherStudent(notes: Table<NoteRow>, active: set<int>, g: int, period: int, rec: Dict, s: int)
    requires Valid(notes) && !WritesFor(Obj(rec), active, s)
    ensures KeepsStudent(notes, AfterStep(notes, active, g, period, rec), s, g, period)
  {
    var st := SaveRecord(notes, active, g, period, rec);
    if st.Wrote? {
      var s0 := StudentOf(rec, active);
      assert s0 != s;
      assert KeyIs(st.notes.rows[st.id], s0, g, period);
    }
  }

  /** A record that writes student `s` stores its row under their key, the only one when keys were unique. */
  lemma StepStoresStudent(notes: Table<NoteRow>, active: set<int>, g: int, period: int, rec: Dict, s: int)
    requires Valid(notes) && WritesFor(Obj(rec), active, s)
    ensures var sc := ParseScores(rec).scores;
      exists k :: StoredAt(AfterStep(notes, active, g, period, rec), k, NoteRow(s, g, period, sc, Weighted(sc)), s, g, period, UniqueKeys(notes))
  {
    var st := SaveRecord(notes, active, g, period, rec);
    SaveRecordKeeps(notes, active, g, period, rec);
    var sc := ParseScores(rec).scores;
    assert st.Wrote? && st.notes.rows[st.id] == NoteRow(s, g, period, sc, Weighted(sc));
    if UniqueKeys(notes) {
      forall j | j in st.notes.rows && KeyIs(st.notes.rows[j], s, g, period)
        ensures j == st.id
      {
        assert SameKey(st.notes.rows[j], st.notes.rows[st.id]);
      }
    }
    assert AfterStep(notes, active, g, period, rec) == st.notes;
    assert StoredAt(st.notes, st.id, NoteRow(s, g, period, sc, Weighted(sc)), s, g, period, UniqueKeys(notes));
  }

  lemma StepKeepsUnique(notes: Table<NoteRow>, active: set<int>, g: int, period: int, rec: Dict)
    requires Valid(notes)
    ensures UniqueKeys(notes) ==> UniqueKeys(AfterStep(notes, active, g, period, rec))
  {
    SaveRecordKeeps(notes, active, g, period, rec);
  }

  lemma KeepsStudentTrans(a: Table<NoteRow>, b: Table<NoteRow>, c: Table<NoteRow>, s: int, g: int, period: int)
    requires KeepsStudent(a, b, s, g, period) && KeepsStudent(b, c, s, g, period)
    ensures KeepsStudent(a, c, s, g, period)
  {
  }

  /** Dropping the uniqueness half of `StoredAt` keeps it true. */
  lemma StoredWeaker(t: Table<NoteRow>, k: int, row: NoteRow, s: int, g: int, period: int, u1: bool, u2: bool)
    requires StoredAt(t, k, row, s, g, period, u1) && (u2 ==> u1)
    ensures StoredAt(t, k, row, s, g, period, u2)
  {
  }

  /** A stored row survives a change that keeps the student's rows. */
  lemma KeepsStored(b: Table<NoteRow>, c: Table<NoteRow>, k: int, row: NoteRow, s: int, g: int, period: int, unique: bool)
    requires KeyIs(row, s, g, period)
    requires StoredAt(b, k, row, s, g, period, unique) && KeepsStudent(b, c, s, g, period)
    ensures StoredAt(c, k, row, s, g, period, unique)
  {
  }

  /**
   * With `last` the components last written for student `s`, their row holds
   * them (the only row with its key when keys were unique before); with no
   * write, the rows of `s` are untouched.
   */
  ghost predicate SavedLast(before: Table<NoteRow>, after: Table<NoteRow>, s: int, g: int, period: int, last: Option<Scores>)
  {
    match last
    case Some(sc) => exists k :: StoredAt(after, k, NoteRow(s, g, period, sc, Weighted(sc)), s, g, period, UniqueKeys(before))
    case None => KeepsStudent(before, after, s, g, period)
  }

  /**
   * What the corrected loop stores: for every student a record writes, the
   * row keyed (student, group, period) holds the last such record's components
   * and their weighted score, and is the only row with that key when the keys
   * were unique; the rows of a student no record writes stay as they were, and
   * no row is added for them.
   */
  lemma {:induction false} SaveAllStoresLast(notes: Table<NoteRow>, active: set<int>, g: int, period: int, records: seq<Value>, s: int)
    requires Valid(notes)
    ensures SavedLast(notes, SaveAll(notes, active, g, period, records).0, s, g, period, LastWrite(records, active, s))
    decreases |records|
  {
    if |records| == 0 || !records[0].Obj? {
      return;
    }
    var rec := records[0].fields;
    var mid := AfterStep(notes, active, g, period, rec);
    StepKeepsUnique(notes, active, g, period, rec);
    assert SaveAll(notes, active, g, period, records) == SaveAll(mid, active, g, period, records[1..]);
    SaveAllStoresLast(mid, active, g, period, records[1..], s);
    var after := SaveAll(mid, active, g, period, records[1..]).0;
    if LastWrite(records[1..], active, s).Some? {
      var sc := LastWrite(records[1..], active, s).value;
      assert LastWrite(records, active, s) == Some(sc);
      var k :| StoredAt(after, k, NoteRow(s, g, period, sc, Weighted(sc)), s, g, period, UniqueKeys(mid));
      StoredWeaker(after, k, NoteRow(s, g, period, sc, Weighted(sc)), s, g, period, UniqueKeys(mid), UniqueKeys(notes));
      assert StoredAt(SaveAll(notes, active, g, period, records).0, k, NoteRow(s, g, period, sc, Weighted(sc)), s, g, period, UniqueKeys(notes));
    } else if WritesFor(records[0], active, s) {
      var sc := ParseScores(rec).scores;
      var row := NoteRow(s, g, period, sc, Weighted(sc));
      assert LastWrite(records, active, s) == Some(sc);
      StepStoresStudent(notes, active, g, period, rec, s);
      var k :| StoredAt(mid, k, row, s, g, period, UniqueKeys(notes));
      assert KeepsStudent(mid, after, s, g, period);
      KeepsStored(mid, after, k, row, s, g, period, UniqueKeys(notes));
      assert StoredAt(after, k, row, s, g, period, UniqueKeys(notes));
    } else {
      StepKeepsOtherStudent(notes, active, g, period, rec, s);
      KeepsStudentTrans(notes, mid, after, s, g, period);
    }
  }

  /**
   * The loop as the source writes it: after the database rejects a record, the
   * transaction stays aborted (there is no rollback), so every later statement
   * on the connection fails and every later record is lost as well.
   */
  function SaveAllAsWritten(notes: Table<NoteRow>, active: set<int>, g: int, period: int, records: seq<Value>, aborted: bool): (r: (Table<NoteRow>, bool))
    requires Valid(notes)
    ensures Valid(r.0)
    ensures aborted ==> r.0 == notes
    decreases |records|
  {
    if |records| == 0 then (notes, true)
    else if !records[0].Obj? then (notes, false)
    else if aborted then SaveAllAsWritten(notes, active, g, period, records[1..], true)
    else
      match SaveRecord(notes, active, g, period, records[0].fields)
      case Wrote(t, _) => SaveAllAsWritten(t, active, g, period, records[1..], false)
      case Skip => SaveAllAsWritten(notes, active, g, period, records[1..], false)
      case DbFail => SaveAllAsWritten(notes, active, g, period, records[1..], true)
  }

  /** A batch where the first record carries a boolean score and the second a valid one. */
  const ExampleBatch: seq<Value> := [
    Obj(map["student_id" := Int(1), "exams" := Bool(true)]),
    Obj(map["student_id" := Int(2), "exams" := Int(9)])
  ]

  /**
   * As written, the second student's grades are lost because of the first
   * record; with the failing record skipped, they are saved.
   */
  lemma AbortedTransactionLosesLaterRecords()
    ensures SaveAllAsWritten(Empty(), {1, 2}, 7, 1, ExampleBatch, false).0.rows == map[]
    ensures var saved := SaveAll(Empty(), {1, 2}, 7, 1, ExampleBatch).0;
      exists k :: k in saved.rows && KeyIs(saved.rows[k], 2, 7, 1) && saved.rows[k].scores.exams == 9.0
  {
    var rec1 := ExampleBatch[0].fields;
    var rec2 := ExampleBatch[1].fields;
    var e: Table<NoteRow> := Empty();
    assert AcceptedStudent(Get(rec1, "student_id", Null), {1, 2});
    assert ComponentOf(rec1, ScoreFields[3]).Boolean?;
    assert ParseScores(rec1).HasBoolean?;
    assert SaveRecord(e, {1, 2}, 7, 1, rec1) == DbFail;
    assert SaveAllAsWritten(e, {1, 2}, 7, 1, ExampleBatch, false)
        == SaveAllAsWritten(e, {1, 2}, 7, 1, ExampleBatch[1..], true);
    assert ParseScores(rec2).Usable?;
    assert ComponentOf(rec2, "exams") == Number(9.0);
    var st := SaveRecord(e, {1, 2}, 7, 1, rec2);
    assert st.Wrote?;
    assert SaveAll(e, {1, 2}, 7, 1, ExampleBatch) == SaveAll(e, {1, 2}, 7, 1, ExampleBatch[1..]);
    assert SaveAll(e, {1, 2}, 7, 1, ExampleBatch[1..]) == SaveAll(st.notes, {1, 2}, 7, 1, []);
    assert KeyIs(st.notes.rows[st.id], 2, 7, 1);
  }

  // ---------------------------------------------------------------------
  // POST /api/calificaciones/guardar

  const SavedOk := Response(200, map["message" := Str("Calificaciones guardadas correctamente"), "success" := Bool(true)])
  const NoGroupMessage := "Error: No se proporcionó un ID de grupo válido"

  /** `int(data.get('period', 1))`, falling back to 1 when the conversion raises. */
  function PeriodOf(d: Dict): (p: int)
    ensures "period" !in d ==> p == 1
    ensures PyInt(Get(d, "period", Int(1))).Some? ==> p == PyInt(Get(d, "period", Int(1))).value
    ensures PyInt(Get(d, "period", Int(1))).None? ==> p == 1
  {
    match PyInt(Get(d, "period", Int(1)))
    case Some(p) => p
    case None => 1
  }

  /** The request's group: the body's `group_id`, or the first record's when that one is falsy. */
  function GroupValue(d: Dict, records: seq<Value>): Option<Value>
  {
    var gv := Get(d, "group_id", Null);
    if !Truthy(gv) && |records| > 0 then
      if records[0].Obj? then Some(Get(records[0].fields, "group_id", Null)) else None
    else Some(gv)
  }

  const SaveFailMessage := "Error al guardar calificaciones"
  const ProcessFailMessage := "Error al procesar registros de calificaciones"

  /**
   * `data.get('grades', [])` as the handler walks it: a list's elements, a
   * string's characters, a dict's keys; `None` when `len` raises on it.
   */
  function GradeItems(d: Dict): Option<seq<Value>>
  {
    PyIterItems(Get(d, "grades", List([])))
  }

  /**
   * `save_grades`: a body without a walkable `grades` value, or whose fallback
   * group comes from a record that is not an object, answers 500; a falsy
   * group answers 400; a group the database cannot compare fails with 500; a
   * group with no active students saves nothing and answers success;
   * otherwise the notes table becomes what the save loop leaves, and the
   * answer is success exactly when every record was an object.
   */
  function SaveGrades(db: School, data: Option<Dict>): (r: (School, Response))
    requires ValidSchool(db)
    ensures ValidSchool(r.0) && r.0 == db.(notes := r.0.notes)
    ensures data.None? ==> r == (db, Failed(500, SaveFailMessage))
    ensures data.Some? && GradeItems(data.value).None? ==> r == (db, Failed(500, SaveFailMessage))
    ensures data.Some? && GradeItems(data.value).Some? ==>
      var d := data.value;
      var items := GradeItems(d).value;
      match GroupValue(d, items)
      case None => r == (db, Failed(500, SaveFailMessage))
      case Some(gv) =>
        (!Truthy(gv) ==> r == (db, Failed(400, NoGroupMessage)))
        && (Truthy(gv) && IntColumnParam(gv).DbError? ==> r == (db, Failed(500, ProcessFailMessage)))
        && (Truthy(gv) && IntColumnParam(gv).NoMatch? ==> r == (db, SavedOk))
        && (Truthy(gv) && IntColumnParam(gv).IntKey? ==>
              var g := IntColumnParam(gv).k;
              (ActiveIn(db, g) == {} ==> r == (db, SavedOk))
              && (ActiveIn(db, g) != {} ==>
                    r.0.notes == SaveAll(db.notes, ActiveIn(db, g), g, PeriodOf(d), items).0
                    && (r.1 == SavedOk <==> forall i :: 0 <= i < |items| ==> items[i].Obj?)
                    && (r.1 != SavedOk ==> r.1 == Failed(500, ProcessFailMessage))))
    ensures r.1.status == 400 ==> r.0 == db
    ensures r.0 != db ==>
      data.Some? && GradeItems(data.value).Some?
      && var gv := GroupValue(data.value, GradeItems(data.value).value);
      gv.Some? && IntColumnParam(gv.value).IntKey?
      && KeepsOthers(db.notes, r.0.notes, ActiveIn(db, IntColumnParam(gv.value).k), IntColumnParam(gv.value).k, PeriodOf(data.value))
    ensures UniqueKeys(db.notes) ==> UniqueKeys(r.0.notes)
  {
    if data.None? then (db, Failed(500, SaveFailMessage))
    else
      var d := data.value;
      match GradeItems(d)
      case None => (db, Failed(500, SaveFailMessage))
      case Some(items) =>
        match GroupValue(d, items)
        case None => (db, Failed(500, SaveFailMessage))
        case Some(gv) =>
          var period := PeriodOf(d);
          if !Truthy(gv) then (db, Failed(400, NoGroupMessage))
          else
            match IntColumnParam(gv)
            case DbError => (db, Failed(500, ProcessFailMessage))
            case NoMatch => (db, SavedOk)
            case IntKey(g) =>
              var active := ActiveIn(db, g);
              if active == {} then (db, SavedOk)
              else
                var (notes', ok) := SaveAll(db.notes, active, g, period, items);
                (db.(notes := notes'), if ok then SavedOk else Failed(500, ProcessFailMessage))
  }

  // ---------------------------------------------------------------------
  // GET /api/calificaciones/grupo/<group_id>

  /** One entry of the grades list. */
  datatype GradeEntry = GradeEntry(
    id: int, studentId: int, studentName: Value, groupId: int, scores: Scores, finall: real, period: int)

  /** The read's answer; `period` is absent when the group has no active students. */
  datatype GradesRead = GradesRead(message: string, entries: seq<GradeEntry>, groupId: int, period: Option<int>)

  /** The stored grades of student `s`: the last matching row, as the loop overwrites a dict keyed by student. */
  function NoteFor(notes: Table<NoteRow>, s: int, g: int, period: int): (r: Option<int>)
    ensures r.Some? ==> r.value in notes.rows && KeyIs(notes.rows[r.value], s, g, period)
    ensures r.None? <==> forall k :: k in notes.rows ==> !KeyIs(notes.rows[k], s, g, period)
  {
    LastWhere(notes.rows, (row: NoteRow) => KeyIs(row, s, g, period))
  }

  /** A student's entry: their stored grades, or id 0 and zeros when there are none. */
  function EntryFor(db: School, g: int, period: int, s: int): (e: GradeEntry)
    requires s in db.students.rows
    ensures e.studentId == s && e.groupId == g && e.studentName == FullName(db.students.rows[s])
    ensures NoteFor(db.notes, s, g, period).None? ==> e.id == 0 && e.scores == ZeroScores && e.finall == 0.0 && e.period == period
    ensures NoteFor(db.notes, s, g, period).Some? ==>
      e.id in db.notes.rows
      && var row := db.notes.rows[e.id];
         KeyIs(row, s, g, period) && e.scores == row.scores && e.finall == row.finall && e.period == period
  {
    var name := FullName(db.students.rows[s]);
    match NoteFor(db.notes, s, g, period)
    case None => GradeEntry(0, s, name, g, ZeroScores, 0.0, period)
    case Some(k) =>
      var row := db.notes.rows[k];
      GradeEntry(k, s, name, g, row.scores, row.finall, row.period)
  }

  /** The `period` query argument as an integer, 1 when it does not parse. */
  function QueryPeriod(arg: Option<string>): (p: int)
    ensures arg.None? ==> p == 1
    ensures arg.Some? && ParseInt(arg.value).Some? ==> p == ParseInt(arg.value).value
    ensures arg.Some? && ParseInt(arg.value).None? ==> p == 1
  {
    var text := if arg.Some? then arg.value else "1";
    match ParseInt(text)
    case Some(p) => p
    case None => 1
  }

  /**
   * `get_grades_by_group`: one entry per active student of the group, in the
   * roster's order, each with the stored grades of the requested period or
   * zeros. When the group has active students but the roster join lists none
   * (no student row, or the group does not join its class), the period is
   * never assigned and the handler fails with 500.
   */
  function GetGrades(db: School, g: int, periodArg: Option<string>): (r: Result<GradesRead, Response>)
    ensures ActiveIn(db, g) == {} ==> r == Ok(GradesRead("No se encontraron estudiantes en este grupo", [], g, None))
    ensures ActiveIn(db, g) != {} && |Roster(db, g)| == 0 ==> r == Err(Answer(500, "Error al obtener calificaciones"))
    ensures r.Ok? <==> ActiveIn(db, g) == {} || |Roster(db, g)| > 0
    ensures r.Ok? ==> r.value.groupId == g
    ensures ActiveIn(db, g) != {} && r.Ok? ==>
      r.value.message == "Calificaciones obtenidas correctamente"
      && r.value.period == Some(QueryPeriod(periodArg))
      && |r.value.entries| == |Roster(db, g)|
      && forall i :: 0 <= i < |r.value.entries| ==> r.value.entries[i] == EntryFor(db, g, QueryPeriod(periodArg), Roster(db, g)[i])
  {
    if ActiveIn(db, g) == {} then Ok(GradesRead("No se encontraron estudiantes en este grupo", [], g, None))
    else
      var ids := Roster(db, g);
      if |ids| == 0 then Err(Answer(500, "Error al obtener calificaciones"))
      else
        var p := QueryPeriod(periodArg);
        var entries := seq(|ids|, i requires 0 <= i < |ids| => EntryFor(db, g, p, ids[i]));
        Ok(GradesRead("Calificaciones obtenidas correctamente", entries, g, Some(p)))
  }

  /** With a valid table, an entry reads id 0 exactly when the student has no stored grades for that period. */
  lemma ZeroIdIffNoGrades(db: School, g: int, period: int, s: int)
    requires ValidSchool(db) && s in db.students.rows
    ensures EntryFor(db, g, period, s).id == 0 <==> forall k :: k in db.notes.rows ==> !KeyIs(db.notes.rows[k], s, g, period)
  {
  }

  /** The request body that saves one record for group `g` and period `period`. */
  function SingleSave(g: int, period: int, rec: Dict): Dict
  {
    map["group_id" := Int(g), "period" := Int(period), "grades" := List([Obj(rec)])]
  }

  /** A one-record save of an accepted record writes exactly what `SaveRecord` writes. */
  lemma SingleSaveWrites(db: School, g: int, period: int, rec: Dict)
    requires ValidSchool(db) && g != 0
    requires AcceptedStudent(Get(rec, "student_id", Null), ActiveIn(db, g)) && ParseScores(rec).Usable?
    ensures var st := SaveRecord(db.notes, ActiveIn(db, g), g, period, rec);
      st.Wrote? && SaveGrades(db, Some(SingleSave(g, period, rec))) == (db.(notes := st.notes), SavedOk)
  {
    var body := SingleSave(g, period, rec);
    var active := ActiveIn(db, g);
    var s := StudentOf(rec, active);
    assert PeriodOf(body) == period;
    assert GroupValue(body, [Obj(rec)]) == Some(Int(g));
    assert active != {} by { assert s in active; }
    var st := SaveRecord(db.notes, active, g, period, rec);
    assert SaveAll(db.notes, active, g, period, [Obj(rec)]) == SaveAll(st.notes, active, g, period, []);
  }

  /** A stored row with a unique key is what the read shows for its student. */
  lemma ReadShowsRow(db: School, g: int, period: int, k: int)
    requires UniqueKeys(db.notes) && k in db.notes.rows
    requires var n := db.notes.rows[k]; n.groupId == g && n.period == period && n.studentId in db.students.rows
    ensures var n := db.notes.rows[k];
      var e := EntryFor(db, g, period, n.studentId);
      e.id == k && e.scores == n.scores && e.finall == n.finall
  {
    var n := db.notes.rows[k];
    var found := NoteFor(db.notes, n.studentId, g, period);
    assert KeyIs(n, n.studentId, g, period);
    assert SameKey(db.notes.rows[found.value], n);
  }

  /** Every student of the roster has their entry in the read. */
  lemma ReadListsStudent(db: School, g: int, periodArg: Option<string>, s: int)
    requires (s, g) in db.active && s in db.students.rows && GroupWithClass(db, g)
    ensures GetGrades(db, g, periodArg).Ok?
    ensures exists i ::
      0 <= i < |GetGrades(db, g, periodArg).value.entries|
      && GetGrades(db, g, periodArg).value.entries[i] == EntryFor(db, g, QueryPeriod(periodArg), s)
  {
    assert s in ActiveIn(db, g);
    var ids := Roster(db, g);
    assert s in ids;
    var i :| 0 <= i < |ids| && ids[i] == s;
    assert GetGrades(db, g, periodArg).value.entries[i] == EntryFor(db, g, QueryPeriod(periodArg), s);
  }

  /**
   * Saving one record for an active student of a group and reading the group
   * back at the same period shows the saved components and final score.
   */
  lemma SaveThenRead(db: School, g: int, period: int, rec: Dict)
    requires ValidSchool(db) && UniqueKeys(db.notes)
    requires GroupWithClass(db, g)
    requires AcceptedStudent(Get(rec, "student_id", Null), ActiveIn(db, g)) && ParseScores(rec).Usable?
    requires StudentOf(rec, ActiveIn(db, g)) in db.students.rows
    ensures var db' := SaveGrades(db, Some(SingleSave(g, period, rec))).0;
      var s := StudentOf(rec, ActiveIn(db, g));
      var sc := ParseScores(rec).scores;
      var read := GetGrades(db', g, Some(IntToString(period)));
      read.Ok?
      && exists i :: 0 <= i < |read.value.entries|
           && read.value.entries[i].studentId == s && read.value.entries[i].scores == sc
           && read.value.entries[i].finall == Weighted(sc) && read.value.entries[i].id != 0
  {
    var active := ActiveIn(db, g);
    var s := StudentOf(rec, active);
    var st := SaveRecord(db.notes, active, g, period, rec);
    SingleSaveWrites(db, g, period, rec);
    SaveRecordKeeps(db.notes, active, g, period, rec);
    var db' := db.(notes := st.notes);
    ReadShowsRow(db', g, period, st.id);
    IntStringRoundTrip(period);
    ReadListsStudent(db', g, Some(IntToString(period)), s);
  }

  /** The request body that saves a whole batch of records for group `g` and period `period`. */
  function BatchSave(g: int, period: int, records: seq<Value>): Dict
  {
    map["group_id" := Int(g), "period" := Int(period), "grades" := List(records)]
  }

  /** Rows that keep a student's key keep what the read finds for that student. */
  lemma NoteForKept(before: Table<NoteRow>, after: Table<NoteRow>, s: int, g: int, period: int)
    requires KeepsStudent(before, after, s, g, period)
    ensures NoteFor(after, s, g, period) == NoteFor(before, s, g, period)
    ensures NoteFor(before, s, g, period).Some? ==>
      after.rows[NoteFor(before, s, g, period).value] == before.rows[NoteFor(before, s, g, period).value]
  {
    var a := NoteFor(before, s, g, period);
    var b := NoteFor(after, s, g, period);
    if a.Some? {
      assert a.value in after.rows && KeyIs(after.rows[a.value], s, g, period);
    }
    if b.Some? {
      assert b.value in before.rows && KeyIs(before.rows[b.value], s, g, period);
    }
  }

  /**
   * What the read shows for student `s` after a save whose last write for them
   * was `last`: those components, their weighted score and a stored row's id;
   * with no write, exactly what it showed before.
   */
  predicate ShowsSaved(e: GradeEntry, before: School, g: int, period: int, s: int, last: Option<Scores>)
    requires s in before.students.rows
  {
    match last
    case Some(sc) => e.scores == sc && e.finall == Weighted(sc) && e.id != 0
    case None => e == EntryFor(before, g, period, s)
  }

  /** The save of a batch lands in the table as the save loop leaves it. */
  lemma BatchSaveWrites(db: School, g: int, period: int, records: seq<Value>)
    requires ValidSchool(db) && g != 0 && ActiveIn(db, g) != {}
    ensures SaveGrades(db, Some(BatchSave(g, period, records))).0
         == db.(notes := SaveAll(db.notes, ActiveIn(db, g), g, period, records).0)
  {
    var body := BatchSave(g, period, records);
    assert PeriodOf(body) == period;
    assert GradeItems(body) == Some(records);
    assert GroupValue(body, records) == Some(Int(g));
  }

  /**
   * Saving a batch and reading the group back at the same period shows, for
   * every student of the roster, the last record written for them, and leaves
   * the entry of a student no record writes as it was.
   */
  lemma BatchSaveThenRead(db: School, g: int, period: int, records: seq<Value>, s: int)
    requires ValidSchool(db) && UniqueKeys(db.notes) && g != 0
    requires GroupWithClass(db, g) && (s, g) in db.active && s in db.students.rows
    ensures var db' := SaveGrades(db, Some(BatchSave(g, period, records))).0;
      var read := GetGrades(db', g, Some(IntToString(period)));
      read.Ok?
      && exists i :: 0 <= i < |read.value.entries| && read.value.entries[i].studentId == s
           && ShowsSaved(read.value.entries[i], db, g, period, s, LastWrite(records, ActiveIn(db, g), s))
  {
    var active := ActiveIn(db, g);
    assert s in active;
    BatchSaveWrites(db, g, period, records);
    var after := SaveAll(db.notes, active, g, period, records).0;
    var db' := db.(notes := after);
    SaveAllStoresLast(db.notes, active, g, period, records, s);
    IntStringRoundTrip(period);
    assert QueryPeriod(Some(IntToString(period))) == period;
    ReadListsStudent(db', g, Some(IntToString(period)), s);
    var read := GetGrades(db', g, Some(IntToString(period)));
    var i :| 0 <= i < |read.value.entries| && read.value.entries[i] == EntryFor(db', g, period, s);
    match LastWrite(records, active, s)
    case Some(sc) =>
      var k :| StoredAt(after, k, NoteRow(s, g, period, sc, Weighted(sc)), s, g, period, true);
      ReadShowsRow(db', g, period, k);
    case None =>
      NoteForKept(db.notes, after, s, g, period);
  }

  // ---------------------------------------------------------------------
  // GET /api/calificaciones/reporte/<group_id>

  /** The period's name in the report's column headers. */
  function PeriodLabel(period: int): (name: string)
    ensures name == "Cuarto" <==> period !in {1, 2, 3}
    ensures name == "Primer" <==> period == 1
    ensures name == "Segundo" <==> period == 2
    ensures name == "Tercer" <==> period == 3
  {
    if period == 1 then "Primer"
    else if period == 2 then "Segundo"
    else if period == 3 then "Tercer"
    else "Cuarto"
  }

  function Header(periodName: string): (h: seq<string>)
    ensures |h| == 8
  {
    ["Grupo", "Nombre del Estudiante",
     "Participación en clase (" + periodName + " Parcial) (15%)",
     "Ejercicios y prácticas (" + periodName + " Parcial) (15%)",
     "Tareas o trabajos (" + periodName + " Parcial) (25%)",
     "Exámenes (" + periodName + " Parcial) (35%)",
     "Asistencia a misa (" + periodName + " Parcial) (10%)",
     "Calificación Final (" + periodName + " Parcial)"]
  }

  /** The report: its period label, group name, header row and one row of cells per student. */
  datatype GradesCsv = GradesCsv(periodName: string, groupName: string, header: seq<string>, rows: seq<seq<Value>>)

  /** The students the report lists: active members of the group that have a student row, ascending id. */
  function ReportStudents(db: School, g: int): (ids: seq<int>)
    ensures forall i :: 0 <= i < |ids| ==> (ids[i], g) in db.active && ids[i] in db.students.rows
    ensures forall s :: (s, g) in db.active && s in db.students.rows ==> s in ids
  {
    Sorted(set s | s in ActiveIn(db, g) && s in db.students.rows)
  }

  /** A report row: group name, student name, the five components and the final score, zeros when none are stored. */
  function ReportRow(db: School, g: int, period: int, groupName: string, s: int): (row: seq<Value>)
    requires s in db.students.rows
    ensures |row| == 8 && row[0] == Str(groupName) && row[1] == FullName(db.students.rows[s])
    ensures NoteFor(db.notes, s, g, period).None? ==> forall j :: 2 <= j < 8 ==> row[j] == Int(0)
    ensures NoteFor(db.notes, s, g, period).Some? ==>
      var n := db.notes.rows[NoteFor(db.notes, s, g, period).value];
      row[2..] == [Real(n.scores.participation), Real(n.scores.exercises), Real(n.scores.homework),
                   Real(n.scores.exams), Real(n.scores.church), Real(n.finall)]
  {
    var name := FullName(db.students.rows[s]);
    match NoteFor(db.notes, s, g, period)
    case None => [Str(groupName), name, Int(0), Int(0), Int(0), Int(0), Int(0), Int(0)]
    case Some(k) =>
      var n := db.notes.rows[k];
      [Str(groupName), name, Real(n.scores.participation), Real(n.scores.exercises), Real(n.scores.homework),
       Real(n.scores.exams), Real(n.scores.church), Real(n.finall)]
  }

  /**
   * `generate_grades_report`: 404 when the group has no active students or
   * does not join its class; otherwise one eight-cell row per listed student.
   */
  function GradesReport(db: School, g: int, periodArg: Option<string>): (r: Result<GradesCsv, Response>)
    ensures |ReportStudents(db, g)| == 0 ==> r == Err(Failed(404, "No se encontraron estudiantes en este grupo"))
    ensures |ReportStudents(db, g)| > 0 && !GroupWithClass(db, g) ==> r == Err(Failed(404, "No se encontró información del grupo"))
    ensures r.Ok? <==> |ReportStudents(db, g)| > 0 && GroupWithClass(db, g)
    ensures r.Ok? ==>
      var ss := ReportStudents(db, g);
      r.value.periodName == PeriodLabel(QueryPeriod(periodArg))
      && r.value.header == Header(r.value.periodName)
      && r.value.groupName == PyStr(db.groups.rows[g].grade) + " - " + PyStr(db.classes.rows[db.groups.rows[g].classId.i].name)
      && (db.groups.rows[g].grade.Str? && db.classes.rows[db.groups.rows[g].classId.i].name.Str? ==>
            r.value.groupName == db.groups.rows[g].grade.s + " - " + db.classes.rows[db.groups.rows[g].classId.i].name.s)
      && |r.value.rows| == |ss|
      && forall i :: 0 <= i < |ss| ==> r.value.rows[i] == ReportRow(db, g, QueryPeriod(periodArg), r.value.groupName, ss[i])
  {
    var period := QueryPeriod(periodArg);
    var ss := ReportStudents(db, g);
    if |ss| == 0 then Err(Failed(404, "No se encontraron estudiantes en este grupo"))
    else if !GroupWithClass(db, g) then Err(Failed(404, "No se encontró información del grupo"))
    else
      var row := db.groups.rows[g];
      var name := PyStr(row.grade) + " - " + PyStr(db.classes.rows[row.classId.i].name);
      var periodName := PeriodLabel(period);
      Ok(GradesCsv(periodName, name, Header(periodName),
        seq(|ss|, i requires 0 <= i < |ss| => ReportRow(db, g, period, name, ss[i]))))
  }

  /** A report row shows entry `e`: the student's name, then zeros for a student with no stored row, or the stored components and final score. */
  predicate RowShowsEntry(row: seq<Value>, e: GradeEntry)
  {
    |row| == 8 && row[1] == e.studentName
    && (e.id == 0 ==> forall j :: 2 <= j < 8 ==> row[j] == Int(0))
    && (e.id != 0 ==> row[2..] == [Real(e.scores.participation), Real(e.scores.exercises), Real(e.scores.homework),
                                   Real(e.scores.exams), Real(e.scores.church), Real(e.finall)])
  }

  /**
   * Whenever the report is produced, the grades read of the same group and
   * period succeeds and lists the same students in the same order, and each
   * report row shows that student's entry.
   */
  lemma ReportAgreesWithRead(db: School, g: int, periodArg: Option<string>)
    requires ValidSchool(db) && GradesReport(db, g, periodArg).Ok?
    ensures var read := GetGrades(db, g, periodArg);
      var rep := GradesReport(db, g, periodArg).value;
      read.Ok? && |read.value.entries| == |rep.rows|
      && forall i :: 0 <= i < |rep.rows| ==> RowShowsEntry(rep.rows[i], read.value.entries[i])
  {
    var ss := ReportStudents(db, g);
    var p := QueryPeriod(periodArg);
    assert Roster(db, g) == ss;
    assert ss[0] in ActiveIn(db, g);
    var read := GetGrades(db, g, periodArg).value;
    var rep := GradesReport(db, g, periodArg).value;
    forall i | 0 <= i < |rep.rows|
      ensures RowShowsEntry(rep.rows[i], read.entries[i])
    {
      assert rep.rows[i] == ReportRow(db, g, p, rep.groupName, ss[i]);
      assert read.entries[i] == EntryFor(db, g, p, ss[i]);
      ZeroIdIffNoGrades(db, g, p, ss[i]);
    }
  }
}

=== FILE: profesores_hook.dfy ===
// The professors page's state (frontend/src/hooks/useProfesores.ts): the
// listing with its pagination figures, the local bookkeeping after a delete,
// a create and an update, the example list shown when loading fails, and the
// request bodies for assigning a subject. The server's answers are parameters.

module ProfesoresHook {
  import opened Common
  import opened Tables
  import opened Schema
  import UserRoutes

  /** The pagination figures; `totalPages` is `None` where JavaScript's division gives no finite number. */
  datatype Pagination = Pagination(total: int, page: int, perPage: int, totalPages: Option<int>)

  /** The hook's state: the professors on the page (as the server's JSON objects), the figures and the error. */
  datatype State = State(profesores: seq<Dict>, pagination: Pagination, error: Option<string>)

  const InitialState := State([], Pagination(0, 1, 10, Some(0)), None)

  /** `Math.ceil(a / b)`: `None` for a zero divisor (an infinite or NaN result). */
  function CeilDiv(a: int, b: int): (q: Option<int>)
    ensures q.None? <==> b == 0
    ensures b > 0 ==> (q.value - 1) * b < a <= q.value * b
    ensures b < 0 ==> q.value * b <= a < (q.value - 1) * b
  {
    if b == 0 then None
    else if b > 0 then
      CeilDivision(a, b);
      Some(PyFloorDiv(a + b - 1, b))
    else
      CeilDivision(-a, -b);
      Some(PyFloorDiv(-a - b - 1, -b))
  }

  /** `localStorage.getItem('token')` is truthy: present and not empty. */
  predicate HasToken(token: Option<string>)
  {
    token.Some? && token.value != ""
  }

  // ---------------------------------------------------------------------
  // Loading

  function Professor(id: int, name: string, lastnameF: string, lastnameM: string, email: string): Dict
  {
    map["id" := Int(id), "name" := Str(name), "lastname_f" := Str(lastnameF), "lastname_m" := Str(lastnameM),
        "email" := Str(email), "rol" := Int(3)]
  }

  /** The five example professors shown when the listing cannot be loaded. */
  const MockProfesores: seq<Dict> := [
    Professor(1, "Juan", "Pérez", "Gómez", "juan.perez@example.com"),
    Professor(2, "María", "López", "Rodríguez", "maria.lopez@example.com"),
    Professor(3, "Carlos", "Sánchez", "Martínez", "carlos.sanchez@example.com"),
    Professor(4, "Laura", "García", "Hernández", "laura.garcia@example.com"),
    Professor(5, "Roberto", "Fernández", "Díaz", "roberto.fernandez@example.com")
  ]

  /** `xs.slice(0, end)`: a negative end counts from the back. */
  function SliceTo<T>(xs: seq<T>, end: int): (r: seq<T>)
    ensures end >= 0 ==> r == xs[..if end < |xs| then end else |xs|]
    ensures end < 0 ==> r == xs[..if |xs| + end > 0 then |xs| + end else 0]
  {
    var e := if end < 0 then |xs| + end else end;
    var e' := if e < 0 then 0 else if e > |xs| then |xs| else e;
    xs[..e']
  }

  const LoadFailedMessage := "Error al cargar los profesores. Por favor, intenta de nuevo más tarde."

  /**
   * `fetchProfesores(page, perPage, search)`: `reply` is the listing and figures of
   * a successful response, `None` when the request fails. Without a token nothing
   * is requested. On failure the first `perPage` example professors are shown,
   * with total 5 and page 1.
   */
  function FetchProfesores(st: State, perPage: int, token: Option<string>, reply: Option<(seq<Dict>, Pagination)>): (r: (State, bool))
    ensures r.1 <==> HasToken(token)
    ensures HasToken(token) && reply.Some? ==> r.0 == State(reply.value.0, reply.value.1, None)
    ensures !HasToken(token) || reply.None? ==>
      r.0.profesores == SliceTo(MockProfesores, perPage)
      && r.0.pagination == Pagination(|MockProfesores|, 1, perPage, CeilDiv(|MockProfesores|, perPage))
      && r.0.error == Some(LoadFailedMessage)
  {
    if HasToken(token) && reply.Some? then (State(reply.value.0, reply.value.1, None), true)
    else
      (State(SliceTo(MockProfesores, perPage), Pagination(|MockProfesores|, 1, perPage, CeilDiv(|MockProfesores|, perPage)),
             Some(LoadFailedMessage)), HasToken(token))
  }

  /** With a positive page size the fallback shows `min(5, perPage)` professors on enough pages for five. */
  lemma FallbackFigures(st: State, perPage: int, token: Option<string>)
    requires perPage > 0
    ensures var s := FetchProfesores(st, perPage, token, None).0;
      |s.profesores| == (if perPage < 5 then perPage else 5)
      && s.pagination.totalPages.Some? && s.pagination.totalPages.value * perPage >= 5
      && (s.pagination.totalPages.value - 1) * perPage < 5
  {
  }

  // ---------------------------------------------------------------------
  // Deleting

  const DeleteFailedMessage := "Error al eliminar el profesor. Por favor, intenta de nuevo más tarde."

  /** The outcome of a delete: the new state, whether a request went out, and the page to reload, if any. */
  datatype Deleted = Deleted(state: State, requested: bool, reload: Option<int>)

  /**
   * `deleteProfesor(id)`: `ok` says whether the server accepted the delete. On
   * success every entry with that id goes, the total drops by one and the page
   * count is recomputed; when it was the page's last entry the listing is
   * reloaded, one page back unless already on the first.
   */
  function DeleteProfesor(st: State, id: int, token: Option<string>, ok: bool): (r: Deleted)
    ensures r.requested <==> HasToken(token)
    ensures !(HasToken(token) && ok) ==> r == Deleted(st.(error := Some(DeleteFailedMessage)), HasToken(token), None)
    ensures HasToken(token) && ok ==>
      r.state.profesores == Filter(st.profesores, p => !IdIs(p, id))
      && r.state.pagination == st.pagination.(total := st.pagination.total - 1,
                                              totalPages := CeilDiv(st.pagination.total - 1, st.pagination.perPage))
      && r.state.error == st.error
      && (r.reload.Some? <==> |st.profesores| == 1)
      && (r.reload.Some? ==> r.reload.value == (if st.pagination.page > 1 then st.pagination.page - 1 else 1))
  {
    if !HasToken(token) || !ok then Deleted(st.(error := Some(DeleteFailedMessage)), HasToken(token), None)
    else
      var pg := st.pagination;
      var after := State(Filter(st.profesores, p => !IdIs(p, id)),
                         pg.(total := pg.total - 1, totalPages := CeilDiv(pg.total - 1, pg.perPage)), st.error);
      var reload := if |st.profesores| == 1 && pg.page > 1 then Some(pg.page - 1)
                    else if |st.profesores| == 1 then Some(1) else None;
      Deleted(after, true, reload)
  }

  /** A successful delete leaves no entry with that id, shrinks the list by the number of such entries, and repeating it changes nothing more. */
  lemma DeleteRemovesId(st: State, id: int, token: Option<string>)
    requires HasToken(token)
    ensures var s := DeleteProfesor(st, id, token, true).state;
      (forall i :: 0 <= i < |s.profesores| ==> !IdIs(s.profesores[i], id))
      && |s.profesores| == |st.profesores| - Count(st.profesores, p => IdIs(p, id))
      && DeleteProfesor(s, id, token, true).state.profesores == s.profesores
  {
    var keep := (p: Dict) => !IdIs(p, id);
    FilterLength(st.profesores, keep, p => IdIs(p, id));
    var s := DeleteProfesor(st, id, token, true).state;
    FilterAllKept(s.profesores, keep);
  }

  // ---------------------------------------------------------------------
  // Creating and updating

  const SaveFailedMessage := "Error al guardar el profesor. Por favor, intenta de nuevo más tarde."
  const UpdateFailedMessage := "Error al actualizar el profesor. Por favor, intenta de nuevo más tarde."

  /**
   * `saveProfesor(profesor)`: `created` is the server's copy of the new professor,
   * `None` when the create fails. The new entry is appended only while the page is
   * not full; the total grows by one either way.
   */
  function SaveProfesor(st: State, token: Option<string>, created: Option<Dict>): (r: (State, bool))
    ensures r.1 <==> HasToken(token) && created.Some?
    ensures !r.1 ==> r.0 == st.(error := Some(SaveFailedMessage))
    ensures r.1 ==>
      r.0.profesores == (if |st.profesores| < st.pagination.perPage then st.profesores + [created.value] else st.profesores)
      && r.0.pagination == st.pagination.(total := st.pagination.total + 1,
                                          totalPages := CeilDiv(st.pagination.total + 1, st.pagination.perPage))
      && r.0.error == st.error
  {
    if !HasToken(token) || created.None? then (st.(error := Some(SaveFailedMessage)), false)
    else
      var pg := st.pagination;
      var list := if |st.profesores| < pg.perPage then st.profesores + [created.value] else st.profesores;
      (State(list, pg.(total := pg.total + 1, totalPages := CeilDiv(pg.total + 1, pg.perPage)), st.error), true)
  }

  /** A save followed by a delete of the new entry restores the total and the page count. */
  lemma SaveThenDeleteRestoresFigures(st: State, token: Option<string>, created: Dict, id: int)
    requires HasToken(token)
    ensures var saved := SaveProfesor(st, token, Some(created)).0;
      DeleteProfesor(saved, id, token, true).state.pagination.total == st.pagination.total
      && (st.pagination.totalPages == CeilDiv(st.pagination.total, st.pagination.perPage) ==>
          DeleteProfesor(saved, id, token, true).state.pagination == st.pagination)
  {
  }

  /**
   * `updateProfesor(id, profesor)`: `updated` is the server's copy, `None` when the
   * update fails. Entries with that id take the server's fields over their own.
   */
  function UpdateProfesor(st: State, id: int, token: Option<string>, updated: Option<Dict>): (r: (State, bool))
    ensures r.1 <==> HasToken(token) && updated.Some?
    ensures !r.1 ==> r.0 == st.(error := Some(UpdateFailedMessage))
    ensures r.1 ==>
      r.0.pagination == st.pagination && r.0.error == st.error && |r.0.profesores| == |st.profesores|
      && forall i :: 0 <= i < |st.profesores| ==>
        (IdIs(st.profesores[i], id) ==> r.0.profesores[i] == Spread(st.profesores[i], updated.value))
        && (!IdIs(st.profesores[i], id) ==> r.0.profesores[i] == st.profesores[i])
  {
    if !HasToken(token) || updated.None? then (st.(error := Some(UpdateFailedMessage)), false)
    else
      var list := seq(|st.profesores|, i requires 0 <= i < |st.profesores| =>
        if IdIs(st.profesores[i], id) then Spread(st.profesores[i], updated.value) else st.profesores[i]);
      (st.(profesores := list), true)
  }

  /** Every merged entry shows the server's values, and the fields the server did not send are kept. */
  lemma UpdateShowsServerCopy(st: State, id: int, token: Option<string>, updated: Dict, i: int)
    requires HasToken(token) && 0 <= i < |st.profesores| && IdIs(st.profesores[i], id)
    ensures var p := UpdateProfesor(st, id, token, Some(updated)).0.profesores[i];
      (forall k :: k in updated ==> k in p && p[k] == updated[k])
      && (forall k :: k in st.profesores[i] && k !in updated ==> k in p && p[k] == st.profesores[i][k])
  {
  }

  // ---------------------------------------------------------------------
  // Assigning subjects

  /** `asignarMateriaProfesor(profesorId, materiaId, esClassId = true)`: the body names a class unless the flag is `false`. */
  function AssignBody(materiaId: int, esClassId: Option<bool>): (d: Dict)
    ensures esClassId != Some(false) ==> d == map["class_id" := Int(materiaId)]
    ensures esClassId == Some(false) ==> d == map["group_id" := Int(materiaId)]
  {
    if esClassId == Some(false) then map["group_id" := Int(materiaId)] else map["class_id" := Int(materiaId)]
  }

  /** The request an assignment sends, `None` without a token. */
  function AssignRequest(profesorId: int, materiaId: int, esClassId: Option<bool>, token: Option<string>): (r: Option<(string, Dict)>)
    ensures r.Some? <==> HasToken(token)
    ensures r.Some? ==> r.value.0 == ApiHost + "/api/usuarios/" + IntToString(profesorId) + "/asignar-materia"
    ensures r.Some? ==> r.value.1 == AssignBody(materiaId, esClassId)
  {
    if HasToken(token) then Some((ApiHost + "/api/usuarios/" + IntToString(profesorId) + "/asignar-materia", AssignBody(materiaId, esClassId)))
    else None
  }

  /** A class body reaches the server's class branch: an existing class gets a new group for the professor. */
  lemma ClassBodyCreatesGroup(db: School, prof: int, c: int)
    requires ValidSchool(db) && prof in db.users.rows && c in db.classes.rows
    ensures var r := UserRoutes.AsignarMateria(db, prof, Some(AssignBody(c, None)));
      r.1.status == 200
      && exists g :: g !in db.groups.rows && r.0.groups.rows == db.groups.rows[g := GroupRow(Str("1"), Int(c), Int(prof))]
  {
    var d := AssignBody(c, None);
    assert Get(d, "group_id", Null) == Null;
    assert IntColumnParam(d["class_id"]) == IntKey(c);
  }

  /** A group body reaches the server's group branch: an existing group passes to the professor. */
  lemma GroupBodyAssignsGroup(db: School, prof: int, g: int)
    requires ValidSchool(db) && prof in db.users.rows && g in db.groups.rows
    ensures var r := UserRoutes.AsignarMateria(db, prof, Some(AssignBody(g, Some(false))));
      r.1.status == 200 && r.0.groups.rows == db.groups.rows[g := db.groups.rows[g].(professorId := Int(prof))]
  {
    var d := AssignBody(g, Some(false));
    assert IntColumnParam(d["group_id"]) == IntKey(g);
  }

  /** The request a release sends, `None` without a token; its body always names the group. */
  function UnassignRequest(profesorId: int, groupId: int, token: Option<string>): (r: Option<(string, Dict)>)
    ensures r.Some? <==> HasToken(token)
    ensures r.Some? ==> r.value.0 == ApiHost + "/api/usuarios/" + IntToString(profesorId) + "/desasignar-materia"
    ensures r.Some? ==> r.value.1.Keys == {"group_id"} && r.value.1["group_id"] == Int(groupId)
  {
    if HasToken(token) then Some((ApiHost + "/api/usuarios/" + IntToString(profesorId) + "/desasignar-materia", map["group_id" := Int(groupId)]))
    else None
  }
}

=== FILE: professor_forms.dfy ===
// The professor forms of the web client: adding a professor
// (frontend/src/pages/Profesores/_add/AgregarProfesor.tsx), editing one
// (frontend/src/pages/Profesores/_list/components/EditProfesorModal.tsx) and
// changing one's own password (frontend/src/pages/Profile/ChangePasswordModal.tsx).

module ProfessorForms {
  import opened Common

  // ---------------------------------------------------------------------
  // The e-mail pattern `/\S+@\S+\.\S+/`

  /**
   * The pattern matches with its `@` at `p` and its `.` at `q`: a non-space
   * character before the `@`, only non-space characters (at least one)
   * between the two, and a non-space character after the dot. Longer runs
   * of non-space characters only extend such a match, so these witnesses
   * suffice.
   */
  predicate EmailMatchAt(s: string, p: int, q: int)
  {
    1 <= p && p + 1 < q && q + 1 < |s|
    && !IsJsWs(s[p - 1]) && s[p] == '@' && s[q] == '.' && !IsJsWs(s[q + 1])
    && forall k :: p < k < q ==> !IsJsWs(s[k])
  }

  /** `/\S+@\S+\.\S+/.test(s)`: the pattern matches somewhere in the string. */
  predicate EmailLike(s: string)
  {
    exists p, q | 0 <= p < |s| && 0 <= q < |s| :: EmailMatchAt(s, p, q)
  }

  /** Decides the e-mail pattern by trying every `@` and scanning the non-space run after it for a dot. */
  method MatchesEmail(s: string) returns (b: bool)
    ensures b <==> EmailLike(s)
  {
    var p := 1;
    while p < |s|
      invariant 1 <= p
      invariant forall p', q :: p' < p ==> !EmailMatchAt(s, p', q)
    {
      if s[p] == '@' && !IsJsWs(s[p - 1]) {
        var q := p + 1;
        while q + 1 < |s| && !IsJsWs(s[q])
          invariant p + 1 <= q <= |s|
          invariant forall k :: p < k < q ==> !IsJsWs(s[k])
          invariant forall q' :: q' < q ==> !EmailMatchAt(s, p, q')
        {
          if q > p + 1 && s[q] == '.' && !IsJsWs(s[q + 1]) {
            assert EmailMatchAt(s, p, q);
            return true;
          }
          q := q + 1;
        }
        forall q' ensures !EmailMatchAt(s, p, q') {
          if q' > q {
            assert p < q < q';
          }
        }
      }
      p := p + 1;
    }
    return false;
  }

  /** A string with no white space matches once it has a letter, an `@`, a letter, a dot and a letter in that order. */
  lemma EmailExample()
    ensures EmailLike("ana@colegio.mx")
    ensures !EmailLike("ana@colegio")
  {
    assert EmailMatchAt("ana@colegio.mx", 3, 11);
    var s := "ana@colegio";
    assert forall k :: 0 <= k < |s| ==> s[k] != '.';
  }

  // ---------------------------------------------------------------------
  // Adding a professor

  /** The add form: the three names, e-mail, password, role (3 for a professor) and professor type. */
  datatype NewProfessor = NewProfessor(
    name: string, lastnameF: string, lastnameM: string, email: string, password: string,
    rol: int, profesorType: string)

  /** The form as it opens. */
  const EmptyNewProfessor := NewProfessor("", "", "", "", "", 3, "titular")

  /** The text inputs of the add form, named by their `name` attribute. */
  datatype TextField = Name | LastnameF | LastnameM | Email | Password

  function FieldKey(f: TextField): string
  {
    match f
    case Name => "name"
    case LastnameF => "lastname_f"
    case LastnameM => "lastname_m"
    case Email => "email"
    case Password => "password"
  }

  function TextOf(form: NewProfessor, f: TextField): string
  {
    match f
    case Name => form.name
    case LastnameF => form.lastnameF
    case LastnameM => form.lastnameM
    case Email => form.email
    case Password => form.password
  }

  function WithText(form: NewProfessor, f: TextField, v: string): (r: NewProfessor)
    ensures TextOf(r, f) == v
    ensures forall g :: g != f ==> TextOf(r, g) == TextOf(form, g)
    ensures r.rol == form.rol && r.profesorType == form.profesorType
  {
    match f
    case Name => form.(name := v)
    case LastnameF => form.(lastnameF := v)
    case LastnameM => form.(lastnameM := v)
    case Email => form.(email := v)
    case Password => form.(password := v)
  }

  /** The validation messages, keyed by the field they belong to (`FieldKey` names its key). */
  type Errors = map<TextField, string>

  /** `if (errors[name]) setErrors({ ...prev, [name]: "" })`: a shown message is blanked, nothing else changes. */
  function ClearError(errors: Errors, key: TextField): (r: Errors)
    ensures r.Keys == errors.Keys
    ensures key in errors ==> r[key] == ""
    ensures forall k :: k in errors && k != key ==> r[k] == errors[k]
  {
    if key in errors && errors[key] != "" then errors[key := ""] else errors
  }

  /** `handleTextChange`: the field takes the typed value and its message is blanked. */
  function HandleTextChange(form: NewProfessor, errors: Errors, f: TextField, v: string): (r: (NewProfessor, Errors))
    ensures r.0 == WithText(form, f, v)
    ensures r.1 == ClearError(errors, f)
  {
    (WithText(form, f, v), ClearError(errors, f))
  }

  /** The message for a required or malformed e-mail, or none. */
  function EmailError(email: string, required: string, malformed: string): (e: Option<string>)
    ensures Blank(email) ==> e == Some(required)
    ensures !Blank(email) && !EmailLike(email) ==> e == Some(malformed)
    ensures e.None? <==> !Blank(email) && EmailLike(email)
  {
    if Blank(email) then Some(required)
    else if !EmailLike(email) then Some(malformed)
    else None
  }

  /** Every text field. */
  const AllFields: set<TextField> := {Name, LastnameF, LastnameM, Email, Password}

  /** The five fields are all there are. */
  lemma AllFieldsComplete()
    ensures forall f: TextField :: f in AllFields
  {
    forall f: TextField
      ensures f in AllFields
    {
      match f
      case Name =>
      case LastnameF =>
      case LastnameM =>
      case Email =>
      case Password =>
    }
  }

  /** The errors object `validateForm` builds: one entry for each field whose check yields a message. */
  function Messages(check: TextField -> Option<string>): (errors: Errors)
    ensures forall f :: f in errors <==> check(f).Some?
    ensures forall f :: f in errors ==> errors[f] == check(f).value
  {
    AllFieldsComplete();
    map f | f in AllFields && check(f).Some? :: check(f).value
  }

  /** The add form's check of one field: the message it shows, or none. */
  function NewMessage(form: NewProfessor, f: TextField): Option<string>
  {
    match f
    case Name => if Blank(form.name) then Some("El nombre es requerido") else None
    case LastnameF => if Blank(form.lastnameF) then Some("El apellido paterno es requerido") else None
    case LastnameM => None
    case Email => EmailError(form.email, "El email es requerido", "El email no es válido")
    case Password =>
      if Blank(form.password) then Some("La contraseña es requerida")
      else if JsLength(form.password) < 6 then Some("La contraseña debe tener al menos 6 caracteres")
      else None
  }

  /** `validateForm()` of the add form: the errors it shows, one per failing field. */
  function ValidateNew(form: NewProfessor): (errors: Errors)
    ensures LastnameM !in errors
    ensures Name in errors <==> Blank(form.name)
    ensures LastnameF in errors <==> Blank(form.lastnameF)
    ensures Email in errors <==> !(!Blank(form.email) && EmailLike(form.email))
    ensures Password in errors <==> Blank(form.password) || JsLength(form.password) < 6
    ensures Name in errors ==> errors[Name] == "El nombre es requerido"
    ensures Password in errors && !Blank(form.password) ==> errors[Password] == "La contraseña debe tener al menos 6 caracteres"
  {
    Messages(f => NewMessage(form, f))
  }

  /** The add form is submitted exactly when every check passes. */
  predicate NewIsValid(form: NewProfessor)
  {
    ValidateNew(form) == map[]
  }

  /** A submitted professor has both names, an e-mail matching the pattern and a password of six or more characters. */
  lemma ValidNewProfessor(form: NewProfessor)
    ensures NewIsValid(form) <==>
      !Blank(form.name) && !Blank(form.lastnameF) && !Blank(form.email) && EmailLike(form.email)
      && !Blank(form.password) && JsLength(form.password) >= 6
  {
    var e := ValidateNew(form);
    if !(!Blank(form.name) && !Blank(form.lastnameF) && !Blank(form.email) && EmailLike(form.email)
         && !Blank(form.password) && JsLength(form.password) >= 6) {
      assert Name in e || LastnameF in e || Email in e || Password in e;
    }
  }

  /** The `n` consecutive characters from `first` on. */
  function CharRange(first: char, n: nat): (s: string)
    requires first as int + n <= 0xD800
    ensures |s| == n
    ensures forall i :: 0 <= i < n ==> s[i] as int == first as int + i
  {
    seq(n, i requires 0 <= i < n => (first as int + i) as char)
  }

  /** The password alphabet: the capitals A-Z, the small letters a-z, the digits 0-9, then the symbols `!@#$%^&*`. */
  const PasswordChars: string := CharRange('A', 26) + CharRange('a', 26) + CharRange('0', 10) + "!@#$%^&*"

  /** `Math.floor(r * chars.length)` for a draw `0 <= r < 1`. */
  function PickIndex(r: real): (i: nat)
    requires 0.0 <= r < 1.0
    ensures i < |PasswordChars|
  {
    (r * |PasswordChars| as real).Floor
  }

  /** The draws of `Math.random()` a password is made from: eight numbers in [0, 1). */
  predicate ValidDraws(draws: seq<real>)
  {
    |draws| == 8 && forall i :: 0 <= i < |draws| ==> 0.0 <= draws[i] < 1.0
  }

  /** The password the draws pick: the i-th character chosen by the i-th draw. */
  function PasswordFrom(draws: seq<real>): (password: string)
    requires ValidDraws(draws)
    ensures |password| == 8
    ensures forall i :: 0 <= i < 8 ==> password[i] in PasswordChars
  {
    seq(8, i requires 0 <= i < 8 => PasswordChars[PickIndex(draws[i])])
  }

  /**
   * `generatePassword()`: eight characters, the i-th picked from the
   * alphabet by the i-th draw of `Math.random()`, which is a parameter here.
   */
  method GeneratePassword(draws: seq<real>) returns (password: string)
    requires ValidDraws(draws)
    ensures password == PasswordFrom(draws)
  {
    password := "";
    var i := 0;
    while i < 8
      invariant 0 <= i <= 8
      invariant |password| == i
      invariant forall j :: 0 <= j < i ==> password[j] == PasswordChars[PickIndex(draws[j])]
    {
      var randomIndex := PickIndex(draws[i]);
      password := password + [PasswordChars[randomIndex]];
      i := i + 1;
    }
  }

  /** No character of the alphabet is white space. */
  lemma PasswordCharsNotSpace(i: nat)
    requires i < |PasswordChars|
    ensures !IsJsWs(PasswordChars[i])
  {
    if i >= 62 {
      assert PasswordChars[i] == "!@#$%^&*"[i - 62];
    }
  }

  /** A generated password always passes the add form's password check. */
  lemma GeneratedPasswordAccepted(form: NewProfessor, draws: seq<real>)
    requires ValidDraws(draws)
    ensures Password !in ValidateNew(form.(password := PasswordFrom(draws)))
  {
    var password := PasswordFrom(draws);
    PasswordCharsNotSpace(PickIndex(draws[0]));
    assert !IsJsWs(password[0]);
  }

  // ---------------------------------------------------------------------
  // Editing a professor

  /** A professor as the list shows it. */
  datatype Profesor = Profesor(name: string, lastnameF: string, lastnameM: string, email: string, rol: int)

  /** The edit form; a field the professor object lacks is `None` (`undefined`). */
  datatype EditForm = EditForm(
    name: Option<string>, lastnameF: Option<string>, lastnameM: Option<string>,
    email: Option<string>, rol: int, password: Option<string>)

  /** `!x?.trim()`: the field is missing or holds only white space. */
  predicate Missing(x: Option<string>)
  {
    x.None? || Blank(x.value)
  }

  /** The form as it opens, and as `handleClose` leaves it. */
  const EmptyEditForm := EditForm(Some(""), Some(""), Some(""), Some(""), 3, Some(""))

  /** The form loaded from a professor: the password always starts empty. */
  function LoadProfesor(p: Profesor): (f: EditForm)
    ensures f.password == Some("")
    ensures f.name == Some(p.name) && f.lastnameF == Some(p.lastnameF) && f.lastnameM == Some(p.lastnameM)
    ensures f.email == Some(p.email) && f.rol == p.rol
  {
    EditForm(Some(p.name), Some(p.lastnameF), Some(p.lastnameM), Some(p.email), p.rol, Some(""))
  }

  /** The edit modal's message for the e-mail, which may be missing. */
  function EditEmailError(email: Option<string>): (e: Option<string>)
    ensures e.None? <==> !Missing(email) && EmailLike(email.value)
  {
    if email.None? then Some("El correo electrónico es requerido")
    else EmailError(email.value, "El correo electrónico es requerido", "Formato de correo electrónico inválido")
  }

  /** The edit modal's check of one field: the message it shows, or none. */
  function EditMessage(form: EditForm, f: TextField): Option<string>
  {
    match f
    case Name => if Missing(form.name) then Some("El nombre es requerido") else None
    case LastnameF => if Missing(form.lastnameF) then Some("El apellido paterno es requerido") else None
    case LastnameM => if Missing(form.lastnameM) then Some("El apellido materno es requerido") else None
    case Email => EditEmailError(form.email)
    case Password =>
      if form.password.Some? && 0 < JsLength(form.password.value) < 6 then Some("La contraseña debe tener al menos 6 caracteres")
      else None
  }

  /** `validateForm()` of the edit modal: three names and the e-mail are required; a password, if typed, needs six characters. */
  function ValidateEdit(form: EditForm): (errors: Errors)
    ensures Name in errors <==> Missing(form.name)
    ensures LastnameF in errors <==> Missing(form.lastnameF)
    ensures LastnameM in errors <==> Missing(form.lastnameM)
    ensures Email in errors <==> Missing(form.email) || !EmailLike(form.email.value)
    ensures Password in errors <==> form.password.Some? && 0 < JsLength(form.password.value) < 6
  {
    Messages(f => EditMessage(form, f))
  }

  /**
   * `handleSubmit()` of the edit modal: nothing when a check fails; otherwise
   * the form's fields, without the password when it is missing or blank.
   */
  function EditSubmit(form: EditForm): (data: Option<Dict>)
    ensures data.Some? <==> ValidateEdit(form) == map[]
    ensures data.Some? ==> {"name", "lastname_f", "lastname_m", "email", "rol"} <= data.value.Keys
    ensures data.Some? ==>
      data.value["name"] == Str(form.name.value) && data.value["email"] == Str(form.email.value)
      && data.value["rol"] == Int(form.rol)
    ensures data.Some? ==> ("password" in data.value <==> !Missing(form.password))
    ensures data.Some? && "password" in data.value ==>
      data.value["password"] == Str(form.password.value) && JsLength(form.password.value) >= 6
  {
    var errors := ValidateEdit(form);
    if errors != map[] then None
    else
      assert Name !in errors && LastnameF !in errors && LastnameM !in errors && Email !in errors;
      assert Password !in errors;
      var base := map["name" := Str(form.name.value), "lastname_f" := Str(form.lastnameF.value),
                      "lastname_m" := Str(form.lastnameM.value), "email" := Str(form.email.value),
                      "rol" := Int(form.rol)];
      if Missing(form.password) then Some(base)
      else
        assert !Blank(form.password.value);
        Some(base["password" := Str(form.password.value)])
  }

  /** Saving a loaded professor untouched keeps the stored password: none is sent. */
  lemma UntouchedPasswordNotSent(p: Profesor)
    requires !Blank(p.name) && !Blank(p.lastnameF) && !Blank(p.lastnameM) && !Blank(p.email) && EmailLike(p.email)
    ensures EditSubmit(LoadProfesor(p)).Some?
    ensures "password" !in EditSubmit(LoadProfesor(p)).value
  {
    assert ValidateEdit(LoadProfesor(p)).Keys == {};
  }

  /** What `handleClose` leaves: the form, its errors, and whether the modal closed. */
  datatype CloseOutcome = CloseOutcome(form: EditForm, errors: Errors, closed: bool)

  /** `handleClose()`: ignored while saving; otherwise the form is emptied and the modal closes. */
  function HandleClose(form: EditForm, errors: Errors, loading: bool): (r: CloseOutcome)
    ensures loading ==> r == CloseOutcome(form, errors, false)
    ensures !loading ==> r.closed && r.form == EmptyEditForm && r.errors == map[]
  {
    if loading then CloseOutcome(form, errors, false) else CloseOutcome(EmptyEditForm, map[], true)
  }

  // ---------------------------------------------------------------------
  // Changing one's password

  /** The checks of the password dialog, in order; `None` when all pass. */
  function PasswordCheck(current: string, newPassword: string, confirm: string): (e: Option<string>)
    ensures e.None? <==> current != "" && newPassword != "" && JsLength(newPassword) >= 6 && newPassword == confirm
    ensures current == "" ==> e == Some("Ingresa tu contraseña actual")
    ensures current != "" && newPassword == "" ==> e == Some("Ingresa una nueva contraseña")
    ensures current != "" && 0 < JsLength(newPassword) < 6 ==> e == Some("La nueva contraseña debe tener al menos 6 caracteres")
    ensures current != "" && JsLength(newPassword) >= 6 && newPassword != confirm ==> e == Some("Las contraseñas no coinciden")
  {
    if current == "" then Some("Ingresa tu contraseña actual")
    else if newPassword == "" then Some("Ingresa una nueva contraseña")
    else if JsLength(newPassword) < 6 then Some("La nueva contraseña debe tener al menos 6 caracteres")
    else if newPassword != confirm then Some("Las contraseñas no coinciden")
    else None
  }

  /** The dialog's fields and its shown error. */
  datatype PasswordDialog = PasswordDialog(current: string, newPassword: string, confirm: string, error: Option<string>)

  /** How the `onSubmit` call ended: resolved, or rejected with an error's message. */
  datatype Reply = Resolved | Rejected(message: string)

  /** The dialog after submitting, and whether `onSubmit` was called and whether the dialog closed. */
  datatype PasswordOutcome = PasswordOutcome(dialog: PasswordDialog, submitted: bool, closed: bool)

  /**
   * `handleSubmit` of the password dialog: a failing check only shows its
   * message; otherwise `onSubmit` is called, and a resolved call clears and
   * closes the dialog while a rejected one shows the message (a default one
   * when it is empty).
   */
  function SubmitPassword(d: PasswordDialog, reply: Reply): (r: PasswordOutcome)
    ensures r.submitted <==> PasswordCheck(d.current, d.newPassword, d.confirm).None?
    ensures !r.submitted ==> !r.closed && r.dialog == d.(error := PasswordCheck(d.current, d.newPassword, d.confirm))
    ensures r.closed <==> r.submitted && reply.Resolved?
    ensures r.closed ==> r.dialog == PasswordDialog("", "", "", None)
    ensures r.submitted && reply.Rejected? ==>
      r.dialog.current == d.current && r.dialog.error.Some? && r.dialog.error.value != ""
      && (reply.message != "" ==> r.dialog.error == Some(reply.message))
  {
    var check := PasswordCheck(d.current, d.newPassword, d.confirm);
    if check.Some? then PasswordOutcome(d.(error := check), false, false)
    else match reply
      case Resolved => PasswordOutcome(PasswordDialog("", "", "", None), true, true)
      case Rejected(m) =>
        PasswordOutcome(d.(error := Some(if m != "" then m else "Error al cambiar la contraseña")), true, false)
  }

  /** A password accepted by the dialog is also accepted by the edit modal's check. */
  lemma DialogPasswordPassesEditCheck(d: PasswordDialog, form: EditForm)
    requires PasswordCheck(d.current, d.newPassword, d.confirm).None?
    ensures Password !in ValidateEdit(form.(password := Some(d.newPassword)))
  {
  }
}

=== FILE: profile_views.dfy ===
// Two views that read the signed-in user: the role guard around protected
// routes (frontend/src/components/RouteProtection/RoleProtectedRoute.tsx) and
// the profile page's avatar initials and role label
// (frontend/src/pages/Profile/Profile.tsx).

module ProfileViews {
  import opened Common
  import opened Schema
  import AuthRoutes

  // ---------------------------------------------------------------------
  // The role guard

  /** What the guard renders: the spinner, a redirect, or the protected page. */
  datatype Rendered = Spinner | Redirect(to: string) | Children

  /** `allowedRoles.includes(user.rol)`: a missing role is `undefined` and never included. */
  predicate RoleAllowed(user: Dict, allowedRoles: seq<int>)
  {
    "rol" in user && exists i :: 0 <= i < |allowedRoles| && JsNumberIs(user["rol"], allowedRoles[i])
  }

  /** The default target of the redirect. */
  const DefaultRedirect := "/Home"

  /**
   * `RoleProtectedRoute`: the spinner while the session initialises; then the
   * page for a user whose role is allowed, and a redirect (to `/Home` unless
   * another target is given) for everybody else.
   */
  function Guard(initializing: bool, user: Option<Dict>, allowedRoles: seq<int>, redirectTo: Option<string>): (r: Rendered)
    ensures initializing <==> r == Spinner
    ensures !initializing && user.None? ==> r.Redirect?
    ensures !initializing && user.Some? ==> (r == Children <==> RoleAllowed(user.value, allowedRoles))
    ensures r.Redirect? ==> r.to == (if redirectTo.Some? then redirectTo.value else DefaultRedirect)
  {
    var target := if redirectTo.Some? then redirectTo.value else DefaultRedirect;
    if initializing then Spinner
    else if user.Some? && RoleAllowed(user.value, allowedRoles) then Children
    else Redirect(target)
  }

  /** A signed-in user whose profile comes from the server passes the guard exactly when its stored role is listed. */
  lemma ServerProfilePassesGuard(id: int, row: UserRow, allowedRoles: seq<int>, redirectTo: Option<string>)
    requires row.rol.Int?
    ensures Guard(false, Some(AuthRoutes.ProfileOf(id, row)), allowedRoles, redirectTo) == Children
      <==> row.rol.i in allowedRoles
  {
    var d := AuthRoutes.ProfileOf(id, row);
    if row.rol.i in allowedRoles {
      var i :| 0 <= i < |allowedRoles| && allowedRoles[i] == row.rol.i;
      assert JsNumberIs(d["rol"], allowedRoles[i]);
    }
  }

  /** Allowing more roles never locks out a user who was let in. */
  lemma MoreRolesKeepAccess(initializing: bool, user: Option<Dict>, allowedRoles: seq<int>, more: seq<int>, redirectTo: Option<string>)
    requires Guard(initializing, user, allowedRoles, redirectTo) == Children
    ensures Guard(initializing, user, allowedRoles + more, redirectTo) == Children
  {
    var i :| 0 <= i < |allowedRoles| && JsNumberIs(user.value["rol"], allowedRoles[i]);
    assert (allowedRoles + more)[i] == allowedRoles[i];
  }

  // ---------------------------------------------------------------------
  // Upper case

  /**
   * `String.prototype.toUpperCase` on one character, for the ASCII and
   * Latin-1 letters: `ß` becomes `SS`, `µ` the Greek capital mu, `ÿ` the
   * capital Y with diaeresis; other characters are kept.
   */
  function UpperOf(c: char): (u: string)
    ensures 1 <= |u| <= 2
    ensures |u| == 2 <==> c == 'ß'
    ensures 'a' <= c <= 'z' ==> u == [(c as int - 32) as char]
    ensures 'A' <= c <= 'Z' ==> u == [c]
  {
    if 'a' <= c <= 'z' then [(c as int - 32) as char]
    else if c == 'ß' then "SS"
    else if c == 'µ' then "Μ"
    else if 'à' <= c <= 'þ' && c != '÷' then [(c as int - 32) as char]
    else if c == 'ÿ' then "Ÿ"
    else [c]
  }

  /** Upper-casing a single upper-case result again changes nothing. */
  lemma UpperIdempotent(c: char)
    ensures forall i :: 0 <= i < |UpperOf(c)| ==> UpperOf(UpperOf(c)[i]) == [UpperOf(c)[i]]
  {
  }

  // ---------------------------------------------------------------------
  // The profile page

  /** The signed-in user's name fields the avatar reads; `None` stands for `undefined` or `null`. */
  datatype ProfileUser = ProfileUser(name: Option<string>, lastnameF: Option<string>)

  /** `s ? s.charAt(0).toUpperCase() : ""`. */
  function InitialOf(s: Option<string>): (r: string)
    ensures r == "" <==> s.None? || s.value == ""
    ensures s.Some? && s.value != "" ==> r == UpperOf(s.value[0])
  {
    if s.Some? && s.value != "" then UpperOf(s.value[0]) else ""
  }

  /**
   * `getUserInitials()`: `U` without a user or without either name;
   * otherwise the first name's initial followed by the paternal last name's.
   */
  function UserInitials(user: Option<ProfileUser>): (r: string)
    ensures user.None? ==> r == "U"
    ensures user.Some? ==>
      var first := InitialOf(user.value.name);
      var last := InitialOf(user.value.lastnameF);
      (first == "" && last == "" ==> r == "U")
      && (last == "" && first != "" ==> r == first)
      && (last != "" ==> r == first + last)
  {
    if user.None? then "U"
    else
      var first := InitialOf(user.value.name);
      var last := InitialOf(user.value.lastnameF);
      if first == "" && last == "" then "U"
      else if last == "" then first
      else first + last
  }

  /** The initials are never empty, and hold at most one character per name unless a name starts with `ß`. */
  lemma InitialsLength(user: Option<ProfileUser>)
    ensures 1 <= |UserInitials(user)| <= 4
    ensures user.Some?
      && (user.value.name.None? || user.value.name.value == "" || user.value.name.value[0] != 'ß')
      && (user.value.lastnameF.None? || user.value.lastnameF.value == "" || user.value.lastnameF.value[0] != 'ß')
      ==> |UserInitials(user)| <= 2
  {
  }

  /** A name starting with `ß` upper-cases to two letters, so two such names give four. */
  lemma SharpSInitials()
    ensures UserInitials(Some(ProfileUser(Some("ßa"), Some("ßb")))) == "SSSS"
  {
  }

  /** The role label under the user's name. */
  function RoleLabel(rol: Value): (text: string)
    ensures JsNumberIs(rol, 1) ==> text == "Administrador"
    ensures JsNumberIs(rol, 2) ==> text == "Administrativo"
    ensures !JsNumberIs(rol, 1) && !JsNumberIs(rol, 2) ==> text == "Profesor"
  {
    if JsNumberIs(rol, 1) then "Administrador"
    else if JsNumberIs(rol, 2) then "Administrativo"
    else "Profesor"
  }
}

=== FILE: schema.dfy ===
// The database the backend works on: one row type per table, and the whole
// database as one value. Nullable columns hold JSON-like values; the
// `history` table enters only as the set of active (student, group) pairs.

module Schema {
  import opened Common
  import opened Tables

  datatype StudentRow = StudentRow(
    name: Value, lastnameF: Value, lastnameM: Value, birthDate: Value, grade: Value, familyId: Value)

  datatype FamilyRow = FamilyRow(
    tutorName: Value, tutorLastnameF: Value, tutorLastnameM: Value,
    phoneNumber: Value, emailAddress: Value, emergencyPhoneNumber: Value)

  /** A row of `usuarios`. */
  datatype UserRow = UserRow(
    name: Value, lastnameF: Value, lastnameM: Value, email: Value,
    password: Value, rol: Value, profesorType: Value)

  /** A row of `class` (a subject). */
  datatype ClassRow = ClassRow(name: Value)

  /** A row of `"group"`: one grade of a class, optionally taught by a professor. */
  datatype GroupRow = GroupRow(grade: Value, classId: Value, professorId: Value)

  /** The five graded components of a period. */
  datatype Scores = Scores(participation: real, exercises: real, homework: real, exams: real, church: real)

  /** A row of `notes`; `groupId` is the `grade_id` column. */
  datatype NoteRow = NoteRow(studentId: int, groupId: int, period: int, scores: Scores, finall: real)

  /** A row of `attendance`; `day` is the date part of `fecha`, `groupId` the `grade_id` column. */
  datatype AttendanceRow = AttendanceRow(studentId: int, groupId: int, day: int, present: bool)

  datatype School = School(
    students: Table<StudentRow>,
    families: Table<FamilyRow>,
    users: Table<UserRow>,
    classes: Table<ClassRow>,
    groups: Table<GroupRow>,
    notes: Table<NoteRow>,
    attendance: Table<AttendanceRow>,
    active: set<(int, int)>)

  predicate ValidSchool(db: School)
  {
    Valid(db.students) && Valid(db.families) && Valid(db.users) && Valid(db.classes)
    && Valid(db.groups) && Valid(db.notes) && Valid(db.attendance)
  }

  /** `WHERE column = %s`: SQL equality, under which NULL equals nothing. */
  predicate SqlEq(column: Value, param: Value)
  {
    column != Null && param != Null && column == param
  }

  /** How PostgreSQL treats a request value compared with a text column. */
  datatype TextParam = TextKey(t: string) | NoText | TextError

  /**
   * `WHERE email = %s` with a JSON value: text compares as itself and `None`
   * (SQL NULL) matches nothing. psycopg2 sends an empty list as the literal
   * '{}', which compares as that text. Numbers, booleans and non-empty lists
   * (arrays) have no equality operator with a text column, and a dict cannot be
   * adapted at all, so these make the query raise.
   */
  function TextColumnParam(v: Value): (r: TextParam)
    ensures v.Str? ==> r == TextKey(v.s)
    ensures v.Null? ==> r == NoText
    ensures v.Int? || v.Real? || v.Bool? || v.Obj? ==> r == TextError
    ensures v.List? ==> (r.TextError? <==> v.items != [])
  {
    match v
    case Str(s) => TextKey(s)
    case Null => NoText
    case List(items) => if items == [] then TextKey("{}") else TextError
    case _ => TextError
  }

  /** The query cannot run: PostgreSQL or psycopg2 raises before any row is read. */
  predicate TextQueryFails(param: Value)
  {
    TextColumnParam(param).TextError?
  }

  /** A text column matches `WHERE column = %s` with `param`; NULL on either side matches nothing. */
  predicate TextEq(column: Value, param: Value)
  {
    TextColumnParam(param).TextKey? && column == Str(TextColumnParam(param).t)
  }

  /** `name || ' ' || lastname_f || ' ' || lastname_m`: NULL as soon as one part is NULL. */
  function FullName(r: StudentRow): (v: Value)
    ensures v != Null <==> r.name.Str? && r.lastnameF.Str? && r.lastnameM.Str?
  {
    if r.name.Str? && r.lastnameF.Str? && r.lastnameM.Str? then
      Str(r.name.s + " " + r.lastnameF.s + " " + r.lastnameM.s)
    else Null
  }

  /** The ids of students with an active membership row in group `g`. */
  function ActiveIn(db: School, g: int): (ids: set<int>)
    ensures forall s :: s in ids <==> (s, g) in db.active
  {
    set p | p in db.active && p.1 == g :: p.0
  }

  /** The group exists and its class exists (the `JOIN "group" ... JOIN class` succeeds). */
  predicate GroupWithClass(db: School, g: int)
  {
    g in db.groups.rows && db.groups.rows[g].classId.Int? && db.groups.rows[g].classId.i in db.classes.rows
  }

  /**
   * The students a grades or attendance read lists for group `g`: active members
   * that have a student row, when the group joins its class; ascending id.
   */
  function Roster(db: School, g: int): (ids: seq<int>)
    ensures forall i :: 0 <= i < |ids| ==> (ids[i], g) in db.active && ids[i] in db.students.rows
    ensures GroupWithClass(db, g) ==> forall s :: (s, g) in db.active && s in db.students.rows ==> s in ids
    ensures !GroupWithClass(db, g) ==> ids == []
    ensures StrictlyIncreasing(ids)
  {
    if GroupWithClass(db, g) then Sorted(set s | s in ActiveIn(db, g) && s in db.students.rows)
    else []
  }

  // ---------------------------------------------------------------------
  // Writing request values into columns

  /**
   * psycopg2 can pass the value as a query parameter. It has no adapter for a
   * dict, and it sends a list as an array of its elements, so a list holding a
   * dict cannot be passed either: the statement raises before it is sent.
   */
  predicate Adaptable(v: Value)
    decreases v
  {
    match v
    case Obj(_) => false
    case List(items) => forall i :: 0 <= i < |items| ==> Adaptable(items[i])
    case _ => true
  }

  /** The type of a column, as far as a write into it depends on it. */
  datatype ColumnType = TextColumn | IntColumn | OtherColumn

  /** PostgreSQL's cast of a numeric constant to an integer: halves round away from zero. */
  function RoundHalfAway(x: real): (n: int)
    ensures x >= 0.0 ==> n >= 0 && n as real - 0.5 <= x < n as real + 0.5
    ensures x < 0.0 ==> n <= 0 && n as real - 0.5 < x <= n as real + 0.5
  {
    if x >= 0.0 then (x + 0.5).Floor else -((-x + 0.5).Floor)
  }

  /**
   * The value a column holds, and reads back as, after `INSERT ... VALUES (%s)`
   * or `SET column = %s` with `v`; `None` when the statement raises.
   *
   * A text column takes every value psycopg2 can send through PostgreSQL's
   * assignment cast to text: an integer becomes its decimal text, a boolean
   * `true` or `false`, and an empty list, sent as `'{}'`, that text. An integer
   * column takes integers, numbers (rounded) and text holding a decimal
   * integer, and refuses booleans, lists and any other text. A column of
   * another type keeps an adaptable value as sent.
   */
  function ColumnValue(column: ColumnType, v: Value): (r: Option<Value>)
    ensures r.Some? ==> Adaptable(v) && (r.value.Null? <==> v.Null?)
    ensures column.TextColumn? ==> (r.Some? <==> Adaptable(v))
    ensures column.TextColumn? && (v.Str? || v.Int? || v.Bool?) ==> r.Some? && r.value.Str?
    ensures column.TextColumn? && v.Str? ==> r == Some(v)
    ensures column.TextColumn? && v.Bool? ==> r == Some(Str(if v.b then "true" else "false"))
    ensures column.TextColumn? && v.Int? ==> DecimalText(r.value.s, v.i)
    ensures column.IntColumn? ==> (r.Some? <==> v.Null? || v.Int? || v.Real? || (v.Str? && !IntColumnParam(v).DbError?))
    ensures column.IntColumn? && r.Some? && !v.Null? ==> r.value.Int?
    ensures column.IntColumn? && v.Int? ==> r == Some(v)
    ensures column.IntColumn? && v.Str? && r.Some? ==> IntColumnParam(v) == IntKey(r.value.i)
    ensures column.IntColumn? && v.Real? ==> r.Some? && v.r - 0.5 <= r.value.i as real <= v.r + 0.5
    ensures column.OtherColumn? ==> r == (if Adaptable(v) then Some(v) else None)
  {
    if !Adaptable(v) then None
    else
      match column
      case TextColumn =>
        (match v
         case Int(i) => IntToStringIsDecimal(i); Some(Str(IntToString(i)))
         case Bool(b) => Some(Str(if b then "true" else "false"))
         case List(items) => if items == [] then Some(Str("{}")) else Some(v)
         case _ => Some(v))
      case IntColumn =>
        (match v
         case Null => Some(Null)
         case Int(_) => Some(v)
         case Real(x) => Some(Int(RoundHalfAway(x)))
         case Str(s) => (match ParseInt(s) case Some(k) => Some(Int(k)) case None => None)
         case _ => None)
      case OtherColumn => Some(v)
  }

  /** Writing back the value a column reads stores that same value. */
  lemma ColumnValueIdempotent(column: ColumnType, v: Value)
    requires ColumnValue(column, v).Some?
    ensures ColumnValue(column, ColumnValue(column, v).value) == ColumnValue(column, v)
  {
    if column.TextColumn? && v.List? && v.items != [] {
      assert ColumnValue(column, v) == Some(v);
    }
  }

  /** A number a text column stores as text goes back into an integer column as that number. */
  lemma NumberTextRoundTrip(i: int)
    ensures ColumnValue(IntColumn, ColumnValue(TextColumn, Int(i)).value) == Some(Int(i))
  {
    IntStringRoundTrip(i);
  }

  /** A column a `SET` clause may leave alone: it keeps `current` when it is not `given`. */
  function SetCell(column: ColumnType, given: bool, v: Value, current: Value): (r: Option<Value>)
    ensures !given ==> r == Some(current)
    ensures given ==> r == ColumnValue(column, v)
  {
    if given then ColumnValue(column, v) else Some(current)
  }

  /**
   * The `usuarios` columns written from a row of parameters: `name`,
   * `lastname_f`, `lastname_m`, `email`, `password` and `profesor_type` are
   * text; `rol` refers to the `roles` table's integer ids.
   */
  predicate UserWritable(r: UserRow)
  {
    ColumnValue(TextColumn, r.name).Some? && ColumnValue(TextColumn, r.lastnameF).Some? && ColumnValue(TextColumn, r.lastnameM).Some?
    && ColumnValue(TextColumn, r.email).Some? && ColumnValue(TextColumn, r.password).Some? && ColumnValue(IntColumn, r.rol).Some?
    && ColumnValue(TextColumn, r.profesorType).Some?
  }

  /** The `usuarios` row an insert of these parameters stores. */
  function StoredUser(r: UserRow): UserRow
    requires UserWritable(r)
  {
    UserRow(ColumnValue(TextColumn, r.name).value, ColumnValue(TextColumn, r.lastnameF).value, ColumnValue(TextColumn, r.lastnameM).value,
            ColumnValue(TextColumn, r.email).value, ColumnValue(TextColumn, r.password).value, ColumnValue(IntColumn, r.rol).value,
            ColumnValue(TextColumn, r.profesorType).value)
  }

  /** How PostgreSQL treats a request value compared with an integer column. */
  datatype IntParam = IntKey(k: int) | NoMatch | DbError

  /**
   * `WHERE group_id = %s` with a JSON value: integers and integral floats match
   * their number, numeric text is cast to an integer, a non-integral float
   * matches nothing, and any other value makes the database raise.
   */
  function IntColumnParam(v: Value): (r: IntParam)
    ensures v.Int? ==> r == IntKey(v.i)
    ensures v.Null? ==> r == NoMatch
    ensures v.Bool? || v.List? || v.Obj? ==> r == DbError
    ensures v.Real? ==> (r.NoMatch? <==> v.r != v.r.Floor as real)
    ensures v.Str? ==> (r.DbError? <==> ParseInt(v.s).None?)
  {
    match v
    case Int(i) => IntKey(i)
    case Real(x) => if x == x.Floor as real then IntKey(x.Floor) else NoMatch
    case Str(s) => (match ParseInt(s) case Some(k) => IntKey(k) case None => DbError)
    case Null => NoMatch
    case _ => DbError
  }

  /**
   * The integer a value is equal to under Python's `==` (`True == 1`, `5.0 == 5`);
   * `None` when it equals no integer.
   */
  function NumericKey(v: Value): (r: Option<int>)
    ensures v.Int? ==> r == Some(v.i)
    ensures v.Str? || v.Null? || v.List? || v.Obj? ==> r.None?
  {
    match v
    case Int(i) => Some(i)
    case Bool(b) => Some(if b then 1 else 0)
    case Real(x) => if x == x.Floor as real then Some(x.Floor) else None
    case _ => None
  }

  /** A record's `student_id` passes `if not student_id or student_id not in student_ids`. */
  predicate AcceptedStudent(v: Value, students: set<int>)
  {
    Truthy(v) && NumericKey(v).Some? && NumericKey(v).value in students
  }

  /** For an accepted id, Python's `int(student_id)` is the same integer the membership test matched. */
  lemma AcceptedStudentInt(v: Value, students: set<int>)
    requires AcceptedStudent(v, students)
    ensures PyInt(v) == NumericKey(v)
  {
  }
}

=== FILE: student_forms.dfy ===
// The web client's student forms: the enrolment form
// (frontend/src/hooks/useInscripciones.ts), the edit form
// (frontend/src/hooks/useEditEstudiante.ts), the phone fields of the family
// sections (frontend/src/pages/Alumnos/_add/components/FamilyInfoSection.tsx,
// frontend/src/pages/Inscripciones/components/FamilyInfoSection.tsx) and the
// student list's local delete (frontend/src/hooks/useEstudiantes.ts).

module StudentForms {
  import opened Common

  // ---------------------------------------------------------------------
  // The four field groups

  datatype PersonalInfo = PersonalInfo(
    nombre: string, apellidoPaterno: string, apellidoMaterno: string,
    email: string, tipoSangre: string, alergias: string)

  datatype PersonalField = Nombre | ApellidoPaterno | ApellidoMaterno | Email | TipoSangre | Alergias

  function PersonalOf(p: PersonalInfo, f: PersonalField): string
  {
    match f
    case Nombre => p.nombre
    case ApellidoPaterno => p.apellidoPaterno
    case ApellidoMaterno => p.apellidoMaterno
    case Email => p.email
    case TipoSangre => p.tipoSangre
    case Alergias => p.alergias
  }

  /** `{ ...prev, [field]: value }` on the personal group. */
  function WithPersonal(p: PersonalInfo, f: PersonalField, v: string): (q: PersonalInfo)
    ensures PersonalOf(q, f) == v
    ensures forall g :: g != f ==> PersonalOf(q, g) == PersonalOf(p, g)
  {
    match f
    case Nombre => p.(nombre := v)
    case ApellidoPaterno => p.(apellidoPaterno := v)
    case ApellidoMaterno => p.(apellidoMaterno := v)
    case Email => p.(email := v)
    case TipoSangre => p.(tipoSangre := v)
    case Alergias => p.(alergias := v)
  }

  datatype AcademicInfo = AcademicInfo(beca: bool, capilla: string, campusEscolar: string)

  /** The academic group's updates: the scholarship flag takes a boolean, the others text. */
  datatype AcademicUpdate = SetBeca(b: bool) | SetCapilla(s: string) | SetCampusEscolar(s: string)

  function WithAcademic(a: AcademicInfo, u: AcademicUpdate): (b: AcademicInfo)
    ensures u.SetBeca? ==> b == AcademicInfo(u.b, a.capilla, a.campusEscolar)
    ensures u.SetCapilla? ==> b == AcademicInfo(a.beca, u.s, a.campusEscolar)
    ensures u.SetCampusEscolar? ==> b == AcademicInfo(a.beca, a.capilla, u.s)
  {
    match u
    case SetBeca(x) => a.(beca := x)
    case SetCapilla(s) => a.(capilla := s)
    case SetCampusEscolar(s) => a.(campusEscolar := s)
  }

  datatype FamilyInfo = FamilyInfo(
    tutorNombre: string, tutorApellidoPaterno: string, tutorApellidoMaterno: string,
    telefono: string, emailTutor: string, telefonoEmergencia: string)

  datatype FamilyField = TutorNombre | TutorApellidoPaterno | TutorApellidoMaterno | Telefono | EmailTutor | TelefonoEmergencia

  function FamilyOf(p: FamilyInfo, f: FamilyField): string
  {
    match f
    case TutorNombre => p.tutorNombre
    case TutorApellidoPaterno => p.tutorApellidoPaterno
    case TutorApellidoMaterno => p.tutorApellidoMaterno
    case Telefono => p.telefono
    case EmailTutor => p.emailTutor
    case TelefonoEmergencia => p.telefonoEmergencia
  }

  function WithFamily(p: FamilyInfo, f: FamilyField, v: string): (q: FamilyInfo)
    ensures FamilyOf(q, f) == v
    ensures forall g :: g != f ==> FamilyOf(q, g) == FamilyOf(p, g)
  {
    match f
    case TutorNombre => p.(tutorNombre := v)
    case TutorApellidoPaterno => p.(tutorApellidoPaterno := v)
    case TutorApellidoMaterno => p.(tutorApellidoMaterno := v)
    case Telefono => p.(telefono := v)
    case EmailTutor => p.(emailTutor := v)
    case TelefonoEmergencia => p.(telefonoEmergencia := v)
  }

  datatype AdditionalInfo = AdditionalInfo(permiso: string, fechaRegistro: string)

  datatype AdditionalField = Permiso | FechaRegistro

  function WithAdditional(p: AdditionalInfo, f: AdditionalField, v: string): (q: AdditionalInfo)
    ensures f == Permiso ==> q == AdditionalInfo(v, p.fechaRegistro)
    ensures f == FechaRegistro ==> q == AdditionalInfo(p.permiso, v)
  {
    match f
    case Permiso => p.(permiso := v)
    case FechaRegistro => p.(fechaRegistro := v)
  }

  /** A student form: the four groups each hook keeps in its own state. */
  datatype Form = Form(personal: PersonalInfo, academic: AcademicInfo, family: FamilyInfo, additional: AdditionalInfo)

  /** The initial values both hooks start from and `resetForm` restores. */
  const InitialForm := Form(
    PersonalInfo("", "", "", "", "", ""),
    AcademicInfo(false, "", ""),
    FamilyInfo("", "", "", "", "", ""),
    AdditionalInfo("", ""))

  /** One call of an `update*` function, with its field and value. */
  datatype Update =
    | UpdatePersonal(pf: PersonalField, pv: string)
    | UpdateAcademic(au: AcademicUpdate)
    | UpdateFamily(ff: FamilyField, fv: string)
    | UpdateAdditional(xf: AdditionalField, xv: string)

  /** The form after an update: only the named group changes, and in it only the named field. */
  function Apply(form: Form, u: Update): (r: Form)
    ensures u.UpdatePersonal? ==> r == form.(personal := WithPersonal(form.personal, u.pf, u.pv))
    ensures u.UpdateAcademic? ==> r == form.(academic := WithAcademic(form.academic, u.au))
    ensures u.UpdateFamily? ==> r == form.(family := WithFamily(form.family, u.ff, u.fv))
    ensures u.UpdateAdditional? ==> r == form.(additional := WithAdditional(form.additional, u.xf, u.xv))
  {
    match u
    case UpdatePersonal(f, v) => form.(personal := WithPersonal(form.personal, f, v))
    case UpdateAcademic(a) => form.(academic := WithAcademic(form.academic, a))
    case UpdateFamily(f, v) => form.(family := WithFamily(form.family, f, v))
    case UpdateAdditional(f, v) => form.(additional := WithAdditional(form.additional, f, v))
  }

  /** Updating one field twice keeps the second value. */
  lemma ApplyLastWins(form: Form, f: PersonalField, v1: string, v2: string)
    ensures Apply(Apply(form, UpdatePersonal(f, v1)), UpdatePersonal(f, v2)) == Apply(form, UpdatePersonal(f, v2))
  {
    var a := Apply(Apply(form, UpdatePersonal(f, v1)), UpdatePersonal(f, v2)).personal;
    var b := Apply(form, UpdatePersonal(f, v2)).personal;
    assert forall g :: PersonalOf(a, g) == PersonalOf(b, g);
    assert PersonalOf(a, Nombre) == PersonalOf(b, Nombre) && PersonalOf(a, ApellidoPaterno) == PersonalOf(b, ApellidoPaterno);
    assert PersonalOf(a, ApellidoMaterno) == PersonalOf(b, ApellidoMaterno) && PersonalOf(a, Email) == PersonalOf(b, Email);
    assert PersonalOf(a, TipoSangre) == PersonalOf(b, TipoSangre) && PersonalOf(a, Alergias) == PersonalOf(b, Alergias);
  }

  /** `s.trim() !== ""`. */
  predicate Filled(s: string)
  {
    Trim(s) != ""
  }

  // ---------------------------------------------------------------------
  // The enrolment form

  /** The personal fields the enrolment form requires: all but the e-mail and the allergies. */
  predicate EnrollmentRequires(f: PersonalField)
  {
    f != Email && f != Alergias
  }

  /** The personal fields the edit form requires: all but the allergies. */
  predicate EditRequires(f: PersonalField)
  {
    f != Alergias
  }

  lemma PersonalFilled(p: PersonalInfo)
    ensures (forall f :: EnrollmentRequires(f) ==> Filled(PersonalOf(p, f))) <==>
      Filled(p.nombre) && Filled(p.apellidoPaterno) && Filled(p.apellidoMaterno) && Filled(p.tipoSangre)
    ensures (forall f :: EditRequires(f) ==> Filled(PersonalOf(p, f))) <==>
      Filled(p.nombre) && Filled(p.apellidoPaterno) && Filled(p.apellidoMaterno) && Filled(p.email) && Filled(p.tipoSangre)
  {
    assert PersonalOf(p, Nombre) == p.nombre && PersonalOf(p, ApellidoPaterno) == p.apellidoPaterno;
    assert PersonalOf(p, ApellidoMaterno) == p.apellidoMaterno && PersonalOf(p, TipoSangre) == p.tipoSangre;
    assert PersonalOf(p, Email) == p.email;
  }

  lemma FamilyFilled(fam: FamilyInfo)
    ensures (forall f: FamilyField :: Filled(FamilyOf(fam, f))) <==>
      Filled(fam.tutorNombre) && Filled(fam.tutorApellidoPaterno) && Filled(fam.tutorApellidoMaterno)
      && Filled(fam.telefono) && Filled(fam.emailTutor) && Filled(fam.telefonoEmergencia)
  {
    assert FamilyOf(fam, TutorNombre) == fam.tutorNombre && FamilyOf(fam, TutorApellidoPaterno) == fam.tutorApellidoPaterno;
    assert FamilyOf(fam, TutorApellidoMaterno) == fam.tutorApellidoMaterno && FamilyOf(fam, Telefono) == fam.telefono;
    assert FamilyOf(fam, EmailTutor) == fam.emailTutor && FamilyOf(fam, TelefonoEmergencia) == fam.telefonoEmergencia;
    if Filled(fam.tutorNombre) && Filled(fam.tutorApellidoPaterno) && Filled(fam.tutorApellidoMaterno)
      && Filled(fam.telefono) && Filled(fam.emailTutor) && Filled(fam.telefonoEmergencia)
    {
      forall f: FamilyField ensures Filled(FamilyOf(fam, f)) {
        match f
        case TutorNombre =>
        case TutorApellidoPaterno =>
        case TutorApellidoMaterno =>
        case Telefono =>
        case EmailTutor =>
        case TelefonoEmergencia =>
      }
    }
  }

  /** `isFormValid()` of the enrolment form: eleven fields must hold more than white space. */
  function EnrollmentValid(form: Form): (ok: bool)
    ensures ok <==>
      (forall f :: EnrollmentRequires(f) ==> Filled(PersonalOf(form.personal, f)))
      && (forall f: FamilyField :: Filled(FamilyOf(form.family, f)))
      && Filled(form.additional.fechaRegistro)
  {
    var p := form.personal;
    var fam := form.family;
    PersonalFilled(p);
    FamilyFilled(fam);
    Filled(p.nombre) && Filled(p.apellidoPaterno) && Filled(p.apellidoMaterno) && Filled(p.tipoSangre)
    && Filled(fam.tutorNombre) && Filled(fam.tutorApellidoPaterno) && Filled(fam.tutorApellidoMaterno)
    && Filled(fam.telefono) && Filled(fam.emailTutor) && Filled(fam.telefonoEmergencia)
    && Filled(form.additional.fechaRegistro)
  }

  /** The e-mail, allergies, academic fields and permission never decide the enrolment form's validity. */
  lemma EnrollmentOptionalFields(form: Form, u: Update)
    requires (u.UpdatePersonal? && !EnrollmentRequires(u.pf)) || u.UpdateAcademic? || (u.UpdateAdditional? && u.xf == Permiso)
    ensures EnrollmentValid(Apply(form, u)) == EnrollmentValid(form)
  {
  }

  /** A freshly reset form is not valid. */
  lemma ResetFormInvalid()
    ensures !EnrollmentValid(InitialForm)
  {
    assert Trim("") == "";
  }

  /** The JSON key of each personal field. */
  function PersonalKey(f: PersonalField): string
  {
    match f
    case Nombre => "nombre"
    case ApellidoPaterno => "apellidoPaterno"
    case ApellidoMaterno => "apellidoMaterno"
    case Email => "email"
    case TipoSangre => "tipoSangre"
    case Alergias => "alergias"
  }

  /** The JSON key of each family field. */
  function FamilyKey(f: FamilyField): string
  {
    match f
    case TutorNombre => "tutorNombre"
    case TutorApellidoPaterno => "tutorApellidoPaterno"
    case TutorApellidoMaterno => "tutorApellidoMaterno"
    case Telefono => "telefono"
    case EmailTutor => "emailTutor"
    case TelefonoEmergencia => "telefonoEmergencia"
  }

  const PersonalKeys: set<string> := {"nombre", "apellidoPaterno", "apellidoMaterno", "email", "tipoSangre", "alergias"}
  const AcademicKeys: set<string> := {"beca", "capilla", "campusEscolar"}
  const FamilyKeys: set<string> := {"tutorNombre", "tutorApellidoPaterno", "tutorApellidoMaterno", "telefono", "emailTutor", "telefonoEmergencia"}
  const AdditionalKeys: set<string> := {"permiso", "fechaRegistro"}

  /** A group's state as a JSON object: each field under its key. */
  function PersonalJson(p: PersonalInfo): (d: Dict)
    ensures d.Keys == PersonalKeys
    ensures forall f :: PersonalKey(f) in d && d[PersonalKey(f)] == Str(PersonalOf(p, f))
  {
    map["nombre" := Str(p.nombre), "apellidoPaterno" := Str(p.apellidoPaterno), "apellidoMaterno" := Str(p.apellidoMaterno),
        "email" := Str(p.email), "tipoSangre" := Str(p.tipoSangre), "alergias" := Str(p.alergias)]
  }

  function AcademicJson(a: AcademicInfo): (d: Dict)
    ensures d.Keys == AcademicKeys
    ensures d["beca"] == Bool(a.beca) && d["capilla"] == Str(a.capilla) && d["campusEscolar"] == Str(a.campusEscolar)
  {
    map["beca" := Bool(a.beca), "capilla" := Str(a.capilla), "campusEscolar" := Str(a.campusEscolar)]
  }

  function FamilyJson(p: FamilyInfo): (d: Dict)
    ensures d.Keys == FamilyKeys
    ensures forall f :: FamilyKey(f) in d && d[FamilyKey(f)] == Str(FamilyOf(p, f))
  {
    map["tutorNombre" := Str(p.tutorNombre), "tutorApellidoPaterno" := Str(p.tutorApellidoPaterno),
        "tutorApellidoMaterno" := Str(p.tutorApellidoMaterno), "telefono" := Str(p.telefono),
        "emailTutor" := Str(p.emailTutor), "telefonoEmergencia" := Str(p.telefonoEmergencia)]
  }

  function AdditionalJson(x: AdditionalInfo): (d: Dict)
    ensures d.Keys == AdditionalKeys
    ensures d["permiso"] == Str(x.permiso) && d["fechaRegistro"] == Str(x.fechaRegistro)
  {
    map["permiso" := Str(x.permiso), "fechaRegistro" := Str(x.fechaRegistro)]
  }

  /**
   * The body `handleSubmit` posts, `{ ...personalInfo, ...academicInfo,
   * ...familyInfo, ...additionalInfo }`; `None` when the form is not valid and
   * nothing is sent.
   */
  function EnrollmentBody(form: Form): (body: Option<Dict>)
    ensures body.Some? <==> EnrollmentValid(form)
    ensures body.Some? ==> body.value.Keys == PersonalKeys + AcademicKeys + FamilyKeys + AdditionalKeys
  {
    if !EnrollmentValid(form) then None
    else
      Some(Spread(Spread(Spread(PersonalJson(form.personal), AcademicJson(form.academic)),
                         FamilyJson(form.family)), AdditionalJson(form.additional)))
  }

  /** No key belongs to two groups. */
  lemma KeyGroupsDisjoint()
    ensures PersonalKeys !! AcademicKeys && PersonalKeys !! FamilyKeys && PersonalKeys !! AdditionalKeys
    ensures AcademicKeys !! FamilyKeys && AcademicKeys !! AdditionalKeys && FamilyKeys !! AdditionalKeys
  {
  }

  /** The four groups use distinct keys, so every field of the form arrives under its own key. */
  lemma EnrollmentBodyReadsBack(form: Form)
    ensures EnrollmentValid(form) ==> var d := EnrollmentBody(form).value;
      (forall f :: d[PersonalKey(f)] == Str(PersonalOf(form.personal, f)))
      && d["beca"] == Bool(form.academic.beca) && d["capilla"] == Str(form.academic.capilla)
      && d["campusEscolar"] == Str(form.academic.campusEscolar)
      && (forall f :: d[FamilyKey(f)] == Str(FamilyOf(form.family, f)))
      && d["permiso"] == Str(form.additional.permiso) && d["fechaRegistro"] == Str(form.additional.fechaRegistro)
  {
    if !EnrollmentValid(form) { return; }
    var p := PersonalJson(form.personal);
    var d1 := Spread(p, AcademicJson(form.academic));
    var d2 := Spread(d1, FamilyJson(form.family));
    var d3 := Spread(d2, AdditionalJson(form.additional));
    KeyGroupsDisjoint();
    forall f ensures d3[PersonalKey(f)] == Str(PersonalOf(form.personal, f)) {
      var k := PersonalKey(f);
      assert k in PersonalKeys;
      assert d1[k] == p[k];
      assert d2[k] == d1[k];
    }
    forall f ensures d3[FamilyKey(f)] == Str(FamilyOf(form.family, f)) {
      assert FamilyKey(f) in FamilyKeys;
    }
    assert "beca" in AcademicKeys && "capilla" in AcademicKeys && "campusEscolar" in AcademicKeys;
  }

  /** The form after the server's answer: cleared on success, kept as typed otherwise. */
  function AfterEnrollment(form: Form, ok: bool): (r: Form)
    ensures ok ==> r == InitialForm && !EnrollmentValid(r)
    ensures !ok ==> r == form
  {
    ResetFormInvalid();
    if ok then InitialForm else form
  }

  // ---------------------------------------------------------------------
  // The edit form

  /** `isFormValid()` of the edit form: names, e-mail and blood type must hold more than white space. */
  function EditValid(form: Form): (ok: bool)
    ensures ok <==> forall f :: EditRequires(f) ==> Filled(PersonalOf(form.personal, f))
  {
    var p := form.personal;
    PersonalFilled(p);
    Filled(p.nombre) && Filled(p.apellidoPaterno) && Filled(p.apellidoMaterno) && Filled(p.email) && Filled(p.tipoSangre)
  }

  /** Only the personal group decides the edit form's validity. */
  lemma EditValidityIsPersonal(form: Form, u: Update)
    requires !u.UpdatePersonal? || !EditRequires(u.pf)
    ensures EditValid(Apply(form, u)) == EditValid(form)
  {
  }

  /** A student as the server sends it; `None` for a field that is missing or null. */
  datatype Estudiante = Estudiante(
    name: Option<string>, lastnameF: Option<string>, lastnameM: Option<string>, email: Option<string>,
    bloodType: Option<string>, allergies: Option<string>, scholarShip: Option<bool>,
    chapel: Option<string>, schoolCampus: Option<string>, permission: Option<string>, regDate: Option<string>)

  /** `x || ""` on a string field. */
  function OrEmpty(x: Option<string>): (s: string)
    ensures x.Some? ==> s == x.value
    ensures x.None? ==> s == ""
  {
    if x.Some? then x.value else ""
  }

  /** `x || false` on a boolean field. */
  function OrFalse(x: Option<bool>): (b: bool)
    ensures b <==> x == Some(true)
  {
    x.Some? && x.value
  }

  /** `mapEstudianteToForm(e)`: the personal, academic and additional groups from the student; the family group is kept. */
  function MapEstudianteToForm(form: Form, e: Estudiante): (r: Form)
    ensures r.family == form.family
    ensures r.personal == PersonalInfo(OrEmpty(e.name), OrEmpty(e.lastnameF), OrEmpty(e.lastnameM), OrEmpty(e.email),
                                       OrEmpty(e.bloodType), OrEmpty(e.allergies))
    ensures r.academic == AcademicInfo(OrFalse(e.scholarShip), OrEmpty(e.chapel), OrEmpty(e.schoolCampus))
    ensures r.additional == AdditionalInfo(OrEmpty(e.permission), OrEmpty(e.regDate))
  {
    Form(PersonalInfo(OrEmpty(e.name), OrEmpty(e.lastnameF), OrEmpty(e.lastnameM), OrEmpty(e.email),
                      OrEmpty(e.bloodType), OrEmpty(e.allergies)),
         AcademicInfo(OrFalse(e.scholarShip), OrEmpty(e.chapel), OrEmpty(e.schoolCampus)),
         form.family,
         AdditionalInfo(OrEmpty(e.permission), OrEmpty(e.regDate)))
  }

  /** The student's fields under the server's keys. */
  function EditPayload(form: Form): (d: Dict)
    ensures d.Keys == {"name", "lastname_f", "lastname_m", "email", "blood_type", "allergies", "scholar_ship",
                       "chapel", "school_campus", "permission", "reg_date"}
  {
    map["name" := Str(form.personal.nombre), "lastname_f" := Str(form.personal.apellidoPaterno),
        "lastname_m" := Str(form.personal.apellidoMaterno), "email" := Str(form.personal.email),
        "blood_type" := Str(form.personal.tipoSangre), "allergies" := Str(form.personal.alergias),
        "scholar_ship" := Bool(form.academic.beca), "chapel" := Str(form.academic.capilla),
        "school_campus" := Str(form.academic.campusEscolar), "permission" := Str(form.additional.permiso),
        "reg_date" := Str(form.additional.fechaRegistro)]
  }

  /** A complete student record as JSON under the server's keys. */
  function EstudianteJson(e: Estudiante): Dict
    requires e.name.Some? && e.lastnameF.Some? && e.lastnameM.Some? && e.email.Some? && e.bloodType.Some?
    requires e.allergies.Some? && e.scholarShip.Some? && e.chapel.Some? && e.schoolCampus.Some?
    requires e.permission.Some? && e.regDate.Some?
  {
    map["name" := Str(e.name.value), "lastname_f" := Str(e.lastnameF.value), "lastname_m" := Str(e.lastnameM.value),
        "email" := Str(e.email.value), "blood_type" := Str(e.bloodType.value), "allergies" := Str(e.allergies.value),
        "scholar_ship" := Bool(e.scholarShip.value), "chapel" := Str(e.chapel.value),
        "school_campus" := Str(e.schoolCampus.value), "permission" := Str(e.permission.value),
        "reg_date" := Str(e.regDate.value)]
  }

  /** Loading a complete student into the form and saving it unchanged sends the student back as it was. */
  lemma LoadThenSaveRoundTrip(form: Form, e: Estudiante)
    requires e.name.Some? && e.lastnameF.Some? && e.lastnameM.Some? && e.email.Some? && e.bloodType.Some?
    requires e.allergies.Some? && e.scholarShip.Some? && e.chapel.Some? && e.schoolCampus.Some?
    requires e.permission.Some? && e.regDate.Some?
    ensures EditPayload(MapEstudianteToForm(form, e)) == EstudianteJson(e)
  {
  }

  /** The students' collection on the server. */
  const EstudiantesUrl := ApiHost + "/estudiantes"

  /** The request the edit form sends. */
  datatype Request = Request(verb: string, url: string, body: Dict)

  /** One student's address; a missing id is interpolated as `undefined`. */
  function StudentUrl(estudianteId: Option<int>): string
  {
    EstudiantesUrl + "/" + (if estudianteId.Some? then IntToString(estudianteId.value) else "undefined")
  }

  /** `isEditMode`: an id other than 0 was given, or initial data was. */
  predicate EditMode(estudianteId: Option<int>, hasInitialData: bool)
  {
    (estudianteId.Some? && estudianteId.value != 0) || hasInitialData
  }

  /**
   * `handleSubmit` of the edit form: nothing for an invalid form; otherwise PUT to
   * the student's address in edit mode and POST to the collection otherwise.
   */
  function EditSubmit(form: Form, estudianteId: Option<int>, hasInitialData: bool): (r: Option<Request>)
    ensures r.Some? <==> EditValid(form)
    ensures r.Some? && EditMode(estudianteId, hasInitialData) ==>
      r.value == Request("PUT", StudentUrl(estudianteId), EditPayload(form))
    ensures r.Some? && !EditMode(estudianteId, hasInitialData) ==>
      r.value == Request("POST", EstudiantesUrl, EditPayload(form))
  {
    if !EditValid(form) then None
    else if EditMode(estudianteId, hasInitialData) then Some(Request("PUT", StudentUrl(estudianteId), EditPayload(form)))
    else Some(Request("POST", EstudiantesUrl, EditPayload(form)))
  }

  /** Initial data without an id sends the update to the address `.../estudiantes/undefined`. */
  lemma EditWithoutIdTargetsUndefined(form: Form)
    ensures EditValid(form) ==> EditSubmit(form, None, true).value.verb == "PUT"
    ensures EditValid(form) ==> EditSubmit(form, None, true).value.url == EstudiantesUrl + "/" + "undefined"
  {
    assert EditMode(None, true);
  }

  // ---------------------------------------------------------------------
  // Phone fields

  /** `value.replace(/\D/g, "")`: the ASCII digits of the input, in order. */
  function DigitsOnly(s: string): (t: string)
    ensures AllDigits(t)
    ensures |t| <= |s|
  {
    if |s| == 0 then ""
    else if IsDigit(s[0]) then [s[0]] + DigitsOnly(s[1..])
    else DigitsOnly(s[1..])
  }

  /** The filter is determined piecewise: a single character stays exactly when it is a digit, and pieces concatenate. */
  lemma {:induction false} DigitsOnlyAppend(a: string, b: string)
    ensures DigitsOnly(a + b) == DigitsOnly(a) + DigitsOnly(b)
    ensures |a| == 1 ==> DigitsOnly(a) == (if IsDigit(a[0]) then a else "")
  {
    if |a| > 0 {
      DigitsOnlyAppend(a[1..], b);
      assert (a + b)[1..] == a[1..] + b;
    } else {
      assert a + b == b;
    }
  }

  /** An all-digit input is unchanged, so filtering twice is filtering once. */
  lemma {:induction false} DigitsOnlyIdempotent(s: string)
    ensures AllDigits(s) ==> DigitsOnly(s) == s
    ensures DigitsOnly(DigitsOnly(s)) == DigitsOnly(s)
  {
    if |s| > 0 {
      DigitsOnlyIdempotent(s[1..]);
    }
    var t := DigitsOnly(s);
    DigitsOnlyAllDigits(t);
  }

  lemma {:induction false} DigitsOnlyAllDigits(s: string)
    requires AllDigits(s)
    ensures DigitsOnly(s) == s
  {
    if |s| > 0 {
      DigitsOnlyAllDigits(s[1..]);
    }
  }

  /** `handlePhoneChange(field, value)`: the family field is set to the digits of what was typed. */
  function HandlePhoneChange(form: Form, f: FamilyField, value: string): (r: Form)
    ensures r == Apply(form, UpdateFamily(f, DigitsOnly(value)))
    ensures AllDigits(FamilyOf(r.family, f))
  {
    Apply(form, UpdateFamily(f, DigitsOnly(value)))
  }

  // ---------------------------------------------------------------------
  // The student list

  /** `deleteEstudiante(id)`: the list without the students with that id, in their order. */
  function DeleteEstudiante(students: seq<Dict>, id: int): (r: seq<Dict>)
    ensures forall i :: 0 <= i < |r| ==> !IdIs(r[i], id) && r[i] in students
    ensures forall i :: 0 <= i < |students| && !IdIs(students[i], id) ==> students[i] in r
  {
    Filter(students, s => !IdIs(s, id))
  }

  /** The list shrinks by the number of matching students; deleting an absent id, or deleting twice, changes nothing more. */
  lemma DeleteEstudianteCounts(students: seq<Dict>, id: int)
    ensures |DeleteEstudiante(students, id)| == |students| - Count(students, s => IdIs(s, id))
    ensures (forall i :: 0 <= i < |students| ==> !IdIs(students[i], id)) ==> DeleteEstudiante(students, id) == students
    ensures DeleteEstudiante(DeleteEstudiante(students, id), id) == DeleteEstudiante(students, id)
  {
    FilterLength(students, s => !IdIs(s, id), s => IdIs(s, id));
    FilterAllKept(DeleteEstudiante(students, id), s => !IdIs(s, id));
    if forall i :: 0 <= i < |students| ==> !IdIs(students[i], id) {
      FilterAllKept(students, s => !IdIs(s, id));
    }
  }

  /** Deleting distributes over the two halves of a list, so survivors keep their relative order. */
  lemma DeleteEstudianteKeepsOrder(a: seq<Dict>, b: seq<Dict>, id: int)
    ensures DeleteEstudiante(a + b, id) == DeleteEstudiante(a, id) + DeleteEstudiante(b, id)
  {
    FilterAppend(a, b, s => !IdIs(s, id));
  }
}

=== FILE: student_model.dfy ===
// Student and family records (backend/models/student.py) and their
// dictionary forms. Every field is a nullable JSON value.

module StudentModel {
  import opened Common

  datatype Student = Student(
    id: Value, name: Value, lastnameF: Value, lastnameM: Value,
    birthDate: Value, grade: Value, familyId: Value)

  datatype Family = Family(
    id: Value, tutorName: Value, tutorLastnameF: Value, tutorLastnameM: Value,
    phoneNumber: Value, emailAddress: Value, emergencyPhoneNumber: Value)

  const StudentKeys: set<string> := {"id", "name", "lastname_f", "lastname_m", "birth_date", "grade", "family_id"}
  const FamilyKeys: set<string> :=
    {"id", "tutor_name", "tutor_lastname_f", "tutor_lastname_m", "phone_number", "email_address", "emergency_phone_number"}

  /** `Student.to_dict`. */
  function StudentToDict(s: Student): (d: Dict)
    ensures d.Keys == StudentKeys
  {
    map["id" := s.id, "name" := s.name, "lastname_f" := s.lastnameF, "lastname_m" := s.lastnameM,
        "birth_date" := s.birthDate, "grade" := s.grade, "family_id" := s.familyId]
  }

  /** `Student.from_dict`: reads the seven student keys, `None` for any that is absent, and ignores the rest. */
  function StudentFromDict(d: Dict): (s: Student)
    ensures StudentToDict(s) == map k | k in StudentKeys :: Get(d, k, Null)
  {
    Student(Get(d, "id", Null), Get(d, "name", Null), Get(d, "lastname_f", Null), Get(d, "lastname_m", Null),
            Get(d, "birth_date", Null), Get(d, "grade", Null), Get(d, "family_id", Null))
  }

  /** A student survives the trip through its dictionary form unchanged. */
  lemma StudentRoundTrip(s: Student)
    ensures StudentFromDict(StudentToDict(s)) == s
  {
  }

  /** `Family.to_dict`. */
  function FamilyToDict(f: Family): (d: Dict)
    ensures d.Keys == FamilyKeys
  {
    map["id" := f.id, "tutor_name" := f.tutorName, "tutor_lastname_f" := f.tutorLastnameF,
        "tutor_lastname_m" := f.tutorLastnameM, "phone_number" := f.phoneNumber,
        "email_address" := f.emailAddress, "emergency_phone_number" := f.emergencyPhoneNumber]
  }

  /** `Family.from_dict`: reads the seven family keys, `None` for any that is absent. */
  function FamilyFromDict(d: Dict): (f: Family)
    ensures FamilyToDict(f) == map k | k in FamilyKeys :: Get(d, k, Null)
  {
    Family(Get(d, "id", Null), Get(d, "tutor_name", Null), Get(d, "tutor_lastname_f", Null),
           Get(d, "tutor_lastname_m", Null), Get(d, "phone_number", Null), Get(d, "email_address", Null),
           Get(d, "emergency_phone_number", Null))
  }

  lemma FamilyRoundTrip(f: Family)
    ensures FamilyFromDict(FamilyToDict(f)) == f
  {
  }
}

=== FILE: student_repository.dfy ===
// Map-backed stores for students and families
// (backend/repositories/student_repository.py).

module StudentRepository {
  import opened Common
  import opened Tables
  import opened Errors
  import opened StudentModel
  import opened Schema

  /** The column values a student object writes. */
  function StudentRowOf(s: Student): StudentRow
  {
    StudentRow(s.name, s.lastnameF, s.lastnameM, s.birthDate, s.grade, s.familyId)
  }

  /** The student object a stored row reads back as. */
  function StudentAt(id: int, r: StudentRow): (s: Student)
    ensures s.id == Int(id) && StudentRowOf(s) == r
  {
    Student(Int(id), r.name, r.lastnameF, r.lastnameM, r.birthDate, r.grade, r.familyId)
  }

  function StudentNotFound(id: Value): ApiError
  {
    NotFoundError("Estudiante con ID " + PyStr(id) + " no encontrado")
  }

  /** `StudentRepository.find_by_id`. */
  function FindStudentById(students: Table<StudentRow>, id: int): (r: Result<Student, ApiError>)
    ensures r.Ok? <==> id in students.rows
    ensures r.Ok? ==> r.value.id == Int(id) && StudentRowOf(r.value) == students.rows[id]
    ensures r.Err? ==> r.error == StudentNotFound(Int(id)) && r.error.status == 404
  {
    if id in students.rows then Ok(StudentAt(id, students.rows[id])) else Err(StudentNotFound(Int(id)))
  }

  /** `StudentRepository.find_by_family_id`: the students whose `family_id` equals the given one, ascending id. */
  function FindStudentsByFamilyId(students: Table<StudentRow>, familyId: Value): (r: seq<Student>)
    ensures forall i :: 0 <= i < |r| ==>
      r[i].id.Int? && r[i].id.i in students.rows && StudentRowOf(r[i]) == students.rows[r[i].id.i]
      && SqlEq(r[i].familyId, familyId)
    ensures forall k :: k in students.rows && SqlEq(students.rows[k].familyId, familyId) ==>
      exists i :: 0 <= i < |r| && r[i].id == Int(k)
    ensures forall i, j :: 0 <= i < j < |r| ==> r[i].id.i < r[j].id.i
  {
    var ids := IdsWhere(students.rows, (row: StudentRow) => SqlEq(row.familyId, familyId));
    StudentsAtBelong(students.rows, familyId, ids);
    StudentsAtComplete(students.rows, familyId, ids);
    StudentsAtOrdered(students.rows, ids);
    StudentsAt(students.rows, ids)
  }

  /** The student objects for a list of stored ids, in the same order. */
  function StudentsAt(rows: map<int, StudentRow>, ids: seq<int>): (r: seq<Student>)
    requires forall i :: 0 <= i < |ids| ==> ids[i] in rows
    ensures |r| == |ids|
    ensures forall i :: 0 <= i < |r| ==> r[i] == StudentAt(ids[i], rows[ids[i]])
  {
    seq(|ids|, i requires 0 <= i < |ids| => StudentAt(ids[i], rows[ids[i]]))
  }

  /** Every student read back for a family's ids belongs to that family and matches its stored row. */
  lemma StudentsAtBelong(rows: map<int, StudentRow>, familyId: Value, ids: seq<int>)
    requires ids == IdsWhere(rows, (row: StudentRow) => SqlEq(row.familyId, familyId))
    ensures forall i :: 0 <= i < |ids| ==> ids[i] in rows
    ensures forall i :: 0 <= i < |ids| ==>
      var s := StudentsAt(rows, ids)[i];
      s.id.Int? && s.id.i in rows && StudentRowOf(s) == rows[s.id.i] && SqlEq(s.familyId, familyId)
  {
    var keep := (row: StudentRow) => SqlEq(row.familyId, familyId);
    forall i | 0 <= i < |ids|
      ensures keep(rows[ids[i]])
    {
    }
  }

  /** Every student of the family is read back. */
  lemma StudentsAtComplete(rows: map<int, StudentRow>, familyId: Value, ids: seq<int>)
    requires ids == IdsWhere(rows, (row: StudentRow) => SqlEq(row.familyId, familyId))
    ensures forall i :: 0 <= i < |ids| ==> ids[i] in rows
    ensures forall k :: k in rows && SqlEq(rows[k].familyId, familyId) ==>
      exists i :: 0 <= i < |ids| && StudentsAt(rows, ids)[i].id == Int(k)
  {
    var keep := (row: StudentRow) => SqlEq(row.familyId, familyId);
    forall k | k in rows && SqlEq(rows[k].familyId, familyId)
      ensures exists i :: 0 <= i < |ids| && StudentsAt(rows, ids)[i].id == Int(k)
    {
      assert keep(rows[k]);
      var i :| 0 <= i < |ids| && ids[i] == k;
      assert StudentsAt(rows, ids)[i].id == Int(k);
    }
  }

  /** The students read back come in ascending id order. */
  lemma StudentsAtOrdered(rows: map<int, StudentRow>, ids: seq<int>)
    requires forall i :: 0 <= i < |ids| ==> ids[i] in rows
    requires StrictlyIncreasing(ids)
    ensures forall i, j :: 0 <= i < j < |ids| ==> StudentsAt(rows, ids)[i].id.i < StudentsAt(rows, ids)[j].id.i
  {
  }

  /**
   * The `student` columns written from a row of parameters: the names are
   * text, `family_id` refers to the `family` table's integer ids, and
   * `birth_date` and `grade` keep what psycopg2 sends.
   */
  predicate StudentWritable(r: StudentRow)
  {
    ColumnValue(TextColumn, r.name).Some? && ColumnValue(TextColumn, r.lastnameF).Some? && ColumnValue(TextColumn, r.lastnameM).Some?
    && ColumnValue(OtherColumn, r.birthDate).Some? && ColumnValue(OtherColumn, r.grade).Some? && ColumnValue(IntColumn, r.familyId).Some?
  }

  /** The `student` row a write of these parameters stores. */
  function StoredStudent(r: StudentRow): StudentRow
    requires StudentWritable(r)
  {
    StudentRow(ColumnValue(TextColumn, r.name).value, ColumnValue(TextColumn, r.lastnameF).value, ColumnValue(TextColumn, r.lastnameM).value,
               ColumnValue(OtherColumn, r.birthDate).value, ColumnValue(OtherColumn, r.grade).value, ColumnValue(IntColumn, r.familyId).value)
  }

  /** A stored row written back is stored unchanged. */
  lemma StoredStudentStable(r: StudentRow)
    requires StudentWritable(r)
    ensures StudentWritable(StoredStudent(r)) && StoredStudent(StoredStudent(r)) == StoredStudent(r)
  {
    ColumnValueIdempotent(TextColumn, r.name);
    ColumnValueIdempotent(TextColumn, r.lastnameF);
    ColumnValueIdempotent(TextColumn, r.lastnameM);
    ColumnValueIdempotent(OtherColumn, r.birthDate);
    ColumnValueIdempotent(OtherColumn, r.grade);
    ColumnValueIdempotent(IntColumn, r.familyId);
  }

  /**
   * `StudentRepository.create`: one new row holding what its columns make of
   * the student's fields, or the database's exception when one of them cannot
   * be written; the student comes back as given, with the new id.
   */
  function CreateStudent(students: Table<StudentRow>, s: Student): (r: Result<(Table<StudentRow>, Student), Failure>)
    requires Valid(students)
    ensures r.Ok? <==> StudentWritable(StudentRowOf(s))
    ensures r.Err? ==> r.error == Crash
    ensures r.Ok? ==>
      var (t, v) := r.value;
      Valid(t) && v.id.Int? && v.id.i !in students.rows && v == s.(id := v.id)
      && t.rows == students.rows[v.id.i := StoredStudent(StudentRowOf(s))]
  {
    if !StudentWritable(StudentRowOf(s)) then Err(Crash)
    else
      var (t, k) := Insert(students, StoredStudent(StudentRowOf(s)));
      Ok((t, s.(id := Int(k))))
  }

  /**
   * `StudentRepository.update`: overwrites all six columns of the row
   * `WHERE id = %s` finds. A value a column cannot take, or an id the integer
   * column cannot be compared with, makes the statement raise; when no row
   * matches, NotFound.
   */
  function UpdateStudent(students: Table<StudentRow>, s: Student): (r: Result<(Table<StudentRow>, Student), Failure>)
    ensures r == Err(Crash) <==> !StudentWritable(StudentRowOf(s)) || IntColumnParam(s.id).DbError?
    ensures r.Ok? <==> StudentWritable(StudentRowOf(s)) && IntColumnParam(s.id).IntKey? && IntColumnParam(s.id).k in students.rows
    ensures r.Ok? ==>
      r.value.0.rows == students.rows[IntColumnParam(s.id).k := StoredStudent(StudentRowOf(s))]
      && r.value.0.next == students.next && r.value.1 == s
    ensures r.Ok? ==> (Valid(students) ==> Valid(r.value.0))
    ensures r.Err? && r != Err(Crash) ==> r.error == Raised(StudentNotFound(s.id))
  {
    if !StudentWritable(StudentRowOf(s)) || IntColumnParam(s.id).DbError? then Err(Crash)
    else if IntColumnParam(s.id).IntKey? && IntColumnParam(s.id).k in students.rows then
      Ok((Put(students, IntColumnParam(s.id).k, StoredStudent(StudentRowOf(s))), s))
    else Err(Raised(StudentNotFound(s.id)))
  }

  // ---------------------------------------------------------------------
  // FamilyRepository

  function FamilyRowOf(f: Family): FamilyRow
  {
    FamilyRow(f.tutorName, f.tutorLastnameF, f.tutorLastnameM, f.phoneNumber, f.emailAddress, f.emergencyPhoneNumber)
  }

  function FamilyAt(id: int, r: FamilyRow): (f: Family)
    ensures f.id == Int(id) && FamilyRowOf(f) == r
  {
    Family(Int(id), r.tutorName, r.tutorLastnameF, r.tutorLastnameM, r.phoneNumber, r.emailAddress, r.emergencyPhoneNumber)
  }

  function FamilyNotFound(id: Value): ApiError
  {
    NotFoundError("Familia con ID " + PyStr(id) + " no encontrada")
  }

  /** `FamilyRepository.find_by_id`; the id may be any value a student row holds, and only an integer id can match. */
  function FindFamilyById(families: Table<FamilyRow>, id: Value): (r: Result<Family, ApiError>)
    ensures r.Ok? <==> id.Int? && id.i in families.rows
    ensures r.Ok? ==> r.value.id == id && FamilyRowOf(r.value) == families.rows[id.i]
    ensures r.Err? ==> r.error == FamilyNotFound(id) && r.error.status == 404
  {
    if id.Int? && id.i in families.rows then Ok(FamilyAt(id.i, families.rows[id.i])) else Err(FamilyNotFound(id))
  }

  /**
   * `FamilyRepository.find_by_email`: the first family whose email equals the
   * given one, `None` when there is none, and the database's exception when the
   * value cannot be compared with a text column.
   */
  function FindFamilyByEmail(families: Table<FamilyRow>, email: Value): (r: Result<Option<Family>, Failure>)
    ensures r.Err? <==> TextQueryFails(email)
    ensures r.Err? ==> r.error == Crash
    ensures r == Ok(None) <==>
      !TextQueryFails(email) && forall k :: k in families.rows ==> !TextEq(families.rows[k].emailAddress, email)
    ensures r.Ok? && r.value.Some? ==>
      var f := r.value.value;
      f.id.Int? && f.id.i in families.rows && FamilyRowOf(f) == families.rows[f.id.i] && TextEq(f.emailAddress, email)
  {
    if TextQueryFails(email) then Err(Crash)
    else
      match FirstWhere(families.rows, (row: FamilyRow) => TextEq(row.emailAddress, email))
      case None => Ok(None)
      case Some(k) => Ok(Some(FamilyAt(k, families.rows[k])))
  }

  /** The `family` columns are all text. */
  predicate FamilyWritable(r: FamilyRow)
  {
    ColumnValue(TextColumn, r.tutorName).Some? && ColumnValue(TextColumn, r.tutorLastnameF).Some?
    && ColumnValue(TextColumn, r.tutorLastnameM).Some? && ColumnValue(TextColumn, r.phoneNumber).Some?
    && ColumnValue(TextColumn, r.emailAddress).Some? && ColumnValue(TextColumn, r.emergencyPhoneNumber).Some?
  }

  /** The `family` row a write of these parameters stores. */
  function StoredFamily(r: FamilyRow): FamilyRow
    requires FamilyWritable(r)
  {
    FamilyRow(ColumnValue(TextColumn, r.tutorName).value, ColumnValue(TextColumn, r.tutorLastnameF).value,
              ColumnValue(TextColumn, r.tutorLastnameM).value, ColumnValue(TextColumn, r.phoneNumber).value,
              ColumnValue(TextColumn, r.emailAddress).value, ColumnValue(TextColumn, r.emergencyPhoneNumber).value)
  }

  /**
   * `FamilyRepository.create`: one new row holding the text of each field, or
   * the database's exception when psycopg2 cannot send one of them; the family
   * comes back as given, with the new id.
   */
  function CreateFamily(families: Table<FamilyRow>, f: Family): (r: Result<(Table<FamilyRow>, Family), Failure>)
    requires Valid(families)
    ensures r.Ok? <==> Adaptable(f.tutorName) && Adaptable(f.tutorLastnameF) && Adaptable(f.tutorLastnameM)
                       && Adaptable(f.phoneNumber) && Adaptable(f.emailAddress) && Adaptable(f.emergencyPhoneNumber)
    ensures r.Err? ==> r.error == Crash
    ensures r.Ok? ==>
      var (t, v) := r.value;
      Valid(t) && v.id.Int? && v.id.i !in families.rows && v == f.(id := v.id)
      && t.rows == families.rows[v.id.i := StoredFamily(FamilyRowOf(f))]
  {
    if !FamilyWritable(FamilyRowOf(f)) then Err(Crash)
    else
      var (t, k) := Insert(families, StoredFamily(FamilyRowOf(f)));
      Ok((t, f.(id := Int(k))))
  }
}

=== FILE: student_service.dfy ===
// Student registration and maintenance (backend/services/student_service.py):
// a family is reused by email or created, and updates merge field by field.

module StudentService {
  import opened Common
  import opened Tables
  import opened Errors
  import opened StudentModel
  import opened Schema
  import opened StudentRepository

  /** The family `register_student` creates from the request's family data. */
  function NewFamily(familyData: Dict): Family
  {
    Family(Null, Get(familyData, "tutor_name", Null), Get(familyData, "tutor_lastname_f", Null),
           Get(familyData, "tutor_lastname_m", Null), Get(familyData, "phone_number", Null),
           Get(familyData, "email_address", Null), Get(familyData, "emergency_phone_number", Null))
  }

  /** The student `register_student` creates, attached to family `familyId`. */
  function NewStudent(studentData: Dict, familyId: Value): Student
  {
    Student(Null, Get(studentData, "name", Null), Get(studentData, "lastname_f", Null),
            Get(studentData, "lastname_m", Null), Get(studentData, "birth_date", Null),
            Get(studentData, "grade", Null), familyId)
  }

  /** A registration's outcome: the students table after it, the created student and the family id used. */
  datatype Registration = Registration(students: Table<StudentRow>, student: Student, familyId: Value)

  /** psycopg2 can send every student field the registration stores. */
  predicate StudentDataSendable(studentData: Dict)
  {
    Adaptable(Get(studentData, "name", Null)) && Adaptable(Get(studentData, "lastname_f", Null))
    && Adaptable(Get(studentData, "lastname_m", Null)) && Adaptable(Get(studentData, "birth_date", Null))
    && Adaptable(Get(studentData, "grade", Null))
  }

  /** psycopg2 can send every family field the registration stores. */
  predicate FamilyDataSendable(familyData: Dict)
  {
    Adaptable(Get(familyData, "tutor_name", Null)) && Adaptable(Get(familyData, "tutor_lastname_f", Null))
    && Adaptable(Get(familyData, "tutor_lastname_m", Null)) && Adaptable(Get(familyData, "phone_number", Null))
    && Adaptable(Get(familyData, "email_address", Null)) && Adaptable(Get(familyData, "emergency_phone_number", Null))
  }

  /**
   * `StudentService.register_student`, returning the families table after the
   * call with the outcome. The family with the same email is reused, otherwise
   * exactly one family is created; then exactly one student is created under
   * the chosen family. An email the database cannot compare with a text column
   * makes the lookup raise, and a field psycopg2 cannot send makes its insert
   * raise. Each repository call commits on its own, so a family created before
   * a failing student insert stays.
   */
  function RegisterStudent(students: Table<StudentRow>, families: Table<FamilyRow>, studentData: Dict, familyData: Dict)
    : (r: (Table<FamilyRow>, Result<Registration, Failure>))
    requires Valid(students) && Valid(families)
    ensures Valid(r.0)
    ensures r.1.Err? ==> r.1.error == Crash
    ensures TextQueryFails(Get(familyData, "email_address", Null)) ==> r == (families, Err(Crash))
    ensures var found := FindFamilyByEmail(families, Get(familyData, "email_address", Null));
      (found.Ok? && found.value.Some? ==> r.0 == families)
      && (found == Ok(None) && !FamilyDataSendable(familyData) ==> r == (families, Err(Crash)))
      && (found == Ok(None) && FamilyDataSendable(familyData) ==>
          exists k :: k !in families.rows && r.0.rows == families.rows[k := StoredFamily(FamilyRowOf(NewFamily(familyData)))]
                      && (r.1.Ok? ==> r.1.value.familyId == Int(k)))
      && (r.1.Ok? <==> found.Ok? && (found.value.None? ==> FamilyDataSendable(familyData)) && StudentDataSendable(studentData))
      && (r.1.Ok? && found.value.Some? ==> r.1.value.familyId == found.value.value.id)
    ensures r.1.Ok? ==>
      var reg := r.1.value;
      Valid(reg.students)
      && reg.familyId.Int? && reg.familyId.i in r.0.rows
      && reg.student.id.Int? && reg.student.id.i !in students.rows
      && StudentWritable(StudentRowOf(NewStudent(studentData, reg.familyId)))
      && reg.students.rows == students.rows[reg.student.id.i := StoredStudent(StudentRowOf(NewStudent(studentData, reg.familyId)))]
      && reg.student == NewStudent(studentData, reg.familyId).(id := reg.student.id)
  {
    match FindFamilyByEmail(families, Get(familyData, "email_address", Null))
    case Err(e) => (families, Err(e))
    case Ok(found) =>
      var chosen: Result<(Table<FamilyRow>, Value), Failure> :=
        match found
        case Some(f) => Ok((families, f.id))
        case None =>
          (match CreateFamily(families, NewFamily(familyData))
           case Err(e) => Err(e)
           case Ok((t, f)) => Ok((t, f.id)));
      match chosen
      case Err(e) => (families, Err(e))
      case Ok((families', familyId)) =>
        match CreateStudent(students, NewStudent(studentData, familyId))
        case Err(e) => (families', Err(e))
        case Ok((students', s)) => (families', Ok(Registration(students', s, familyId)))
  }

  /** The response of `register_student`. */
  function RegistrationBody(r: Registration): (d: Dict)
    ensures d.Keys == {"message", "student", "family_id"}
    ensures d["student"] == Obj(StudentToDict(r.student)) && d["family_id"] == r.familyId
  {
    map["message" := Str("Estudiante registrado exitosamente"), "student" := Obj(StudentToDict(r.student)),
        "family_id" := r.familyId]
  }

  /**
   * `StudentService.get_student_by_id`: the student and their family; NotFound
   * for a missing student, and for a student whose family row is missing.
   */
  function GetStudentById(students: Table<StudentRow>, families: Table<FamilyRow>, id: int): (r: Result<Dict, ApiError>)
    ensures id !in students.rows ==> r == Err(StudentNotFound(Int(id)))
    ensures r.Ok? <==> id in students.rows && students.rows[id].familyId.Int? && students.rows[id].familyId.i in families.rows
    ensures r.Ok? ==>
      r.value == map["student" := Obj(StudentToDict(StudentAt(id, students.rows[id]))),
                     "family" := Obj(FamilyToDict(FamilyAt(students.rows[id].familyId.i, families.rows[students.rows[id].familyId.i])))]
    ensures r.Err? ==> r.error.status == 404
  {
    match FindStudentById(students, id)
    case Err(e) => Err(e)
    case Ok(s) =>
      match FindFamilyById(families, s.familyId)
      case Err(e) => Err(e)
      case Ok(f) => Ok(map["student" := Obj(StudentToDict(s)), "family" := Obj(FamilyToDict(f))])
  }

  /**
   * A freshly registered student can be read back, with the family they were
   * registered under, carrying what the columns made of their fields: the
   * names as text. A student whose names were text or null reads back exactly
   * as created.
   */
  lemma RegisterThenGet(students: Table<StudentRow>, families: Table<FamilyRow>, studentData: Dict, familyData: Dict)
    requires Valid(students) && Valid(families)
    ensures var (families', r) := RegisterStudent(students, families, studentData, familyData);
      r.Ok? ==>
      var s := r.value.student;
      var read := GetStudentById(r.value.students, families', s.id.i);
      read.Ok?
      && read.value["student"] == Obj(StudentToDict(s.(name := ColumnValue(TextColumn, s.name).value,
                                                        lastnameF := ColumnValue(TextColumn, s.lastnameF).value,
                                                        lastnameM := ColumnValue(TextColumn, s.lastnameM).value)))
      && ((s.name.Str? || s.name.Null?) && (s.lastnameF.Str? || s.lastnameF.Null?) && (s.lastnameM.Str? || s.lastnameM.Null?) ==>
          read.value["student"] == Obj(StudentToDict(s)))
  {
    var (families', r) := RegisterStudent(students, families, studentData, familyData);
    if r.Ok? {
      var reg := r.value;
      var row := StudentRowOf(NewStudent(studentData, reg.familyId));
      assert reg.students.rows[reg.student.id.i] == StoredStudent(row);
      assert StudentAt(reg.student.id.i, StoredStudent(row))
        == reg.student.(name := ColumnValue(TextColumn, reg.student.name).value,
                        lastnameF := ColumnValue(TextColumn, reg.student.lastnameF).value,
                        lastnameM := ColumnValue(TextColumn, reg.student.lastnameM).value);
    }
  }

  /**
   * `StudentService.get_students_by_family`: the family's students and the family;
   * NotFound when the family does not exist.
   */
  function GetStudentsByFamily(students: Table<StudentRow>, families: Table<FamilyRow>, familyId: int): (r: Result<Dict, ApiError>)
    ensures r.Ok? <==> familyId in families.rows
    ensures r.Err? ==> r.error == FamilyNotFound(Int(familyId))
    ensures r.Ok? ==>
      var members := FindStudentsByFamilyId(students, Int(familyId));
      r.value.Keys == {"students", "family"}
      && r.value["students"] == List(seq(|members|, i requires 0 <= i < |members| => Obj(StudentToDict(members[i]))))
      && r.value["family"] == Obj(FamilyToDict(FamilyAt(familyId, families.rows[familyId])))
  {
    var members := FindStudentsByFamilyId(students, Int(familyId));
    match FindFamilyById(families, Int(familyId))
    case Err(e) => Err(e)
    case Ok(f) =>
      Ok(map["students" := List(seq(|members|, i requires 0 <= i < |members| => Obj(StudentToDict(members[i])))),
             "family" := Obj(FamilyToDict(f))])
  }

  /** The student `update_student` writes: each editable field from the request when present, else the current value. */
  function Merge(current: Student, id: int, data: Dict): (s: Student)
    ensures s.id == Int(id) && s.familyId == current.familyId
    ensures s.name == Get(data, "name", current.name) && s.lastnameF == Get(data, "lastname_f", current.lastnameF)
    ensures s.lastnameM == Get(data, "lastname_m", current.lastnameM)
    ensures s.birthDate == Get(data, "birth_date", current.birthDate) && s.grade == Get(data, "grade", current.grade)
  {
    Student(Int(id), Get(data, "name", current.name), Get(data, "lastname_f", current.lastnameF),
            Get(data, "lastname_m", current.lastnameM), Get(data, "birth_date", current.birthDate),
            Get(data, "grade", current.grade), current.familyId)
  }

  /**
   * `StudentService.update_student`: NotFound for a missing student; otherwise
   * the merged student is written, and the update raises when psycopg2 cannot
   * send one of its fields or a column refuses it.
   */
  function UpdateStudentData(students: Table<StudentRow>, id: int, data: Dict): (r: Result<(Table<StudentRow>, Student), Failure>)
    ensures id !in students.rows ==> r == Err(Raised(StudentNotFound(Int(id))))
    ensures id in students.rows ==>
      (r.Ok? <==> StudentWritable(StudentRowOf(Merge(StudentAt(id, students.rows[id]), id, data))))
      && (r.Err? ==> r.error == Crash)
    ensures r.Ok? ==>
      r.value.1 == Merge(StudentAt(id, students.rows[id]), id, data)
      && r.value.0.rows == students.rows[id := StoredStudent(StudentRowOf(r.value.1))]
      && r.value.0.next == students.next
  {
    match FindStudentById(students, id)
    case Err(e) => Err(Raised(e))
    case Ok(current) =>
      match UpdateStudent(students, Merge(current, id, data))
      case Err(e) => Err(e)
      case Ok(res) => Ok(res)
  }

  /** Applying the same update twice stores the same rows as applying it once. */
  lemma {:induction false} UpdateIdempotent(students: Table<StudentRow>, id: int, data: Dict)
    requires id in students.rows
    ensures UpdateStudentData(students, id, data).Ok? ==>
      var once := UpdateStudentData(students, id, data).value.0;
      UpdateStudentData(once, id, data).Ok? && UpdateStudentData(once, id, data).value.0 == once
  {
    if UpdateStudentData(students, id, data).Ok? {
      var (once, s) := UpdateStudentData(students, id, data).value;
      var row := StudentRowOf(s);
      StoredStudentStable(row);
      var again := Merge(StudentAt(id, once.rows[id]), id, data);
      assert StudentRowOf(again).familyId == StoredStudent(row).familyId;
      assert StudentWritable(StudentRowOf(again)) && StoredStudent(StudentRowOf(again)) == StoredStudent(row) by {
        ColumnValueIdempotent(TextColumn, row.name);
        ColumnValueIdempotent(TextColumn, row.lastnameF);
        ColumnValueIdempotent(TextColumn, row.lastnameM);
        ColumnValueIdempotent(OtherColumn, row.birthDate);
        ColumnValueIdempotent(OtherColumn, row.grade);
        ColumnValueIdempotent(IntColumn, row.familyId);
      }
    }
  }

  /**
   * An update with no recognised keys writes the row back: it succeeds exactly
   * when the row can be written, and a row in the form the columns store leaves
   * every row as it was.
   */
  lemma UpdateWithNothingChangesNothing(students: Table<StudentRow>, id: int, data: Dict)
    requires id in students.rows
    requires forall k :: k in {"name", "lastname_f", "lastname_m", "birth_date", "grade"} ==> k !in data
    ensures UpdateStudentData(students, id, data).Ok? <==> StudentWritable(students.rows[id])
    ensures StudentWritable(students.rows[id]) && StoredStudent(students.rows[id]) == students.rows[id] ==>
      UpdateStudentData(students, id, data).value.0 == students
  {
    var merged := Merge(StudentAt(id, students.rows[id]), id, data);
    assert StudentRowOf(merged) == students.rows[id];
  }
}

=== FILE: subject_model.dfy ===
// Subjects (the `class` table) and groups (backend/models/subject.py). The
// group's dictionary form leaves out the professor and shows the class name
// only when it is non-empty.

module SubjectModel {
  import opened Common

  datatype Subject = Subject(id: Value, name: Value)

  datatype Group = Group(id: Value, grade: Value, classId: Value, professorId: Value, className: Value)

  function SubjectToDict(s: Subject): (d: Dict)
    ensures d.Keys == {"id", "name"}
  {
    map["id" := s.id, "name" := s.name]
  }

  function SubjectFromDict(d: Dict): (s: Subject)
    ensures SubjectToDict(s) == map k | k in {"id", "name"} :: Get(d, k, Null)
  {
    Subject(Get(d, "id", Null), Get(d, "name", Null))
  }

  lemma SubjectRoundTrip(s: Subject)
    ensures SubjectFromDict(SubjectToDict(s)) == s
  {
  }

  /** `Group.from_dict`, which reads the group id from the key `group_id` and the grade from `grado`. */
  function GroupFromDict(d: Dict): (g: Group)
    ensures forall k :: k in {"group_id", "grado", "class_id"} ==> GroupToDict(g)[k] == Get(d, k, Null)
    ensures "class_name" in GroupToDict(g) <==> Truthy(Get(d, "class_name", Null))
    ensures "class_name" in GroupToDict(g) ==> GroupToDict(g)["class_name"] == d["class_name"]
    ensures g.professorId == Get(d, "professor_id", Null)
  {
    Group(Get(d, "group_id", Null), Get(d, "grado", Null), Get(d, "class_id", Null),
          Get(d, "professor_id", Null), Get(d, "class_name", Null))
  }

  /** `Group.to_dict`: id, grade and class always; the class name only when truthy; never the professor. */
  function GroupToDict(g: Group): (d: Dict)
    ensures d.Keys == {"group_id", "grado", "class_id"} + (if Truthy(g.className) then {"class_name"} else {})
    ensures d["group_id"] == g.id && d["grado"] == g.grade && d["class_id"] == g.classId
    ensures "class_name" in d ==> d["class_name"] == g.className
    ensures "professor_id" !in d
  {
    var base := map["group_id" := g.id, "grado" := g.grade, "class_id" := g.classId];
    if Truthy(g.className) then base["class_name" := g.className] else base
  }

  /** What survives a trip through the dictionary form: everything but the professor, and a falsy class name becomes `None`. */
  lemma GroupRoundTrip(g: Group)
    ensures GroupFromDict(GroupToDict(g)) ==
      g.(professorId := Null, className := if Truthy(g.className) then g.className else Null)
  {
  }
}

=== FILE: subject_repository.dfy ===
// Subjects and groups read from and written to the `class` and `"group"`
// tables (backend/repositories/subject_repository.py).

module SubjectRepository {
  import opened Common
  import opened Tables
  import opened Errors
  import opened SubjectModel
  import opened Schema

  /** `SubjectRepository.find_all`: one subject per class row, ascending id. */
  function FindAllSubjects(classes: Table<ClassRow>): (r: seq<Subject>)
    ensures |r| == |classes.rows.Keys|
    ensures forall i :: 0 <= i < |r| ==> r[i].id.Int? && r[i].id.i in classes.rows && r[i].name == classes.rows[r[i].id.i].name
    ensures forall k :: k in classes.rows ==> exists i :: 0 <= i < |r| && r[i].id == Int(k)
    ensures forall i, j :: 0 <= i < j < |r| ==> r[i].id.i < r[j].id.i
  {
    var ids := Sorted(classes.rows.Keys);
    var r := SubjectsAt(classes, ids);
    forall k | k in classes.rows ensures exists i :: 0 <= i < |r| && r[i].id == Int(k) {
      assert k in ids;
      var i :| 0 <= i < |ids| && ids[i] == k;
      assert r[i].id == Int(k);
    }
    r
  }

  function SubjectsAt(classes: Table<ClassRow>, ids: seq<int>): (r: seq<Subject>)
    requires forall i :: 0 <= i < |ids| ==> ids[i] in classes.rows
    ensures |r| == |ids| && forall i :: 0 <= i < |ids| ==> r[i] == Subject(Int(ids[i]), classes.rows[ids[i]].name)
  {
    seq(|ids|, i requires 0 <= i < |ids| => Subject(Int(ids[i]), classes.rows[ids[i]].name))
  }

  /** `SubjectRepository.find_by_id`. */
  function FindSubjectById(classes: Table<ClassRow>, id: int): (r: Result<Subject, ApiError>)
    ensures r.Ok? <==> id in classes.rows
    ensures r.Ok? ==> r.value == Subject(Int(id), classes.rows[id].name)
    ensures r.Err? ==> r.error == NotFoundError("Materia con ID " + IntToString(id) + " no encontrada")
  {
    if id in classes.rows then Ok(Subject(Int(id), classes.rows[id].name))
    else Err(NotFoundError("Materia con ID " + IntToString(id) + " no encontrada"))
  }

  /** A group row's class, when the `JOIN class c ON c.id = g.class_id` finds it. */
  predicate JoinsClass(classes: Table<ClassRow>, g: GroupRow)
  {
    g.classId.Int? && g.classId.i in classes.rows
  }

  /** `WHERE g.professor_id = %s` over groups that join their class. */
  predicate TaughtBy(classes: Table<ClassRow>, g: GroupRow, teacher: Value)
  {
    JoinsClass(classes, g) && SqlEq(g.professorId, teacher)
  }

  /**
   * `SubjectRepository.find_by_teacher_id`: the groups the teacher is assigned to,
   * ascending id, with their class names; `professor_id` is not selected, so it reads as `None`.
   */
  function FindByTeacherId(db: School, teacher: Value): (r: seq<Group>)
    ensures forall i :: 0 <= i < |r| ==>
      r[i].id.Int? && r[i].id.i in db.groups.rows
      && var row := db.groups.rows[r[i].id.i];
      TaughtBy(db.classes, row, teacher)
      && r[i] == Group(r[i].id, row.grade, row.classId, Null, db.classes.rows[row.classId.i].name)
    ensures forall k :: k in db.groups.rows && TaughtBy(db.classes, db.groups.rows[k], teacher) ==>
      exists i :: 0 <= i < |r| && r[i].id == Int(k)
    ensures forall i, j :: 0 <= i < j < |r| ==> r[i].id.i < r[j].id.i
  {
    var ids := IdsWhere(db.groups.rows, (g: GroupRow) => TaughtBy(db.classes, g, teacher));
    var r := TeacherGroupsAt(db, ids);
    forall k | k in db.groups.rows && TaughtBy(db.classes, db.groups.rows[k], teacher)
      ensures exists i :: 0 <= i < |r| && r[i].id == Int(k)
    {
      assert k in ids;
      var i :| 0 <= i < |ids| && ids[i] == k;
      assert r[i].id == Int(k);
    }
    r
  }

  /** The groups at `ids` as the teacher query selects them: without `professor_id`. */
  function TeacherGroupsAt(db: School, ids: seq<int>): (r: seq<Group>)
    requires forall i :: 0 <= i < |ids| ==> ids[i] in db.groups.rows && JoinsClass(db.classes, db.groups.rows[ids[i]])
    ensures |r| == |ids|
    ensures forall i :: 0 <= i < |ids| ==>
      var row := db.groups.rows[ids[i]];
      JoinsClass(db.classes, row) && r[i] == Group(Int(ids[i]), row.grade, row.classId, Null, db.classes.rows[row.classId.i].name)
  {
    seq(|ids|, i requires 0 <= i < |ids| && ids[i] in db.groups.rows && JoinsClass(db.classes, db.groups.rows[ids[i]]) =>
      var row := db.groups.rows[ids[i]];
      Group(Int(ids[i]), row.grade, row.classId, Null, db.classes.rows[row.classId.i].name))
  }

  function GroupNotFound(id: int): ApiError
  {
    NotFoundError("Grupo con ID " + IntToString(id) + " no encontrado")
  }

  /** `SubjectRepository.find_group_by_id`: the group with its professor and class name; NotFound when it or its class is missing. */
  function FindGroupById(db: School, id: int): (r: Result<Group, ApiError>)
    ensures r.Ok? <==> GroupWithClass(db, id)
    ensures r.Ok? ==>
      var row := db.groups.rows[id];
      r.value == Group(Int(id), row.grade, row.classId, row.professorId, db.classes.rows[row.classId.i].name)
    ensures r.Err? ==> r.error == GroupNotFound(id) && r.error.status == 404
  {
    if GroupWithClass(db, id) then
      var row := db.groups.rows[id];
      Ok(Group(Int(id), row.grade, row.classId, row.professorId, db.classes.rows[row.classId.i].name))
    else Err(GroupNotFound(id))
  }

  /**
   * `SubjectRepository.create_subject`: one new class row holding what the
   * text column makes of the name; the insert raises when psycopg2 cannot send
   * the name. The returned subject is the one given, with its new id.
   */
  function CreateSubject(classes: Table<ClassRow>, s: Subject): (r: Result<(Table<ClassRow>, Subject), Failure>)
    requires Valid(classes)
    ensures r.Ok? <==> Adaptable(s.name)
    ensures r.Err? ==> r.error == Crash
    ensures r.Ok? ==>
      var (t, v) := r.value;
      Valid(t) && v.id.Int? && v.id.i !in classes.rows
      && t.rows == classes.rows[v.id.i := ClassRow(ColumnValue(TextColumn, s.name).value)]
      && v == s.(id := v.id)
  {
    match ColumnValue(TextColumn, s.name)
    case None => Err(Crash)
    case Some(name) =>
      var (t, k) := Insert(classes, ClassRow(name));
      Ok((t, s.(id := Int(k))))
  }

  /** psycopg2 can send the group's fields and the integer columns accept its class and professor. */
  predicate GroupWritable(g: Group)
  {
    ColumnValue(OtherColumn, g.grade).Some? && ColumnValue(IntColumn, g.classId).Some? && ColumnValue(IntColumn, g.professorId).Some?
  }

  /** The row a writable group is stored as. */
  function StoredGroup(g: Group): GroupRow
    requires GroupWritable(g)
  {
    GroupRow(ColumnValue(OtherColumn, g.grade).value, ColumnValue(IntColumn, g.classId).value, ColumnValue(IntColumn, g.professorId).value)
  }

  /**
   * `SubjectRepository.create_group`: one new group row storing grade, class
   * and professor as their columns take them; the insert raises when one of
   * them cannot be stored. The returned group is the one given, with its new id.
   */
  function CreateGroup(groups: Table<GroupRow>, g: Group): (r: Result<(Table<GroupRow>, Group), Failure>)
    requires Valid(groups)
    ensures r.Ok? <==> GroupWritable(g)
    ensures r.Err? ==> r.error == Crash
    ensures r.Ok? ==>
      var (t, v) := r.value;
      Valid(t) && v.id.Int? && v.id.i !in groups.rows
      && t.rows == groups.rows[v.id.i := StoredGroup(g)]
      && v == g.(id := v.id)
  {
    if !GroupWritable(g) then Err(Crash)
    else
      var (t, k) := Insert(groups, StoredGroup(g));
      Ok((t, g.(id := Int(k))))
  }

  /**
   * A created group is found again by id exactly when its stored class exists,
   * with the grade as given and the class and professor as the integer columns
   * read them (a numeric text id reads back as the integer); a group created
   * with integer or null ids under an existing class reads back as created.
   */
  lemma CreateGroupThenFind(db: School, g: Group)
    requires Valid(db.groups)
    ensures CreateGroup(db.groups, g).Ok? ==>
      var (t, h) := CreateGroup(db.groups, g).value;
      var classId := ColumnValue(IntColumn, g.classId).value;
      var found := FindGroupById(db.(groups := t), h.id.i);
      (found.Ok? <==> classId.Int? && classId.i in db.classes.rows)
      && (found.Ok? ==>
          found.value == h.(classId := classId, professorId := ColumnValue(IntColumn, g.professorId).value,
                            className := db.classes.rows[classId.i].name))
      && (g.classId.Int? && g.classId.i in db.classes.rows && (g.professorId.Int? || g.professorId.Null?) ==>
          found == Ok(h.(className := db.classes.rows[g.classId.i].name)))
  {
  }
}

=== FILE: subjects_list.dfy ===
// The home page's list of subjects
// (frontend/src/pages/index/components/SubjectsList/SubjectsList.tsx): the
// icon chosen from a subject's name, the table of group names, and the
// grouping of subjects into one bucket per group id.

module SubjectsList {
  import opened Common

  /** A subject as the list receives it; ids are strings. */
  datatype Subject = Subject(id: string, name: string, groupId: string)

  /** A group; `None` stands for a missing (`undefined` or `null`) name. */
  datatype Group = Group(id: string, name: Option<string>)

  /** The three icons the list draws in front of a subject's name. */
  datatype Icon = Book | Calculator | Flask

  // ---------------------------------------------------------------------
  // Icons

  /** `s.includes(sub)`. */
  predicate Includes(s: string, sub: string)
  {
    IndexOf(s, sub, 0).Some?
  }

  /** `includes` finds a substring exactly when it occurs somewhere. */
  lemma IncludesIffOccurs(s: string, sub: string)
    ensures Includes(s, sub) <==> exists k :: OccursAt(s, sub, k)
  {
  }

  /**
   * `getSubjectIcon(name)`: the checks run in a fixed order, Spanish first,
   * then mathematics, then science; anything else gets the book.
   */
  function SubjectIcon(name: string): (icon: Icon)
    ensures Includes(name, "Español") ==> icon == Book
    ensures icon == Calculator <==> !Includes(name, "Español") && Includes(name, "Matemáticas")
    ensures icon == Flask <==>
      !Includes(name, "Español") && !Includes(name, "Matemáticas") && Includes(name, "Ciencias")
  {
    if Includes(name, "Español") then Book
    else if Includes(name, "Matemáticas") then Calculator
    else if Includes(name, "Ciencias") then Flask
    else Book
  }

  /** A name that mentions both Spanish and mathematics gets the book, because Spanish is checked first. */
  lemma SpanishWinsOverMathematics(a: string, b: string)
    ensures SubjectIcon(a + "Español" + b + "Matemáticas").Book?
  {
    var s := a + "Español" + b + "Matemáticas";
    assert s[|a|..|a| + |"Español"|] == "Español";
    assert OccursAt(s, "Español", |a|);
    IncludesIffOccurs(s, "Español");
  }

  /** Only a name that mentions one of the three subjects gets anything but the book. */
  lemma PlainNameGetsBook(name: string)
    requires forall k :: !OccursAt(name, "Matemáticas", k) && !OccursAt(name, "Ciencias", k)
    ensures SubjectIcon(name) == Book
  {
    IncludesIffOccurs(name, "Matemáticas");
    IncludesIffOccurs(name, "Ciencias");
  }

  // ---------------------------------------------------------------------
  // Group names

  /** No later group has the same id as the `i`-th. */
  predicate LastWithId(groups: seq<Group>, i: int)
    requires 0 <= i < |groups|
  {
    forall j :: i < j < |groups| ==> groups[j].id != groups[i].id
  }

  /**
   * The `groupNames` reduction: every group id is a key, and a later group
   * with the same id overwrites the name of an earlier one.
   */
  function GroupNames(groups: seq<Group>): (names: map<string, Option<string>>)
    ensures forall k :: k in names <==> exists i :: 0 <= i < |groups| && groups[i].id == k
    ensures forall i :: 0 <= i < |groups| && LastWithId(groups, i) ==> names[groups[i].id] == groups[i].name
  {
    if |groups| == 0 then map[]
    else
      var last := groups[|groups| - 1];
      var before := GroupNames(groups[..|groups| - 1]);
      assert forall i :: 0 <= i < |groups| - 1 ==> groups[..|groups| - 1][i] == groups[i];
      before[last.id := last.name]
  }

  /** The fallback heading of a bucket whose group has no usable name. */
  const UnknownGroup := "Grupo desconocido"

  /** `groupNames?.[groupId] || "Grupo desconocido"`; `names` is `None` while the groups have not loaded. */
  function GroupHeading(names: Option<map<string, Option<string>>>, groupId: string): (heading: string)
    ensures heading != ""
    ensures heading != UnknownGroup ==>
      names.Some? && groupId in names.value && names.value[groupId] == Some(heading)
  {
    if names.Some? && groupId in names.value && names.value[groupId].Some? && names.value[groupId].value != ""
    then names.value[groupId].value
    else UnknownGroup
  }

  /** The heading of a bucket is the name of the last loaded group with its id, or the fallback. */
  lemma HeadingIsLastName(groups: seq<Group>, i: int)
    requires 0 <= i < |groups|
    requires LastWithId(groups, i)
    ensures groups[i].name.Some? && groups[i].name.value != "" ==>
      GroupHeading(Some(GroupNames(groups)), groups[i].id) == groups[i].name.value
    ensures groups[i].name.None? || groups[i].name.value == "" ==>
      GroupHeading(Some(GroupNames(groups)), groups[i].id) == UnknownGroup
  {
  }

  /** A bucket whose id matches no loaded group is headed by the fallback. */
  lemma UnmatchedGroupIsUnknown(groups: seq<Group>, groupId: string)
    requires forall i :: 0 <= i < |groups| ==> groups[i].id != groupId
    ensures GroupHeading(Some(GroupNames(groups)), groupId) == UnknownGroup
  {
  }

  // ---------------------------------------------------------------------
  // Grouping subjects

  /** One entry of `groupedSubjects`: a group id and the subjects pushed under it. */
  datatype Bucket = Bucket(groupId: string, subjects: seq<Subject>)

  /** The filter that picks one group's subjects. */
  function InGroup(groupId: string): (keep: Subject -> bool)
    ensures forall s :: keep(s) <==> s.groupId == groupId
  {
    (s: Subject) => s.groupId == groupId
  }

  /** Where the bucket for `groupId` sits, if there is one yet. */
  function BucketIndex(buckets: seq<Bucket>, groupId: string): (r: Option<nat>)
    ensures r.Some? ==> r.value < |buckets| && buckets[r.value].groupId == groupId
    ensures r.None? ==> forall i :: 0 <= i < |buckets| ==> buckets[i].groupId != groupId
  {
    if |buckets| == 0 then None
    else if buckets[|buckets| - 1].groupId == groupId then Some(|buckets| - 1)
    else BucketIndex(buckets[..|buckets| - 1], groupId)
  }

  /**
   * One step of the `groupedSubjects` reduction: a new bucket is opened for
   * a group id not seen before, and the subject is pushed onto its bucket.
   */
  function AddSubject(buckets: seq<Bucket>, s: Subject): (r: seq<Bucket>)
    ensures |buckets| <= |r| <= |buckets| + 1
  {
    match BucketIndex(buckets, s.groupId)
    case None => buckets + [Bucket(s.groupId, [s])]
    case Some(i) => buckets[i := Bucket(buckets[i].groupId, buckets[i].subjects + [s])]
  }

  /** The `groupedSubjects` reduction over the whole list, in list order. */
  function GroupSubjects(subjects: seq<Subject>): (buckets: seq<Bucket>)
    ensures |buckets| <= |subjects|
  {
    if |subjects| == 0 then []
    else AddSubject(GroupSubjects(subjects[..|subjects| - 1]), subjects[|subjects| - 1])
  }

  /** Every subject of every bucket, bucket by bucket. */
  function Flatten(buckets: seq<Bucket>): (all: seq<Subject>)
  {
    if |buckets| == 0 then [] else buckets[0].subjects + Flatten(buckets[1..])
  }

  /** No two buckets share a group id. */
  predicate DistinctKeys(buckets: seq<Bucket>)
  {
    forall i, j :: 0 <= i < j < |buckets| ==> buckets[i].groupId != buckets[j].groupId
  }

  /** Each bucket holds exactly its group's subjects, in their original order. */
  predicate BucketsAreFilters(buckets: seq<Bucket>, subjects: seq<Subject>)
  {
    forall i :: 0 <= i < |buckets| ==> buckets[i].subjects == Filter(subjects, InGroup(buckets[i].groupId))
  }

  /** Every subject's group id has a bucket. */
  predicate Covers(buckets: seq<Bucket>, subjects: seq<Subject>)
  {
    forall k :: 0 <= k < |subjects| ==> BucketIndex(buckets, subjects[k].groupId).Some?
  }

  /**
   * What the grouping promises about `subjects`: one bucket per distinct
   * group id, and each bucket holds exactly its group's subjects in their
   * original order.
   */
  predicate GroupedAs(buckets: seq<Bucket>, subjects: seq<Subject>)
  {
    DistinctKeys(buckets) && BucketsAreFilters(buckets, subjects) && Covers(buckets, subjects)
  }

  /** Filtering a one-element list. */
  lemma FilterSingle(s: Subject, keep: Subject -> bool)
    ensures Filter([s], keep) == if keep(s) then [s] else []
  {
    assert [s][1..] == [];
  }

  /** A list none of whose elements is kept filters to nothing. */
  lemma {:induction false} FilterNoneKept(xs: seq<Subject>, keep: Subject -> bool)
    requires forall k :: 0 <= k < |xs| ==> !keep(xs[k])
    ensures Filter(xs, keep) == []
  {
    if |xs| > 0 {
      FilterNoneKept(xs[1..], keep);
    }
  }

  /**
   * What one step of the reduction does to buckets with distinct ids: the
   * existing buckets keep their ids, the subject is pushed onto the bucket
   * with its id, and a bucket is opened at the end when there was none.
   */
  lemma AddSubjectShape(buckets: seq<Bucket>, s: Subject)
    requires DistinctKeys(buckets)
    ensures var r := AddSubject(buckets, s);
      && |r| == (if BucketIndex(buckets, s.groupId).Some? then |buckets| else |buckets| + 1)
      && (forall i :: 0 <= i < |buckets| ==> r[i].groupId == buckets[i].groupId)
      && (forall i :: 0 <= i < |buckets| ==>
            r[i].subjects == if buckets[i].groupId == s.groupId then buckets[i].subjects + [s] else buckets[i].subjects)
      && (|r| > |buckets| ==> r[|buckets|] == Bucket(s.groupId, [s]))
  {
  }

  /** One step of the reduction keeps the bucket ids distinct and every subject covered. */
  lemma AddSubjectKeys(buckets: seq<Bucket>, subjects: seq<Subject>, s: Subject)
    requires DistinctKeys(buckets) && Covers(buckets, subjects)
    ensures DistinctKeys(AddSubject(buckets, s))
    ensures Covers(AddSubject(buckets, s), subjects + [s])
  {
    var r := AddSubject(buckets, s);
    var xs := subjects + [s];
    AddSubjectShape(buckets, s);
    forall k | 0 <= k < |xs|
      ensures BucketIndex(r, xs[k].groupId).Some?
    {
      if k < |subjects| {
        assert xs[k] == subjects[k];
        var j := BucketIndex(buckets, subjects[k].groupId).value;
        assert r[j].groupId == xs[k].groupId;
      } else {
        var j := if BucketIndex(buckets, s.groupId).Some? then BucketIndex(buckets, s.groupId).value else |buckets|;
        assert r[j].groupId == xs[k].groupId;
      }
    }
  }

  /** One step of the reduction keeps every bucket equal to its group's filter. */
  lemma AddSubjectFilters(buckets: seq<Bucket>, subjects: seq<Subject>, s: Subject)
    requires GroupedAs(buckets, subjects)
    ensures BucketsAreFilters(AddSubject(buckets, s), subjects + [s])
  {
    var r := AddSubject(buckets, s);
    AddSubjectShape(buckets, s);
    forall i | 0 <= i < |r|
      ensures r[i].subjects == Filter(subjects + [s], InGroup(r[i].groupId))
    {
      var keep := InGroup(r[i].groupId);
      FilterAppend(subjects, [s], keep);
      FilterSingle(s, keep);
      if i == |buckets| {
        forall k | 0 <= k < |subjects|
          ensures !keep(subjects[k])
        {
          var j := BucketIndex(buckets, subjects[k].groupId).value;
          assert buckets[j].groupId == subjects[k].groupId;
        }
        FilterNoneKept(subjects, keep);
      }
    }
  }

  /** Adding one subject keeps the grouping faithful to the longer list. */
  lemma AddSubjectGroups(buckets: seq<Bucket>, subjects: seq<Subject>, s: Subject)
    requires GroupedAs(buckets, subjects)
    ensures GroupedAs(AddSubject(buckets, s), subjects + [s])
  {
    AddSubjectKeys(buckets, subjects, s);
    AddSubjectFilters(buckets, subjects, s);
  }

  /** The whole reduction groups faithfully: each subject lands in exactly its group's bucket, in order. */
  lemma {:induction false} GroupSubjectsGroups(subjects: seq<Subject>)
    ensures GroupedAs(GroupSubjects(subjects), subjects)
  {
    if |subjects| > 0 {
      var init := subjects[..|subjects| - 1];
      var last := subjects[|subjects| - 1];
      assert init + [last] == subjects;
      var before := GroupSubjects(init);
      assert GroupSubjects(subjects) == AddSubject(before, last);
      GroupSubjectsGroups(init);
      AddSubjectGroups(before, init, last);
    }
  }

  /** A subject is in a bucket exactly when the bucket is its group's. */
  lemma SubjectInItsBucketOnly(subjects: seq<Subject>, k: int, i: int)
    requires 0 <= k < |subjects|
    requires 0 <= i < |GroupSubjects(subjects)|
    ensures subjects[k] in GroupSubjects(subjects)[i].subjects
      <==> GroupSubjects(subjects)[i].groupId == subjects[k].groupId
  {
    GroupSubjectsGroups(subjects);
  }

  /** Flattening after appending one bucket. */
  lemma {:induction false} FlattenSnoc(buckets: seq<Bucket>, b: Bucket)
    ensures Flatten(buckets + [b]) == Flatten(buckets) + b.subjects
  {
    if |buckets| > 0 {
      FlattenSnoc(buckets[1..], b);
      assert (buckets + [b])[1..] == buckets[1..] + [b];
    }
  }

  /** Replacing one bucket swaps its subjects in the flattened multiset. */
  lemma {:induction false} FlattenUpdate(buckets: seq<Bucket>, i: nat, b: Bucket)
    requires i < |buckets|
    ensures multiset(Flatten(buckets[i := b])) + multiset(buckets[i].subjects)
      == multiset(Flatten(buckets)) + multiset(b.subjects)
  {
    if i == 0 {
      assert buckets[i := b][1..] == buckets[1..];
    } else {
      var u := buckets[i := b];
      FlattenUpdate(buckets[1..], i - 1, b);
      assert u[0] == buckets[0];
      assert buckets[1..][i - 1] == buckets[i];
      assert u[1..] == buckets[1..][i - 1 := b];
      var rest := buckets[1..][i - 1 := b];
      assert Flatten(u) == buckets[0].subjects + Flatten(rest);
      assert Flatten(buckets) == buckets[0].subjects + Flatten(buckets[1..]);
      calc {
        multiset(Flatten(u)) + multiset(buckets[i].subjects);
        multiset(buckets[0].subjects) + (multiset(Flatten(rest)) + multiset(buckets[i].subjects));
        multiset(buckets[0].subjects) + (multiset(Flatten(buckets[1..])) + multiset(b.subjects));
        multiset(Flatten(buckets)) + multiset(b.subjects);
      }
    }
  }

  /** One step of the reduction adds exactly the new subject to the buckets' contents. */
  lemma AddSubjectPermutes(buckets: seq<Bucket>, s: Subject)
    ensures multiset(Flatten(AddSubject(buckets, s))) == multiset(Flatten(buckets)) + multiset{s}
  {
    var r := AddSubject(buckets, s);
    match BucketIndex(buckets, s.groupId)
    case None =>
      assert r == buckets + [Bucket(s.groupId, [s])];
      FlattenSnoc(buckets, Bucket(s.groupId, [s]));
    case Some(i) =>
      var b := Bucket(buckets[i].groupId, buckets[i].subjects + [s]);
      assert r == buckets[i := b];
      FlattenUpdate(buckets, i, b);
      MultisetCancel(multiset(Flatten(r)), multiset(Flatten(buckets)) + multiset{s}, multiset(buckets[i].subjects));
  }

  /** Multiset addition cancels. */
  lemma MultisetCancel(a: multiset<Subject>, b: multiset<Subject>, c: multiset<Subject>)
    requires a + c == b + c
    ensures a == b
  {
    assert forall x :: a[x] == (a + c)[x] - c[x];
  }

  /** The buckets together hold every subject exactly as often as the list does. */
  lemma {:induction false} GroupSubjectsPermutes(subjects: seq<Subject>)
    ensures multiset(Flatten(GroupSubjects(subjects))) == multiset(subjects)
  {
    if |subjects| > 0 {
      var init := subjects[..|subjects| - 1];
      var s := subjects[|subjects| - 1];
      GroupSubjectsPermutes(init);
      AddSubjectPermutes(GroupSubjects(init), s);
      assert subjects == init + [s];
    }
  }

  /** There is one bucket for each distinct group id and for nothing else. */
  lemma OneBucketPerGroup(subjects: seq<Subject>, groupId: string)
    ensures BucketIndex(GroupSubjects(subjects), groupId).Some?
      <==> exists k :: 0 <= k < |subjects| && subjects[k].groupId == groupId
  {
    var buckets := GroupSubjects(subjects);
    GroupSubjectsGroups(subjects);
    match BucketIndex(buckets, groupId)
    case None =>
    case Some(i) =>
      var b := buckets[i];
      assert b.subjects == Filter(subjects, InGroup(groupId));
      if b.subjects == [] {
        // A bucket is only ever opened together with its first subject.
        NonEmptyBuckets(subjects);
        assert false;
      }
      var x := b.subjects[0];
      var k :| 0 <= k < |subjects| && subjects[k] == x;
  }

  /** No bucket is empty. */
  lemma {:induction false} NonEmptyBuckets(subjects: seq<Subject>)
    ensures forall i :: 0 <= i < |GroupSubjects(subjects)| ==> GroupSubjects(subjects)[i].subjects != []
  {
    if |subjects| > 0 {
      NonEmptyBuckets(subjects[..|subjects| - 1]);
    }
  }
}

=== FILE: tables.dfy ===
// Database tables with SERIAL primary keys. A table maps each id to its row
// and remembers the next id the sequence will hand out; ids are never reused.
// Query results without ORDER BY come back in ascending id order in this model.

module Tables {
  import opened Common

  datatype Table<R> = Table(rows: map<int, R>, next: int)

  /** Every stored id was handed out by the sequence, which starts at 1. */
  predicate Valid<R>(t: Table<R>)
  {
    t.next >= 1 && forall k :: k in t.rows ==> 1 <= k < t.next
  }

  function Empty<R>(): (t: Table<R>)
    ensures Valid(t) && t.rows == map[]
  {
    Table(map[], 1)
  }

  /** `INSERT ... RETURNING id`: the new row gets an id no existing row has. */
  function Insert<R>(t: Table<R>, r: R): (res: (Table<R>, int))
    requires Valid(t)
    ensures Valid(res.0)
    ensures res.1 !in t.rows && res.1 >= 1
    ensures res.0.rows == t.rows[res.1 := r]
    ensures res.0.next > res.1
  {
    (Table(t.rows[t.next := r], t.next + 1), t.next)
  }

  /** `UPDATE ... WHERE id = k` on an existing row. */
  function Put<R>(t: Table<R>, k: int, r: R): (u: Table<R>)
    requires k in t.rows
    ensures Valid(t) ==> Valid(u)
    ensures u.rows == t.rows[k := r] && u.rows.Keys == t.rows.Keys
  {
    Table(t.rows[k := r], t.next)
  }

  /** `DELETE ... WHERE id = k`. */
  function Remove<R>(t: Table<R>, k: int): (u: Table<R>)
    ensures Valid(t) ==> Valid(u)
    ensures k !in u.rows && u.rows.Keys == t.rows.Keys - {k}
    ensures forall j :: j in u.rows ==> u.rows[j] == t.rows[j]
  {
    Table(t.rows - {k}, t.next)
  }

  // ---------------------------------------------------------------------
  // Ordering ids

  /** Some element of a non-empty set. */
  lemma Pick(s: set<int>) returns (x: int)
    requires s != {}
    ensures x in s
  {
    assert exists y :: y in s by {
      if forall y :: y !in s { assert false; }
    }
    x :| x in s;
  }

  /** `m` is the least element of `s`. */
  predicate IsMin(s: set<int>, m: int)
  {
    m in s && forall k :: k in s ==> m <= k
  }

  /** `m` is the greatest element of `s`. */
  predicate IsMax(s: set<int>, m: int)
  {
    m in s && forall k :: k in s ==> k <= m
  }

  lemma {:induction false} MinExists(s: set<int>)
    requires s != {}
    ensures exists m :: IsMin(s, m)
    decreases |s|
  {
    var x := Pick(s);
    if s == {x} {
      assert IsMin(s, x);
    } else {
      var rest := s - {x};
      MinExists(rest);
      var m :| IsMin(rest, m);
      var w := if x < m then x else m;
      forall k | k in s
        ensures w <= k
      {
        if k != x {
          assert k in rest;
        }
      }
      assert IsMin(s, w);
    }
  }

  function MinOf(s: set<int>): (m: int)
    requires s != {}
    ensures m in s && forall k :: k in s ==> m <= k
  {
    MinExists(s);
    var m :| IsMin(s, m);
    m
  }

  lemma {:induction false} MaxExists(s: set<int>)
    requires s != {}
    ensures exists m :: IsMax(s, m)
    decreases |s|
  {
    var x := Pick(s);
    if s == {x} {
      assert IsMax(s, x);
    } else {
      var rest := s - {x};
      MaxExists(rest);
      var m :| IsMax(rest, m);
      var w := if x > m then x else m;
      forall k | k in s
        ensures k <= w
      {
        if k != x {
          assert k in rest;
        }
      }
      assert IsMax(s, w);
    }
  }

  function MaxOf(s: set<int>): (m: int)
    requires s != {}
    ensures m in s && forall k :: k in s ==> k <= m
  {
    MaxExists(s);
    var m :| IsMax(s, m);
    m
  }

  predicate StrictlyIncreasing(r: seq<int>)
  {
    forall i, j :: 0 <= i < j < |r| ==> r[i] < r[j]
  }

  /** The elements of a finite set of ids in ascending order, each exactly once. */
  function Sorted(s: set<int>): (r: seq<int>)
    ensures |r| == |s|
    ensures forall i :: 0 <= i < |r| ==> r[i] in s
    ensures forall k :: k in s ==> k in r
    ensures StrictlyIncreasing(r)
    decreases |s|
  {
    if s == {} then []
    else
      var m := MinOf(s);
      var rest := Sorted(s - {m});
      SortedStep(s, m, rest);
      [m] + rest
  }

  /** Putting the least element in front of the sorted rest sorts the whole set. */
  lemma SortedStep(s: set<int>, m: int, rest: seq<int>)
    requires IsMin(s, m)
    requires |rest| == |s - {m}| && StrictlyIncreasing(rest)
    requires forall i :: 0 <= i < |rest| ==> rest[i] in s - {m}
    requires forall k :: k in s - {m} ==> k in rest
    ensures |[m] + rest| == |s| && StrictlyIncreasing([m] + rest)
    ensures forall i :: 0 <= i < |[m] + rest| ==> ([m] + rest)[i] in s
    ensures forall k :: k in s ==> k in [m] + rest
  {
    StepMembers(s, m, rest);
    StepComplete(s, m, rest);
    StepOrdered(s, m, rest);
  }

  lemma StepMembers(s: set<int>, m: int, rest: seq<int>)
    requires m in s
    requires forall i :: 0 <= i < |rest| ==> rest[i] in s - {m}
    ensures forall i :: 0 <= i < |[m] + rest| ==> ([m] + rest)[i] in s
  {
    var r := [m] + rest;
    forall i | 0 <= i < |r|
      ensures r[i] in s
    {
      if i > 0 {
        assert r[i] == rest[i - 1];
      }
    }
  }

  lemma StepComplete(s: set<int>, m: int, rest: seq<int>)
    requires forall k :: k in s - {m} ==> k in rest
    ensures forall k :: k in s ==> k in [m] + rest
  {
    var r := [m] + rest;
    forall k | k in s
      ensures k in r
    {
      if k != m {
        assert k in s - {m};
        var j :| 0 <= j < |rest| && rest[j] == k;
        assert r[j + 1] == k;
      }
    }
  }

  lemma StepOrdered(s: set<int>, m: int, rest: seq<int>)
    requires IsMin(s, m) && StrictlyIncreasing(rest)
    requires forall i :: 0 <= i < |rest| ==> rest[i] in s - {m}
    ensures StrictlyIncreasing([m] + rest)
  {
    var r := [m] + rest;
    forall i, j | 0 <= i < j < |r|
      ensures r[i] < r[j]
    {
      assert r[j] == rest[j - 1];
      if i > 0 {
        assert r[i] == rest[i - 1];
      } else {
        assert rest[j - 1] in s - {m};
      }
    }
  }

  // ---------------------------------------------------------------------
  // Selecting rows

  /** Ids of the rows satisfying `p`, ascending: `SELECT id ... WHERE p`. */
  function IdsWhere<R>(rows: map<int, R>, p: R -> bool): (ids: seq<int>)
    ensures forall i :: 0 <= i < |ids| ==> ids[i] in rows && p(rows[ids[i]])
    ensures forall k :: k in rows && p(rows[k]) ==> k in ids
    ensures StrictlyIncreasing(ids)
  {
    Sorted(set k | k in rows && p(rows[k]))
  }

  /** The first matching row in id order: `fetchone()` on an unordered SELECT. */
  function FirstWhere<R>(rows: map<int, R>, p: R -> bool): (r: Option<int>)
    ensures r.Some? ==> r.value in rows && p(rows[r.value])
    ensures r.Some? ==> forall k :: k in rows && p(rows[k]) ==> r.value <= k
    ensures r.None? <==> forall k :: k in rows ==> !p(rows[k])
  {
    var ks := set k | k in rows && p(rows[k]);
    assert forall k :: k in rows && p(rows[k]) ==> k in ks;
    if ks == {} then None else Some(MinOf(ks))
  }

  /** The last matching row in id order: the entry that survives when a loop overwrites a dict keyed by something else. */
  function LastWhere<R>(rows: map<int, R>, p: R -> bool): (r: Option<int>)
    ensures r.Some? ==> r.value in rows && p(rows[r.value])
    ensures r.Some? ==> forall k :: k in rows && p(rows[k]) ==> k <= r.value
    ensures r.None? <==> forall k :: k in rows ==> !p(rows[k])
  {
    var ks := set k | k in rows && p(rows[k]);
    assert forall k :: k in rows && p(rows[k]) ==> k in ks;
    if ks == {} then None else Some(MaxOf(ks))
  }

  /** When at most one row matches, the first and the last match are the same row. */
  lemma FirstIsLastWhenUnique<R>(rows: map<int, R>, p: R -> bool)
    requires forall a, b :: a in rows && b in rows && p(rows[a]) && p(rows[b]) ==> a == b
    ensures FirstWhere(rows, p) == LastWhere(rows, p)
  {
  }

  /** `DELETE ... WHERE p`: exactly the rows satisfying `p` disappear. */
  function RemoveWhere<R>(t: Table<R>, p: R -> bool): (u: Table<R>)
    ensures Valid(t) ==> Valid(u)
    ensures u.next == t.next
    ensures forall k :: k in u.rows <==> k in t.rows && !p(t.rows[k])
    ensures forall k :: k in u.rows ==> u.rows[k] == t.rows[k]
  {
    Table(map k | k in t.rows && !p(t.rows[k]) :: t.rows[k], t.next)
  }
}

=== FILE: teacher_service.dfy ===
// What a professor sees of their own groups (backend/services/teacher_service.py).

module TeacherService {
  import opened Common
  import opened Tables
  import opened Errors
  import opened SubjectModel
  import opened Schema
  import opened SubjectRepository

  /**
   * The groups `find_by_teacher_id` returns for a request value, or `None` when
   * the query raises (a value the database cannot compare with an integer column).
   */
  function TeacherGroups(db: School, teacher: Value): (r: Option<seq<Group>>)
    ensures r.None? <==> IntColumnParam(teacher).DbError?
    ensures IntColumnParam(teacher).NoMatch? ==> r == Some([])
    ensures IntColumnParam(teacher).IntKey? ==> r == Some(FindByTeacherId(db, Int(IntColumnParam(teacher).k)))
  {
    match IntColumnParam(teacher)
    case DbError => None
    case NoMatch => Some([])
    case IntKey(k) => Some(FindByTeacherId(db, Int(k)))
  }

  /**
   * `TeacherService.get_teacher_subjects`: the dictionary form of each group the
   * repository returns, in its order; any exception yields an empty list instead.
   */
  function GetTeacherSubjects(db: School, teacher: Value): (materias: seq<Dict>)
    ensures TeacherGroups(db, teacher).None? ==> materias == []
    ensures TeacherGroups(db, teacher).Some? ==>
      var gs := TeacherGroups(db, teacher).value;
      |materias| == |gs| && forall i :: 0 <= i < |gs| ==> materias[i] == GroupToDict(gs[i])
    ensures forall i :: 0 <= i < |materias| ==> "professor_id" !in materias[i] && "group_id" in materias[i]
  {
    match TeacherGroups(db, teacher)
    case None => []
    case Some(gs) => GroupDicts(gs)
  }

  /** The dictionary form of each group, in order. */
  function GroupDicts(gs: seq<Group>): (ds: seq<Dict>)
    ensures |ds| == |gs| && forall i :: 0 <= i < |gs| ==> ds[i] == GroupToDict(gs[i])
    ensures forall i :: 0 <= i < |ds| ==> "professor_id" !in ds[i] && "group_id" in ds[i]
  {
    seq(|gs|, i requires 0 <= i < |gs| => GroupToDict(gs[i]))
  }

  /** A listed entry is one of the teacher's groups: it exists and is assigned to them. */
  predicate ListedAsTheirs(db: School, teacher: int, m: Dict)
  {
    "group_id" in m && m["group_id"].Int? && m["group_id"].i in db.groups.rows
    && TaughtBy(db.classes, db.groups.rows[m["group_id"].i], Int(teacher))
    && db.groups.rows[m["group_id"].i].professorId == Int(teacher)
  }

  /** For an integer teacher id, each listed group is one the teacher is assigned to. */
  lemma ListedGroupIsTheirs(db: School, teacher: int)
    ensures forall i :: 0 <= i < |GetTeacherSubjects(db, Int(teacher))| ==>
      ListedAsTheirs(db, teacher, GetTeacherSubjects(db, Int(teacher))[i])
  {
    var gs := FindByTeacherId(db, Int(teacher));
    var materias := GetTeacherSubjects(db, Int(teacher));
    assert TeacherGroups(db, Int(teacher)) == Some(gs);
    forall i | 0 <= i < |materias|
      ensures ListedAsTheirs(db, teacher, materias[i])
    {
      var g := gs[i];
      assert materias[i] == GroupToDict(g);
      assert GroupToDict(g)["group_id"] == g.id;
    }
  }

  /** Every group assigned to the teacher (and joined to its class) is listed. */
  lemma TheirGroupIsListed(db: School, teacher: int, k: int)
    requires k in db.groups.rows && TaughtBy(db.classes, db.groups.rows[k], Int(teacher))
    ensures exists i :: 0 <= i < |GetTeacherSubjects(db, Int(teacher))| && GetTeacherSubjects(db, Int(teacher))[i]["group_id"] == Int(k)
  {
    var gs := FindByTeacherId(db, Int(teacher));
    var materias := GetTeacherSubjects(db, Int(teacher));
    assert TeacherGroups(db, Int(teacher)) == Some(gs);
    var i :| 0 <= i < |gs| && gs[i].id == Int(k);
    assert materias[i] == GroupToDict(gs[i]);
    assert GroupToDict(gs[i])["group_id"] == gs[i].id;
  }

  const NoAccessMessage := "El profesor no tiene acceso a esta materia"

  /**
   * `TeacherService.get_subject_details`: NotFound for a missing group,
   * Forbidden exactly when the group's professor is not equal, under Python's
   * `!=`, to the user id the caller passes; otherwise the group.
   */
  function GetSubjectDetails(db: School, groupId: int, userId: Value): (r: Result<Dict, ApiError>)
    ensures !GroupWithClass(db, groupId) ==> r == Err(GroupNotFound(groupId))
    ensures GroupWithClass(db, groupId) ==>
      (r.Err? <==> !PyEq(db.groups.rows[groupId].professorId, userId))
    ensures r.Err? && GroupWithClass(db, groupId) ==> r.error == ForbiddenError(NoAccessMessage)
    ensures r.Ok? ==> r.value == GroupToDict(FindGroupById(db, groupId).value)
  {
    match FindGroupById(db, groupId)
    case Err(e) => Err(e)
    case Ok(g) =>
      if !PyEq(g.professorId, userId) then Err(ForbiddenError(NoAccessMessage))
      else Ok(GroupToDict(g))
  }

  /**
   * A group whose professor is an integer opens exactly for the user ids
   * Python holds equal to that integer: `5`, `5.0`, and `True` for 1.
   */
  lemma NumericIdentityOpens(db: School, groupId: int, userId: Value)
    requires GroupWithClass(db, groupId) && db.groups.rows[groupId].professorId.Int?
    ensures GetSubjectDetails(db, groupId, userId).Ok? <==> NumericKey(userId) == Some(db.groups.rows[groupId].professorId.i)
  {
  }

  /**
   * A text user id (the form `create_access_token(identity=str(user.id))`
   * gives an identity) never opens a group whose professor column holds an
   * integer or `NULL`, although `find_by_teacher_id` lists the groups of a
   * numeric text id.
   */
  lemma TextIdentityForbidden(db: School, groupId: int, userId: string)
    requires GroupWithClass(db, groupId)
    requires db.groups.rows[groupId].professorId.Int? || db.groups.rows[groupId].professorId.Null?
    ensures GetSubjectDetails(db, groupId, Str(userId)) == Err(ForbiddenError(NoAccessMessage))
  {
  }

  /** A group without a professor opens only for a `None` user id. */
  lemma UnassignedOpensForNone(db: School, groupId: int, userId: Value)
    requires GroupWithClass(db, groupId) && db.groups.rows[groupId].professorId.Null?
    ensures GetSubjectDetails(db, groupId, userId).Ok? <==> userId.Null?
  {
  }

  /** Every group a professor's subject list shows opens for that professor's integer id. */
  lemma ListedGroupsOpen(db: School, teacher: int)
    ensures forall i :: 0 <= i < |GetTeacherSubjects(db, Int(teacher))| ==>
      var m := GetTeacherSubjects(db, Int(teacher))[i];
      m["group_id"].Int? && GetSubjectDetails(db, m["group_id"].i, Int(teacher)).Ok?
  {
    ListedGroupIsTheirs(db, teacher);
  }
}

=== FILE: user_model.dfy ===
// Application users (backend/models/user.py). The stored password is a hash;
// the dictionary form shows it only on request, and shows the last name only
// when it is non-empty.

module UserModel {
  import opened Common

  datatype User = User(id: Value, name: Value, email: Value, password: Value, rol: Value, lastname: Value)

  /** `User.from_dict`: what it reads shows again in the full dictionary form; absent keys read as `None`. */
  function UserFromDict(d: Dict): (u: User)
    ensures forall k :: k in {"id", "name", "email", "password", "rol"} ==> UserToDict(u, true)[k] == Get(d, k, Null)
    ensures "lastname" in UserToDict(u, true) <==> Truthy(Get(d, "lastname", Null))
    ensures "lastname" in UserToDict(u, true) ==> UserToDict(u, true)["lastname"] == d["lastname"]
  {
    User(Get(d, "id", Null), Get(d, "name", Null), Get(d, "email", Null),
         Get(d, "password", Null), Get(d, "rol", Null), Get(d, "lastname", Null))
  }

  /** `User.to_dict(include_password)`. */
  function UserToDict(u: User, includePassword: bool): (d: Dict)
    ensures d.Keys == {"id", "name", "email", "rol"}
      + (if Truthy(u.lastname) then {"lastname"} else {})
      + (if includePassword then {"password"} else {})
    ensures d["id"] == u.id && d["name"] == u.name && d["email"] == u.email && d["rol"] == u.rol
    ensures "lastname" in d ==> d["lastname"] == u.lastname
    ensures "password" in d ==> d["password"] == u.password
  {
    var base := map["id" := u.id, "name" := u.name, "email" := u.email, "rol" := u.rol];
    var withName := if Truthy(u.lastname) then base["lastname" := u.lastname] else base;
    if includePassword then withName["password" := u.password] else withName
  }

  /** Round trip: the password is kept only when included, and a falsy last name becomes `None`. */
  lemma UserRoundTrip(u: User, includePassword: bool)
    ensures UserFromDict(UserToDict(u, includePassword)) ==
      u.(password := if includePassword then u.password else Null,
         lastname := if Truthy(u.lastname) then u.lastname else Null)
  {
  }
}

=== FILE: user_repository.dfy ===
// Map-backed store for application users (backend/repositories/user_repository.py).
// The repository reads and writes only the name, email, password and rol columns
// of `usuarios`; a user it reads back has no last name.

module UserRepository {
  import opened Common
  import opened Tables
  import opened Errors
  import opened UserModel
  import opened Schema

  /** The user object a stored row reads back as. */
  function UserAt(id: int, r: UserRow): (u: User)
    ensures u.id == Int(id) && u.lastname == Null
    ensures u.name == r.name && u.email == r.email && u.password == r.password && u.rol == r.rol
  {
    User(Int(id), r.name, r.email, r.password, r.rol, Null)
  }

  function UserNotFound(id: Value): ApiError
  {
    NotFoundError("Usuario con ID " + PyStr(id) + " no encontrado")
  }

  /** `UserRepository.find_by_id`. */
  function FindUserById(users: Table<UserRow>, id: int): (r: Result<User, ApiError>)
    ensures r.Ok? <==> id in users.rows
    ensures r.Ok? ==> r.value == UserAt(id, users.rows[id])
    ensures r.Err? ==> r.error == UserNotFound(Int(id)) && r.error.status == 404
  {
    if id in users.rows then Ok(UserAt(id, users.rows[id])) else Err(UserNotFound(Int(id)))
  }

  /**
   * The id of the user row a `WHERE email = %s` lookup finds first: `Ok(None)`
   * when no row holds the email, and the database's exception when the value
   * cannot be compared with a text column.
   */
  function UserIdByEmail(users: Table<UserRow>, email: Value): (r: Result<Option<int>, Failure>)
    ensures r.Err? <==> TextQueryFails(email)
    ensures r.Err? ==> r.error == Crash
    ensures r == Ok(None) <==> !TextQueryFails(email) && forall k :: k in users.rows ==> !TextEq(users.rows[k].email, email)
    ensures r.Ok? && r.value.Some? ==> r.value.value in users.rows && TextEq(users.rows[r.value.value].email, email)
  {
    if TextQueryFails(email) then Err(Crash)
    else Ok(FirstWhere(users.rows, (row: UserRow) => TextEq(row.email, email)))
  }

  /** `UserRepository.find_by_email`: `None` when no row holds that email; the database's exception is re-raised. */
  function FindUserByEmail(users: Table<UserRow>, email: Value): (r: Result<Option<User>, Failure>)
    ensures r.Err? <==> TextQueryFails(email)
    ensures r == Ok(None) <==> !TextQueryFails(email) && forall k :: k in users.rows ==> !TextEq(users.rows[k].email, email)
    ensures r.Ok? && r.value.Some? ==>
      var u := r.value.value;
      u.id.Int? && u.id.i in users.rows && u == UserAt(u.id.i, users.rows[u.id.i]) && TextEq(u.email, email)
  {
    match UserIdByEmail(users, email)
    case Err(e) => Err(e)
    case Ok(None) => Ok(None)
    case Ok(Some(k)) => Ok(Some(UserAt(k, users.rows[k])))
  }

  /** The row `create` inserts: the four columns it names, every other column NULL. */
  function NewUserRow(u: User): UserRow
  {
    UserRow(u.name, Null, Null, u.email, u.password, u.rol, Null)
  }

  /** The columns `create` writes can all take the user's values. */
  predicate CreatableUser(u: User)
  {
    ColumnValue(TextColumn, u.name).Some? && ColumnValue(TextColumn, u.email).Some?
    && ColumnValue(TextColumn, u.password).Some? && ColumnValue(IntColumn, u.rol).Some?
  }

  /**
   * `UserRepository.create`: one new row holding what its columns make of the
   * name, email, password and rol, or the database's exception when one of
   * them cannot be written. The user comes back as given, with the new id.
   */
  function CreateUser(users: Table<UserRow>, u: User): (r: Result<(Table<UserRow>, User), Failure>)
    requires Valid(users)
    ensures r.Ok? <==> CreatableUser(u)
    ensures r.Err? ==> r.error == Crash
    ensures r.Ok? ==>
      var (t, v) := r.value;
      Valid(t) && v.id.Int? && v.id.i !in users.rows && v == u.(id := v.id)
      && t.rows == users.rows[v.id.i := StoredUser(NewUserRow(u))]
      && UserAt(v.id.i, t.rows[v.id.i]) == u.(id := v.id, lastname := Null, name := ColumnValue(TextColumn, u.name).value,
                                               email := ColumnValue(TextColumn, u.email).value,
                                               password := ColumnValue(TextColumn, u.password).value, rol := ColumnValue(IntColumn, u.rol).value)
  {
    if !UserWritable(NewUserRow(u)) then Err(Crash)
    else
      var (t, k) := Insert(users, StoredUser(NewUserRow(u)));
      Ok((t, u.(id := Int(k))))
  }

  /** The columns `update` sets can all take the user's values. */
  predicate UpdatableUser(u: User)
  {
    ColumnValue(TextColumn, u.name).Some? && ColumnValue(TextColumn, u.email).Some? && ColumnValue(IntColumn, u.rol).Some?
  }

  /**
   * `UserRepository.update`: sets name, email and rol of the row `WHERE id = %s`
   * finds, keeping its password and other columns. A value a column cannot
   * take, or an id the integer column cannot be compared with, makes the
   * statement raise; when no row matches, NotFound.
   */
  function UpdateUser(users: Table<UserRow>, u: User): (r: Result<(Table<UserRow>, User), Failure>)
    ensures r == Err(Crash) <==> !UpdatableUser(u) || IntColumnParam(u.id).DbError?
    ensures r.Ok? <==> UpdatableUser(u) && IntColumnParam(u.id).IntKey? && IntColumnParam(u.id).k in users.rows
    ensures r.Ok? ==>
      var k := IntColumnParam(u.id).k;
      var old_ := users.rows[k];
      r.value.1 == u
      && r.value.0.rows == users.rows[k := old_.(name := ColumnValue(TextColumn, u.name).value, email := ColumnValue(TextColumn, u.email).value,
                                                 rol := ColumnValue(IntColumn, u.rol).value)]
      && r.value.0.rows[k].password == old_.password
      && r.value.0.next == users.next
    ensures r.Err? && r != Err(Crash) ==> r.error == Raised(UserNotFound(u.id))
  {
    if !UpdatableUser(u) || IntColumnParam(u.id).DbError? then Err(Crash)
    else if IntColumnParam(u.id).IntKey? && IntColumnParam(u.id).k in users.rows then
      var k := IntColumnParam(u.id).k;
      var row := users.rows[k];
      Ok((Put(users, k, row.(name := ColumnValue(TextColumn, u.name).value, email := ColumnValue(TextColumn, u.email).value,
                             rol := ColumnValue(IntColumn, u.rol).value)), u))
    else Err(Raised(UserNotFound(u.id)))
  }

  /** `UserRepository.update_password`: only the password column of row `id` changes. */
  function UpdatePassword(users: Table<UserRow>, id: int, hashed: Value): (r: Result<Table<UserRow>, ApiError>)
    ensures r.Ok? <==> id in users.rows
    ensures r.Ok? ==> r.value.rows == users.rows[id := users.rows[id].(password := hashed)] && r.value.next == users.next
    ensures r.Err? ==> r.error == UserNotFound(Int(id))
  {
    if id in users.rows then Ok(Put(users, id, users.rows[id].(password := hashed)))
    else Err(UserNotFound(Int(id)))
  }

  /** `UserRepository.delete`: exactly row `id` disappears. */
  function DeleteUser(users: Table<UserRow>, id: int): (r: Result<Table<UserRow>, ApiError>)
    ensures r.Ok? <==> id in users.rows
    ensures r.Ok? ==> r.value.rows == users.rows - {id} && r.value.next == users.next
    ensures r.Err? ==> r.error == UserNotFound(Int(id))
  {
    if id in users.rows then Ok(Remove(users, id)) else Err(UserNotFound(Int(id)))
  }

  /**
   * A created user is found again by id with no last name and with what the
   * columns made of its fields: text unchanged, a number or boolean as its
   * text, a numeric text rol as its integer. A user whose fields already have
   * their columns' types reads back exactly as created.
   */
  lemma CreateThenFind(users: Table<UserRow>, u: User)
    requires Valid(users)
    ensures CreateUser(users, u).Ok? ==>
      var (t, v) := CreateUser(users, u).value;
      var found := FindUserById(t, v.id.i);
      found.Ok? && found.value.id == v.id && found.value.lastname == Null
      && found.value.name == ColumnValue(TextColumn, u.name).value && found.value.email == ColumnValue(TextColumn, u.email).value
      && found.value.password == ColumnValue(TextColumn, u.password).value && found.value.rol == ColumnValue(IntColumn, u.rol).value
      && (u.name.Str? && u.email.Str? && u.password.Str? && (u.rol.Int? || u.rol.Null?) ==> found.value == v.(lastname := Null))
  {
  }

  /** Updating the password and then reading the user back shows the new hash and every other field as before. */
  lemma UpdatePasswordThenFind(users: Table<UserRow>, id: int, hashed: Value)
    requires id in users.rows
    ensures UpdatePassword(users, id, hashed).Ok?
    ensures FindUserById(UpdatePassword(users, id, hashed).value, id)
      == Ok(FindUserById(users, id).value.(password := hashed))
  {
  }
}

=== FILE: user_routes.dfy ===
// The user-administration endpoints (backend/routes/user_routes.py): paging
// through users, creating, updating and deleting them, and assigning groups to
// professors through `"group".professor_id`. Password hashing is the parameter
// `hash`; the text search (`LIKE` on four lower-cased columns) is the parameter
// `matches`.

module UserRoutes {
  import opened Common
  import opened Tables
  import opened Errors
  import opened Schema

  /** The columns the user endpoints return: everything but the password. */
  function Listing(id: int, row: UserRow): (d: Dict)
    ensures d.Keys == {"id", "name", "lastname_f", "lastname_m", "email", "rol", "profesor_type"}
    ensures "password" !in d && d["id"] == Int(id)
  {
    map["id" := Int(id), "name" := row.name, "lastname_f" := row.lastnameF, "lastname_m" := row.lastnameM,
        "email" := row.email, "rol" := row.rol, "profesor_type" := row.profesorType]
  }

  // ---------------------------------------------------------------------
  // GET /api/usuarios

  datatype Page = Page(items: seq<int>, total: int, page: int, perPage: int, totalPages: int)

  function Min(a: int, b: int): int
  {
    if a <= b then a else b
  }

  /** `LIMIT limit OFFSET offset` over an ordered result. */
  function Window(ids: seq<int>, offset: nat, limit: nat): (w: seq<int>)
    ensures |w| <= limit
    ensures forall i :: 0 <= i < |w| ==> offset + i < |ids| && w[i] == ids[offset + i]
    ensures offset + limit <= |ids| ==> |w| == limit
    ensures offset < |ids| ==> |w| == Min(limit, |ids| - offset)
  {
    if offset >= |ids| then [] else ids[offset..Min(offset + limit, |ids|)]
  }

  /**
   * One page of the users the search matches, ordered by id: `LIMIT per_page
   * OFFSET (page - 1) * per_page`, and `total_pages = (total + per_page - 1) // per_page`.
   * `None` is the 500 answer: a negative limit or offset makes the query fail, and
   * `per_page = 0` divides by zero.
   */
  function ListUsuarios(users: Table<UserRow>, matches: UserRow -> bool, page: int, perPage: int): (r: Option<Page>)
    ensures r.Some? <==> perPage > 0 && page >= 1
    ensures r.Some? ==>
      var ids := IdsWhere(users.rows, matches);
      r.value.total == |ids| && r.value.page == page && r.value.perPage == perPage
      && r.value.totalPages * perPage >= r.value.total && (r.value.totalPages - 1) * perPage < r.value.total
      && r.value.items == Window(ids, PageOffset(page, perPage), perPage)
  {
    if perPage <= 0 || page < 1 then None
    else
      var ids := IdsWhere(users.rows, matches);
      Some(Page(Window(ids, PageOffset(page, perPage), perPage), |ids|, page, perPage, TotalPages(|ids|, perPage)))
  }

  /** `offset = (page - 1) * per_page`. */
  function PageOffset(page: int, perPage: int): (offset: nat)
    requires page >= 1 && perPage > 0
    ensures offset == (page - 1) * perPage
  {
    (page - 1) * perPage
  }

  /** `(total + per_page - 1) // per_page`: the fewest pages of `per_page` that hold `total` items. */
  function TotalPages(total: nat, perPage: int): (n: int)
    requires perPage > 0
    ensures n * perPage >= total && (n - 1) * perPage < total
  {
    CeilDivision(total, perPage);
    PyFloorDiv(total + perPage - 1, perPage)
  }

  /** The answer of `GET /api/usuarios`. */
  function ListUsuariosResponse(users: Table<UserRow>, r: Option<Page>): (resp: Response)
    requires r.Some? ==> forall i :: 0 <= i < |r.value.items| ==> r.value.items[i] in users.rows
    ensures r.None? <==> resp.status == 500
    ensures r.Some? ==>
      resp.status == 200 && "usuarios" in resp.body && resp.body["usuarios"].List?
      && |resp.body["usuarios"].items| == |r.value.items|
      && forall i :: 0 <= i < |r.value.items| ==>
           resp.body["usuarios"].items[i] == Obj(Listing(r.value.items[i], users.rows[r.value.items[i]]))
  {
    match r
    case None => Answer(500, "Error al obtener usuarios")
    case Some(p) =>
      Response(200, map[
        "usuarios" := List(seq(|p.items|, i requires 0 <= i < |p.items| => Obj(Listing(p.items[i], users.rows[p.items[i]])))),
        "pagination" := Obj(map["total" := Int(p.total), "page" := Int(p.page), "per_page" := Int(p.perPage),
                                "total_pages" := Int(p.totalPages)])])
  }

  /** Rank `i` lies in the block of `per_page` ranks its quotient names. */
  lemma RankInBlock(i: nat, perPage: int)
    requires perPage > 0
    ensures (i / perPage) * perPage <= i < (i / perPage) * perPage + perPage
    ensures i - (i / perPage) * perPage == i % perPage
  {
  }

  /** Products with a positive factor keep the order of the other factor. */
  lemma MulCancel(a: int, b: int, c: int)
    requires c > 0 && a * c < b * c
    ensures a < b
  {
  }

  /**
   * The user at rank `i` of the matches is item `i % per_page` of page
   * `i / per_page + 1`, and that page number is at most `total_pages`.
   */
  predicate OnItsPage(users: Table<UserRow>, matches: UserRow -> bool, perPage: int, i: int)
  {
    var ids := IdsWhere(users.rows, matches);
    perPage > 0 && 0 <= i < |ids|
    && var r := ListUsuarios(users, matches, i / perPage + 1, perPage);
    r.Some? && i % perPage < |r.value.items| && r.value.items[i % perPage] == ids[i]
    && i / perPage + 1 <= r.value.totalPages
  }

  /** Every matching user is on exactly the page its rank selects. */
  lemma EveryMatchIsOnItsPage(users: Table<UserRow>, matches: UserRow -> bool, perPage: int, i: int)
    requires perPage > 0
    requires 0 <= i < |IdsWhere(users.rows, matches)|
    ensures OnItsPage(users, matches, perPage, i)
  {
    var ids := IdsWhere(users.rows, matches);
    var page := i / perPage + 1;
    var slot := i % perPage;
    var r := ListUsuarios(users, matches, page, perPage);
    assert r.Some?;
    var items := r.value.items;
    assert items == Window(ids, PageOffset(page, perPage), perPage);
    WindowHoldsRank(ids, perPage, i);
    assert slot < |items| && items[slot] == ids[i];
    RankPageBound(i, perPage, |ids|, r.value.totalPages);
    assert page <= r.value.totalPages;
  }

  /** A rank below the total falls on a page no later than the last. */
  lemma RankPageBound(i: int, perPage: int, total: int, totalPages: int)
    requires perPage > 0 && 0 <= i < total && totalPages * perPage >= total
    ensures i / perPage + 1 <= totalPages
  {
    RankInBlock(i, perPage);
    MulCancel(i / perPage, totalPages, perPage);
  }

  /** The window starting at rank `i`'s block holds rank `i` at its offset within the block. */
  lemma WindowHoldsRank(ids: seq<int>, perPage: int, i: int)
    requires perPage > 0 && 0 <= i < |ids|
    ensures i % perPage < |Window(ids, PageOffset(i / perPage + 1, perPage), perPage)|
    ensures Window(ids, PageOffset(i / perPage + 1, perPage), perPage)[i % perPage] == ids[i]
  {
    var offset := PageOffset(i / perPage + 1, perPage);
    RankInBlock(i, perPage);
    assert offset < |ids|;
    var w := Window(ids, offset, perPage);
    assert |w| == Min(perPage, |ids| - offset);
    assert w[i % perPage] == ids[offset + i % perPage];
  }

  // ---------------------------------------------------------------------
  // GET /api/usuarios/<id>

  function GetUsuario(users: Table<UserRow>, id: int): (r: Response)
    ensures id in users.rows <==> r.status == 200
    ensures id in users.rows ==> r.body == Listing(id, users.rows[id])
    ensures id !in users.rows ==> r == Answer(404, "Usuario no encontrado")
  {
    if id in users.rows then Response(200, Listing(id, users.rows[id])) else Answer(404, "Usuario no encontrado")
  }

  // ---------------------------------------------------------------------
  // POST /api/usuarios

  const RequiredForCreate: seq<string> := ["name", "lastname_f", "email", "password", "rol"]

  /** A key is present with a truthy value. */
  predicate Given(data: Dict, k: string)
  {
    k in data && Truthy(data[k])
  }

  /** The first of `fields` that is absent or falsy. */
  function FirstMissing(fields: seq<string>, data: Dict): (r: Option<string>)
    ensures r.None? <==> forall i :: 0 <= i < |fields| ==> Given(data, fields[i])
    ensures r.Some? ==> exists i :: 0 <= i < |fields| && fields[i] == r.value && !Given(data, fields[i])
                          && forall j :: 0 <= j < i ==> Given(data, fields[j])
  {
    if |fields| == 0 then None
    else if !Given(data, fields[0]) then Some(fields[0])
    else
      var r := FirstMissing(fields[1..], data);
      assert forall i :: 1 <= i < |fields| ==> fields[i] == fields[1..][i - 1];
      if r.Some? then
        var i :| 0 <= i < |fields[1..]| && fields[1..][i] == r.value && !Given(data, fields[1..][i])
                 && forall j :: 0 <= j < i ==> Given(data, fields[1..][j]);
        assert fields[i + 1] == r.value;
        r
      else r
  }

  /** Every required field of a new user is present and truthy. */
  predicate CreateFieldsGiven(data: Dict)
  {
    Given(data, "name") && Given(data, "lastname_f") && Given(data, "email") && Given(data, "password") && Given(data, "rol")
  }

  /** The first required field of a new user that is absent or falsy, in the order the endpoint checks them. */
  function MissingForCreate(data: Dict): (r: Option<string>)
    ensures r.None? <==> CreateFieldsGiven(data)
    ensures r.Some? ==> r.value in RequiredForCreate && !Given(data, r.value)
    ensures r == FirstMissing(RequiredForCreate, data)
  {
    var r := FirstMissing(RequiredForCreate, data);
    assert r.None? ==> forall i :: 0 <= i < |RequiredForCreate| ==> Given(data, RequiredForCreate[i]);
    assert r.None? ==>
      Given(data, RequiredForCreate[0]) && Given(data, RequiredForCreate[1])
      && Given(data, RequiredForCreate[2]) && Given(data, RequiredForCreate[3]) && Given(data, RequiredForCreate[4]);
    r
  }

  /** Some user row other than `id` holds `email`. */
  predicate EmailTaken(users: Table<UserRow>, email: Value, except: Option<int>)
  {
    exists k :: k in users.rows && TextEq(users.rows[k].email, email) && except != Some(k)
  }

  /** The row `create_usuario` inserts. */
  function CreatedRow(data: Dict, hash: string -> string): (row: UserRow)
    requires CreateFieldsGiven(data) && data["password"].Str?
    ensures row.name == data["name"] && row.lastnameF == data["lastname_f"] && row.email == data["email"]
    ensures row.rol == data["rol"] && row.password == Str(hash(data["password"].s))
    ensures row.lastnameM == Get(data, "lastname_m", Str(""))
    ensures row.profesorType == Get(data, "profesor_type", Str("titular"))
  {
    UserRow(data["name"], data["lastname_f"], Get(data, "lastname_m", Str("")), data["email"],
            Str(hash(data["password"].s)), data["rol"], Get(data, "profesor_type", Str("titular")))
  }

  /**
   * `create_usuario`: 400 naming the first absent or falsy required field, 400
   * for an email already registered, 500 when there is no body, the password
   * is not text, the email lookup raises or a column refuses its value;
   * otherwise one new row holding what the columns make of the values,
   * answered with 201 and the stored row without its password. Nothing is
   * written unless the answer is 201.
   */
  function CreateUsuario(users: Table<UserRow>, hash: string -> string, data: Option<Dict>): (r: (Table<UserRow>, Response))
    requires Valid(users)
    ensures Valid(r.0)
    ensures r.1.status != 201 ==> r.0 == users
    ensures data.None? ==> r.1 == Answer(500, "Error al crear usuario")
    ensures data.Some? && MissingForCreate(data.value).Some? ==>
      r.1 == Answer(400, "El campo " + MissingForCreate(data.value).value + " es requerido")
    ensures data.Some? && MissingForCreate(data.value).None? ==>
      (!data.value["password"].Str? || TextQueryFails(data.value["email"]) ==> r.1 == Answer(500, "Error al crear usuario"))
      && (data.value["password"].Str? && EmailTaken(users, data.value["email"], None) ==>
          r.1 == Answer(400, "El email ya está registrado"))
      && (data.value["password"].Str? && !TextQueryFails(data.value["email"]) && !EmailTaken(users, data.value["email"], None) ==>
          (!UserWritable(CreatedRow(data.value, hash)) ==> r.1 == Answer(500, "Error al crear usuario"))
          && (UserWritable(CreatedRow(data.value, hash)) ==>
              r.1.status == 201
              && exists k :: k !in users.rows && r.0.rows == users.rows[k := StoredUser(CreatedRow(data.value, hash))]
                             && r.1.body == Listing(k, StoredUser(CreatedRow(data.value, hash)))))
  {
    if data.None? then (users, Answer(500, "Error al crear usuario"))
    else
      var d := data.value;
      match MissingForCreate(d)
      case Some(f) => (users, Answer(400, "El campo " + f + " es requerido"))
      case None =>
        if !d["password"].Str? || TextQueryFails(d["email"]) then (users, Answer(500, "Error al crear usuario"))
        else if EmailTaken(users, d["email"], None) then
          (users, Answer(400, "El email ya está registrado"))
        else if !UserWritable(CreatedRow(d, hash)) then (users, Answer(500, "Error al crear usuario"))
        else
          var row := StoredUser(CreatedRow(d, hash));
          var (t, k) := Insert(users, row);
          (t, Response(201, Listing(k, row)))
  }

  /**
   * The listed column `key` shows what `column` makes of the value sent under
   * `key` when the request set it, and `current` when it did not.
   */
  predicate ShowsColumn(body: Dict, key: string, given: bool, column: ColumnType, d: Dict, current: Value)
  {
    (given ==> ColumnValue(column, Get(d, key, Null)) == Some(Get(body, key, Null)))
    && (!given ==> Get(body, key, Null) == current)
  }

  /**
   * After a 201 the new user reads back (with 200) exactly as the answer showed it, with
   * each column holding what it made of the value sent (text columns show
   * numbers and booleans as text, `rol` a numeric text as its integer), and
   * every other user reads as before.
   */
  lemma CreateUsuarioThenGet(users: Table<UserRow>, hash: string -> string, data: Option<Dict>)
    requires Valid(users)
    ensures var (t, resp) := CreateUsuario(users, hash, data);
      resp.status == 201 ==>
      data.Some? && CreateFieldsGiven(data.value)
      && (exists k :: k !in users.rows && GetUsuario(t, k) == Response(200, resp.body))
      && ShowsColumn(resp.body, "name", true, TextColumn, data.value, Null)
      && ShowsColumn(resp.body, "lastname_f", true, TextColumn, data.value, Null)
      && ShowsColumn(resp.body, "lastname_m", "lastname_m" in data.value, TextColumn, data.value, Str(""))
      && ShowsColumn(resp.body, "email", true, TextColumn, data.value, Null)
      && ShowsColumn(resp.body, "rol", true, IntColumn, data.value, Null)
      && ShowsColumn(resp.body, "profesor_type", "profesor_type" in data.value, TextColumn, data.value, Str("titular"))
      && (forall j :: j in users.rows ==> GetUsuario(t, j) == GetUsuario(users, j))
  {
    var (t, resp) := CreateUsuario(users, hash, data);
    if resp.status == 201 {
      assert data.Some?;
      var d := data.value;
      assert MissingForCreate(d).None?;
      assert d["password"].Str? && !TextQueryFails(d["email"]) && !EmailTaken(users, d["email"], None);
      var created := CreatedRow(d, hash);
      assert UserWritable(created);
      var row := StoredUser(created);
      var k :| k !in users.rows && t.rows == users.rows[k := row] && resp.body == Listing(k, row);
      assert GetUsuario(t, k) == Response(200, resp.body);
      assert ColumnValue(TextColumn, Str("")) == Some(Str(""));
      assert ColumnValue(TextColumn, Str("titular")) == Some(Str("titular"));
    }
  }

  // ---------------------------------------------------------------------
  // PUT /api/usuarios/<id>

  /** The update applies at least one column. */
  predicate AnyUpdate(data: Dict)
  {
    Given(data, "name") || Given(data, "lastname_f") || "lastname_m" in data || Given(data, "email")
    || Given(data, "password") || Given(data, "rol") || "profesor_type" in data
  }

  /**
   * The row after `update_usuario`: name, lastname_f, email, password and rol
   * change only when given a truthy value, lastname_m and profesor_type
   * whenever their key is present, each to what its column makes of the value;
   * nothing else changes. `None` when a column refuses its value, which makes
   * the `UPDATE` raise.
   */
  function UpdatedRow(row: UserRow, data: Dict, hash: string -> string): (u: Option<UserRow>)
    requires Given(data, "password") ==> data["password"].Str?
    ensures u.Some? <==>
      (Given(data, "name") ==> ColumnValue(TextColumn, data["name"]).Some?)
      && (Given(data, "lastname_f") ==> ColumnValue(TextColumn, data["lastname_f"]).Some?)
      && ("lastname_m" in data ==> ColumnValue(TextColumn, data["lastname_m"]).Some?)
      && (Given(data, "email") ==> ColumnValue(TextColumn, data["email"]).Some?)
      && (Given(data, "rol") ==> ColumnValue(IntColumn, data["rol"]).Some?)
      && ("profesor_type" in data ==> ColumnValue(TextColumn, data["profesor_type"]).Some?)
    ensures u.Some? ==>
      u.value.name == (if Given(data, "name") then ColumnValue(TextColumn, data["name"]).value else row.name)
      && u.value.lastnameF == (if Given(data, "lastname_f") then ColumnValue(TextColumn, data["lastname_f"]).value else row.lastnameF)
      && u.value.lastnameM == (if "lastname_m" in data then ColumnValue(TextColumn, data["lastname_m"]).value else row.lastnameM)
      && u.value.email == (if Given(data, "email") then ColumnValue(TextColumn, data["email"]).value else row.email)
      && u.value.password == (if Given(data, "password") then Str(hash(data["password"].s)) else row.password)
      && u.value.rol == (if Given(data, "rol") then ColumnValue(IntColumn, data["rol"]).value else row.rol)
      && u.value.profesorType == (if "profesor_type" in data then ColumnValue(TextColumn, data["profesor_type"]).value else row.profesorType)
    ensures !AnyUpdate(data) ==> u == Some(row)
  {
    var name := SetCell(TextColumn, Given(data, "name"), Get(data, "name", Null), row.name);
    var lastnameF := SetCell(TextColumn, Given(data, "lastname_f"), Get(data, "lastname_f", Null), row.lastnameF);
    var lastnameM := SetCell(TextColumn, "lastname_m" in data, Get(data, "lastname_m", Null), row.lastnameM);
    var email := SetCell(TextColumn, Given(data, "email"), Get(data, "email", Null), row.email);
    var rol := SetCell(IntColumn, Given(data, "rol"), Get(data, "rol", Null), row.rol);
    var profesorType := SetCell(TextColumn, "profesor_type" in data, Get(data, "profesor_type", Null), row.profesorType);
    if name.Some? && lastnameF.Some? && lastnameM.Some? && email.Some? && rol.Some? && profesorType.Some? then
      Some(UserRow(name.value, lastnameF.value, lastnameM.value, email.value,
                   if Given(data, "password") then Str(hash(data["password"].s)) else row.password,
                   rol.value, profesorType.value))
    else None
  }

  /**
   * `update_usuario`: 404 for an unknown id, 400 when the new email belongs to
   * another user or when no column applies, 500 without a body, for an email
   * the lookup cannot compare with a text column, for a password that is not
   * text, or when a column refuses its value; otherwise the row becomes
   * `UpdatedRow` and is answered without its password. Nothing is written
   * unless the answer is 200.
   */
  function UpdateUsuario(users: Table<UserRow>, hash: string -> string, id: int, data: Option<Dict>): (r: (Table<UserRow>, Response))
    ensures r.1.status != 200 ==> r.0 == users
    ensures id !in users.rows ==> r.1 == Answer(404, "Usuario no encontrado")
    ensures id in users.rows && data.None? ==> r.1 == Answer(500, "Error al actualizar usuario")
    ensures id in users.rows && data.Some? && Given(data.value, "email") && TextQueryFails(data.value["email"]) ==>
      r.1 == Answer(500, "Error al actualizar usuario")
    ensures id in users.rows && data.Some? && !(Given(data.value, "email") && TextQueryFails(data.value["email"])) ==>
      var d := data.value;
      (Given(d, "email") && EmailTaken(users, d["email"], Some(id)) ==>
        r.1 == Answer(400, "El email ya está registrado para otro usuario"))
      && (!(Given(d, "email") && EmailTaken(users, d["email"], Some(id))) ==>
        (Given(d, "password") && !d["password"].Str? ==> r.1 == Answer(500, "Error al actualizar usuario"))
        && (!(Given(d, "password") && !d["password"].Str?) ==>
            (!AnyUpdate(d) ==> r.1 == Answer(400, "No se proporcionaron campos para actualizar"))
            && (AnyUpdate(d) && UpdatedRow(users.rows[id], d, hash).None? ==> r.1 == Answer(500, "Error al actualizar usuario"))
            && (AnyUpdate(d) && UpdatedRow(users.rows[id], d, hash).Some? ==>
                r.0.rows == users.rows[id := UpdatedRow(users.rows[id], d, hash).value] && r.0.next == users.next
                && r.1 == Response(200, Listing(id, UpdatedRow(users.rows[id], d, hash).value)))))
  {
    if id !in users.rows then (users, Answer(404, "Usuario no encontrado"))
    else if data.None? then (users, Answer(500, "Error al actualizar usuario"))
    else
      var d := data.value;
      if Given(d, "email") && TextQueryFails(d["email"]) then (users, Answer(500, "Error al actualizar usuario"))
      else if Given(d, "email") && EmailTaken(users, d["email"], Some(id)) then
        (users, Answer(400, "El email ya está registrado para otro usuario"))
      else if Given(d, "password") && !d["password"].Str? then (users, Answer(500, "Error al actualizar usuario"))
      else if !AnyUpdate(d) then (users, Answer(400, "No se proporcionaron campos para actualizar"))
      else
        match UpdatedRow(users.rows[id], d, hash)
        case None => (users, Answer(500, "Error al actualizar usuario"))
        case Some(row) => (Put(users, id, row), Response(200, Listing(id, row)))
  }

  /**
   * After a 200 the user reads back exactly as the answer showed it: every
   * column the request set shows what the column made of the value sent, every
   * other column keeps its old value, and every other user reads as before.
   */
  lemma UpdateUsuarioThenGet(users: Table<UserRow>, hash: string -> string, id: int, data: Option<Dict>)
    ensures var (t, resp) := UpdateUsuario(users, hash, id, data);
      resp.status == 200 ==>
      id in users.rows && data.Some?
      && GetUsuario(t, id) == resp
      && ShowsColumn(resp.body, "name", Given(data.value, "name"), TextColumn, data.value, users.rows[id].name)
      && ShowsColumn(resp.body, "lastname_f", Given(data.value, "lastname_f"), TextColumn, data.value, users.rows[id].lastnameF)
      && ShowsColumn(resp.body, "lastname_m", "lastname_m" in data.value, TextColumn, data.value, users.rows[id].lastnameM)
      && ShowsColumn(resp.body, "email", Given(data.value, "email"), TextColumn, data.value, users.rows[id].email)
      && ShowsColumn(resp.body, "rol", Given(data.value, "rol"), IntColumn, data.value, users.rows[id].rol)
      && ShowsColumn(resp.body, "profesor_type", "profesor_type" in data.value, TextColumn, data.value, users.rows[id].profesorType)
      && (forall j :: j != id ==> GetUsuario(t, j) == GetUsuario(users, j))
  {
    var (t, resp) := UpdateUsuario(users, hash, id, data);
    if resp.status == 200 {
      assert id in users.rows && data.Some?;
      var d := data.value;
      assert !(Given(d, "email") && EmailTaken(users, d["email"], Some(id)));
      assert AnyUpdate(d) && UpdatedRow(users.rows[id], d, hash).Some?;
    }
  }

  // ---------------------------------------------------------------------
  // DELETE /api/usuarios/<id>

  /** `delete_usuario`: 404 and no change for an unknown id; otherwise exactly that row disappears. */
  function DeleteUsuario(users: Table<UserRow>, id: int): (r: (Table<UserRow>, Response))
    ensures id !in users.rows ==> r == (users, Answer(404, "Usuario no encontrado"))
    ensures id in users.rows ==>
      r.0.rows == users.rows - {id} && r.0.next == users.next
      && r.1 == Response(200, map["message" := Str("Usuario eliminado correctamente"), "id" := Int(id)])
  {
    if id !in users.rows then (users, Answer(404, "Usuario no encontrado"))
    else (Remove(users, id), Response(200, map["message" := Str("Usuario eliminado correctamente"), "id" := Int(id)]))
  }

  /** Deleting twice answers 404 the second time and changes nothing more. */
  lemma DeleteTwice(users: Table<UserRow>, id: int)
    requires id in users.rows
    ensures var once := DeleteUsuario(users, id).0;
      DeleteUsuario(once, id) == (once, Answer(404, "Usuario no encontrado"))
  {
  }

  // ---------------------------------------------------------------------
  // Assigning groups to professors

  /** The `grupo` object an assignment answers with. */
  function GrupoInfo(db: School, g: int): (d: Dict)
    requires g in db.groups.rows
    ensures d.Keys == {"id", "grado", "class_id", "class_name"}
    ensures d["id"] == Int(g) && d["grado"] == db.groups.rows[g].grade && d["class_id"] == db.groups.rows[g].classId
    ensures var c := db.groups.rows[g].classId;
      d["class_name"] == if c.Int? && c.i in db.classes.rows then db.classes.rows[c.i].name else Null
  {
    var row := db.groups.rows[g];
    var c := row.classId;
    map["id" := Int(g), "grado" := row.grade, "class_id" := c,
        "class_name" := if c.Int? && c.i in db.classes.rows then db.classes.rows[c.i].name else Null]
  }

  function Assigned(db: School, g: int): Response
    requires g in db.groups.rows
  {
    Response(200, map["message" := Str("Materia asignada correctamente"), "grupo" := Obj(GrupoInfo(db, g))])
  }

  /**
   * `asignar_materia`: with a non-null `group_id` the existing group gets the
   * professor; otherwise, with a `class_id`, a new group of grade `'1'` is created
   * for the professor; with neither key the answer is 400, and with only a null
   * `group_id` nothing changes and the answer is 200. The database changes only
   * in those two success cases.
   */
  function AsignarMateria(db: School, prof: int, data: Option<Dict>): (r: (School, Response))
    requires ValidSchool(db)
    ensures ValidSchool(r.0)
    ensures r.0.users == db.users && r.0.classes == db.classes && r.0.students == db.students
    ensures r.0.notes == db.notes && r.0.attendance == db.attendance && r.0.active == db.active
    ensures r.1.status != 200 ==> r.0 == db
    ensures data.None? ==> r.1 == Answer(500, "Error al asignar materia")
    ensures data.Some? && "class_id" !in data.value && "group_id" !in data.value ==>
      r.1 == Answer(400, "Se requiere el ID de la clase o del grupo")
    ensures data.Some? && ("class_id" in data.value || "group_id" in data.value) && prof !in db.users.rows ==>
      r.1 == Answer(404, "Profesor no encontrado")
    ensures data.Some? && prof in db.users.rows && Get(data.value, "group_id", Null) != Null ==>
      match IntColumnParam(data.value["group_id"])
      case DbError => r.1 == Answer(500, "Error al asignar materia")
      case NoMatch => r.1 == Answer(404, "Grupo no encontrado")
      case IntKey(g) =>
        (g !in db.groups.rows ==> r.1 == Answer(404, "Grupo no encontrado"))
        && (g in db.groups.rows ==>
            r.0 == db.(groups := Put(db.groups, g, db.groups.rows[g].(professorId := Int(prof))))
            && r.1 == Assigned(r.0, g))
    ensures data.Some? && prof in db.users.rows && Get(data.value, "group_id", Null) == Null && "class_id" in data.value ==>
      match IntColumnParam(data.value["class_id"])
      case DbError => r.1 == Answer(500, "Error al asignar materia")
      case NoMatch => r.1 == Answer(404, "Clase no encontrada")
      case IntKey(c) =>
        (c !in db.classes.rows ==> r.1 == Answer(404, "Clase no encontrada"))
        && (c in db.classes.rows ==>
            exists g :: g !in db.groups.rows
              && r.0 == db.(groups := Table(db.groups.rows[g := GroupRow(Str("1"), Int(c), Int(prof))], r.0.groups.next))
              && r.1 == Assigned(r.0, g))
    ensures data.Some? && prof in db.users.rows && "group_id" in data.value && data.value["group_id"] == Null
            && "class_id" !in data.value ==>
      r == (db, Answer(200, "Materia asignada correctamente"))
  {
    if data.None? then (db, Answer(500, "Error al asignar materia"))
    else
      var d := data.value;
      if "class_id" !in d && "group_id" !in d then (db, Answer(400, "Se requiere el ID de la clase o del grupo"))
      else if prof !in db.users.rows then (db, Answer(404, "Profesor no encontrado"))
      else if "group_id" in d && d["group_id"] != Null then
        match IntColumnParam(d["group_id"])
        case DbError => (db, Answer(500, "Error al asignar materia"))
        case NoMatch => (db, Answer(404, "Grupo no encontrado"))
        case IntKey(g) =>
          if g !in db.groups.rows then (db, Answer(404, "Grupo no encontrado"))
          else
            var db' := db.(groups := Put(db.groups, g, db.groups.rows[g].(professorId := Int(prof))));
            (db', Assigned(db', g))
      else if "class_id" in d then
        match IntColumnParam(d["class_id"])
        case DbError => (db, Answer(500, "Error al asignar materia"))
        case NoMatch => (db, Answer(404, "Clase no encontrada"))
        case IntKey(c) =>
          if c !in db.classes.rows then (db, Answer(404, "Clase no encontrada"))
          else
            var (groups', g) := Insert(db.groups, GroupRow(Str("1"), Int(c), Int(prof)));
            var db' := db.(groups := groups');
            (db', Assigned(db', g))
      else (db, Answer(200, "Materia asignada correctamente"))
  }

  /**
   * `desasignar_materia`: succeeds only when the group is currently assigned to
   * this professor, and then sets its professor to NULL; every other answer
   * leaves the database as it was.
   */
  function DesasignarMateria(db: School, prof: int, data: Option<Dict>): (r: (School, Response))
    requires ValidSchool(db)
    ensures ValidSchool(r.0)
    ensures r.1.status != 200 ==> r.0 == db
    ensures data.None? ==> r.1 == Answer(500, "Error al desasignar materia")
    ensures data.Some? && "group_id" !in data.value ==> r.1 == Answer(400, "Se requiere el ID del grupo")
    ensures data.Some? && "group_id" in data.value && prof !in db.users.rows ==> r.1 == Answer(404, "Profesor no encontrado")
    ensures r.1.status == 200 <==>
      data.Some? && "group_id" in data.value && prof in db.users.rows
      && IntColumnParam(data.value["group_id"]).IntKey?
      && var g := IntColumnParam(data.value["group_id"]).k;
         g in db.groups.rows && db.groups.rows[g].professorId == Int(prof)
    ensures r.1.status == 200 ==>
      var g := IntColumnParam(data.value["group_id"]).k;
      r.0 == db.(groups := Put(db.groups, g, db.groups.rows[g].(professorId := Null)))
      && r.1 == Answer(200, "Materia desasignada correctamente")
  {
    if data.None? then (db, Answer(500, "Error al desasignar materia"))
    else if "group_id" !in data.value then (db, Answer(400, "Se requiere el ID del grupo"))
    else if prof !in db.users.rows then (db, Answer(404, "Profesor no encontrado"))
    else
      match IntColumnParam(data.value["group_id"])
      case DbError => (db, Answer(500, "Error al desasignar materia"))
      case NoMatch => (db, Answer(404, "Grupo no encontrado o no asignado a este profesor"))
      case IntKey(g) =>
        if g in db.groups.rows && SqlEq(db.groups.rows[g].professorId, Int(prof)) then
          (db.(groups := Put(db.groups, g, db.groups.rows[g].(professorId := Null))),
           Answer(200, "Materia desasignada correctamente"))
        else (db, Answer(404, "Grupo no encontrado o no asignado a este profesor"))
  }

  /** Assigning an existing group and then unassigning it restores the database. */
  lemma AssignThenUnassign(db: School, prof: int, g: int)
    requires ValidSchool(db)
    requires prof in db.users.rows && g in db.groups.rows && db.groups.rows[g].professorId == Null
    ensures var (db1, r1) := AsignarMateria(db, prof, Some(map["group_id" := Int(g)]));
      r1.status == 200
      && DesasignarMateria(db1, prof, Some(map["group_id" := Int(g)])) == (db, Answer(200, "Materia desasignada correctamente"))
  {
    var db1 := AsignarMateria(db, prof, Some(map["group_id" := Int(g)])).0;
    assert db1.groups.rows[g].professorId == Int(prof);
    var db2 := DesasignarMateria(db1, prof, Some(map["group_id" := Int(g)])).0;
    assert db2.groups.rows == db.groups.rows;
  }

  // ---------------------------------------------------------------------
  // GET /api/usuarios/materias-disponibles

  /** One entry of the available-subjects list; `groupId` is `None` for a class without groups. */
  datatype Materia = Materia(classId: int, className: Value, groupId: Option<int>, grado: Value)

  function MateriaToDict(m: Materia): (d: Dict)
    ensures d.Keys == {"class_id", "class_name", "group_id", "grado"}
    ensures d["group_id"] == (if m.groupId.Some? then Int(m.groupId.value) else Null)
  {
    map["class_id" := Int(m.classId), "class_name" := m.className,
        "group_id" := (if m.groupId.Some? then Int(m.groupId.value) else Null), "grado" := m.grado]
  }

  /** The group row belongs to class `c` under `c.id = g.class_id`. */
  predicate InClass(row: GroupRow, c: int)
  {
    row.classId == Int(c)
  }

  predicate HasGroups(db: School, c: int)
  {
    exists g :: g in db.groups.rows && InClass(db.groups.rows[g], c)
  }

  /** A group of class `c` with no professor. */
  predicate Unassigned(row: GroupRow, c: int)
  {
    InClass(row, c) && row.professorId == Null
  }

  /** The entry for an unassigned group `g` of class `c`; a falsy grade shows as `"N/A"`. */
  function GroupEntry(db: School, c: int, g: int): (m: Materia)
    requires c in db.classes.rows && g in db.groups.rows
    ensures m.classId == c && m.className == db.classes.rows[c].name && m.groupId == Some(g)
    ensures m.grado == if Truthy(db.groups.rows[g].grade) then db.groups.rows[g].grade else Str("N/A")
  {
    var grade := db.groups.rows[g].grade;
    Materia(c, db.classes.rows[c].name, Some(g), if Truthy(grade) then grade else Str("N/A"))
  }

  function GroupEntries(db: School, c: int, gs: seq<int>): (es: seq<Materia>)
    requires c in db.classes.rows && forall i :: 0 <= i < |gs| ==> gs[i] in db.groups.rows
    ensures |es| == |gs| && forall i :: 0 <= i < |gs| ==> es[i] == GroupEntry(db, c, gs[i])
  {
    seq(|gs|, i requires 0 <= i < |gs| => GroupEntry(db, c, gs[i]))
  }

  /** The ids of the unassigned groups of class `c`, ascending. */
  function UnassignedOf(db: School, c: int): (gs: seq<int>)
    ensures forall i :: 0 <= i < |gs| ==> gs[i] in db.groups.rows && Unassigned(db.groups.rows[gs[i]], c)
    ensures forall g :: g in db.groups.rows && Unassigned(db.groups.rows[g], c) ==> g in gs
  {
    IdsWhere(db.groups.rows, (row: GroupRow) => Unassigned(row, c))
  }

  /** The entries the `LEFT JOIN` yields for class `c`: one empty entry when it has no groups, else its unassigned groups. */
  function EntriesFor(db: School, c: int): (es: seq<Materia>)
    requires c in db.classes.rows
    ensures !HasGroups(db, c) ==> es == [Materia(c, db.classes.rows[c].name, None, Str("N/A"))]
    ensures HasGroups(db, c) ==> es == GroupEntries(db, c, UnassignedOf(db, c))
    ensures forall i :: 0 <= i < |es| ==> es[i].classId == c && (es[i].groupId.None? <==> !HasGroups(db, c))
  {
    if !HasGroups(db, c) then [Materia(c, db.classes.rows[c].name, None, Str("N/A"))]
    else GroupEntries(db, c, UnassignedOf(db, c))
  }

  /** Which groups the entries of class `c` name: exactly its unassigned groups. */
  lemma EntriesForGroups(db: School, c: int, g: int)
    requires c in db.classes.rows
    ensures (exists i :: 0 <= i < |EntriesFor(db, c)| && EntriesFor(db, c)[i].groupId == Some(g)) <==>
      g in db.groups.rows && Unassigned(db.groups.rows[g], c)
  {
    var es := EntriesFor(db, c);
    if g in db.groups.rows && Unassigned(db.groups.rows[g], c) {
      assert HasGroups(db, c);
      var gs := UnassignedOf(db, c);
      assert g in gs;
      var i :| 0 <= i < |gs| && gs[i] == g;
      assert es[i].groupId == Some(g);
    }
  }

  function Flatten<T>(xss: seq<seq<T>>): (r: seq<T>)
  {
    if |xss| == 0 then [] else xss[0] + Flatten(xss[1..])
  }

  lemma {:induction false} FlattenMember<T>(xss: seq<seq<T>>, x: T)
    ensures x in Flatten(xss) <==> exists i :: 0 <= i < |xss| && x in xss[i]
  {
    if |xss| > 0 {
      FlattenMember(xss[1..], x);
      assert forall i :: 1 <= i < |xss| ==> xss[i] == xss[1..][i - 1];
      if x in Flatten(xss[1..]) {
        var i :| 0 <= i < |xss[1..]| && x in xss[1..][i];
        assert x in xss[i + 1];
      }
    }
  }

  /**
   * `get_materias_disponibles`: for each class (ascending id), one entry without
   * a group when the class has no groups, else one entry per unassigned group;
   * a missing grade shows as `"N/A"`.
   */
  function MateriasDisponibles(db: School): (ms: seq<Materia>)
  {
    Flatten(ClassLists(db))
  }

  /** The entries of each class, classes by ascending id. */
  function ClassLists(db: School): seq<seq<Materia>>
  {
    var cs := Sorted(db.classes.rows.Keys);
    seq(|cs|, i requires 0 <= i < |cs| => EntriesFor(db, cs[i]))
  }

  /**
   * A group is listed as available exactly when it exists, its class exists and
   * it has no professor.
   */
  lemma AvailableGroupIff(db: School, g: int)
    ensures (exists m :: m in MateriasDisponibles(db) && m.groupId == Some(g)) <==>
      g in db.groups.rows && db.groups.rows[g].professorId == Null
      && db.groups.rows[g].classId.Int? && db.groups.rows[g].classId.i in db.classes.rows
  {
    if exists m :: m in MateriasDisponibles(db) && m.groupId == Some(g) {
      var m :| m in MateriasDisponibles(db) && m.groupId == Some(g);
      ListedEntry(db, m);
      var es := EntriesFor(db, m.classId);
      var j :| 0 <= j < |es| && es[j] == m;
      EntriesForGroups(db, m.classId, g);
    }
    if g in db.groups.rows && db.groups.rows[g].professorId == Null
       && db.groups.rows[g].classId.Int? && db.groups.rows[g].classId.i in db.classes.rows {
      var c := db.groups.rows[g].classId.i;
      EntriesForGroups(db, c, g);
      var es := EntriesFor(db, c);
      var j :| 0 <= j < |es| && es[j].groupId == Some(g);
      ListedEntry(db, es[j]);
    }
  }

  /** A class is listed without a group exactly when it exists and no group belongs to it. */
  lemma GrouplessClassIff(db: School, c: int)
    ensures (exists m :: m in MateriasDisponibles(db) && m.classId == c && m.groupId.None?) <==>
      c in db.classes.rows && !HasGroups(db, c)
  {
    if exists m :: m in MateriasDisponibles(db) && m.classId == c && m.groupId.None? {
      var m :| m in MateriasDisponibles(db) && m.classId == c && m.groupId.None?;
      ListedEntry(db, m);
      var es := EntriesFor(db, c);
      var j :| 0 <= j < |es| && es[j] == m;
    }
    if c in db.classes.rows && !HasGroups(db, c) {
      ListedEntry(db, Materia(c, db.classes.rows[c].name, None, Str("N/A")));
    }
  }

  /** The available list is made of the entries of the existing classes, each under its own class. */
  lemma ListedEntry(db: School, m: Materia)
    ensures m in MateriasDisponibles(db) <==> m.classId in db.classes.rows && m in EntriesFor(db, m.classId)
  {
    if m in MateriasDisponibles(db) {
      ListedUnderItsClass(db, m);
    }
    if m.classId in db.classes.rows && m in EntriesFor(db, m.classId) {
      EntryListed(db, m);
    }
  }

  lemma ListedUnderItsClass(db: School, m: Materia)
    requires m in MateriasDisponibles(db)
    ensures m.classId in db.classes.rows && m in EntriesFor(db, m.classId)
  {
    var cs := Sorted(db.classes.rows.Keys);
    var xss := ClassLists(db);
    FlattenMember(xss, m);
    var i :| 0 <= i < |xss| && m in xss[i];
    var es := EntriesFor(db, cs[i]);
    assert xss[i] == es;
    var j :| 0 <= j < |es| && es[j] == m;
    assert m.classId == cs[i];
  }

  lemma EntryListed(db: School, m: Materia)
    requires m.classId in db.classes.rows && m in EntriesFor(db, m.classId)
    ensures m in MateriasDisponibles(db)
  {
    var cs := Sorted(db.classes.rows.Keys);
    var xss := ClassLists(db);
    var i :| 0 <= i < |cs| && cs[i] == m.classId;
    assert m in xss[i];
    FlattenMember(xss, m);
  }

  /** An assigned group leaves the available list; unassigning it brings it back. */
  lemma AssignmentAndAvailability(db: School, prof: int, g: int)
    requires ValidSchool(db)
    requires prof in db.users.rows && g in db.groups.rows && db.groups.rows[g].professorId == Null
    requires db.groups.rows[g].classId.Int? && db.groups.rows[g].classId.i in db.classes.rows
    ensures var (db1, _) := AsignarMateria(db, prof, Some(map["group_id" := Int(g)]));
      !(exists m :: m in MateriasDisponibles(db1) && m.groupId == Some(g))
      && (exists m :: m in MateriasDisponibles(db) && m.groupId == Some(g))
  {
    var data := map["group_id" := Int(g)];
    assert Get(data, "group_id", Null) == Int(g);
    assert IntColumnParam(data["group_id"]) == IntKey(g);
    var db1 := AsignarMateria(db, prof, Some(data)).0;
    assert db1.groups.rows[g].professorId == Int(prof);
    AvailableGroupIff(db, g);
    AvailableGroupIff(db1, g);
  }
}

=== FILE: validators.dfy ===
// Request-body validation decorators (backend/utils/validators.py). A
// decorator either raises an API error or lets the wrapped handler answer.

module Validators {
  import opened Common
  import opened Errors

  /** The Python types a schema can demand. */
  datatype PyType = StrType | IntType | FloatType | BoolType | ListType | DictType

  function TypeName(t: PyType): string
  {
    match t
    case StrType => "str"
    case IntType => "int"
    case FloatType => "float"
    case BoolType => "bool"
    case ListType => "list"
    case DictType => "dict"
  }

  /** `isinstance(v, t)`; a boolean is also an instance of `int`. */
  predicate IsInstance(v: Value, t: PyType)
  {
    match t
    case StrType => v.Str?
    case IntType => v.Int? || v.Bool?
    case FloatType => v.Real?
    case BoolType => v.Bool?
    case ListType => v.List?
    case DictType => v.Obj?
  }

  const NoDataMessage := "No se proporcionaron datos JSON"

  function RequiredMessage(field: string): string
  {
    "El campo '" + field + "' es requerido"
  }

  function WrongTypeMessage(field: string, t: PyType): string
  {
    "El campo '" + field + "' debe ser de tipo " + TypeName(t)
  }

  predicate FieldOk(d: Dict, field: (string, PyType))
  {
    field.0 in d && IsInstance(d[field.0], field.1)
  }

  /** One message per schema entry that is missing or of the wrong type, in schema order. */
  function SchemaErrors(schema: seq<(string, PyType)>, d: Dict): (errs: seq<string>)
    ensures |errs| <= |schema|
    ensures errs == [] <==> forall i :: 0 <= i < |schema| ==> FieldOk(d, schema[i])
    ensures |schema| > 0 && !FieldOk(d, schema[0]) ==>
      errs[0] == (if schema[0].0 !in d then RequiredMessage(schema[0].0) else WrongTypeMessage(schema[0].0, schema[0].1))
  {
    if |schema| == 0 then []
    else
      var (f, t) := schema[0];
      var rest := SchemaErrors(schema[1..], d);
      assert forall i :: 1 <= i < |schema| ==> schema[i] == schema[1..][i - 1];
      if f !in d then [RequiredMessage(f)] + rest
      else if !IsInstance(d[f], t) then [WrongTypeMessage(f, t)] + rest
      else rest
  }

  /** Python's `f in s` on two texts: `f` occurs in `s` as a contiguous piece. */
  predicate IsInfix(f: string, s: string)
    decreases |s|
  {
    (|f| <= |s| && s[..|f|] == f) || (|s| > 0 && IsInfix(f, s[1..]))
  }

  /**
   * Python's `field in data` on the parsed JSON body: a dict's keys, a list's
   * elements, or a piece of a text; `None` when it raises, since a number or a
   * boolean is not a container.
   */
  function BodyContains(data: Value, field: string): (r: Option<bool>)
    ensures data.Obj? ==> r == Some(field in data.fields)
    ensures data.List? ==> r == Some(Str(field) in data.items)
    ensures data.Str? ==> r == Some(IsInfix(field, data.s))
    ensures r.None? <==> !(data.Obj? || data.List? || data.Str?)
  {
    match data
    case Obj(m) => Some(field in m)
    case List(items) => Some(Str(field) in items)
    case Str(t) => Some(IsInfix(field, t))
    case _ => None
  }

  /**
   * The loop of `validate_schema` over a truthy body: the messages of a dict
   * body as `SchemaErrors` gives them; for another body, `None` when a step
   * raises: `in` on a number or a boolean, and `data[field]` on a list or text
   * that contains `field`, whose index is not an integer.
   */
  function BodyErrors(schema: seq<(string, PyType)>, data: Value): (r: Option<seq<string>>)
    ensures data.Obj? ==> r == Some(SchemaErrors(schema, data.fields))
    ensures !data.Obj? ==>
      (r.None? <==> exists i :: 0 <= i < |schema| && BodyContains(data, schema[i].0) != Some(false))
    ensures !data.Obj? && r.Some? ==>
      |r.value| == |schema| && forall i :: 0 <= i < |schema| ==> r.value[i] == RequiredMessage(schema[i].0)
  {
    if data.Obj? then Some(SchemaErrors(schema, data.fields))
    else if |schema| == 0 then Some([])
    else
      var f := schema[0].0;
      assert forall i :: 1 <= i < |schema| ==> schema[i] == schema[1..][i - 1];
      if BodyContains(data, f) != Some(false) then None
      else
        match BodyErrors(schema[1..], data)
        case None => None
        case Some(rest) => Some([RequiredMessage(f)] + rest)
  }

  /**
   * `validate_schema(schema)`: `None` lets the handler run; otherwise what the
   * decorator raises. `data` is what `request.get_json()` gives, `Null` when
   * the request carried no JSON. A falsy body is refused; a dict body passes
   * exactly when every schema field is present with the right type, and
   * otherwise gets a 400 listing the problems; a list or text body gets a 400
   * calling every field required, unless it contains one of them and the
   * lookup raises; a number or boolean body raises at the first field.
   */
  function ValidateSchema(schema: seq<(string, PyType)>, data: Value): (r: Option<Failure>)
    ensures r.None? <==> Truthy(data) && forall i :: 0 <= i < |schema| ==> data.Obj? && FieldOk(data.fields, schema[i])
    ensures r.Some? && r.value.Raised? ==> r.value.err.status == 400
    ensures !Truthy(data) ==> r == Some(Raised(BadRequest(NoDataMessage)))
    ensures Truthy(data) && data.Obj? && r.Some? ==>
      r.value.Raised? && r.value.err.message == "Error de validación"
      && r.value.err.payload == Some(map["errors" := StrList(SchemaErrors(schema, data.fields))])
    ensures Truthy(data) && (data.List? || data.Str?) ==>
      (r == Some(Crash) <==> exists i :: 0 <= i < |schema| && BodyContains(data, schema[i].0) == Some(true))
    ensures Truthy(data) && !(data.Obj? || data.List? || data.Str?) ==> (r == Some(Crash) <==> |schema| > 0)
    ensures Truthy(data) && !data.Obj? && |schema| > 0 && r != Some(Crash) ==>
      r.Some? && r.value.Raised? && r.value.err.payload.Some?
      && "errors" in r.value.err.payload.value && r.value.err.payload.value["errors"].List?
      && |r.value.err.payload.value["errors"].items| == |schema|
      && forall i :: 0 <= i < |schema| ==> r.value.err.payload.value["errors"].items[i] == Str(RequiredMessage(schema[i].0))
  {
    if !Truthy(data) then Some(Raised(BadRequest(NoDataMessage)))
    else
      match BodyErrors(schema, data)
      case None => Some(Crash)
      case Some(errs) =>
        if errs != [] then
          Some(Raised(MakeError("Error de validación", 400, Some(map["errors" := StrList(errs)]))))
        else None
  }

  /**
   * Two bodies that are not dicts: `[1]` holds no field name, so every field
   * is reported required; `5` makes `in` raise.
   */
  lemma NonDictBodies(field: string, t: PyType)
    ensures ValidateSchema([(field, t)], List([Int(1)]))
      == Some(Raised(MakeError("Error de validación", 400, Some(map["errors" := List([Str(RequiredMessage(field))])]))))
    ensures ValidateSchema([(field, t)], Int(5)) == Some(Crash)
  {
    var errs := BodyErrors([(field, t)], List([Int(1)]));
    assert Str(field) !in [Int(1)];
    assert BodyContains(List([Int(1)]), [(field, t)][0].0) == Some(false);
    assert errs.Some? && |errs.value| == 1 && errs.value[0] == RequiredMessage(field);
    assert errs.value == [RequiredMessage(field)];
    assert StrList([RequiredMessage(field)]) == List([Str(RequiredMessage(field))]);
  }

  /** The fields of `fields` absent from `d`, in order. */
  function MissingFields(fields: seq<string>, d: Dict): (m: seq<string>)
    ensures |m| <= |fields|
    ensures forall f :: f in m <==> f in fields && f !in d
  {
    if |fields| == 0 then []
    else if fields[0] !in d then [fields[0]] + MissingFields(fields[1..], d)
    else MissingFields(fields[1..], d)
  }

  /**
   * `[field for field in fields if field not in data]` over a truthy body, in
   * order; `None` when `in` raises, which it does on a number or a boolean as
   * soon as there is a field to test.
   */
  function MissingFromBody(fields: seq<string>, data: Value): (m: Option<seq<string>>)
    ensures m.None? <==> |fields| > 0 && BodyContains(data, fields[0]).None?
    ensures data.Obj? ==> m == Some(MissingFields(fields, data.fields))
    ensures m.Some? ==> |m.value| <= |fields| && forall f :: f in m.value <==> f in fields && BodyContains(data, f) == Some(false)
  {
    if |fields| == 0 then Some([])
    else
      match BodyContains(data, fields[0])
      case None => None
      case Some(isIn) =>
        var rest := MissingFromBody(fields[1..], data);
        assert rest.Some? by {
          if |fields[1..]| > 0 { assert BodyContains(data, fields[1..][0]).Some?; }
        }
        if isIn then rest else Some([fields[0]] + rest.value)
  }

  function StrList(xs: seq<string>): (v: Value)
    ensures v.List? && |v.items| == |xs|
    ensures forall i :: 0 <= i < |xs| ==> v.items[i] == Str(xs[i])
  {
    List(seq(|xs|, i requires 0 <= i < |xs| => Str(xs[i])))
  }

  /**
   * `validate_required_fields(fields)`: a falsy body is refused; a truthy body
   * passes exactly when it contains every field (as keys of a dict, elements
   * of a list or pieces of a text), and otherwise gets a 400 listing the
   * missing ones; a number or boolean body raises when there is a field to test.
   */
  function ValidateRequiredFields(fields: seq<string>, data: Value): (r: Option<Failure>)
    ensures r.None? <==> Truthy(data) && forall i :: 0 <= i < |fields| ==> BodyContains(data, fields[i]) == Some(true)
    ensures !Truthy(data) ==> r == Some(Raised(BadRequest(NoDataMessage)))
    ensures r.Some? && r.value.Raised? ==> r.value.err.status == 400
    ensures Truthy(data) ==> (r == Some(Crash) <==> |fields| > 0 && !(data.Obj? || data.List? || data.Str?))
    ensures Truthy(data) && data.Obj? && r.Some? ==>
      r.value.Raised? && r.value.err.message == "Campos requeridos faltantes"
      && r.value.err.payload == Some(map["missing_fields" := StrList(MissingFields(fields, data.fields))])
  {
    if !Truthy(data) then Some(Raised(BadRequest(NoDataMessage)))
    else
      match MissingFromBody(fields, data)
      case None => Some(Crash)
      case Some(missing) =>
        if missing != [] then
          assert missing[0] in missing;
          var i :| 0 <= i < |fields| && fields[i] == missing[0];
          assert BodyContains(data, fields[i]) == Some(false);
          Some(Raised(MakeError("Campos requeridos faltantes", 400, Some(map["missing_fields" := StrList(missing)]))))
        else
          assert forall i :: 0 <= i < |fields| ==> BodyContains(data, fields[i]) == Some(true) by {
            forall i | 0 <= i < |fields| ensures BodyContains(data, fields[i]) == Some(true) {
              assert fields[i] in fields;
              assert BodyContains(data, fields[i]).Some? by {
                assert BodyContains(data, fields[0]).Some?;
              }
            }
          }
          None
  }

  /** A decorated handler: the decorator's failure rendered as Flask answers it, or the handler's own response untouched. */
  function Decorated(check: Option<Failure>, handler: Response): (r: Response)
    ensures check.None? ==> r == handler
    ensures check.Some? && check.value.Raised? ==> r.status == check.value.err.status
    ensures check == Some(Crash) ==> r.status == 500
  {
    match check
    case None => handler
    case Some(f) => Render(f)
  }
}
